=== FILE: README.md ===
# papyon in Dafny

A model of the sequential core of papyon, the Python library for the MSN Messenger protocol,
written in Dafny with its properties proved.

At its centre is the peer-to-peer stack that carries file transfers, display pictures and
custom emoticons:

- the 48-byte TLPv1 chunk header, chunk ids, acknowledgement chunks and nonces (`TLPv1`);
- blobs cut into chunks and reassembled (`Blob`);
- the transport base class with its control and data send queues, chunk-id counter, expected
  acknowledgements and blobs waiting for them (`TransportBase`);
- the transport manager with its first-match transport choice, per-session reassembly and
  session blacklist (`TransportManager`);
- the three transports:
  - the switchboard relay, with a big-endian application-id trailer and `P2P-Src`/`P2P-Dest`
    addressing (`RelayTransport`);
  - the direct TCP transport, with 4-byte little-endian length framing and the `foo`/nonce
    handshake (`DirectTransport`);
  - the no-op fallback (`DefaultTransport`);
- the echo-server probe that discovers the external address (`NatTraversal`);
- UUID text (`Uuids`).

Above the chunks sit the SLP signalling layer and the sessions built on it:

- HTTP-style header blocks (`HttpMessage`), SLP requests and responses (`Slp`) and their
  typed bodies (`SlpBody`, with `Base64` for the `Context` header);
- the P2P session's signalling state (`Session`);
- the session registry and SLP routing (`SessionManager`);
- the file-transfer context (`FileTransfer`);
- the MSN object store and the meta session that fans out to a peer's endpoints (`P2p`).

The messaging layer:

- MSNP command lines (`Command`);
- switchboard participant and invitation bookkeeping (`SwitchboardProtocol`);
- the switchboard manager's matching of conversations with switchboards (`SwitchboardManager`);
- conversations: the factory, message splitting, sending and receiving, and content-type
  rules (`Conversation`);
- the `X-MMS-IM-Format` codec (`TextFormat`).

The services:

- SDP bodies for calls (`Sdp`, and `SdpReadBack` for the writer's lines read back);
- the address book: search, grouping, synchronisation guard, freeze queue and membership
  updates (`AddressBook`);
- the offline-messages box (`OfflineMessages`);
- the mailbox unread counter (`Mailbox`);
- the named-timeout table (`Timer`).

`Results`, `Text`, `Bytes` and `Networks` are shared helpers: `Option`/`Result`, the Python
string operations the code relies on, `struct` packings, and the network enumeration.

## How it is modelled

- Every operation is a pure function or lemma over immutable datatypes.
- Objects with state are records, and each method is a transition returning the new record.
- Each transition also returns what the method would have done outside itself, in order:
  - chunks written to the wire;
  - signals emitted;
  - callbacks fired;
  - timeouts started.
- gobject signals, timers and the queue lock become events or flags.
- Random draws are parameters constrained to the source's ranges:
  - session ids, blob ids, chunk-id seeds;
  - Call-IDs, branches, nonces, run ids.
- SHA-1 digests are opaque strings.
- Python dictionaries and sets are maps or sequences. Where the source's behaviour depends on
  iteration order (first match, registration order), the order is an explicit sequence.
- Bytes are integers in [0, 256); text is `seq<char>`.
- Fixed-width fields are subset types (`u16`, `u32`, `u64`), and 31-bit wrap-around is
  written out.

Where a source function can raise, the model returns a `Result`, whose failure names the
exception.

The proofs cover these properties:

- round trips:
  - chunk header serialise/parse;
  - relay framing;
  - HTTP and SLP messages;
  - SLP bodies and their base64 context;
  - MSNP commands;
  - the file-transfer context;
  - the text format;
  - SDP `rtpmap` and `fmtp`;
  - echo replies;
  - UUIDs;
- invariants kept by the queues, registries and tables;
- first-match and exactly-once delivery rules;
- end-to-end scenarios, for example:
  - a blob sent, acknowledged and released;
  - an INVITE answered and accepted;
  - a message split, sent and received back.

## Model

| member | source | states |
|---|---|---|
| TLPv1.NextId | papyon/msnp2p/transport/TLPv1.py:129-133 | the next chunk id is one more than the current one, or 1 where that would reach MAX_INT32; ids in [1, MAX_INT32) stay there |
| TLPv1.SerializeHeader | papyon/msnp2p/transport/TLPv1.py:71-80 | a header whose fields fit their widths is written as exactly 48 bytes |
| TLPv1.DecodeFields | papyon/msnp2p/transport/TLPv1.py:85-98 | the nine little-endian fields read from 48 bytes fit their widths and write back to the same 48 bytes |
| TLPv1.ParseHeader | papyon/msnp2p/transport/TLPv1.py:82-109 | the raw fields after the three fix-ups; afterwards a zero chunk size means a zero blob size, and a header that needs no fix-up is returned unchanged |
| TLPv1.Serialize | papyon/msnp2p/transport/TLPv1.py:118-119 | a chunk is its 48 header bytes followed by the payload |
| TLPv1.Parse | papyon/msnp2p/transport/TLPv1.py:254-262 | parsing fails exactly on fewer than 48 bytes; the payload is every byte from offset 48 |
| TLPv1.ParseSerialize | papyon/msnp2p/transport/TLPv1.py:71-109 | a chunk whose header needs no fix-up parses back from its bytes (the application id is not on the wire) |
| TLPv1.SerializeParse | papyon/msnp2p/transport/TLPv1.py:71-109 | bytes whose header needs no fix-up parse into a chunk that writes back to the same bytes |
| TLPv1.HeaderFieldsUnique | papyon/msnp2p/transport/TLPv1.py:71-80 | two headers with the same 48-byte image are equal |
| TLPv1.Create | papyon/msnp2p/transport/TLPv1.py:244-252 | the new chunk covers as much of the rest of the blob as fits: header plus payload never exceed the maximum size, the chunk never runs past the blob end, and it stops short only at one of the two limits; it asks for an acknowledgement exactly when it is the blob's last chunk |
| TLPv1.SetData | papyon/msnp2p/transport/TLPv1.py:189-196 | the payload and its length are stored; a session data chunk is flagged UNKNOWN and EACH, plus FILE for file transfers, and any other chunk keeps its flags |
| TLPv1.CreateAck | papyon/msnp2p/transport/TLPv1.py:206-214 | the acknowledgement acknowledges exactly the chunk's ack id, is an ACK control chunk that needs no ack itself, and carries RAK iff the original did |
| TLPv1.GetNonce | papyon/msnp2p/transport/TLPv1.py:216-229 | a chunk without the KEY flag yields the all-zero UUID |
| TLPv1.SetNonce | papyon/msnp2p/transport/TLPv1.py:231-242 | the chunk gains the KEY flag and only its dw1, dw2 and qw1 fields change |
| TLPv1.GetSetNonce | papyon/msnp2p/transport/TLPv1.py:216-242 | a nonce stored with set_nonce reads back unchanged with get_nonce |
| TLPv1.SetGetNonce | papyon/msnp2p/transport/TLPv1.py:216-242 | storing the nonce a nonce chunk carries leaves the chunk as it was |
| TransportBase.Init | papyon/msnp2p/transport/base.py:47-59 | a new transport has empty queues and pending tables, no timer, and its chunk counter at the seed drawn from [1000, MAX_INT32] |
| TransportBase.InitInRange | papyon/msnp2p/transport/base.py:54 | a seed drawn below MAX_INT32 gives a transport whose chunk ids stay in the 31-bit range |
| TransportBase.Reset | papyon/msnp2p/transport/base.py:108-114 | both queues and both pending tables are emptied; the counter is kept |
| TransportBase.AddPendingBlob | papyon/msnp2p/transport/base.py:122-126 | a data blob is parked under its ack id; any other blob fires its callback at once |
| TransportBase.DelPendingBlob | papyon/msnp2p/transport/base.py:128-134 | the blob under the key leaves the table and fires its callback; an unknown key changes nothing |
| TransportBase.Enqueue | papyon/msnp2p/transport/base.py:78-83 | a control blob is appended to the control queue, every other blob to the data queue |
| TransportBase.Send | papyon/msnp2p/transport/base.py:77-87 | the blob is queued; when no drain timer runs, the timer starts and one drain step runs at once |
| TransportBase.Drain | papyon/msnp2p/transport/base.py:161-188 | with the lock held nothing happens and the timer stays; with both queues empty the timer stops; otherwise one chunk leaves, from the control queue first, with the outcome SendOne states |
| TransportBase.SendOne | papyon/msnp2p/transport/base.py:164-188 | the chunk handed to the wire is the next chunk of the served head blob stamped with the local chunk id, and the counter moves past it; the head leaves its queue exactly when that chunk completes its blob, a completed data blob then waits under the chunk's ack id and a completed control blob fires its callback; an incomplete blob stays at the head, advanced; the ack id is expected back exactly when the chunk asks for an acknowledgement |
| TransportBase.OnChunkReceived | papyon/msnp2p/transport/base.py:136-151 | the step is the receive step followed by exactly one drain of the state it leaves: the drain's state and timer, and the receive step's events followed by the drain's; exactly the non-control chunks are passed up |
| TransportBase.Acknowledge | papyon/msnp2p/transport/base.py:137-140 | a chunk that asks for an acknowledgement has its ack blob queued on the control queue or handed to the wire; any other chunk changes nothing |
| TransportBase.Release | papyon/msnp2p/transport/base.py:142-144 | an ACK or NAK takes the id it names out of both pending tables and fires the callback stored for it; an unknown id leaves both tables as they were; any other chunk changes nothing |
| TransportBase.Received | papyon/msnp2p/transport/base.py:136-149 | before the closing drain: an ack for a chunk that asks for one is queued or sent, the id an ACK or NAK names is in neither pending table, and exactly the non-control chunks are passed up; a chunk asking for no acknowledgement changes only what the release changes |
| TransportBase.OnChunkSent | papyon/msnp2p/transport/base.py:153-159 | the chunk is reported first and the rest is exactly one drain of the state as it was: the lookup releases no pending blob, so the pending keys only grow |
| TransportBase.DropSession | papyon/msnp2p/transport/base.py:93-98 | exactly the entries of other sessions are kept |
| TransportBase.DropSessionAppend | papyon/msnp2p/transport/base.py:93-98 | the kept entries keep their relative order |
| TransportBase.Cleanup | papyon/msnp2p/transport/base.py:89-99 | the session's blobs leave the data queue; the control queue is untouched, so a queued goodbye is still sent |
| TransportBase.AckReleasesPendingBlob | papyon/msnp2p/transport/base.py:142-144 | an acknowledgement naming a parked blob fires that blob's callback before anything else |
| TransportBase.ReleaseAtMostOnce | papyon/msnp2p/transport/base.py:136-149 | the same acknowledgement received a second time finds nothing pending under its id: the receive step leaves the state as it was and fires no callback |
| TransportBase.SentBlobReleasedByAck | papyon/msnp2p/transport/base.py:122-188 | a data blob whose last chunk a drain sends waits under that chunk's ack id, and the peer's acknowledgement of that chunk fires its callback |
| TransportBase.DrainRestampsAck | papyon/msnp2p/transport/base.py:175-178 | a queued acknowledgement is stamped with the local chunk id like any chunk, which overwrites the blob id it acknowledges in dw1 |
| TransportBase.SeedAtMaxLeavesRange | papyon/msnp2p/transport/base.py:54 | a counter seeded at MAX_INT32 reaches 2^31 after the first chunk, outside the 31-bit range |
| Blob.Outbound | papyon/msnp2p/transport/transport_manager.py:130 | an outgoing blob starts with nothing transferred, its total size is the payload length, and it is complete from the start only when the payload is empty |
| Blob.Inbound | papyon/msnp2p/transport/transport_manager.py:107-109 | an in-memory receiving blob starts with nothing transferred and the given buffer |
| Blob.GetChunk | papyon/msnp2p/transport/base.py:175-180 | a control blob yields its one chunk and is then complete; a data blob yields the next slice that fits the transport's chunk size and advances by its length |
| Blob.AppendChunk | papyon/msnp2p/transport/transport_manager.py:112 | the chunk's payload is written at its offset and the transferred count grows by the payload length; identity and total size are kept |
| Blob.ReassembleSlice | papyon/msnp2p/transport/transport_manager.py:102-115 | the remaining chunks of a blob, received in order into a blob holding the bytes sent so far, rebuild the whole payload and complete the receiving blob |
| Blob.RoundTrip | papyon/msnp2p/transport/transport_manager.py:102-115 | a blob cut into chunks and received into a fresh blob of the same size arrives whole |
| Blob.ThreeThousandBytes | papyon/msnp2p/transport/TLPv1.py:251 | a 3000-byte payload cut for a 1250-byte chunk limit travels as payloads of 1202, 1202 and 596 bytes, since each chunk also carries its 48-byte header |
| TransportManager.Register | papyon/msnp2p/transport/transport_manager.py:64-77 | registering a transport already present fails; otherwise it is added last |
| TransportManager.Without | papyon/msnp2p/transport/transport_manager.py:83 | exactly the other transports are kept |
| TransportManager.Unregister | papyon/msnp2p/transport/transport_manager.py:79-86 | the transport is removed; an unknown transport changes nothing |
| TransportManager.FindTransport | papyon/msnp2p/transport/transport_manager.py:88-92 | the first registered transport that can send to the pair, or none when no transport can |
| TransportManager.SendData | papyon/msnp2p/transport/transport_manager.py:129-132 | the data goes out as a new blob on the chosen transport; only when none can send is a new relay transport registered for the pair |
| TransportManager.SendSlpMessage | papyon/msnp2p/transport/transport_manager.py:126-127 | a signalling message is sent as data on session 0 |
| TransportManager.OnChunkReceived | papyon/msnp2p/transport/transport_manager.py:94-115 | every chunk is reported first; a blacklisted session changes nothing else; other sessions' blobs are untouched; the session's blob is created or reused, and handed up and dropped once complete |
| TransportManager.InProgress | papyon/msnp2p/transport/transport_manager.py:102-110 | the session's in-progress blob, adopting the chunk's blob id while it has received nothing, or a new blob shaped by the chunk |
| TransportManager.RegisterDataBuffer | papyon/msnp2p/transport/transport_manager.py:134-140 | a session that already has an in-progress blob keeps it; otherwise the buffer becomes its blob |
| TransportManager.Cleanup | papyon/msnp2p/transport/transport_manager.py:142-146 | the session's in-progress blob is dropped and every transport purges the session's queued data |
| TransportManager.AddToBlacklist | papyon/msnp2p/transport/transport_manager.py:148-151 | the session is blacklisted and nothing else changes (adding twice is the same as once) |
| TransportManager.RemoveFromBlacklist | papyon/msnp2p/transport/transport_manager.py:153-154 | the session leaves the blacklist and nothing else changes |
| TransportManager.BlacklistedChunkIgnored | papyon/msnp2p/transport/transport_manager.py:95-100 | a chunk of a blacklisted session only produces the chunk-transferred report |
| TransportManager.CleanupKeepsControl | papyon/msnp2p/transport/transport_manager.py:142-146 | cleanup leaves every transport's control queue untouched |
| TransportManager.ReassembleBlob | papyon/msnp2p/transport/transport_manager.py:94-115 | a blob sent on a fresh, non-blacklisted session is received chunk by chunk into exactly one blob-received event carrying the whole payload |
| TransportManager.ReassembleRest | papyon/msnp2p/transport/transport_manager.py:102-115 | the remaining chunks of a blob, received into the session's in-progress blob, end in one blob-received event with the whole payload |
| TransportManager.FirstChunk | papyon/msnp2p/transport/transport_manager.py:102-115 | after one chunk, either the whole payload has been handed up or the in-progress blob holds exactly the bytes sent so far |
| TransportManager.NotLastChunk | papyon/msnp2p/transport/transport_manager.py:102-112 | a chunk that leaves the blob incomplete stores it as the session's in-progress blob with the bytes sent so far |
| TransportManager.LastChunk | papyon/msnp2p/transport/transport_manager.py:112-115 | a chunk that completes the blob hands the whole payload up and removes the in-progress blob |
| DefaultTransport.BaseInit | papyon/msnp2p/transport/base.py:47-59 | the base initialiser succeeds exactly when it is given one name after the manager, and then builds an empty transport bound to the pair |
| DefaultTransport.CreateAsWritten | papyon/msnp2p/transport/default.py:33-36 | the constructor as written omits the name, so every construction fails with the arity error |
| DefaultTransport.Create | papyon/msnp2p/transport/default.py:33-74 | the corrected constructor gives a transport named "default", bound to the pair, with empty queues, that accepts exactly that pair, reports itself connected and is never ready to send |
| DefaultTransport.Connected | papyon/msnp2p/transport/default.py:58-60 | the transport reports itself connected in every state |
| DefaultTransport.SendChunk | papyon/msnp2p/transport/default.py:73-77 | sending a chunk changes nothing, and the transport stays connected and never ready to send |
| RelayTransport.Address | papyon/msnp2p/transport/switchboard.py:91-94 | a version-2 address always holds the ';' separator |
| RelayTransport.AddressParts | papyon/msnp2p/transport/switchboard.py:60-62 | an address splits back at ';' into the account and the braced GUID, and the braces come off again |
| RelayTransport.HandleMessage | papyon/msnp2p/transport/switchboard.py:56-68 | a P2P-Src with ';' yields the sender's GUID, and the peer is our own profile exactly when that account is ours; otherwise the peer is the first participant, and with none the call fails |
| RelayTransport.SendChunk | papyon/msnp2p/transport/switchboard.py:86-98 | version 1 names only the destination account, version 2 both endpoints; the body is the chunk followed by its application id as 4 big-endian bytes |
| RelayTransport.OnMessageReceived | papyon/msnp2p/transport/switchboard.py:100-112 | a destination with ';' marks version 2 and is dropped unless its GUID is ours; the chunk is the body minus its last 4 bytes, which are the application id; a body too short for the chunk parser (version 1) or for the 4-byte unpack (version 2) hands nothing up |
| RelayTransport.RelayRoundTripV1 | papyon/msnp2p/transport/switchboard.py:86-112 | a chunk sent over a version-1 relay arrives as the same chunk, application id included |
| RelayTransport.RelayV2Addressing | papyon/msnp2p/transport/switchboard.py:91-107 | a version-2 message is kept exactly by the endpoint whose machine GUID it names |
| RelayTransport.RelayV2Origin | papyon/msnp2p/transport/switchboard.py:56-68 | the receiver of a version-2 message binds its transport to the sender's GUID, and to our own profile exactly when the sender is another endpoint of our account |
| RelayTransport.OnContactLeft | papyon/msnp2p/transport/switchboard.py:117-118 | the peer leaving closes the transport, which is then unregistered |
| DirectTransport.Frame | papyon/msnp2p/transport/direct.py:240-242 | a frame is the data length as 4 little-endian bytes followed by the data |
| DirectTransport.SendChunk | papyon/msnp2p/transport/direct.py:232-234 | a chunk goes out as one frame of its serialised bytes |
| DirectTransport.NonceChunk | papyon/msnp2p/transport/direct.py:300-306 | the nonce packet is an empty KEY chunk whose carried nonce reads back as the local nonce |
| DirectTransport.Process | papyon/msnp2p/transport/direct.py:327-358 | the receive loop never changes the server role or loses the connected state, and when it stops waiting it holds fewer than 4 bytes or a pending length |
| DirectTransport.OnDataReceivedAsWritten | papyon/msnp2p/transport/direct.py:324-358 | the receive handler as written, returning right after the handshake packet |
| DirectTransport.OnDataReceived | papyon/msnp2p/transport/direct.py:324-358 | the corrected receive handler, which carries on after the handshake packet |
| DirectTransport.ProcessAppend | papyon/msnp2p/transport/direct.py:327-338 | bytes arriving later never change what a waiting run did: the loop on the longer buffer takes the same steps and then carries on |
| DirectTransport.ReadBoundaries | papyon/msnp2p/transport/direct.py:324-338 | with the corrected handler, receiving a and then b gives the state and events of receiving a + b |
| DirectTransport.ChunkDelivered | papyon/msnp2p/transport/direct.py:352-358 | a chunk sent as one frame reaches an idle, connected receiver as the same chunk; a four-zero-byte keep-alive is swallowed |
| DirectTransport.HandshakeConnects | papyon/msnp2p/transport/direct.py:340-351 | with the corrected handler, the listening side becomes connected on the handshake packet and the nonce packet, in one read or two |
| DirectTransport.HandshakeStallsAsWritten | papyon/msnp2p/transport/direct.py:340-342 | as written, the handshake and nonce packets in one read leave the listening side unconnected, with the nonce packet still buffered |
| DirectTransport.ReceiveNonce | papyon/msnp2p/transport/direct.py:308-322 | a non-KEY chunk is ignored; a nonce that differs ignoring letter case fails the transport; a match connects it, and our nonce is sent back only if not already sent |
| DirectTransport.NonceHandshake | papyon/msnp2p/transport/direct.py:300-322 | a peer's nonce packet is accepted exactly when it carries the local nonce |
| DirectTransport.SetListening | papyon/msnp2p/transport/direct.py:222-230 | an empty, missing or 0.0.0.0 address becomes the client's address and a missing port the local port; listening is signalled only on the first call |
| DirectTransport.SetListeningOnce | papyon/msnp2p/transport/direct.py:222-230 | a second call changes nothing and signals nothing |
| NatTraversal.XorTwice | papyon/msnp2p/transport/nat_traversal.py:103-104 | masking a value twice with the same mask restores it |
| NatTraversal.MaskSelfInverse | papyon/msnp2p/transport/nat_traversal.py:103-104 | the port mask 0x4131 and the address mask 0x41314131 are self-inverse |
| NatTraversal.EncodeReply | papyon/msnp2p/transport/nat_traversal.py:101 | an echo answer is written as exactly 20 bytes |
| NatTraversal.DecodeReply | papyon/msnp2p/transport/nat_traversal.py:101-102 | the eight big-endian fields of a 20-byte answer write back to the same bytes |
| NatTraversal.DecodeEncodeReply | papyon/msnp2p/transport/nat_traversal.py:101-102 | reading a written answer gives back its fields |
| NatTraversal.DottedQuad | papyon/msnp2p/transport/nat_traversal.py:104 | the printed address holds no whitespace |
| NatTraversal.DottedQuadFields | papyon/msnp2p/transport/nat_traversal.py:104 | the printed address splits at '.' into four decimal fields whose values, read as big-endian bytes, are the address |
| NatTraversal.RequestEchoServer | papyon/msnp2p/transport/nat_traversal.py:32-38 | the new probe connection is recorded and the pending requests are untouched |
| NatTraversal.OnStatusChanged | papyon/msnp2p/transport/nat_traversal.py:84-92 | when the connection opens, the local address is filed under transaction 12 and the fixed 20-byte probe is sent; other states do nothing |
| NatTraversal.OnReceived | papyon/msnp2p/transport/nat_traversal.py:97-114 | the intended handler, without the scheduling call at line 113 (see Findings): an answer not 20 bytes long is ignored; a missing request or connection is an error; the continuation is called exactly when both are present, and then the request and the connection are forgotten and it gets the local and the unmasked external address |
| NatTraversal.OnReceivedAsWritten | papyon/msnp2p/transport/nat_traversal.py:97-113 | the handler as written never reaches the continuation: where the intended one would call it, the request and the connection are forgotten and the handler raises; every other outcome is the intended one |
| NatTraversal.EchoExchange | papyon/msnp2p/transport/nat_traversal.py:84-114 | with the scheduling call at line 113 taken as absent, a probe that opens from an address and gets the server's answer reports exactly the local and external addresses and leaves nothing recorded |
| NatTraversal.EchoExchangeAsWritten | papyon/msnp2p/transport/nat_traversal.py:84-113 | as written, the same exchange sends the probe and clears both tables, then raises: the addresses are never reported |
| Uuids.Format | papyon/msnp2p/transport/TLPv1.py:229 | the printed UUID is 36 characters long |
| Uuids.FormatDigits | papyon/msnp2p/transport/TLPv1.py:229 | the printed UUID without its dashes is the hexadecimal text of its 16 bytes |
| Uuids.Parse | papyon/msnp2p/transport/TLPv1.py:234-235 | text that parses has 32 characters once braces and dashes are removed, and yields the bytes those characters spell as hexadecimal digits in either case; text of any other length is rejected |
| Uuids.ParseFormat | papyon/msnp2p/transport/TLPv1.py:229-236 | the printed UUID, also upper-cased, parses back to the same UUID |
| Uuids.FormatUpperInjective | papyon/msnp2p/transport/direct.py:311-313 | comparing upper-cased printed UUIDs is comparing the UUIDs |
| Uuids.UnHexHex | papyon/msnp2p/transport/TLPv1.py:229-236 | hexadecimal text in either letter case reads back as the bytes it was made from |
| HttpMessage.Lookup | papyon/gnet/message/HTTP.py:55-57 | a header is found exactly when the table holds that name, and then with its value |
| HttpMessage.AddHeader | papyon/gnet/message/HTTP.py:46-53 | after adding, the name maps to the new value and no other name changes; a known name keeps its place, a new name goes last, and names stay unique |
| HttpMessage.Clear | papyon/gnet/message/HTTP.py:59-62 | no headers and an empty body |
| HttpMessage.Serialize | papyon/gnet/message/HTTP.py:124-135 | the header lines in insertion order, an empty line and the body, CRLF-joined; with a Content-Encoding the body is replaced by a placeholder naming it |
| HttpMessage.HeaderCount | papyon/gnet/message/HTTP.py:72-76 | the header lines are exactly those before the first empty or NUL line |
| HttpMessage.ParseLinesOutcome | papyon/gnet/message/HTTP.py:71-81 | parsing fails exactly when a header line has no ':'; otherwise the body is every line after the one that ends the headers, CRLF-joined, and empty when none follow |
| HttpMessage.Parse | papyon/gnet/message/HTTP.py:64-81 | a parsed message has unique header names |
| HttpMessage.ParseSerialize | papyon/gnet/message/HTTP.py:64-135 | a message with no Content-Encoding, clean names and clean values parses back from its text unchanged |
| HttpMessage.ContentType | papyon/gnet/message/HTTP.py:106-114 | a missing header reads as ('text/plain', 'UTF-8'); a header without ';' gives its stripped type and charset UTF-8; a parameter without '=' is an error |
| HttpMessage.SetContentType | papyon/gnet/message/HTTP.py:116-119 | the header becomes the type and the charset joined by '; charset=' and no other header changes |
| HttpMessage.ContentTypeRoundTrip | papyon/gnet/message/HTTP.py:106-119 | a type and a charset set and read back give the same pair |
| HttpMessage.ParseResponse | papyon/gnet/message/HTTP.py:155-163 | text without a CRLF has no start line; a parsed response's headers and body come from the text after its first line |
| HttpMessage.ParseSerializeResponse | papyon/gnet/message/HTTP.py:155-168 | a response with a clean version and reason parses back from its text |
| HttpMessage.ParseRequest | papyon/gnet/message/HTTP.py:183-191 | text without a CRLF has no start line; a parsed request's headers and body come from the text after its first line |
| HttpMessage.ParseSerializeRequest | papyon/gnet/message/HTTP.py:183-197 | a request whose method, resource and version have no space or CR parses back from its text |
| Base64.Encode | papyon/msnp2p/SLP.py:267 | the encoded text is four letters for every started group of three bytes, all from the base64 alphabet and padding |
| Base64.Decode | papyon/msnp2p/SLP.py:277-282 | a context header that decodes has a length that is a multiple of four; the strict decoder rejects every other length |
| Base64.DecodeEncode | papyon/msnp2p/SLP.py:267-282 | decoding undoes encoding, so a context survives the trip through its header |
| SlpBody.Put | papyon/msnp2p/SLP.py:197-202 | a header is written only when a value is given, and names stay unique |
| SlpBody.PutOther | papyon/msnp2p/SLP.py:197-202 | writing one header leaves every other name as it was |
| SlpBody.IntText | papyon/msnp2p/SLP.py:198 | an integer is written as blank-free text that reads back as the same integer |
| SlpBody.Common | papyon/msnp2p/SLP.py:193-202 | the common body headers have unique names |
| SlpBody.CommonLookups | papyon/msnp2p/SLP.py:193-202 | SessionID, SChannelState and Capabilities-Flags hold the given values, and are absent when none was given |
| SlpBody.CommonOther | papyon/msnp2p/SLP.py:193-202 | the common headers hold no other name |
| SlpBody.EncodeContext | papyon/msnp2p/SLP.py:266-267 | a context is written as clean base64 text that decodes to it |
| SlpBody.Generic | papyon/msnp2p/SLP.py:193-202 | a generic body has the given content type, no text and unique header names |
| SlpBody.GenericAccessors | papyon/msnp2p/SLP.py:204-223 | the session id, channel state and capability getters return the constructor's values, and 0 for those left out |
| SlpBody.Null | papyon/msnp2p/SLP.py:250-253 | the null body has the null content type |
| SlpBody.SessionRequest | papyon/msnp2p/SLP.py:256-267 | a session-request body has the session-request type and unique header names |
| SlpBody.SessionRequestLookups | papyon/msnp2p/SLP.py:256-267 | the EUF-GUID, AppID and Context headers hold the given values and are absent when not given |
| SlpBody.SessionRequestAccessors | papyon/msnp2p/SLP.py:269-289 | each getter returns what the constructor was given, or its default; the context survives its base64 encoding |
| SlpBody.SessionRequestWritable | papyon/msnp2p/SLP.py:256-267 | a session request with a clean EUF-GUID writes header lines that parse back |
| SlpBody.SessionClose | papyon/msnp2p/SLP.py:422-434 | a close body has the close type and unique header names |
| SlpBody.WithVerdictLookups | papyon/msnp2p/SLP.py:430-434 | AcceptedBy is written exactly for status 200 and DeclinedBy exactly for status 603; the context is left alone |
| SlpBody.SessionCloseAccessors | papyon/msnp2p/SLP.py:422-442 | the close body reads back its context and carries AcceptedBy or DeclinedBy exactly for status 200 or 603 |
| SlpBody.SessionFailure | papyon/msnp2p/SLP.py:447-450 | the failure body has the session-failure type |
| SlpBody.TransportRequest | papyon/msnp2p/SLP.py:293-307 | a transport-request body has the transport-request type and unique header names |
| SlpBody.TransportRequestAccessors | papyon/msnp2p/SLP.py:300-321 | the nonce reads back as the one drawn, and the bridges as given, except that an empty list reads back as one empty name |
| SlpBody.VPut | papyon/msnp2p/SLP.py:356-361 | from version 2 on, name and value are written reversed; names stay unique |
| SlpBody.VLookupVPut | papyon/msnp2p/SLP.py:356-368 | what the versioned writer stores, the versioned reader returns, in either version |
| SlpBody.VLookupVPutOther | papyon/msnp2p/SLP.py:356-368 | writing one name leaves the reading of another unchanged |
| SlpBody.TransportResponse | papyon/msnp2p/SLP.py:325-354 | a transport-response body has the transport-response type and unique header names |
| SlpBody.TransportResponseAddresses | papyon/msnp2p/SLP.py:392-418 | read with the version it was built with, the address getters return exactly the constructor's addresses and ports, and none or 0 when left out |
| SlpBody.TransportResponseReversed | papyon/msnp2p/SLP.py:344-345 | in version 2 the internal port is stored under the reversed name as reversed text |
| SlpBody.AddressHeadersRead | papyon/msnp2p/SLP.py:341-350 | the versioned readers see the four address headers as written |
| Slp.StatusMessage | papyon/msnp2p/SLP.py:166-171 | a standard reason text exists exactly for 200, 404, 500, 603 and 606 |
| Slp.StdHeaders | papyon/msnp2p/SLP.py:39-51 | the standard headers have unique names |
| Slp.NewRequest | papyon/msnp2p/SLP.py:143-149 | a request fails exactly when its resource has no ':'; otherwise it has the request line, the standard headers and a null body |
| Slp.NewResponse | papyon/msnp2p/SLP.py:165-176 | a response has the status line, the standard headers and a null body |
| Slp.Branch | papyon/msnp2p/SLP.py:66-78 | without a Via header the branch is empty |
| Slp.BranchOf | papyon/msnp2p/SLP.py:69-76 | a Via value without ';' has an empty branch |
| Slp.SetTo | papyon/msnp2p/SLP.py:153-156 | the resource and the To header name the new account and no other header changes |
| Slp.ContentHeaders | papyon/msnp2p/SLP.py:99-105 | Content-Type becomes the body's type and Content-Length the length of its text; no other header changes |
| Slp.StartText | papyon/msnp2p/SLP.py:159-187 | a start line can be written except for a response without a reason whose status has no standard text |
| Slp.Serialize | papyon/msnp2p/SLP.py:99-187 | writing fails exactly when the start line cannot be written |
| Slp.BuildBody | papyon/msnp2p/SLP.py:225-247 | the body keeps the given content type, and an empty content gives the type's default body |
| Slp.ParseStart | papyon/msnp2p/SLP.py:114-128 | a parsed response always has a reason, a parsed request's resource holds ':', and any failure is an invalid start line |
| Slp.CheckHeaders | papyon/msnp2p/SLP.py:133-140 | the message passes exactly when To, From and CSeq all read |
| Slp.Build | papyon/msnp2p/SLP.py:109-140 | text without "MSNSLP/1.0" or a CRLF is rejected as not SLP; a built message has readable To, From and CSeq and a body of its Content-Type, null by default |
| Slp.AddressRoundTrip | papyon/msnp2p/SLP.py:42-64 | to and frm give back the account an address header was written with |
| Slp.BranchRoundTrip | papyon/msnp2p/SLP.py:44-76 | the branch written into Via reads back, when it has no '=' and no surrounding blanks |
| Slp.StdAccessors | papyon/msnp2p/SLP.py:39-89 | the getters read back the sender, sequence number, call id ("" when none) and branch the constructor was given |
| Slp.ResponseAccessors | papyon/msnp2p/SLP.py:173-176 | a response answers to the addressee it was given |
| Slp.RequestAccessors | papyon/msnp2p/SLP.py:144-149 | a request for "MSNMSGR:account" answers to that account |
| Slp.StartRoundTrip | papyon/msnp2p/SLP.py:114-187 | every writable start line reads back as its normal form |
| Slp.BodyRoundTrip | papyon/msnp2p/SLP.py:225-247 | a body's text, with its one trailing NUL, reads back as the body |
| Slp.BuildSerialize | papyon/msnp2p/SLP.py:99-140 | build reads a writable message back from its text: the start line in normal form, the headers with the body's type and length added, and the body itself |
| Slp.BuiltReads | papyon/msnp2p/SLP.py:56-140 | what build returns from a writable message's text answers every getter as the message does |
| Slp.InviteWritable | papyon/msnp2p/SLP.py:39-162 | an invitation with clean names, branch, call id and EUF-GUID can be written and read back |
| Slp.InviteRoundTrip | papyon/msnp2p/SLP.py:109-162 | build of a written invitation recovers the method, resource and addressee, sender, sequence number, call id, and the body's EUF-GUID, application id and context bytes |
| Command.Reset | papyon/msnp/command.py:147-153 | a reset command has an empty name, no transaction id, arguments or payload, and payload length 0 |
| Command.Build | papyon/msnp/command.py:156-176 | build sets name, transaction id, arguments and payload; the payload length follows a given payload and otherwise keeps its old value |
| Command.Serialize | papyon/msnp/command.py:207-223 | a non-empty payload adds its length to the line and follows the CRLF; otherwise the line just ends in CRLF |
| Command.ParseWords | papyon/msnp/command.py:228-242 | an empty line and a name that is not three characters are refused; the transaction id is read exactly when the command carries one and has a second word |
| Command.TakeLength | papyon/msnp/command.py:244-250 | taking the payload length keeps the name, transaction id and payload |
| Command.Parse | papyon/msnp/command.py:178-187 | a parsed command has a three-character name, and has a payload exactly when the text holds a CRLF |
| Command.RoundTrip | papyon/msnp/command.py:156-242 | parse of a written command without payload gives back its name, transaction id and arguments, with an empty payload |
| Command.PayloadRoundTrip | papyon/msnp/command.py:156-250 | a payload command with a transaction id reads back exactly as built |
| Command.ParseErrors | papyon/msnp/command.py:228-232 | a line without a word, or whose first word is not three characters, is refused |
| Mailbox.New | papyon/msnp/mailbox.py:82-85 | a new mailbox has no unread mail |
| Mailbox.Increased | papyon/msnp/mailbox.py:99-102 | the count grows by the delta; the new count is announced as not initial when it is a guint, and otherwise the emit raises with the count already stored |
| Mailbox.Decreased | papyon/msnp/mailbox.py:104-108 | only a positive count changes, by the whole delta; the new count is announced when it is a guint, and otherwise the emit raises with the count already stored; a count of zero or less changes nothing |
| Mailbox.InitialSet | papyon/msnp/mailbox.py:110-114 | a positive number replaces the count and is announced as initial when it is a guint (otherwise the emit raises); anything else is ignored |
| Mailbox.DecreaseUndoesIncrease | papyon/msnp/mailbox.py:99-108 | a decrease undoes an increase that left the count positive |
| Mailbox.EventsTrackCount | papyon/msnp/mailbox.py:99-114 | only the initial report is flagged initial, and it carries the reported number; every count announced by an increase or decrease is a guint |
| Mailbox.DecreasePastZero | papyon/msnp/mailbox.py:104-107 | the count is not clamped: a decrease by more than a positive count n stores n - delta, below zero, and the emit of that count raises, so nothing is announced |
| Timer.New | papyon/util/timer.py:27-29 | a new timer has no timeouts |
| Timer.Stop | papyon/util/timer.py:41-48 | the name leaves both tables and its stored arguments are returned, the empty list for an unknown name |
| Timer.Start | papyon/util/timer.py:35-39 | the name becomes active with the given arguments; every other name keeps its entry |
| Timer.StopAll | papyon/util/timer.py:50-55 | no timeout is left |
| Timer.OnTimeout | papyon/util/timer.py:57-61 | the entry is removed, and the handler is called with the stored arguments exactly when the owner defines one |
| Timer.StopAfterStart | papyon/util/timer.py:35-48 | stopping a just-started timeout returns its arguments and leaves the table as stopping it would have |
| Timer.StartTwice | papyon/util/timer.py:35-39 | restarting a timeout keeps only the latest arguments |
| Timer.FireAfterStart | papyon/util/timer.py:35-61 | a fired timeout hands its handler the arguments it was started with and is no longer active |
| FileTransfer.New | papyon/msnp2p/filetransfer.py:32-38 | a new transfer has no name, size 0 and no preview |
| FileTransfer.Invite | papyon/msnp2p/filetransfer.py:56-61 | the transfer records the offered name, size and preview, and the preview flag holds exactly when a preview is given |
| FileTransfer.DecodeUnits | papyon/msnp2p/filetransfer.py:85 | Python's strict UTF-16-LE decoder: bytes decode exactly when their number is even and every high surrogate among their code units is followed by a low one and every low one follows a high one, and then to those code units |
| FileTransfer.LoneSurrogateRefused | papyon/msnp2p/filetransfer.py:85-91 | a name field holding a high surrogate followed by 'A' does not decode, which parse_context turns into FTParseError |
| FileTransfer.DecodeEncodeUnits | papyon/msnp2p/filetransfer.py:85-94 | decoding undoes the UTF-16-LE encoding of a well-formed name |
| FileTransfer.PackField | papyon/msnp2p/filetransfer.py:96 | the name field is always 550 bytes: the name cut to fit, or padded with zero bytes |
| FileTransfer.StripNuls | papyon/msnp2p/filetransfer.py:85 | stripping trailing NULs leaves a prefix that does not end in NUL, and only NULs were dropped |
| FileTransfer.StripPadding | papyon/msnp2p/filetransfer.py:85-96 | a name without a trailing NUL loses nothing to the padding and the strip |
| FileTransfer.BuildContext | papyon/msnp2p/filetransfer.py:93-100 | a context exists exactly when the size fits a 32-bit word, and is 574 bytes plus the preview when there is one |
| FileTransfer.Words | papyon/msnp2p/filetransfer.py:95 | the five words are 20 bytes, with the size in the third and the preview flag in the fifth |
| FileTransfer.Trailer | papyon/msnp2p/filetransfer.py:97-99 | after the name field come four bytes and then exactly the preview, if the transfer has one |
| FileTransfer.Fields | papyon/msnp2p/filetransfer.py:82-85 | a context is readable exactly when it holds the five words and a name field of even length whose surrogates pair up; the name read is its code units with trailing NULs stripped |
| FileTransfer.ParseContextAsWritten | papyon/msnp2p/filetransfer.py:80-91 | as written, the preview flag is set exactly when the fifth word is zero; an unreadable context is an error |
| FileTransfer.ParseContext | papyon/msnp2p/filetransfer.py:80-100 | with the flag read as it is written, the preview flag is set exactly when the fifth word is non-zero |
| FileTransfer.NameField | papyon/msnp2p/filetransfer.py:85-96 | the name field of a well-formed name that fits decodes, once stripped, to that name |
| FileTransfer.BuiltFields | papyon/msnp2p/filetransfer.py:82-99 | a built context carries the size, the flag, the name and the preview where the reader looks for them |
| FileTransfer.PreviewLostAsWritten | papyon/msnp2p/filetransfer.py:84-95 | as written, an offered preview is lost: the receiver of the context believes there is none |
| FileTransfer.PhantomPreviewAsWritten | papyon/msnp2p/filetransfer.py:84-95 | as written, a transfer without a preview is read as having an empty one |
| FileTransfer.ContextRoundTrip | papyon/msnp2p/filetransfer.py:56-100 | the receiver of an invitation learns the offer: name, size and preview come back, for a well-formed UTF-16 name that fits the field |
| FileTransfer.ShortContext | papyon/msnp2p/filetransfer.py:82-91 | a context shorter than the five words is refused |
| FileTransfer.Reject | papyon/msnp2p/filetransfer.py:70-71 | rejecting declines with status 603 |
| FileTransfer.OnByeReceived | papyon/msnp2p/filetransfer.py:102-105 | a BYE reports a cancellation exactly when the transfer was not complete, and the session is disposed of last in any case |
| Session.Version | papyon/msnp2p/session.py:87-90 | the session speaks version 2 exactly when both this client and the peer support p2pv2, and version 1 otherwise |
| Session.LocalId | papyon/msnp2p/session.py:141-145 | from version 2 on the own identity is qualified by the machine GUID; in version 1 it is the bare account |
| Session.RemoteId | papyon/msnp2p/session.py:147-151 | from version 2 on the peer's identity is qualified by its GUID; in version 1 it is the bare account |
| Session.Outgoing | papyon/msnp2p/session.py:98-105 | a session this client starts has the drawn id, CSeq 0, braced fresh Call-ID and branch, is not incoming, and registers itself |
| Session.Incoming | papyon/msnp2p/session.py:92-97 | a session the peer started takes id, Call-ID, CSeq and branch from its INVITE; it cannot be built when the CSeq or Via cannot be read |
| Session.Request | papyon/msnp2p/session.py:157-169 | a request goes from the local identity to the remote one, on the session's CSeq, branch and Call-ID |
| Session.Response | papyon/msnp2p/session.py:209-218 | a response goes from the local identity to the remote one, on the given branch with the session's CSeq and Call-ID |
| Session.SendInvite | papyon/msnp2p/session.py:157-169 | an INVITE carrying a session request goes out, the response timeout is armed and nothing else in the session changes |
| Session.TransReq | papyon/msnp2p/session.py:171-184 | CSeq goes back to 0 and an INVITE carrying a transport request goes out |
| Session.OtherEndPoints | papyon/msnp2p/session.py:313-322 | no own end point is closed when the peer has end points of its own; otherwise every own end point but this machine is |
| Session.Others | papyon/msnp2p/session.py:319-321 | exactly the end points other than this machine are kept |
| Session.EndPointByes | papyon/msnp2p/session.py:324-340 | one BYE goes to each other end point, in order |
| Session.Respond | papyon/msnp2p/session.py:186-200 | the response goes first with CSeq up by one, then one BYE per other end point; closing end points leaves CSeq 0 and the last branch drawn |
| Session.RespondMessage | papyon/msnp2p/session.py:186-197 | the response carries the incremented CSeq, the session's branch and Call-ID, and a bare session-request body with the session id |
| Session.Accept | papyon/msnp2p/session.py:202-203 | accepting answers 200 |
| Session.Decline | papyon/msnp2p/session.py:205-207 | declining answers with the status and then disposes of the session |
| Session.RespondTransreq | papyon/msnp2p/session.py:209-218 | CSeq goes up by one and the answer goes out on the transport request's branch |
| Session.DeclineTransreq | papyon/msnp2p/session.py:228-231 | a 603 carrying only the session id goes out, then the session is disposed of |
| Session.Dispose | papyon/msnp2p/session.py:342-348 | every timeout is stopped, then the transport is cleaned up, the session unregistered and "disposed" reported, in that order |
| Session.Close | papyon/msnp2p/session.py:297-311 | a BYE with CSeq 0, a fresh branch and a session-close body goes out, then the session is disposed of |
| Session.OnBridgeSelected | papyon/msnp2p/session.py:406-409 | data is sent exactly when the session has non-empty data, preceded by four zero bytes |
| Session.RequestBridge | papyon/msnp2p/session.py:233-243 | an active bridge rated above -1 is used at once; otherwise a transport request goes out |
| Session.SwitchBridge | papyon/msnp2p/session.py:245-259 | a bridge already connected, or none created, is used at once; otherwise it listens |
| Session.TransreqAccepted | papyon/msnp2p/session.py:261-280 | a peer that is not listening makes the session fall back to the bridge it has; otherwise a new bridge opens to the first external address, or to the first internal one when there is none |
| Session.OnDataSent | papyon/msnp2p/session.py:383-388 | the session is completed, reports it and arms the BYE timeout |
| Session.OnDataReceived | papyon/msnp2p/session.py:390-395 | the session is completed, reports it and then closes |
| Session.OnDataTransferred | papyon/msnp2p/session.py:397-398 | progress is reported with the size |
| Session.OnTimeout | papyon/msnp2p/session.py:400-404 | a response timeout closes the session, a BYE timeout disposes of it, and a timeout not armed does nothing |
| Session.Rendered | papyon/msnp2p/session.py:350-352 | the peer reads the standard header values of a rendered message as written |
| Session.InviteHeaders | papyon/msnp2p/session.py:157-169 | the INVITE names this session: its CSeq, Call-ID, branch and id, from the local identity to the remote one, with its EUF-GUID and application id |
| Session.IncomingMirrorsOutgoing | papyon/msnp2p/session.py:92-169 | the session the peer builds from our INVITE has our id, Call-ID, CSeq and branch |
| Session.RespondHeaders | papyon/msnp2p/session.py:186-197 | the response carries the incremented CSeq and the session's branch, Call-ID and id |
| Session.CloseHeaders | papyon/msnp2p/session.py:297-311 | the BYE of a close carries CSeq 0, the fresh branch and the closing context |
| Session.UnansweredInviteCloses | papyon/msnp2p/session.py:157-169 | an unanswered INVITE closes the session when its response timeout fires |
| Session.AcceptedStopsTimeout | papyon/msnp2p/session.py:368-373 | a 200 to our session request is reported as accepted and stops the response timeout |
| Session.RejectedDisposes | papyon/msnp2p/session.py:374-376 | a 603 to our session request is reported as rejected and disposes of the session |
| Session.ByeDisposes | papyon/msnp2p/session.py:364-365 | a BYE from the peer disposes of the session |
| Session.SentThenByeTimeout | papyon/msnp2p/session.py:383-404 | after a sent transfer the session lingers until the BYE timeout disposes of it |
| SessionManager.Empty | papyon/msnp2p/session_manager.py:44-63 | a new manager has no sessions and an empty blacklist |
| SessionManager.Get | papyon/msnp2p/session_manager.py:85-89 | a session is found exactly when its id is registered, and it is the one with that id |
| SessionManager.SearchByCall | papyon/msnp2p/session_manager.py:97-101 | a session is found exactly when some registered session has the Call-ID, and the one found has it |
| SessionManager.Register | papyon/msnp2p/session_manager.py:73-76 | the session is stored under its id and its id leaves the blacklist; every other id keeps its session |
| SessionManager.Unregister | papyon/msnp2p/session_manager.py:78-83 | unregistering succeeds exactly for a registered id, which is then forgotten and blacklisted; every other id keeps its session |
| SessionManager.DataTarget | papyon/msnp2p/session_manager.py:110-130 | a data event reaches the session with its id, and is dropped exactly when no session has it |
| SessionManager.FirstCreated | papyon/msnp2p/session_manager.py:158-165 | the session created is one some handler created, and none is created when no handler creates one |
| SessionManager.OnSlpMessage | papyon/msnp2p/session_manager.py:132-176 | a matched message is delivered without changing the registry, a dropped one changes nothing, and a created session is one a handler created and is registered |
| SessionManager.Close | papyon/msnp2p/session_manager.py:68-71 | every session is closed, which forgets and blacklists it, and the transport manager is closed last |
| SessionManager.CloseAll | papyon/msnp2p/session_manager.py:69-70 | one close per session, in the registry's order |
| SessionManager.RegisterUnregister | papyon/msnp2p/session_manager.py:73-83 | registering then unregistering a session leaves its id blacklisted and the other sessions as they were |
| SessionManager.ReRegister | papyon/msnp2p/session_manager.py:73-83 | unregistering then registering again takes the id off the blacklist |
| SessionManager.KnownIdDelivered | papyon/msnp2p/session_manager.py:138-139 | a message with a session id reaches the registered session with that id |
| SessionManager.UnmatchedSignallingDropped | papyon/msnp2p/session_manager.py:136-149 | a message with session id 0 whose Call-ID no session has is dropped |
| SessionManager.OnlyInvitesCreate | papyon/msnp2p/session_manager.py:151-174 | only an INVITE with a session request, from a contact found, with a new non-zero session id, creates a session |
| SessionManager.FirstHandlerWins | papyon/msnp2p/session_manager.py:158-162 | for an unmatched session INVITE the first handler to create a session wins, when none before it raised |
| SessionManager.FirstCreatedAt | papyon/msnp2p/session_manager.py:158-162 | the handlers' loop stops at the first handler that creates a session |
| SessionManager.RaiseDrops | papyon/msnp2p/session_manager.py:166-170 | a handler that raises before any creates a session leaves the message dropped |
| SessionManager.RaiseStops | papyon/msnp2p/session_manager.py:166-170 | a raise ends the handlers' loop with nothing created |
| P2p.Hash | papyon/p2p.py:132-133 | the hash text ends in the data digest, after the type |
| P2p.EqualIsEquivalence | papyon/p2p.py:122-133 | object equality (type, data digest and checksum) is an equivalence, nothing equals None, and equal objects hash equally, as a set needs |
| P2p.Publish | papyon/p2p.py:395-404 | an object without data is not stored; otherwise it, or an equal object already stored, is in the store; nothing else is added or lost, and the store stays free of duplicates |
| P2p.GetPublished | papyon/p2p.py:283-289 | None asks for nothing; an object found is stored and has the asked digest, and none is found exactly when no stored object has it |
| P2p.FirstWithDigest | papyon/p2p.py:286-289 | the object found is in the list and has the digest; none is found only when no object has it |
| P2p.PublishThenGet | papyon/p2p.py:283-289 | an object published with data can be found by its digest |
| P2p.FirstWithDigestFinds | papyon/p2p.py:286-288 | the search finds something whenever some object has the digest |
| P2p.Request | papyon/p2p.py:342-393 | None requests nothing; an object with data, or one published here, calls back at once with data; otherwise a session is opened only with a known peer and for the object asked |
| P2p.PublishedServedLocally | papyon/p2p.py:359-368 | requesting an object that was published with data never opens a session |
| P2p.Handle | papyon/p2p.py:298-315 | a context that does not parse is rejected, and a session is accepted exactly when the object is published here, with that object's data |
| P2p.Targets | papyon/p2p.py:550-557 | a peer without end points gets one session with no GUID; otherwise one session per end point, skipping this machine when the peer is our own profile |
| P2p.EndPointTargets | papyon/p2p.py:553-557 | every GUID is an end point's, this machine is skipped on our own profile, and no other end point is |
| P2p.WebcamCreates | papyon/p2p.py:702-715 | a receive-only webcam session is not created for a known end point without webcam capability, and is otherwise |
| P2p.AddAll | papyon/p2p.py:593-597 | exactly the sessions created are added; None is skipped |
| P2p.Primary | papyon/p2p.py:559-563 | the meta session has a primary session exactly when it has children, and it is one of them |
| P2p.RemoveFirst | papyon/p2p.py:615 | removing drops one occurrence: the others stay, one fewer of the session |
| P2p.KeepSession | papyon/p2p.py:610-619 | an unknown session changes nothing; a known one becomes the only child and every other child is cancelled |
| P2p.Cancels | papyon/p2p.py:604-608 | each session is cancelled, in order |
| P2p.OnAnswered | papyon/p2p.py:621-627 | the answering child is kept and the answer is passed on last; an unknown child passes the answer on and changes nothing |
| P2p.OnDisposed | papyon/p2p.py:635-637 | disposal of any child empties the meta session and is passed on |
| P2p.KeepIdempotent | papyon/p2p.py:610-619 | keeping a session twice is the same as keeping it once and cancels nobody the second time |
| P2p.FirstAnswerWins | papyon/p2p.py:610-627 | after a first answer, a later answer from a cancelled child leaves the meta session as the first left it |
| SwitchboardProtocol.New | papyon/msnp/switchboard.py:106-116 | a new switchboard is closed, with no participants, no invitations, and not inviting |
| SwitchboardProtocol.SetInviting | papyon/msnp/switchboard.py:136-143 | the inviting flag takes the value, and a change is announced exactly when the value differs |
| SwitchboardProtocol.InviteUser | papyon/msnp/switchboard.py:157-167 | inviting fails outside the open state; a contact already invited is skipped; otherwise the invitation is recorded under the transaction id, inviting is set and CAL goes out |
| SwitchboardProtocol.Leave | papyon/msnp/switchboard.py:181-195 | only an open switchboard leaves: running timers are cancelled, OUT is sent last and the state becomes closing; participants and invitations stay |
| SwitchboardProtocol.ParticipantJoin | papyon/msnp/switchboard.py:231-243 | an end point is appended to its account's list; without one, ourselves and known participants are ignored and anyone else is added and announced |
| SwitchboardProtocol.RemoveFirst | papyon/msnp/switchboard.py:248 | removing fails exactly for an absent end point, and otherwise drops one occurrence |
| SwitchboardProtocol.ParticipantLeft | papyon/msnp/switchboard.py:245-253 | leaving fails exactly for an unknown end point or an unknown participant; ourselves are ignored and anyone else is removed and announced |
| SwitchboardProtocol.Discard | papyon/msnp/switchboard.py:225-229 | the invitations kept are exactly those not for the account, unchanged |
| SwitchboardProtocol.OnJoi | papyon/msnp/switchboard.py:264-272 | an end point join only records it; a contact join also discards its invitation and clears inviting once none remains |
| SwitchboardProtocol.OnBye | papyon/msnp/switchboard.py:274-279 | the participant leaves; with no participant and no own end point left, the switchboard leaves too |
| SwitchboardProtocol.OnError | papyon/msnp/switchboard.py:298-314 | an invitation error on a pending invitation reports the failure, drops the invitation and clears inviting once none remain; anything else changes nothing |
| SwitchboardProtocol.UpdateTimeout | papyon/msnp/switchboard.py:316-321 | the inactivity timer runs afterwards exactly when there is one participant and no keepalive timer; nothing else changes |
| SwitchboardProtocol.OnUsr | papyon/msnp/switchboard.py:207-213 | USR opens the switchboard and, from protocol 16 on, invites our own account |
| SwitchboardProtocol.OnAns | papyon/msnp/switchboard.py:199-205 | ANS "OK" opens the switchboard; any other answer leaves it synchronizing |
| SwitchboardProtocol.JoinThenBye | papyon/msnp/switchboard.py:231-279 | a contact that joins and leaves restores the participants; when it was the only one and we have no other end point, we leave |
| SwitchboardProtocol.EndPointJoinThenLeave | papyon/msnp/switchboard.py:231-249 | an end point that joins and leaves restores that account's end point list |
| SwitchboardProtocol.InviteThenJoin | papyon/msnp/switchboard.py:157-272 | inviting a contact and seeing it join clears the invitation, and inviting too when it was the only one |
| SwitchboardProtocol.InviteThenRefused | papyon/msnp/switchboard.py:157-314 | inviting a contact the server refuses reports the failure and forgets the invitation |
| SwitchboardProtocol.LeaveOnce | papyon/msnp/switchboard.py:181-195 | leaving twice sends OUT once |
| SwitchboardManager.TotalParticipants | papyon/switchboard_manager.py:70-71 | the handler's total is exactly its participants and its pending invitations |
| SwitchboardManager.AddPending | papyon/switchboard_manager.py:153-159 | our own profile is never queued for invitation; any other contact is, once |
| SwitchboardManager.AddAllPending | papyon/switchboard_manager.py:257-258 | every participant but our own profile joins the pending invitations and nothing else changes |
| SwitchboardManager.RequestSwitchboard | papyon/switchboard_manager.py:250-261 | an open switchboard is used; an outstanding request is waited for; otherwise the participants become pending invitations and the manager is asked, which may attach a switchboard at once |
| SwitchboardManager.SendAll | papyon/switchboard_manager.py:236-248 | every queued message goes out in order with its acknowledgement mode; FULL and MSNC messages keep callback and errback under their transaction id and pass no callback, any other message passes its callback and keeps only the errback; every other delivery entry is unchanged |
| SwitchboardManager.DeliveryAfterSend | papyon/switchboard_manager.py:207-248 | after the queue is sent, a delivered FULL or MSNC message runs the caller's callback, any other delivered message runs nothing, an undelivered one runs the errback, and a second report runs nothing |
| SwitchboardManager.ProcessPendingQueues | papyon/switchboard_manager.py:221-248 | empty queues do nothing; without a switchboard nothing is sent; once it is open every pending contact is invited, and queued messages go out, all and in order, only when no invitation is outstanding |
| SwitchboardManager.OnUserJoined | papyon/switchboard_manager.py:171-174 | a contact that joins is a participant and no longer pending, and the total gains exactly it |
| SwitchboardManager.OnUserLeft | papyon/switchboard_manager.py:176-180 | a contact that leaves is no longer a participant, an unknown one raises, and the last to leave is queued for invitation again |
| SwitchboardManager.OnDelivery | papyon/switchboard_manager.py:207-214 | a delivery report runs the callback, and a failure the errback, stored for the transaction id, at most once |
| SwitchboardManager.First | papyon/switchboard_manager.py:319-351 | the switchboard picked is the first in iteration order that fits, and none is picked only when none fits |
| SwitchboardManager.Request | papyon/switchboard_manager.py:310-362 | the handler stops being an orphan and takes the first of an open switchboard with its participants, an orphan one, a pending one, a request already made; only when none applies is a new switchboard requested |
| SwitchboardManager.CloseHandler | papyon/switchboard_manager.py:364-381 | the closed handler leaves every switchboard; an open switchboard left without handlers is left and orphaned, and so is a pending one; the others keep their remaining handlers |
| SwitchboardManager.OnOpen | papyon/switchboard_manager.py:406-436 | on opening, its pending handlers and every orphan handler wanting exactly its participants attach, and nobody attaching makes it an orphan |
| SwitchboardManager.OnClosed | papyon/switchboard_manager.py:438-444 | on closing, its handlers become orphans and it is forgotten |
| SwitchboardManager.RequestedHandlerAttachedOnOpen | papyon/switchboard_manager.py:359-421 | a handler whose request is answered by a new switchboard is attached when it opens |
| SwitchboardManager.OpenMatchReused | papyon/switchboard_manager.py:318-328 | whenever an open or opening switchboard has the handler's participants, the request uses one rather than a pending switchboard or a new request |
| SwitchboardManager.HeldMessagesSentLater | papyon/switchboard_manager.py:221-248 | messages held back while the switchboard is inviting are all sent, in order and with their acknowledgement modes, by the next flush once it no longer is |
| TextFormat.Or | papyon/conversation.py:254-257 | setting an effect bit makes the style have it |
| TextFormat.Letters | papyon/conversation.py:275-283 | the EF value holds B, I, U and S exactly for the effects the style has |
| TextFormat.Slice | papyon/conversation.py:261 | a slice of a long enough text is the exact subsequence |
| TextFormat.Swap | papyon/conversation.py:261 | a six-character colour has its byte pairs reversed, RRGGBB to BBGGRR |
| TextFormat.SwapSwap | papyon/conversation.py:261-285 | swapping the colour twice gives it back, so reading undoes writing |
| TextFormat.Assign | papyon/conversation.py:249-272 | only a PF value that is not digits fails; unknown keys change nothing; as written, RL never changes the alignment |
| TextFormat.Apply | papyon/conversation.py:244-248 | empty segments are skipped and, as written, no segment changes the alignment |
| TextFormat.ApplyFails | papyon/conversation.py:244-269 | a non-empty segment without '=' is an error, and that and a bad PF value are the only errors |
| TextFormat.Fold | papyon/conversation.py:244 | no segments leave the format as it was; as written the alignment never changes |
| TextFormat.ParseAsWritten | papyon/conversation.py:198-272 | as written, a parsed format is never right-aligned |
| TextFormat.Parse | papyon/conversation.py:198-202 | empty text reads as the default format |
| TextFormat.Serialize | papyon/conversation.py:274-294 | the written format begins with "FN=" |
| TextFormat.LettersEffects | papyon/conversation.py:252-283 | reading the EF letters written for an effect set gives the set back |
| TextFormat.ApplyPair | papyon/conversation.py:247-248 | a segment k=v whose key has no '=' assigns the stripped, upper-cased key and value |
| TextFormat.ApplyFont | papyon/conversation.py:249-251 | an FN segment sets the font |
| TextFormat.ApplyEffects | papyon/conversation.py:252-257 | an EF segment sets the effects it names |
| TextFormat.ApplyColor | papyon/conversation.py:258-261 | a CO segment written from a colour reads back as that colour |
| TextFormat.ApplyCharset | papyon/conversation.py:262-264 | a CS segment sets the charset |
| TextFormat.ApplyPitch | papyon/conversation.py:265-269 | a PF segment of two digits sets family and pitch |
| TextFormat.ApplyAlignment | papyon/conversation.py:270-272 | an RL=1 segment sets right alignment when honoured, and as written changes nothing |
| TextFormat.RoundTrip | papyon/conversation.py:198-294 | reading what is written, with RL honoured, gives the format back |
| TextFormat.RoundTripWith | papyon/conversation.py:243-294 | reading what is written gives the format back, except that as written the alignment is lost |
| TextFormat.AlignmentLostAsWritten | papyon/conversation.py:270-272 | as written, a right-aligned format loses its alignment on every round trip, while the intended reading keeps it |
| TextFormat.ColorZeroFilled | papyon/conversation.py:258-261 | a colour of up to six characters is read zero-filled after stripping and upper-casing |
| Conversation.Create | papyon/conversation.py:57-70 | only MSN contacts (or none) give a switchboard conversation with those contacts; exactly one external contact gives an external conversation; mixed networks and several external contacts are each refused |
| Conversation.NetworksOf | papyon/conversation.py:57-59 | the factory's sets tell apart all-MSN, all-external and mixed contact lists |
| Conversation.Chunks | papyon/conversation.py:146 | each chunk is non-empty and at most the size, all but the last exactly the size, and there are none only for empty text |
| Conversation.ChunksConcat | papyon/conversation.py:146 | the chunks put back together are the text |
| Conversation.Split | papyon/conversation.py:142-151 | a zero size is an error and a negative one gives no part; each part keeps the formatting, emoticons and display name and holds at most the size |
| Conversation.SplitKeepsContent | papyon/conversation.py:142-151 | splitting loses no text: the parts put back together are the content |
| Conversation.Flat | papyon/conversation.py:320-325 | the emoticon body lists alias then encoded object, for each emoticon in turn |
| Conversation.PublishAll | papyon/conversation.py:322-323 | publishing the emoticons loses no published object and keeps the store free of duplicates |
| Conversation.SendTextMessageSplits | papyon/conversation.py:312-337 | however long the message, its text goes out in text/plain messages of at most 1500 characters that put back together are the content |
| Conversation.SendOneWires | papyon/conversation.py:320-337 | a message with emoticons is preceded by their announcement, and the text message follows |
| Conversation.ReadObjects | papyon/conversation.py:402-412 | reading an emoticon body keeps every alias already read |
| Conversation.OnMessageReceived | papyon/conversation.py:376-415 | a text message fails only on a formatting header that `TextFormat.parse`, as written, refuses; emoticon bodies are remembered for the next text; other types change nothing, and only text and typing produce no event when nothing is recognised |
| Conversation.ReadFlat | papyon/conversation.py:402-412 | reading the emoticon body written for some emoticons extends what was read by exactly them |
| Conversation.EmoticonsRoundTrip | papyon/conversation.py:320-412 | the emoticon announcement a sender writes is read back as the emoticons sent |
| Conversation.ParseNoFormat | papyon/conversation.py:381-389 | an absent formatting header reads, through the parse as written, as the default format |
| Conversation.ReadFormat | papyon/conversation.py:333-389 | the formatting header written is read back, by the parse as written, as the formatting sent with right alignment off, or the default when none was sent |
| Conversation.ReceiveText | papyon/conversation.py:387-397 | a received text message is delivered with the content, the formatting sent less its right alignment (lost by the parse at line 389) and the emoticons announced before it |
| Conversation.SendThenReceive | papyon/conversation.py:312-412 | a text message within the size limit, sent and received in order, is delivered as one message with the same content and emoticons and the formatting sent, except that a right-aligned message arrives left-aligned |
| Conversation.NudgeAndTypingReceived | papyon/conversation.py:339-415 | a nudge sent is received as a nudge, and a typing notification as one |
| Conversation.CanHandle | papyon/conversation.py:461-468 | a message type is handled exactly when it is one of the five conversation types, and a typing notification alone creates no conversation |
| Conversation.CanHandleAgrees | papyon/conversation.py:464 | the substring test written agrees with the intended test: no other handled type occurs inside the control type |
| Conversation.AckFor | papyon/conversation.py:485-491 | datacasts and control messages go without acknowledgement, everything else with half acknowledgement |
| Conversation.SentIsHandled | papyon/conversation.py:312-491 | everything a conversation sends is a type the peer handles; nudges and typing go unacknowledged, text and emoticons half-acknowledged |
| Conversation.ExternalRecipients | papyon/conversation.py:447-453 | external contacts get a message exactly when it is not an emoticon announcement, all of them |
| Conversation.ExternalGetsTextOnly | papyon/conversation.py:447-453 | an external contact receives a message's text but not its emoticon announcement |
| Sdp.ParseRtpmap | papyon/sip/sdp.py:240-244 | an rtpmap value reads only as exactly two words, the payload type being the first read as a number |
| Sdp.ParamToken | papyon/sip/sdp.py:225-229 | every fmtp parameter writes a non-empty token |
| Sdp.BuildParamsList | papyon/sip/sdp.py:221-230 | the parameter list is empty text exactly when the codec has no parameters |
| Sdp.ParseParams | papyon/sip/sdp.py:251-257 | reading parameters keeps those read before |
| Sdp.ParseFmtp | papyon/sip/sdp.py:247-258 | an fmtp value without words is an error, and the payload type read is its first word |
| Sdp.NewDescription | papyon/sip/sdp.py:89-96 | an m= line creates one codec per payload type, in order, and an RTCP port one above the media port |
| Sdp.AddAttribute | papyon/sip/sdp.py:194-195 | the value is appended to its key's list, and every other key, the codecs and the address stay |
| Sdp.FindCodec | papyon/sip/sdp.py:180-185 | the codec found is the first with the payload type, and none is found only when no codec has it |
| Sdp.ParseAttribute | papyon/sip/sdp.py:173-192 | only a malformed rtpmap or fmtp value fails the line; the description keeps its name, port, address and number of codecs |
| Sdp.ParseInts | papyon/sip/sdp.py:163-167 | the payload types read are the numbers of the words, and reading fails only on a word that is not one |
| Sdp.ParseLine | papyon/sip/sdp.py:75-112 | blank lines and lines without '=' second are skipped; an a= line before any m= line is skipped; an error names the field and value; a line adds at most one description and keeps the earlier ones |
| Sdp.ParseField | papyon/sip/sdp.py:83-112 | an error names the field; an attribute before any description is skipped; a field adds at most one description and keeps the earlier ones |
| Sdp.RtpmapRoundTrip | papyon/sip/sdp.py:217-244 | what build_rtpmap writes, parse_rtpmap reads back, for an encoding name without space or '/' |
| Sdp.ParamTokenRoundTrip | papyon/sip/sdp.py:225-257 | a written parameter token reads back as the parameter |
| Sdp.ParseTokens | papyon/sip/sdp.py:251-257 | reading the written tokens adds exactly the written parameters |
| Sdp.FmtpRoundTrip | papyon/sip/sdp.py:233-258 | what build_fmtp writes, parse_fmtp reads back as the codec's payload type and parameters |
| Sdp.EventsReadAsWritten | papyon/sip/sdp.py:226-256 | the telephone events are written as 0-16 but read back as 0-15, whatever the codec held |
| SdpReadBack.FieldLine | papyon/sip/sdp.py:75-84 | a line key=words strips to itself, and its value splits back into the words |
| SdpReadBack.OriginRead | papyon/sip/sdp.py:57-88 | the origin line written sets the session address |
| SdpReadBack.ParseIntsOfWords | papyon/sip/sdp.py:63-95 | the payload types written read back as themselves |
| SdpReadBack.MediaRead | papyon/sip/sdp.py:64-96 | the m= line written starts a description with its name, port and payload types, at the session address |
| SdpReadBack.ConnectionRead | papyon/sip/sdp.py:65-101 | the c= line sets the session address before the first description, and the current description's after |
| SdpReadBack.OtherKeySkipped | papyon/sip/sdp.py:86-109 | a line of a key the parser does not read is skipped |
| SdpReadBack.VersionSkipped | papyon/sip/sdp.py:56 | the version line written first is skipped on reading |
| SdpReadBack.SessionLinesSkipped | papyon/sip/sdp.py:58-60 | the session name, bandwidth and timing lines are skipped on reading |
| SdpReadBack.LinesRead | papyon/sip/sdp.py:54-112 | reading back the lines written gives the session address and one description with its name, port, payload types and address |
| SdpReadBack.SessionAddressInherited | papyon/sip/sdp.py:93-99 | a connection line before the media line sets the session address, which the description then takes as its own |
| SdpReadBack.TrimmedLine | papyon/sip/sdp.py:76-84 | a line that starts and ends with a non-space character is its own field |
| SdpReadBack.AttributeLine | papyon/sip/sdp.py:102-107 | an a=key:value line after the first description is an attribute of the current description, an error in it failing the line |
| SdpReadBack.RtpmapAttribute | papyon/sip/sdp.py:148-149 | the rtpmap attribute written for a codec sets, read back, its encoding and clock rate, and is recorded |
| SdpReadBack.FmtpAttribute | papyon/sip/sdp.py:150-152 | the fmtp attribute written for a codec sets, read back, its parameters, and is recorded |
| SdpReadBack.RtpmapLineRead | papyon/sip/sdp.py:68-182 | the rtpmap line read after the first description updates the current description's codec |
| SdpReadBack.FmtpLineRead | papyon/sip/sdp.py:68-186 | the fmtp line written for a codec with parameters, read after the first description, updates the current description's codec |
| SdpReadBack.FlagLineRead | papyon/sip/sdp.py:108-109 | a bare a=flag line records the flag without a value |
| SdpReadBack.RtcpLineRead | papyon/sip/sdp.py:175-176 | the RTCP attribute line read back sets the current description's RTCP port |
| AddressBook.Filter | papyon/service/AddressBook/address_book.py:102-107 | exactly the contacts satisfying the predicate are kept, in storage order |
| AddressBook.SearchBy | papyon/service/AddressBook/address_book.py:109-121 | exactly the contacts whose field equals the value are found, strings compared without case, in every network |
| AddressBook.SearchByGroups | papyon/service/AddressBook/address_book.py:84-90 | exactly the contacts belonging to every one of the groups are found |
| AddressBook.SearchIgnoresCase | papyon/service/AddressBook/address_book.py:109-121 | the search finds the same contacts whatever the case of the text it is given |
| AddressBook.GroupByPartitions | papyon/service/AddressBook/address_book.py:123-130 | the groups are the field's values, each holding exactly the contacts with that value |
| AddressBook.GroupByGroupMembers | papyon/service/AddressBook/address_book.py:92-100 | the groups are the groups some contact belongs to, each holding exactly its members |
| AddressBook.FindContact | papyon/service/AddressBook/address_book.py:274-278 | the contact found is the first stored one with the account and network, and none is found only when there is none |
| AddressBook.NestedSearch | papyon/service/AddressBook/address_book.py:274-278 | searching by network and then by account keeps, first, the first stored contact with both |
| AddressBook.SearchContactFinds | papyon/service/AddressBook/address_book.py:269-278 | the own account on MSN, in any case, answers with the profile; otherwise the first stored contact of that account and network, or nothing |
| AddressBook.Sync | papyon/service/AddressBook/address_book.py:242-251 | sync is ignored while a synchronisation runs; otherwise the first is the initial synchronisation and any later one a resynchronisation |
| AddressBook.SyncNeverOverlaps | papyon/service/AddressBook/address_book.py:242-259 | a second sync before the first has finished is ignored, and once it has finished the next is a resynchronisation |
| AddressBook.Emit | papyon/service/AddressBook/address_book.py:535-539 | a signal is held while the book is frozen and emitted otherwise; no signal is lost |
| AddressBook.Freeze | papyon/service/AddressBook/address_book.py:543-551 | freezing deepens the freeze by one and emits nothing |
| AddressBook.Unfreeze | papyon/service/AddressBook/address_book.py:553-565 | only the unfreeze that ends the outermost freeze replays the held signals, in order; an unfrozen book stays unfrozen |
| AddressBook.UnfreezeAll | papyon/service/AddressBook/address_book.py:846-847 | the error path leaves the book unfrozen |
| AddressBook.FailureReplaysAll | papyon/service/AddressBook/address_book.py:844-848 | whatever the depth, an error replays every held signal and then reports itself |
| AddressBook.RunKeepsOrder | papyon/service/AddressBook/address_book.py:535-565 | freezing never loses, duplicates or reorders a signal: what was emitted followed by what is held is every signal so far |
| AddressBook.Thawed | papyon/service/AddressBook/address_book.py:553-565 | once the last freeze is undone, every signal has been emitted, in the order of the calls |
| AddressBook.ParseRoles | papyon/service/AddressBook/address_book.py:818-821 | the roles read exactly when every role name is in the table, each to its membership |
| AddressBook.ApplyRoles | papyon/service/AddressBook/address_book.py:817-828 | the roles deleted are exactly those flagged deleted |
| AddressBook.ApplyRolesHolds | papyon/service/AddressBook/address_book.py:817-828 | after the roles, a membership is held exactly as the last role touching it decides, or as before when none does |
| AddressBook.ApplyRolesNoConflict | papyon/service/AddressBook/address_book.py:769-828 | adding roles never leaves a contact both allowed and blocked, nor both forward and pending |
| AddressBook.ApplyRolesNonEmpty | papyon/service/AddressBook/address_book.py:817-828 | a contact's memberships empty only when they were empty and no role was added |
| AddressBook.RemoveAt | papyon/service/AddressBook/address_book.py:671-672 | the contact leaves the storage and the others keep their order |
| AddressBook.RemoveContact | papyon/service/AddressBook/address_book.py:662-674 | the memberships are removed, a contact left with none is dropped, and contact-deleted is emitted exactly when a forward membership was removed |
| AddressBook.UpdateStored | papyon/service/AddressBook/address_book.py:817-836 | updating a stored contact fails exactly on an unknown role name |
| AddressBook.UpdateMember | papyon/service/AddressBook/address_book.py:776-836 | other members, hidden Passport names and the own profile are skipped; an unknown member whose roles are all deleted is not stored; the only error is an unknown role |
| AddressBook.RemoveContactConsistent | papyon/service/AddressBook/address_book.py:662-674 | removing memberships keeps every stored contact with a membership and without conflict |
| AddressBook.UpdateStoredConsistent | papyon/service/AddressBook/address_book.py:817-831 | updating a stored contact keeps the book consistent |
| AddressBook.UpdateMemberConsistent | papyon/service/AddressBook/address_book.py:776-836 | a membership update keeps every stored contact with a membership and without conflict |
| AddressBook.UpdateMembershipsConsistent | papyon/service/AddressBook/address_book.py:761-836 | membership updates keep the book consistent |
| AddressBook.UpdateMembershipsAnnounce | papyon/service/AddressBook/address_book.py:832-836 | membership updates keep the freeze depth, only add signals, and during the initial synchronisation add only deletions |
| AddressBook.NewMemberAnnounced | papyon/service/AddressBook/address_book.py:789-836 | outside the initial synchronisation, a member not yet stored that holds a role is announced as added |
| AddressBook.SyncCallbackReplays | papyon/service/AddressBook/address_book.py:253-260 | after a synchronisation of an unfrozen book nothing is held, every signal raised was emitted in order, and sync comes last |
| OfflineMessages.NewMessage | papyon/service/OfflineIM/offline_messages_box.py:91-105 | a message announced by the metadata keeps its id, sender, network and date, and has no text, an empty run id, sequence number -1 and is not mobile |
| OfflineMessages.Compare | papyon/service/OfflineIM/offline_messages_box.py:157-162 | messages of one run compare by sequence number; messages of different runs compare by date, the later-or-equal being the greater |
| OfflineMessages.CompareAntisymmetric | papyon/service/OfflineIM/offline_messages_box.py:157-162 | the comparison is antisymmetric unless two messages of different runs share a date |
| OfflineMessages.EqualDatesBothGreater | papyon/service/OfflineIM/offline_messages_box.py:160-161 | two messages of different runs with the same date are each greater than the other |
| OfflineMessages.CompareCycle | papyon/service/OfflineIM/offline_messages_box.py:157-162 | the comparison is not transitive across runs |
| OfflineMessages.RunEnd | papyon/service/OfflineIM/offline_messages_box.py:364 | the run `list.sort` takes at the front is the longest prefix in which every element is less than the one before it, or in which none is |
| OfflineMessages.InsertAll | papyon/service/OfflineIM/offline_messages_box.py:364 | binary insertion places exactly the placed and the remaining messages |
| OfflineMessages.Sort | papyon/service/OfflineIM/offline_messages_box.py:364 | sorting keeps exactly the messages |
| OfflineMessages.SortAcrossRuns | papyon/service/OfflineIM/offline_messages_box.py:157-162 | under the comparison, which is not transitive across runs, the list a, b, d, x (one run dated 30, 10, 25, then another run dated 20) sorts to a, b, x, d |
| OfflineMessages.FrontRunBySequence | papyon/service/OfflineIM/offline_messages_box.py:157-159 | within one conversation the run found at the front is in sequence order once a descending run is reversed |
| OfflineMessages.SlotSplits | papyon/service/OfflineIM/offline_messages_box.py:157-159 | within one conversation in sequence order, binary insertion puts a message after every message whose number is at most its own and before every one whose number is greater |
| OfflineMessages.InsertAllBySequence | papyon/service/OfflineIM/offline_messages_box.py:157-159 | within one conversation, inserting messages one by one into messages in sequence order keeps sequence order |
| OfflineMessages.SortOneRun | papyon/service/OfflineIM/offline_messages_box.py:363-365 | the messages of one conversation come out of the fetch callback's sort in sequence order |
| OfflineMessages.EmptyBox | papyon/service/OfflineIM/offline_messages_box.py:210-220 | a new box is not synchronised and has no messages and no conversations |
| OfflineMessages.NetworkOf | papyon/service/OfflineIM/offline_messages_box.py:257-264 | network code 13 is an external account, and 11 and every other code are MSN |
| OfflineMessages.FromEntry | papyon/service/OfflineIM/offline_messages_box.py:255-278 | a metadata entry gives a message with its id, sender and network, dated now when it has no date |
| OfflineMessages.Merge | papyon/service/OfflineIM/offline_messages_box.py:253-280 | the new messages are added after the stored ones; every entry's id is then stored; a new message's id was not stored before; ids stay unique |
| OfflineMessages.MergeKnown | papyon/service/OfflineIM/offline_messages_box.py:277-280 | entries whose ids are all stored add nothing |
| OfflineMessages.MergeIdempotent | papyon/service/OfflineIM/offline_messages_box.py:277-280 | merging the same metadata twice stores nothing the second time |
| OfflineMessages.ParseMetadata | papyon/service/OfflineIM/offline_messages_box.py:252-285 | the box ends synchronised, keeps its messages and adds those of every entry, and signals messages-received exactly when some are new, with exactly them |
| OfflineMessages.Sync | papyon/service/OfflineIM/offline_messages_box.py:240-250 | sync runs only from not-synchronised: without a document it asks for the headers and is synchronising, with one it parses it at once |
| OfflineMessages.SyncOnce | papyon/service/OfflineIM/offline_messages_box.py:240-243 | once started, a second sync does nothing |
| OfflineMessages.Next | papyon/service/OfflineIM/offline_messages_box.py:320-327 | with the corrected numbering, a new conversation starts at 1 with a fresh run id, and each later send uses the number after the last |
| OfflineMessages.NextAsWritten | papyon/service/OfflineIM/offline_messages_box.py:320-327 | as written, a send stores the same conversation as the corrected numbering but uses one less for a conversation already stored: the number stored before the send |
| OfflineMessages.SendWith | papyon/service/OfflineIM/offline_messages_box.py:311-336 | from protocol 18 on the message goes out unmanaged; an external recipient is skipped; otherwise the conversation stored afterwards keeps the run id the message carries, one number past the one stored, and no other conversation changes |
| OfflineMessages.SendAsWritten | papyon/service/OfflineIM/offline_messages_box.py:311-336 | as written, a send to an MSN contact below protocol 18 goes out as an offline message |
| OfflineMessages.Send | papyon/service/OfflineIM/offline_messages_box.py:311-336 | from protocol 18 on the message goes out unmanaged; an external recipient is skipped; otherwise it goes out with the conversation's run id and next number, and no other conversation changes |
| OfflineMessages.SendMany | papyon/service/OfflineIM/offline_messages_box.py:311-336 | a number of sends produces one action each |
| OfflineMessages.SendManyFrom | papyon/service/OfflineIM/offline_messages_box.py:320-327 | with the corrected numbering, sends continue a conversation's run with consecutive numbers |
| OfflineMessages.SendNumbers | papyon/service/OfflineIM/offline_messages_box.py:320-327 | with the corrected numbering, the sends of a new conversation carry one run id and the numbers 1, 2, 3 and so on |
| OfflineMessages.SendManyFromAsWritten | papyon/service/OfflineIM/offline_messages_box.py:325-327 | as written, each send uses the stored number and only then raises it |
| OfflineMessages.SendNumbersAsWritten | papyon/service/OfflineIM/offline_messages_box.py:320-327 | as written, the sends of a new conversation are numbered 1, 1, 2, 3 and so on: the first two share a number |
| OfflineMessages.RequestFor | papyon/service/OfflineIM/offline_messages_box.py:297-309 | fetching or deleting asks for every stored message when none are listed, for nothing when the list is empty, and otherwise for the ids listed |
| OfflineMessages.FirstWithId | papyon/service/OfflineIM/offline_messages_box.py:356 | the message found is the first with the id |
| OfflineMessages.MessageFetched | papyon/service/OfflineIM/offline_messages_box.py:354-361 | the first message with the id gets its run id, number and text; every id and the box otherwise stay; an unknown id changes nothing |
| OfflineMessages.MessagesFetched | papyon/service/OfflineIM/offline_messages_box.py:363-365 | the messages signalled as fetched are exactly the messages fetched; when none were listed the list fetched is the store itself (lines 298-299), so the store is replaced by the signalled order, and a list given leaves the store as it was |
| OfflineMessages.FetchAllInOrder | papyon/service/OfflineIM/offline_messages_box.py:363-365 | after fetching everything, a store holding one conversation is in sequence order and is the list signalled |
| OfflineMessages.MessageFetchedKeepsIds | papyon/service/OfflineIM/offline_messages_box.py:354-361 | the fetch callback keeps ids unique |
| OfflineMessages.RemoveAsWritten | papyon/service/OfflineIM/offline_messages_box.py:373 | as written, removal takes away at most one message |
| OfflineMessages.DeleteDoneWith | papyon/service/OfflineIM/offline_messages_box.py:370-375 | the delete loop never adds a message |
| OfflineMessages.DeleteLiveAsWritten | papyon/service/OfflineIM/offline_messages_box.py:371-373 | the delete loop over the store never adds a message |
| OfflineMessages.MessagesDeletedAsWritten | papyon/service/OfflineIM/offline_messages_box.py:370-376 | as written, the delete callback keeps the state and the conversations and never adds a message; a list given is signalled as it was, and with no list given (lines 339-340) the loop runs over the store and the list signalled is the store left |
| OfflineMessages.RemoveAsWrittenAt | papyon/service/OfflineIM/offline_messages_box.py:373 | as written, removal takes out the first message that compares equal and no other |
| OfflineMessages.DeleteAllKeepsEveryOtherAsWritten | papyon/service/OfflineIM/offline_messages_box.py:370-376 | as written, deleting everything from a store of messages no two of which compare equal keeps exactly the messages at odd positions, and signals them as deleted |
| OfflineMessages.DeleteThreeLeavesMiddleAsWritten | papyon/service/OfflineIM/offline_messages_box.py:370-376 | as written, deleting everything from three fetched messages a, b, c leaves b and signals b |
| OfflineMessages.WrongMessageDeletedAsWritten | papyon/service/OfflineIM/offline_messages_box.py:370-376 | as written, deleting the second of two unfetched messages removes the first instead |
| OfflineMessages.Remove | papyon/service/OfflineIM/offline_messages_box.py:373-375 | removal by identity removes the message with the id, and nothing when there is none |
| OfflineMessages.MessagesDeleted | papyon/service/OfflineIM/offline_messages_box.py:338-350 | the corrected delete callback keeps the state and the conversations, never adds a message and signals the messages the delete asked for: those listed, or every message stored when it asked |
| OfflineMessages.RemoveIsWithout | papyon/service/OfflineIM/offline_messages_box.py:373 | with unique ids, removing a message is keeping those without its id |
| OfflineMessages.DeleteDoneKeepsOthers | papyon/service/OfflineIM/offline_messages_box.py:370-375 | with unique ids, removing messages one by one by identity leaves exactly the stored messages whose id was not removed, in order, with ids unique |
| OfflineMessages.MessagesDeletedKeepsOthers | papyon/service/OfflineIM/offline_messages_box.py:370-376 | with unique ids, the corrected delete leaves exactly the stored messages whose id was not deleted, in order, with ids unique |
| OfflineMessages.DeleteAllEmpties | papyon/service/OfflineIM/offline_messages_box.py:338-350 | with unique ids, the corrected delete of everything empties the store and signals every message that was stored |
| SlpBody.WithVerdict | papyon/msnp2p/SLP.py:430-434 | adding the verdict keeps header names unique |
| SlpBody.AddressHeaders | papyon/msnp2p/SLP.py:341-350 | writing the address headers keeps header names unique |
| SlpBody.IpsRoundTrip | papyon/msnp2p/SLP.py:341-395 | a list of addresses joined with spaces splits back into the same list |
| SlpBody.ResponseAddress | papyon/msnp2p/SLP.py:326-354 | an address header of a transport response reads as the address headers wrote it |
| Slp.DefaultBody | papyon/msnp2p/SLP.py:238-247 | the body a content type starts from has that type and no text |
| TransportManager.MaxChunkSize | papyon/msnp2p/transport/switchboard.py:83-84 | the largest chunk of the relay and of the direct transport leaves room after the 48-byte header |
| TransportManager.Empty | papyon/msnp2p/transport/transport_manager.py:58-61 | a new manager has no transports, no data buffers and an empty blacklist |
| TLPv1.DataFlags | papyon/msnp2p/transport/TLPv1.py:189-196 | a session data chunk is flagged UNKNOWN and EACH, is not a control chunk, and is flagged FILE exactly for file transfers |

## Left out

- Sockets, I/O channels, HTTP polling, proxies and UPnP are network plumbing, and the
  listen/connect/bind parts of `direct.py` and `nat_traversal.py` belong to it. What arrives
  or leaves is a byte sequence.
- The notification-server client (`papyon/msnp/notification.py`) and the client wiring
  (`papyon/client.py`) are not part of this model. Values they supply are inputs, for example
  the connection type, the protocol version and the own profile.
- Event dispatch and gobject signals: an emitted signal is an element of an output event
  list, and handlers are not run.
- Cryptography and randomness: SHA-1 digests are opaque strings. Random ids, UUIDs, nonces,
  Call-IDs and branches are parameters that keep their source ranges.
- Real time and threads: timeouts are named entries of the `Timer` table, and the 200 ms
  drain timer and the queue lock are flags. `send` and `cleanup` wait for the lock in the
  source; they are modelled as proceeding.
- Text codecs:
  - the file-transfer name is its sequence of UTF-16 code units;
  - the URL quoting of the text-format font name is not modelled;
  - UTF-8 message bodies and the charset part of a content type are not modelled;
  - RFC 2047 decoding of offline-message sender names is not modelled.
- `MessageBlob`, `ControlBlob`, the TLPv2 chunk and the media base classes
  (`papyon/media`) are not part of this model:
  - blobs are modelled only through `get_chunk`, `append_chunk`, `is_complete`,
    `transferred`, the blob kind and `session_id`;
  - a version-2 chunk is carried as raw bytes;
  - an SDP codec starts with no encoding, clock rate or parameters.
- `MessageChunk.__init__` has a mutable default header, and chunks can share it. This
  aliasing is not modelled: each chunk has its own header value.
- Call sites whose arguments do not match the definitions are modelled per the defining
  file. This covers `transport_manager.py:131` against `base.py:77`, and
  `session_manager.py:75-81` against `transport_manager.py:148-154`. The default transport's
  constructor is the exception: it is listed under Findings.
- The session layer also calls transport-manager members that `transport_manager.py` does not
  define, or defines with other arguments. In Python each of these raises, so the parts of the
  session layer built on them cannot run as written. The model takes what each call stands for
  as an input or an action instead:
  - `session_manager.py:52-63` connects "data-received", "data-sent", "data-transferred" and
    "slp-message-received", which are not among the signals declared at
    `transport_manager.py:36-48`, so gobject raises `TypeError` and no session manager can
    be built. `SessionManager.Empty` builds one, and the data events and signalling messages
    are inputs to its handlers.
  - `session_manager.py:71` calls `close()`, which the transport manager does not define.
    `SessionManager.Close` ends with a `CloseTransports` step for it.
  - `session.py:345` calls `cleanup(peer, peer_guid, id)`, while `transport_manager.py:142`
    takes only the session id, so `_dispose` raises before it unregisters the session or
    emits "disposed". `Session.Dispose` emits `Cleanup(id)`, then unregisters and reports.
  - `session.py:154` calls `register_data_buffer` with the peer, the guid, the id, the
    buffer and the size, while `transport_manager.py:134` takes the id, the buffer and the
    size. `TransportManager.RegisterDataBuffer` is the three-argument method.
  - `session.py:174`, `:235`, `:251` and `:268` use `supported_transports`,
    `find_transport` and `create_transport`, none of which the transport manager defines.
    The bridges offered, the rating of the active bridge and whether a bridge created is
    ready are parameters of `Session.TransReq`, `Session.RequestBridge`, `Session.SwitchBridge` and
    `Session.TransreqAccepted`.
  - `nat_traversal.py:116` subclasses `NATTraversalService`, which is defined nowhere, so
    importing the module fails. The module also uses `struct`, `logger`, `TCPClient`,
    `IoStatus` and `gobject` without importing them, and `__init__` sets up neither
    `_echo_transports` nor `_echo_requests`. The `NatTraversal` model covers the
    echo-server exchange of `NATTraversal` with both tables starting empty.
  - `nat_traversal.py:113` schedules `self._dispose_faulty_transport`, which `NATTraversal`
    does not define, so the answer handler raises after clearing both tables and closing the
    connection, before the continuation at line 114. `NatTraversal.OnReceivedAsWritten` and
    `NatTraversal.EchoExchangeAsWritten` model that; `NatTraversal.OnReceived` and
    `NatTraversal.EchoExchange` take line 113 as absent (see Findings).
- The relay (switchboard) transport cannot be loaded as written, and with it neither can
  `transport_manager.py`, which imports it at line 21. The model takes `switchboard.py` as it
  is evidently meant to work, and takes what each broken piece stands for as an input:
  - `switchboard.py:24` imports `SwitchboardClient` from `switchboard_manager.py`, which
    defines no such name: it has `SwitchboardHandler` (line 44) and `SwitchboardManager`
    (line 264), and exports only the latter (line 40). The import raises `ImportError`.
  - `switchboard.py:39` calls `SwitchboardClient.__init__(self, client, switchboard,
    contacts)`, while the handler's initialiser takes `client, contacts, priority`
    (`switchboard_manager.py:45`).
  - `switchboard.py:97-98` calls `_send_message` with six arguments; the handler's
    `_send_message` takes a message, an acknowledgement mode and two callbacks
    (`switchboard_manager.py:109`). `RelayTransport.SendChunk` returns the content type,
    body and headers as one message instead.
  - `transport_manager.py:55` calls `register_handler(SwitchboardP2PTransport, self)`, while
    `switchboard_manager.py:307` takes one handler. The transport-manager model does not
    register with the switchboard manager.
  - `self.version` is read at `switchboard.py:88` and `:90` and at `direct.py:353`, but is
    assigned nowhere. `RelayTransport.SendChunk` takes the version as a parameter, 1 or 2, and
    the direct transport reads its chunks with the version-1 layout.
- NatTraversal.EchoExchange: the continuation is reached only with line 113 of
  `nat_traversal.py` taken as absent; as written the handler raises first
  (`NatTraversal.EchoExchangeAsWritten`).
- NatTraversal.OnReceived: the same; it models the answer handler as intended, without line 113.
- FileTransfer.ContextRoundTrip: stated for a name that is well-formed UTF-16. Python 2's
  encoder (`filetransfer.py:94`) also writes a name with an unpaired surrogate, and so does a
  name cut between the two halves of a pair at 550 bytes; the decoder at line 85 refuses
  both, so such an offer is written but cannot be read back.
- The drain in `base.py:187` calls `_send_chunk(chunk)`, as the switchboard transport
  defines it (`switchboard.py:86`). `default.py:76` and `direct.py:232` define
  `_send_chunk(self, peer, peer_guid, chunk)`, so for those transports that call raises
  `TypeError` in Python. The model hands every drained chunk on as a `ChunkOut` event and
  does not model the failing call; `DefaultTransport.SendChunk` is the three-argument
  method called as defined.
- The SOAP services and their scenarios are not modelled. A membership list, the
  offline-message metadata, a fetched message and a deletion arrive already decoded, and an
  invalid XML document is not modelled. The address-book part of a synchronisation answer
  (`__update_address_book`) and `search_by_memberships` are not modelled, because their
  contact and profile classes are not part of this model.
- ISO 8601 dates and the clock: dates are integer timestamps supplied by the caller.
- The `throttled` decorator on offline-message sending (one send per second) is timing and
  is not modelled; every send goes through.
- `OfflineMessagesStorage.search_by`/`group_by` are not modelled; deduplication uses the
  message id. The body of an unmanaged offline message (protocol 18 and later) is not
  modelled; only the choice to send one is.
- `MSNObject.__str__` and `MSNObject.parse` are parameters (`encode`, `decode`).
- SDP:
  - the media direction, `EXTRA_PARAMS` and the `a=` lines the writer emits are not modelled
    (`SdpReadBack` covers the other lines);
  - `str.splitlines` is modelled as a split on `\n`. The `\r` of a `\r\n` is removed by the
    strip of each line, so only a lone `\r` used as a line break is read differently.
- Switchboard accounts arrive already split from their endpoint guid and lower-cased. The
  splitting helper is not part of this model.
- SdpReadBack.MediaRead: requires at least one payload type, because the writer always lists
  the codecs of a description. A media line without payload types is not read back here.
- OfflineMessages.SendAsWritten: states only that an MSN recipient below protocol 18 gets an
  offline message. Its numbering is stated by `SendNumbersAsWritten`.
- Uuids.Parse: `uuid.UUID` also removes `urn:` and `uuid:` anywhere in the text, and reads
  the 32 characters with `long(hex, 16)`, which also accepts surrounding whitespace, a `0x`
  prefix, a `+` sign and a trailing `L`. Such text is rejected here.
- Base64.Decode: a strict decoder. The decoding helper in `papyon.util.encoding` is not part
  of this model, and Python's base64 decoder skips characters outside the alphabet, so a
  context with such characters that the source reads is rejected here.
- OfflineMessages.Sort: models Python 2's `list.sort` for lists of fewer than 64 messages,
  where the whole list is one run: the run at the front, then binary insertion. Longer lists
  are cut into several runs that are merged with galloping, and under the non-transitive
  comparison that order can differ; it is not modelled.
- OfflineMessages.MessagesFetched: a listed message is a value here. In the source it is the
  stored object that the per-message callback updated, so a list passed in by a caller
  carries the fetched texts; here only the store does. A list given that is the store itself
  is modelled as no list given.
- OfflineMessages.MessagesDeletedAsWritten: a list given is taken to be another list than the
  store; a caller passing the store itself gets the no-list behaviour.

## Findings

| source | as written | input that shows it | evidently intended | confidence | as-written member | corrected member |
|---|---|---|---|---|---|---|
| papyon/msnp2p/transport/base.py:54 | the chunk-id counter is seeded with `random.randint(1000, MAX_INT32)`, which includes `MAX_INT32`; the wrap in `next_id` only catches `id + 1 == MAX_INT32` | a transport seeded with 2147483647 sends one chunk: the counter becomes 2^31 and keeps growing outside the 31-bit range | a seed below `MAX_INT32`, so ids stay in [1, MAX_INT32) | medium, not executed | TransportBase.SeedAtMaxLeavesRange | TransportBase.InitInRange |
| papyon/msnp2p/transport/default.py:36 | `DefaultP2PTransport.__init__` calls the base initialiser with the manager only, but that initialiser also requires `name` (base.py:47) | constructing any default transport raises `TypeError` | forward the name `'default'` | high, not executed | DefaultTransport.CreateAsWritten | DefaultTransport.Create |
| papyon/msnp2p/transport/direct.py:340-342 | on the listening side, after taking the first packet as `foo` the receive loop returns, leaving later packets in the buffer until more data arrives | `foo` and the nonce packet arriving in one TCP read: the nonce is not processed, and the transport stays unconnected while the peer waits | continue with the buffered packets, so the result does not depend on read boundaries | medium, not executed | DirectTransport.HandshakeStallsAsWritten | DirectTransport.ReadBoundaries |
| papyon/msnp2p/filetransfer.py:84 | `parse_context` sets `has_preview = not bool(info[4])`, while `_build_context` (line 95) writes `int(has_preview)` | a context built with a preview is read back without one, and a context without a preview is read back with an empty one | `has_preview = bool(info[4])` | high, not executed | FileTransfer.PreviewLostAsWritten | FileTransfer.ContextRoundTrip |
| papyon/conversation.py:270-272 | `RL=1` sets the misspelt attribute `_right_alignement`, so `right_alignment` stays False; the switchboard conversation reads received formatting through this parse (line 389), so `Conversation.ReceiveText` delivers it left-aligned | parsing "RL=1", or the header written for a right-aligned format | set `_right_alignment` | high, not executed | TextFormat.AlignmentLostAsWritten | TextFormat.RoundTrip |
| papyon/msnp2p/transport/nat_traversal.py:113 | after forgetting the request and the connection and closing it, the answer handler calls `gobject.idle_add(self._dispose_faulty_transport, transport)`, but `NATTraversal` defines no `_dispose_faulty_transport`, so the handler raises before calling the continuation at line 114 | any 20-byte echo answer on a probe connection with its request filed: the tables are cleared but the addresses are never reported | drop the call (the connection is already closed at line 112), so the continuation receives the local and external addresses | high, not executed | NatTraversal.EchoExchangeAsWritten | NatTraversal.EchoExchange |
| papyon/service/OfflineIM/offline_messages_box.py:320-327 | a new recipient's conversation is stored with sequence number 1 and the first send uses 1 without incrementing, so the numbers run 1, 1, 2, 3 | two offline messages to one MSN recipient with protocol 17: both are sent with sequence number 1 | 1, 2, 3, ... | medium, not executed | OfflineMessages.SendNumbersAsWritten | OfflineMessages.SendNumbers |
| papyon/service/OfflineIM/offline_messages_box.py:371-373 | with no list given, `delete_messages` hands the store itself to the callback (lines 339-340), which removes from the list it is iterating; the iteration goes by index, so every second message is passed over | deleting everything from three fetched messages a, b, c: b stays, and `messages-deleted` is signalled with [b] | delete every stored message and signal them all | high, not executed | OfflineMessages.DeleteAllKeepsEveryOtherAsWritten | OfflineMessages.DeleteAllEmpties |
| papyon/service/OfflineIM/offline_messages_box.py:370-376 | the delete callback uses `list.remove`, which compares with `OfflineMessage.__cmp__` (lines 157-162); all unfetched messages have run id "" and sequence number -1 and compare equal | a storage holding two unfetched messages a and b, and a deletion of b: a is removed and b stays | remove the deleted message itself | medium, not executed | OfflineMessages.WrongMessageDeletedAsWritten | OfflineMessages.MessagesDeletedKeepsOthers |

## Notes

- Chunk ids advance by one per chunk (`next_id` is `id + 1`, wrapping to 1), not by the
  payload length.
- A chunk is at most the maximum size including the 48-byte header. A 3000-byte blob over the
  relay (maximum 1250) is therefore cut as 1202, 1202 and 596 bytes.
- The drain stamps the current chunk id into `dw1` of every chunk it sends, including
  acknowledgement chunks. In an acknowledgement, `dw1` carries the acknowledged blob id, so
  that id is overwritten (`TransportBase.DrainRestampsAck`). `TLP.py` is not part of this
  model, so this is recorded as an observation only.
- The manager's default transport is the switchboard transport's `handle_peer`, not the
  default transport class.
- `OfflineMessage.__cmp__` is not antisymmetric (`EqualDatesBothGreater`), and across runs it
  is not transitive (`CompareCycle`). The order `list.sort` then gives depends on its
  algorithm, which is therefore modelled step by step (`SortAcrossRuns`); within one
  conversation it is sequence order (`SortOneRun`).
- SDP telephone events are written `0-16` and read as `0-15` (`Sdp.EventsReadAsWritten`). A
  bare `a=flag` is stored as `None`.
- `_can_handle_message` in `conversation.py` tests membership in a string, not a tuple. For
  every content type the result is still the intended one (`Conversation.CanHandleAgrees`).
- An unknown address-book role makes `ParseRoles` fail, where the source raises `TypeError`.
  An exception in the synchronisation callback would leave the book frozen; callbacks are
  not run here.
- `P2PMetaSession._keep_session` returns `None`, not `True`, on success. The model returns
  the new state.

=== FILE: address_book.dfy ===
/** The address book (`papyon/service/AddressBook/address_book.py`): searching and grouping the
    stored contacts, finding a contact by account, the guard that keeps two synchronisations
    from overlapping, the nested freeze that queues signals, and how a synchronisation's
    membership list updates the stored contacts.

    The contact storage is a Python set; it is modelled as a sequence in iteration order. A
    contact's membership bit mask is modelled as a set of roles. The SOAP services, the
    scenarios that call them and the parsing of their answers are not part of this model: a
    membership list arrives already decoded. */
module AddressBook {
  import opened Results
  import opened Text
  import opened Networks

  datatype Role = Forward | Allow | Block | Reverse | Pending

  datatype Contact = Contact(account: string, network: Network, displayName: string, memberships: set<Role>, groups: set<string>)

  // ---------------------------------------------------------------------------
  // Searching and grouping the storage

  /** The value of a contact field, as `getattr` returns it. */
  datatype Value = Str(s: string) | Num(n: int) | Net(network: Network)

  /** What `search_by` compares: strings in lower case, anything else as it is. */
  function Key(v: Value): Value {
    match v
    case Str(s) => Str(Lower(s))
    case _ => v
  }

  function AccountOf(c: Contact): Value { Str(c.account) }
  function NetworkOf(c: Contact): Value { Net(c.network) }

  /** `search_by_predicate`: the contacts that satisfy `p`, in storage order. */
  function Filter(contacts: seq<Contact>, p: Contact -> bool): (r: seq<Contact>)
    ensures |r| <= |contacts|
    ensures forall c :: c in r <==> c in contacts && p(c)
    decreases |contacts|
  {
    if |contacts| == 0 then []
    else (if p(contacts[0]) then [contacts[0]] else []) + Filter(contacts[1..], p)
  }

  /** `search_by`: every contact whose field equals the value, strings compared without case. */
  function SearchBy(contacts: seq<Contact>, field: Contact -> Value, value: Value): (r: seq<Contact>)
    ensures forall c :: c in r <==> c in contacts && Key(field(c)) == Key(value)
    decreases |contacts|
  {
    if |contacts| == 0 then []
    else (if Key(field(contacts[0])) == Key(value) then [contacts[0]] else []) + SearchBy(contacts[1..], field, value)
  }

  /** `search_by_groups`: the contacts that belong to every one of the groups. */
  function SearchByGroups(contacts: seq<Contact>, groups: set<string>): (r: seq<Contact>)
    ensures forall c :: c in r <==> c in contacts && groups <= c.groups
  {
    Filter(contacts, (c: Contact) => groups <= c.groups)
  }

  lemma LowerUpperChar(c: char)
    ensures LowerChar(UpperChar(c)) == LowerChar(c)
  {
  }

  lemma LowerUpper(s: string)
    ensures Lower(Upper(s)) == Lower(s)
  {
    forall i | 0 <= i < |s| ensures Lower(Upper(s))[i] == Lower(s)[i] {
      LowerUpperChar(s[i]);
    }
  }

  /** `search_by` finds the same contacts whatever the case of the text it is given. */
  lemma {:induction false} SearchIgnoresCase(contacts: seq<Contact>, field: Contact -> Value, s: string)
    ensures SearchBy(contacts, field, Str(Upper(s))) == SearchBy(contacts, field, Str(s))
    decreases |contacts|
  {
    LowerUpper(s);
    assert Key(Str(Upper(s))) == Key(Str(s));
    if |contacts| > 0 {
      SearchIgnoresCase(contacts[1..], field, s);
    }
  }

  lemma {:induction false} SearchByAppend(a: seq<Contact>, b: seq<Contact>, field: Contact -> Value, value: Value)
    ensures SearchBy(a + b, field, value) == SearchBy(a, field, value) + SearchBy(b, field, value)
    decreases |a|
  {
    if |a| == 0 {
      assert a + b == b;
    } else {
      var h := if Key(field(a[0])) == Key(value) then [a[0]] else [];
      assert (a + b)[0] == a[0] && (a + b)[1..] == a[1..] + b;
      assert SearchBy(a + b, field, value) == h + SearchBy(a[1..] + b, field, value);
      SearchByAppend(a[1..], b, field, value);
      AppendAssoc(h, SearchBy(a[1..], field, value), SearchBy(b, field, value));
    }
  }

  /** `group_by`: the contacts keyed by the exact value of a field. */
  function GroupBy(contacts: seq<Contact>, field: Contact -> Value): map<Value, set<Contact>>
    decreases |contacts|
  {
    if |contacts| == 0 then map[]
    else
      var rest := GroupBy(contacts[..|contacts| - 1], field);
      var c := contacts[|contacts| - 1];
      var v := field(c);
      rest[v := (if v in rest then rest[v] else {}) + {c}]
  }

  /** The groups are the field's values, and each holds exactly the contacts with that value;
      so every contact is in exactly one group. */
  lemma {:induction false} GroupByPartitions(contacts: seq<Contact>, field: Contact -> Value)
    ensures forall v :: v in GroupBy(contacts, field) <==> exists c :: c in contacts && field(c) == v
    ensures forall v :: v in GroupBy(contacts, field) ==>
      forall c :: c in GroupBy(contacts, field)[v] <==> c in contacts && field(c) == v
    decreases |contacts|
  {
    if |contacts| > 0 {
      var init := contacts[..|contacts| - 1];
      GroupByPartitions(init, field);
      assert contacts == init + [contacts[|contacts| - 1]];
      forall v ensures v in GroupBy(contacts, field) <==> exists c :: c in contacts && field(c) == v {
        if v in GroupBy(contacts, field) && v != field(contacts[|contacts| - 1]) {
          assert v in GroupBy(init, field);
          var c :| c in init && field(c) == v;
          assert c in contacts;
        }
      }
    }
  }

  /** `group_by_group`: for each group any contact belongs to, the contacts in it. */
  function GroupByGroup(contacts: seq<Contact>): map<string, set<Contact>>
    decreases |contacts|
  {
    if |contacts| == 0 then map[]
    else
      var rest := GroupByGroup(contacts[..|contacts| - 1]);
      var c := contacts[|contacts| - 1];
      map g | g in rest.Keys + c.groups :: (if g in rest then rest[g] else {}) + (if g in c.groups then {c} else {})
  }

  lemma {:induction false} GroupByGroupMembers(contacts: seq<Contact>)
    ensures forall g :: g in GroupByGroup(contacts) <==> exists c :: c in contacts && g in c.groups
    ensures forall g :: g in GroupByGroup(contacts) ==>
      forall c :: c in GroupByGroup(contacts)[g] <==> c in contacts && g in c.groups
    decreases |contacts|
  {
    if |contacts| > 0 {
      var init, last := contacts[..|contacts| - 1], contacts[|contacts| - 1];
      GroupByGroupMembers(init);
      GroupByGroupStep(contacts);
      LastSplit(contacts);
      forall g ensures g in GroupByGroup(contacts) <==> exists c :: c in contacts && g in c.groups {
        if g in GroupByGroup(contacts) && g !in last.groups {
          var c :| c in init && g in c.groups;
          assert c in contacts;
        }
      }
    }
  }

  /** One step of `GroupByGroup`: the groups of the last contact are added, with it as member. */
  lemma GroupByGroupStep(contacts: seq<Contact>)
    requires |contacts| > 0
    ensures var rest, last := GroupByGroup(contacts[..|contacts| - 1]), contacts[|contacts| - 1];
      && GroupByGroup(contacts).Keys == rest.Keys + last.groups
      && forall g :: g in GroupByGroup(contacts) ==>
           GroupByGroup(contacts)[g] == (if g in rest then rest[g] else {}) + (if g in last.groups then {last} else {})
  {
  }

  lemma LastSplit(contacts: seq<Contact>)
    requires |contacts| > 0
    ensures forall c :: c in contacts <==> c in contacts[..|contacts| - 1] || c == contacts[|contacts| - 1]
  {
    assert contacts == contacts[..|contacts| - 1] + [contacts[|contacts| - 1]];
  }

  // ---------------------------------------------------------------------------
  // Finding a contact

  /** The account and network a lookup asks for. */
  predicate Names(c: Contact, account: string, network: Network) {
    Lower(c.account) == Lower(account) && c.network == network
  }

  /** The own profile answers for its account on the MSN network. */
  predicate IsOwn(profile: Contact, account: string, network: Network) {
    Lower(account) == Lower(profile.account) && network == Msn
  }

  /** The position of the first stored contact with the account and network. */
  function FindContact(contacts: seq<Contact>, account: string, network: Network): (r: Option<nat>)
    ensures r.Some? ==> r.value < |contacts| && Names(contacts[r.value], account, network)
    ensures r.Some? ==> forall j :: 0 <= j < r.value ==> !Names(contacts[j], account, network)
    ensures r.None? ==> forall j :: 0 <= j < |contacts| ==> !Names(contacts[j], account, network)
    decreases |contacts|
  {
    if |contacts| == 0 then None
    else if Names(contacts[0], account, network) then Some(0)
    else match FindContact(contacts[1..], account, network)
      case None => None
      case Some(i) => Some(i + 1)
  }

  /** `search_contact`: the own profile for its own account on MSN; otherwise the first contact
      of the network's contacts with the account. */
  function SearchContact(profile: Contact, contacts: seq<Contact>, account: string, network: Network): Option<Contact> {
    if IsOwn(profile, account, network) then Some(profile)
    else
      var found := SearchBy(SearchBy(contacts, NetworkOf, Net(network)), AccountOf, Str(account));
      if |found| == 0 then None else Some(found[0])
  }

  /** Searching by network and then by account keeps the first contact with both. */
  lemma {:induction false} NestedSearch(contacts: seq<Contact>, account: string, network: Network)
    ensures var r := SearchBy(SearchBy(contacts, NetworkOf, Net(network)), AccountOf, Str(account));
      match FindContact(contacts, account, network)
      case None => r == []
      case Some(i) => |r| > 0 && r[0] == contacts[i]
    decreases |contacts|
  {
    if |contacts| > 0 {
      var c := contacts[0];
      var head := if Key(NetworkOf(c)) == Key(Net(network)) then [c] else [];
      var inner := SearchBy(contacts[1..], NetworkOf, Net(network));
      assert SearchBy(contacts, NetworkOf, Net(network)) == head + inner;
      SearchByAppend(head, inner, AccountOf, Str(account));
      NestedSearch(contacts[1..], account, network);
      var h := SearchBy(head, AccountOf, Str(account));
      var r' := SearchBy(inner, AccountOf, Str(account));
      NestedHead(c, account, network);
      if Names(c, account, network) {
        assert h == [c];
        assert FindContact(contacts, account, network) == Some(0);
      } else {
        assert h == [];
        assert h + r' == r';
        FindContactTail(contacts, account, network);
      }
    }
  }

  /** Searching one contact by network and then by account finds it exactly when it names them. */
  lemma NestedHead(c: Contact, account: string, network: Network)
    ensures var head := if Key(NetworkOf(c)) == Key(Net(network)) then [c] else [];
      SearchBy(head, AccountOf, Str(account)) == if Names(c, account, network) then [c] else []
  {
    var head := if Key(NetworkOf(c)) == Key(Net(network)) then [c] else [];
    if head != [] {
      assert head[1..] == [];
    }
  }

  /** Past a first contact that does not match, the search continues one position further. */
  lemma FindContactTail(contacts: seq<Contact>, account: string, network: Network)
    requires |contacts| > 0 && !Names(contacts[0], account, network)
    ensures match FindContact(contacts[1..], account, network)
      case None => FindContact(contacts, account, network) == None
      case Some(i) => FindContact(contacts, account, network) == Some(i + 1) && contacts[i + 1] == contacts[1..][i]
  {
  }

  /** `search_contact` answers with the first stored contact of that account (in any case) and
      network, or with nothing when there is none, unless the own profile answers. */
  lemma SearchContactFinds(profile: Contact, contacts: seq<Contact>, account: string, network: Network)
    ensures IsOwn(profile, account, network) ==> SearchContact(profile, contacts, account, network) == Some(profile)
    ensures !IsOwn(profile, account, network) ==>
      SearchContact(profile, contacts, account, network)
        == match FindContact(contacts, account, network) case Some(i) => Some(contacts[i]) case None => None
  {
    NestedSearch(contacts, account, network);
  }

  // ---------------------------------------------------------------------------
  // Synchronisation

  datatype SyncState = NotSynchronized | InitialSync | Resync | Synchronized

  /** `sync`: ignored while a synchronisation runs; otherwise the first one is the initial
      synchronisation and any later one a resynchronisation. The flag says whether a
      synchronisation starts. */
  function Sync(s: SyncState): (r: (SyncState, bool))
    ensures r.1 <==> !s.InitialSync? && !s.Resync?
    ensures !r.1 ==> r.0 == s
    ensures r.1 ==> r.0.InitialSync? || r.0.Resync?
  {
    if s.InitialSync? || s.Resync? then (s, false)
    else if s.NotSynchronized? then (InitialSync, true)
    else (Resync, true)
  }

  /** A second `sync` before the first has finished is ignored; once the first has finished,
      the next is a resynchronisation. */
  lemma SyncNeverOverlaps(s: SyncState)
    ensures Sync(s).1 ==> !Sync(Sync(s).0).1
    ensures Sync(s).1 ==> Sync(Synchronized) == (Resync, true)
    ensures Sync(s).1 && Sync(s).0 == InitialSync <==> s == NotSynchronized
  {
  }

  // ---------------------------------------------------------------------------
  // The signal queue

  datatype Signal =
    | ContactAdded(account: string)
    | ContactPending(account: string)
    | ContactDeleted(account: string)
    | Synced
    | Failed(error: string)

  /** The freeze depth, the signals held back while frozen, and those already emitted. */
  datatype Queue = Queue(frozen: nat, held: seq<Signal>, emitted: seq<Signal>)

  /** Nothing is held back unless the book is frozen. */
  predicate Valid(q: Queue) {
    q.frozen == 0 ==> q.held == []
  }

  /** `emit`: held back while frozen, emitted otherwise. */
  function Emit(q: Queue, s: Signal): (r: Queue)
    ensures r.frozen == q.frozen
    ensures r.emitted + r.held == q.emitted + q.held + [s] || (q.held != [] && q.frozen == 0)
    ensures Valid(q) ==> Valid(r)
  {
    if q.frozen > 0 then q.(held := q.held + [s]) else q.(emitted := q.emitted + [s])
  }

  /** `__freeze_address_book`. */
  function Freeze(q: Queue): (r: Queue)
    ensures r.frozen == q.frozen + 1 && r.held == q.held && r.emitted == q.emitted
  {
    q.(frozen := q.frozen + 1)
  }

  /** `__unfreeze_address_book`: only the unfreeze that ends the outermost freeze replays the
      held signals, in order. */
  function Unfreeze(q: Queue): (r: Queue)
    ensures r.frozen == if q.frozen == 0 then 0 else q.frozen - 1
    ensures q.frozen == 1 ==> r.held == [] && r.emitted == q.emitted + q.held
    ensures q.frozen != 1 ==> r.held == q.held && r.emitted == q.emitted
  {
    if q.frozen == 0 then q
    else if q.frozen == 1 then Queue(0, [], q.emitted + q.held)
    else q.(frozen := q.frozen - 1)
  }

  /** The loop of `__common_errback` that unfreezes until the book is no longer frozen. */
  function UnfreezeAll(q: Queue): (r: Queue)
    ensures r.frozen == 0
    decreases q.frozen
  {
    if q.frozen == 0 then q else UnfreezeAll(Unfreeze(q))
  }

  /** `__common_errback`: thaw completely, then emit the error. */
  function FailWith(q: Queue, error: string): Queue {
    Emit(UnfreezeAll(q), Failed(error))
  }

  /** Whatever the depth, an error replays every held signal and then reports itself. */
  lemma {:induction false} FailureReplaysAll(q: Queue, error: string)
    requires Valid(q)
    ensures FailWith(q, error) == Queue(0, [], q.emitted + q.held + [Failed(error)])
    decreases q.frozen
  {
    if q.frozen > 1 {
      FailureReplaysAll(Unfreeze(q), error);
    } else if q.frozen == 1 {
      assert UnfreezeAll(q) == Queue(0, [], q.emitted + q.held);
    } else {
      assert q.held == [] && q.emitted + q.held == q.emitted;
      assert UnfreezeAll(q) == q;
    }
  }

  datatype Op = FreezeOp | UnfreezeOp | EmitOp(signal: Signal)

  function Step(q: Queue, op: Op): Queue {
    match op
    case FreezeOp => Freeze(q)
    case UnfreezeOp => Unfreeze(q)
    case EmitOp(s) => Emit(q, s)
  }

  function Run(q: Queue, ops: seq<Op>): Queue
    decreases |ops|
  {
    if |ops| == 0 then q else Run(Step(q, ops[0]), ops[1..])
  }

  /** The signals a sequence of operations emits, in order. */
  function Emitted(ops: seq<Op>): seq<Signal>
    decreases |ops|
  {
    if |ops| == 0 then []
    else (if ops[0].EmitOp? then [ops[0].signal] else []) + Emitted(ops[1..])
  }

  /** Freezing never loses, duplicates or reorders a signal: what has been emitted followed by
      what is held is always everything emitted so far. */
  lemma {:induction false} RunKeepsOrder(q: Queue, ops: seq<Op>)
    requires Valid(q)
    ensures Valid(Run(q, ops))
    ensures Run(q, ops).emitted + Run(q, ops).held == q.emitted + q.held + Emitted(ops)
    decreases |ops|
  {
    if |ops| > 0 {
      var q1 := Step(q, ops[0]);
      assert Valid(q1);
      assert q1.emitted + q1.held == q.emitted + q.held + (if ops[0].EmitOp? then [ops[0].signal] else []);
      RunKeepsOrder(q1, ops[1..]);
    }
  }

  /** Once the last freeze is undone, every signal has been emitted, in the order of the calls. */
  lemma Thawed(q: Queue, ops: seq<Op>)
    requires Valid(q) && Run(q, ops).frozen == 0
    ensures Run(q, ops).held == [] && Run(q, ops).emitted == q.emitted + q.held + Emitted(ops)
  {
    RunKeepsOrder(q, ops);
  }

  // ---------------------------------------------------------------------------
  // Memberships

  /** The membership a role added by the server clears first. */
  function Conflict(r: Role): set<Role> {
    match r
    case Allow => {Block}
    case Block => {Allow}
    case Forward => {Pending}
    case Pending => {Forward}
    case Reverse => {}
  }

  predicate NoConflict(ms: set<Role>) {
    !(Allow in ms && Block in ms) && !(Forward in ms && Pending in ms)
  }

  /** A sharing-service member: a Passport member (MSN), an e-mail member (external), or some
      other kind, which is skipped. `roles` holds the role names with their deleted flags. */
  datatype MemberKind = PassportMember | EmailMember | OtherMember

  datatype Member = Member(kind: MemberKind, account: string, hidden: bool, displayName: string, roles: seq<(string, bool)>)

  datatype UpdateError = UnknownRole(name: string)

  function RoleOf(name: string): Option<Role> {
    if name == "Allow" then Some(Allow)
    else if name == "Block" then Some(Block)
    else if name == "Reverse" then Some(Reverse)
    else if name == "Pending" then Some(Pending)
    else None
  }

  /** The member's roles by name; a name outside the table is an error. */
  function ParseRoles(roles: seq<(string, bool)>): (r: Result<seq<(Role, bool)>, UpdateError>)
    ensures r.Success? <==> forall i :: 0 <= i < |roles| ==> RoleOf(roles[i].0).Some?
    ensures r.Success? ==> |r.value| == |roles| && forall i :: 0 <= i < |roles| ==> r.value[i] == (RoleOf(roles[i].0).value, roles[i].1)
    decreases |roles|
  {
    if |roles| == 0 then Success([])
    else match RoleOf(roles[0].0)
      case None => Failure(UnknownRole(roles[0].0))
      case Some(role) =>
        var rest :- ParseRoles(roles[1..]);
        Success([(role, roles[0].1)] + rest)
  }

  /** One role of a member: a deleted role is collected for removal; any other first clears
      its conflicting membership and is then added. */
  function ApplyRole(ms: set<Role>, role: (Role, bool)): set<Role> {
    if role.1 then ms else ms - Conflict(role.0) + {role.0}
  }

  /** The roles applied in order, with the set of deleted roles. */
  function ApplyRoles(ms: set<Role>, roles: seq<(Role, bool)>): (r: (set<Role>, set<Role>))
    ensures forall d :: d in r.1 <==> exists i :: 0 <= i < |roles| && roles[i] == (d, true)
    decreases |roles|
  {
    if |roles| == 0 then (ms, {})
    else
      var rest := ApplyRoles(ApplyRole(ms, roles[0]), roles[1..]);
      assert forall i :: 0 < i < |roles| ==> roles[i] == roles[1..][i - 1];
      (rest.0, rest.1 + (if roles[0].1 then {roles[0].0} else {}))
  }

  /** Whether a role decides about `r`: it adds `r`, or adds what conflicts with `r`. */
  predicate Touches(role: (Role, bool), r: Role) {
    !role.1 && (role.0 == r || r in Conflict(role.0))
  }

  /** Independently of the order of application: `r` is held afterwards exactly when the last
      role that touches it adds it, or when no role touches it and it was held before. */
  predicate HeldAfter(ms: set<Role>, roles: seq<(Role, bool)>, r: Role) {
    if exists i :: 0 <= i < |roles| && Touches(roles[i], r) then
      exists i :: 0 <= i < |roles| && Touches(roles[i], r) && roles[i].0 == r
                  && forall j :: i < j < |roles| ==> !Touches(roles[j], r)
    else r in ms
  }

  /** When a later role touches `r`, the first role does not decide about it. */
  lemma HeldAfterLater(ms: set<Role>, ms1: set<Role>, roles: seq<(Role, bool)>, r: Role, k: nat)
    requires 0 < k < |roles| && Touches(roles[k], r)
    ensures HeldAfter(ms1, roles[1..], r) == HeldAfter(ms, roles, r)
  {
    var tail := roles[1..];
    assert Touches(tail[k - 1], r);
    if HeldAfter(ms1, tail, r) {
      LastInTail(roles, r);
    }
    if HeldAfter(ms, roles, r) {
      LastInRoles(roles, r, k);
    }
  }

  lemma LastInTail(roles: seq<(Role, bool)>, r: Role)
    requires |roles| > 0
    requires exists i :: 0 <= i < |roles[1..]| && Touches(roles[1..][i], r) && roles[1..][i].0 == r
               && forall j :: i < j < |roles[1..]| ==> !Touches(roles[1..][j], r)
    ensures exists i :: 0 <= i < |roles| && Touches(roles[i], r) && roles[i].0 == r
              && forall j :: i < j < |roles| ==> !Touches(roles[j], r)
  {
    var tail := roles[1..];
    var i :| 0 <= i < |tail| && Touches(tail[i], r) && tail[i].0 == r
             && forall j :: i < j < |tail| ==> !Touches(tail[j], r);
    assert roles[i + 1] == tail[i];
    assert forall j :: i + 1 < j < |roles| ==> roles[j] == tail[j - 1];
  }

  lemma LastInRoles(roles: seq<(Role, bool)>, r: Role, k: nat)
    requires 0 < k < |roles| && Touches(roles[k], r)
    requires exists i :: 0 <= i < |roles| && Touches(roles[i], r) && roles[i].0 == r
               && forall j :: i < j < |roles| ==> !Touches(roles[j], r)
    ensures exists i :: 0 <= i < |roles[1..]| && Touches(roles[1..][i], r) && roles[1..][i].0 == r
              && forall j :: i < j < |roles[1..]| ==> !Touches(roles[1..][j], r)
  {
    var tail := roles[1..];
    var i :| 0 <= i < |roles| && Touches(roles[i], r) && roles[i].0 == r
             && forall j :: i < j < |roles| ==> !Touches(roles[j], r);
    assert i > 0;
    assert tail[i - 1] == roles[i];
    assert forall j :: i - 1 < j < |tail| ==> tail[j] == roles[j + 1];
  }

  /** When no later role touches `r`, the first role decides, or else the set before. */
  lemma HeldAfterFirst(ms: set<Role>, roles: seq<(Role, bool)>, r: Role)
    requires |roles| > 0 && forall j :: 0 < j < |roles| ==> !Touches(roles[j], r)
    ensures HeldAfter(ms, roles, r) == (r in ApplyRole(ms, roles[0]))
    ensures HeldAfter(ApplyRole(ms, roles[0]), roles[1..], r) == (r in ApplyRole(ms, roles[0]))
  {
    var tail := roles[1..];
    assert forall j :: 0 <= j < |tail| ==> tail[j] == roles[j + 1];
    if Touches(roles[0], r) && roles[0].0 == r {
      assert HeldAfter(ms, roles, r);
    }
  }

  lemma {:induction false} ApplyRolesHolds(ms: set<Role>, roles: seq<(Role, bool)>, r: Role)
    ensures r in ApplyRoles(ms, roles).0 <==> HeldAfter(ms, roles, r)
    decreases |roles|
  {
    if |roles| > 0 {
      var ms1 := ApplyRole(ms, roles[0]);
      ApplyRolesHolds(ms1, roles[1..], r);
      if exists k :: 0 < k < |roles| && Touches(roles[k], r) {
        var k :| 0 < k < |roles| && Touches(roles[k], r);
        HeldAfterLater(ms, ms1, roles, r, k);
      } else {
        HeldAfterFirst(ms, roles, r);
      }
    }
  }

  /** Adding roles never leaves a contact both allowed and blocked, nor both on the forward
      list and pending. */
  lemma {:induction false} ApplyRolesNoConflict(ms: set<Role>, roles: seq<(Role, bool)>)
    requires NoConflict(ms)
    ensures NoConflict(ApplyRoles(ms, roles).0)
    decreases |roles|
  {
    if |roles| > 0 {
      ApplyRolesNoConflict(ApplyRole(ms, roles[0]), roles[1..]);
    }
  }

  /** The address book as membership updates see it. */
  datatype Book = Book(state: SyncState, profile: Contact, contacts: seq<Contact>, signals: Queue)

  function RemoveAt(contacts: seq<Contact>, i: nat): (r: seq<Contact>)
    requires i < |contacts|
    ensures |r| == |contacts| - 1
    ensures forall j :: 0 <= j < |r| ==> r[j] == (if j < i then contacts[j] else contacts[j + 1])
  {
    contacts[..i] + contacts[i + 1..]
  }

  /** `__remove_contact`: the memberships are removed; a contact left with none is dropped
      from the storage, and `contact-deleted` is emitted only when the forward membership of a
      contact holding it is removed. */
  function RemoveContact(b: Book, i: nat, removed: set<Role>): (r: Book)
    requires i < |b.contacts|
    ensures var c := b.contacts[i];
      && (c.memberships - removed == {} ==> r.contacts == RemoveAt(b.contacts, i))
      && (c.memberships - removed != {} ==> r.contacts == b.contacts[i := c.(memberships := c.memberships - removed)])
    ensures var c := b.contacts[i];
      r.signals == if Forward in removed && Forward in c.memberships then Emit(b.signals, ContactDeleted(c.account)) else b.signals
    ensures r.state == b.state && r.profile == b.profile
  {
    var c := b.contacts[i];
    var emitDeleted := Forward in removed && Forward in c.memberships;
    var ms := c.memberships - removed;
    var contacts := if ms == {} then RemoveAt(b.contacts, i) else b.contacts[i := c.(memberships := ms)];
    b.(contacts := contacts, signals := if emitDeleted then Emit(b.signals, ContactDeleted(c.account)) else b.signals)
  }

  /** Whether every role of the member is deleted (also when it has none). */
  predicate AllDeleted(roles: seq<(string, bool)>) {
    forall i :: 0 <= i < |roles| ==> roles[i].1
  }

  function MemberNetwork(kind: MemberKind): Option<Network> {
    match kind
    case PassportMember => Some(Msn)
    case EmailMember => Some(External)
    case OtherMember => None
  }

  /** A contact created for an unknown member: no memberships yet, named by its display name or
      else its account. */
  function NewContact(m: Member, network: Network): Contact {
    Contact(m.account, network, if m.displayName == "" then m.account else m.displayName, {}, {})
  }

  /** The roles applied to the stored contact at `i`, deleted roles removed, then the pending
      and added signals, which are not emitted during the initial synchronisation. */
  function UpdateStored(b: Book, i: nat, m: Member, isNew: bool): (r: Result<Book, UpdateError>)
    requires i < |b.contacts|
    ensures r.Success? <==> ParseRoles(m.roles).Success?
  {
    var roles :- ParseRoles(m.roles);
    var c := b.contacts[i];
    var (ms, deleted) := ApplyRoles(c.memberships, roles);
    var b1 := b.(contacts := b.contacts[i := c.(memberships := ms)]);
    var b2 := if deleted != {} then RemoveContact(b1, i, deleted) else b1;
    var quiet := b.state == InitialSync;
    var q1 := if !quiet && Pending in ms - deleted then Emit(b2.signals, ContactPending(c.account)) else b2.signals;
    var q2 := if !quiet && isNew then Emit(q1, ContactAdded(c.account)) else q1;
    Success(b2.(signals := q2))
  }

  /** One member of `__update_memberships`. Members of another kind, Passport members with a
      hidden name, unknown members whose roles are all deleted, and the own profile are left
      alone; an unknown member is otherwise added as a new contact first. */
  function UpdateMember(b: Book, m: Member): (r: Result<Book, UpdateError>)
    ensures m.kind.OtherMember? ==> r == Success(b)
    ensures m.kind.PassportMember? && m.hidden ==> r == Success(b)
    ensures MemberNetwork(m.kind).Some? && IsOwn(b.profile, m.account, MemberNetwork(m.kind).value) ==> r == Success(b)
    ensures (MemberNetwork(m.kind).Some? && AllDeleted(m.roles)
             && FindContact(b.contacts, m.account, MemberNetwork(m.kind).value).None?) ==> r == Success(b)
    ensures r.Failure? ==> r.error.UnknownRole?
  {
    match MemberNetwork(m.kind)
    case None => Success(b)
    case Some(network) =>
      if network == Msn && m.hidden then Success(b)
      else if IsOwn(b.profile, m.account, network) then Success(b)
      else match FindContact(b.contacts, m.account, network)
        case Some(i) => UpdateStored(b, i, m, false)
        case None =>
          if AllDeleted(m.roles) then Success(b)
          else UpdateStored(b.(contacts := b.contacts + [NewContact(m, network)]), |b.contacts|, m, true)
  }

  /** `__update_memberships`: the members in order; an unknown role name ends the update. */
  function UpdateMemberships(b: Book, members: seq<Member>): Result<Book, UpdateError>
    decreases |members|
  {
    if |members| == 0 then Success(b)
    else
      var b1 :- UpdateMember(b, members[0]);
      UpdateMemberships(b1, members[1..])
  }

  /** What a book keeps across updates: no contact holds conflicting memberships, every stored
      contact holds some membership, and nothing is held back unless the book is frozen. */
  predicate Consistent(b: Book) {
    && Valid(b.signals)
    && forall i :: 0 <= i < |b.contacts| ==> NoConflict(b.contacts[i].memberships) && b.contacts[i].memberships != {}
  }

  /** A contact never loses its last membership to an added role: the set empties only when
      it was empty and no role was added. */
  lemma {:induction false} ApplyRolesNonEmpty(ms: set<Role>, roles: seq<(Role, bool)>)
    ensures ApplyRoles(ms, roles).0 == {} ==> ms == {} && forall i :: 0 <= i < |roles| ==> roles[i].1
    decreases |roles|
  {
    if |roles| > 0 {
      ApplyRolesNonEmpty(ApplyRole(ms, roles[0]), roles[1..]);
      if !roles[0].1 {
        assert roles[0].0 in ApplyRole(ms, roles[0]);
      }
      assert forall i :: 0 < i < |roles| ==> roles[i] == roles[1..][i - 1];
    }
  }

  lemma RemoveContactConsistent(b: Book, i: nat, removed: set<Role>)
    requires i < |b.contacts| && Consistent(b)
    ensures Consistent(RemoveContact(b, i, removed))
  {
    var r := RemoveContact(b, i, removed);
    var c := b.contacts[i];
    if c.memberships - removed == {} {
      forall j | 0 <= j < |r.contacts| ensures NoConflict(r.contacts[j].memberships) && r.contacts[j].memberships != {} {
        if j >= i { assert r.contacts[j] == b.contacts[j + 1]; }
      }
    }
  }

  lemma UpdateStoredConsistent(b: Book, i: nat, m: Member, isNew: bool)
    requires i < |b.contacts| && Valid(b.signals)
    requires forall j :: 0 <= j < |b.contacts| && j != i ==> NoConflict(b.contacts[j].memberships) && b.contacts[j].memberships != {}
    requires NoConflict(b.contacts[i].memberships)
    requires b.contacts[i].memberships != {} || !AllDeleted(m.roles)
    ensures UpdateStored(b, i, m, isNew).Success? ==> Consistent(UpdateStored(b, i, m, isNew).value)
  {
    match ParseRoles(m.roles)
    case Failure(_) =>
    case Success(roles) =>
      var c := b.contacts[i];
      var (ms, deleted) := ApplyRoles(c.memberships, roles);
      ApplyRolesNoConflict(c.memberships, roles);
      ApplyRolesNonEmpty(c.memberships, roles);
      var b1 := b.(contacts := b.contacts[i := c.(memberships := ms)]);
      assert ms != {};
      assert Consistent(b1);
      if deleted != {} {
        RemoveContactConsistent(b1, i, deleted);
      }
  }

  /** Membership updates keep the book consistent. */
  lemma UpdateMemberConsistent(b: Book, m: Member)
    requires Consistent(b)
    ensures UpdateMember(b, m).Success? ==> Consistent(UpdateMember(b, m).value)
  {
    match MemberNetwork(m.kind)
    case None =>
    case Some(network) =>
      if !(network == Msn && m.hidden) && !IsOwn(b.profile, m.account, network) {
        match FindContact(b.contacts, m.account, network)
        case Some(i) => UpdateStoredConsistent(b, i, m, false);
        case None =>
          if !AllDeleted(m.roles) {
            var b1 := b.(contacts := b.contacts + [NewContact(m, network)]);
            UpdateStoredConsistent(b1, |b.contacts|, m, true);
          }
      }
  }

  lemma {:induction false} UpdateMembershipsConsistent(b: Book, members: seq<Member>)
    requires Consistent(b)
    ensures UpdateMemberships(b, members).Success? ==> Consistent(UpdateMemberships(b, members).value)
    decreases |members|
  {
    if |members| > 0 {
      UpdateMemberConsistent(b, members[0]);
      if UpdateMember(b, members[0]).Success? {
        UpdateMembershipsConsistent(UpdateMember(b, members[0]).value, members[1..]);
      }
    }
  }

  /** Everything emitted so far, followed by what is held back. */
  function Delivered(q: Queue): seq<Signal> {
    q.emitted + q.held
  }

  /** What an update adds to the signals: nothing but a deletion during the initial
      synchronisation, and never an emission while the book is frozen. */
  predicate Announces(before: Queue, after: Queue, quiet: bool) {
    && after.frozen == before.frozen
    && (Valid(before) ==> Valid(after))
    && Delivered(before) <= Delivered(after)
    && (before.frozen > 0 ==> after.emitted == before.emitted)
    && (quiet ==> forall k :: |Delivered(before)| <= k < |Delivered(after)| ==> Delivered(after)[k].ContactDeleted?)
  }

  lemma AnnouncesTrans(q1: Queue, q2: Queue, q3: Queue, quiet: bool)
    requires Announces(q1, q2, quiet) && Announces(q2, q3, quiet)
    ensures Announces(q1, q3, quiet)
  {
    if quiet {
      forall k | |Delivered(q1)| <= k < |Delivered(q3)| ensures Delivered(q3)[k].ContactDeleted? {
        if k < |Delivered(q2)| {
          assert Delivered(q3)[k] == Delivered(q2)[k];
        }
      }
    }
  }

  lemma EmitAnnounces(q: Queue, sig: Signal, quiet: bool)
    requires Valid(q)
    requires quiet ==> sig.ContactDeleted?
    ensures Announces(q, Emit(q, sig), quiet)
  {
    assert Delivered(Emit(q, sig)) == Delivered(q) + [sig];
  }

  /** The signals one stored member update adds, given the memberships `ms` after applying its
      roles and the roles `deleted` among them. */
  function UpdateSignals(q: Queue, account: string, ms: set<Role>, deleted: set<Role>, quiet: bool, isNew: bool): Queue {
    var q0 := if deleted != {} && Forward in deleted && Forward in ms then Emit(q, ContactDeleted(account)) else q;
    var q1 := if !quiet && Pending in ms - deleted then Emit(q0, ContactPending(account)) else q0;
    if !quiet && isNew then Emit(q1, ContactAdded(account)) else q1
  }

  /** `UpdateStored` leaves the state and profile alone, and its signals are `UpdateSignals`. */
  lemma UpdateStoredSignals(b: Book, i: nat, m: Member, isNew: bool)
    requires i < |b.contacts|
    ensures var r := UpdateStored(b, i, m, isNew);
      r.Success? ==> && ParseRoles(m.roles).Success?
                     && var applied := ApplyRoles(b.contacts[i].memberships, ParseRoles(m.roles).value);
                        && r.value.state == b.state && r.value.profile == b.profile
                        && r.value.signals == UpdateSignals(b.signals, b.contacts[i].account, applied.0, applied.1,
                                                            b.state == InitialSync, isNew)
  {
    match ParseRoles(m.roles)
    case Failure(_) =>
    case Success(roles) =>
      var c := b.contacts[i];
      var (ms, deleted) := ApplyRoles(c.memberships, roles);
      var b1 := b.(contacts := b.contacts[i := c.(memberships := ms)]);
      assert b1.contacts[i] == c.(memberships := ms);
  }

  lemma UpdateSignalsAnnounce(q: Queue, account: string, ms: set<Role>, deleted: set<Role>, quiet: bool, isNew: bool)
    requires Valid(q)
    ensures Announces(q, UpdateSignals(q, account, ms, deleted, quiet, isNew), quiet)
  {
    var q0 := if deleted != {} && Forward in deleted && Forward in ms then Emit(q, ContactDeleted(account)) else q;
    if deleted != {} && Forward in deleted && Forward in ms {
      EmitAnnounces(q, ContactDeleted(account), quiet);
    }
    var q1 := if !quiet && Pending in ms - deleted then Emit(q0, ContactPending(account)) else q0;
    if !quiet && Pending in ms - deleted {
      EmitAnnounces(q0, ContactPending(account), quiet);
    }
    AnnouncesTrans(q, q0, q1, quiet);
    if !quiet && isNew {
      EmitAnnounces(q1, ContactAdded(account), quiet);
      AnnouncesTrans(q, q1, Emit(q1, ContactAdded(account)), quiet);
    }
  }

  lemma UpdateStoredAnnounces(b: Book, i: nat, m: Member, isNew: bool)
    requires i < |b.contacts| && Valid(b.signals)
    ensures var r := UpdateStored(b, i, m, isNew);
      r.Success? ==> (r.value.state == b.state && r.value.profile == b.profile
                      && Announces(b.signals, r.value.signals, b.state == InitialSync))
  {
    UpdateStoredSignals(b, i, m, isNew);
    match ParseRoles(m.roles)
    case Failure(_) =>
    case Success(roles) =>
      var applied := ApplyRoles(b.contacts[i].memberships, roles);
      UpdateSignalsAnnounce(b.signals, b.contacts[i].account, applied.0, applied.1, b.state == InitialSync, isNew);
  }

  lemma UpdateMemberAnnounces(b: Book, m: Member)
    requires Valid(b.signals)
    ensures var r := UpdateMember(b, m);
      r.Success? ==> (r.value.state == b.state && r.value.profile == b.profile
                      && Announces(b.signals, r.value.signals, b.state == InitialSync))
  {
    match MemberNetwork(m.kind)
    case None =>
    case Some(network) =>
      if !(network == Msn && m.hidden) && !IsOwn(b.profile, m.account, network) {
        match FindContact(b.contacts, m.account, network)
        case Some(i) => UpdateStoredAnnounces(b, i, m, false);
        case None =>
          if !AllDeleted(m.roles) {
            UpdateStoredAnnounces(b.(contacts := b.contacts + [NewContact(m, network)]), |b.contacts|, m, true);
          }
      }
  }

  /** Membership updates keep the freeze depth, only ever add signals, and during the initial
      synchronisation add nothing but deletions. */
  lemma {:induction false} UpdateMembershipsAnnounce(b: Book, members: seq<Member>)
    requires Valid(b.signals)
    ensures var r := UpdateMemberships(b, members);
      r.Success? ==> r.value.state == b.state && Announces(b.signals, r.value.signals, b.state == InitialSync)
    decreases |members|
  {
    if |members| > 0 {
      UpdateMemberAnnounces(b, members[0]);
      match UpdateMember(b, members[0])
      case Failure(_) =>
      case Success(b1) =>
        UpdateMembershipsAnnounce(b1, members[1..]);
        if UpdateMemberships(b1, members[1..]).Success? {
          AnnouncesTrans(b.signals, b1.signals, UpdateMemberships(b1, members[1..]).value.signals, b.state == InitialSync);
        }
    }
  }

  /** Outside the initial synchronisation, a member that is not yet stored and holds a role is
      announced as an added contact. */
  lemma NewMemberAnnounced(b: Book, m: Member, network: Network)
    requires Valid(b.signals)
    requires MemberNetwork(m.kind) == Some(network) && !(network == Msn && m.hidden)
    requires !IsOwn(b.profile, m.account, network) && FindContact(b.contacts, m.account, network).None?
    requires !AllDeleted(m.roles) && b.state != InitialSync
    ensures var r := UpdateMember(b, m);
      r.Success? ==> var d := Delivered(r.value.signals); |d| > 0 && d[|d| - 1] == ContactAdded(m.account)
  {
    var b0 := b.(contacts := b.contacts + [NewContact(m, network)]);
    var i := |b.contacts|;
    assert UpdateMember(b, m) == UpdateStored(b0, i, m, true);
    UpdateStoredSignals(b0, i, m, true);
    match ParseRoles(m.roles)
    case Failure(_) =>
    case Success(roles) =>
      var applied := ApplyRoles(b0.contacts[i].memberships, roles);
      UpdateSignalsLast(b.signals, m.account, applied.0, applied.1);
  }

  lemma UpdateSignalsLast(q: Queue, account: string, ms: set<Role>, deleted: set<Role>)
    requires Valid(q)
    ensures var d := Delivered(UpdateSignals(q, account, ms, deleted, false, true));
      |d| > 0 && d[|d| - 1] == ContactAdded(account)
  {
    var q0 := if deleted != {} && Forward in deleted && Forward in ms then Emit(q, ContactDeleted(account)) else q;
    var q1 := if Pending in ms - deleted then Emit(q0, ContactPending(account)) else q0;
    assert Valid(q1);
    assert Delivered(Emit(q1, ContactAdded(account))) == Delivered(q1) + [ContactAdded(account)];
  }


  /** The success callback of `sync`, for its membership part: the book is frozen, the
      memberships are updated, the book is thawed, marked synchronised, and `sync` emitted.
      The address-book part of the answer (`__update_address_book`) is not modelled. */
  function SyncCallback(b: Book, members: seq<Member>): Result<Book, UpdateError> {
    var b1 :- UpdateMemberships(b.(signals := Freeze(b.signals)), members);
    Success(b1.(state := Synchronized, signals := Emit(Unfreeze(b1.signals), Synced)))
  }

  /** After a synchronisation of a book that was not frozen, nothing is held back, every
      signal the update raised has been emitted in order, and `sync` comes last. */
  lemma SyncCallbackReplays(b: Book, members: seq<Member>)
    requires Valid(b.signals) && b.signals.frozen == 0
    ensures var r := SyncCallback(b, members);
      r.Success? ==> (r.value.state == Synchronized && r.value.signals.frozen == 0 && r.value.signals.held == []
                      && Delivered(b.signals) <= r.value.signals.emitted
                      && r.value.signals.emitted[|r.value.signals.emitted| - 1] == Synced)
  {
    var b0 := b.(signals := Freeze(b.signals));
    UpdateMembershipsAnnounce(b0, members);
    match UpdateMemberships(b0, members)
    case Failure(_) =>
    case Success(b1) =>
      var q := Unfreeze(b1.signals);
      assert q.frozen == 0 && q.held == [];
      assert Delivered(b1.signals) == q.emitted;
  }
}

=== FILE: base64.dfy ===
/** Base64 text (section 4 of RFC 4648), as written by Python's `base64.b64encode` for the
    `Context` header of SLP bodies: every three bytes become four characters of a 64-letter
    alphabet, and a short final group is padded with `=`. */
module Base64 {
  import opened Results
  import opened Bytes

  type sextet = v: int | 0 <= v < 64

  /** The letter for a 6-bit value: `A`-`Z`, `a`-`z`, `0`-`9`, `+`, `/`. */
  function Letter(v: sextet): char {
    if v < 26 then ('A' as int + v) as char
    else if v < 52 then ('a' as int + (v - 26)) as char
    else if v < 62 then ('0' as int + (v - 52)) as char
    else if v == 62 then '+'
    else '/'
  }

  /** The 6-bit value of a letter of the alphabet; `None` for any other character. */
  function Value(c: char): (r: Option<sextet>)
    ensures r.Some? ==> Letter(r.value) == c
  {
    if 'A' <= c <= 'Z' then Some(c as int - 'A' as int)
    else if 'a' <= c <= 'z' then Some(c as int - 'a' as int + 26)
    else if '0' <= c <= '9' then Some(c as int - '0' as int + 52)
    else if c == '+' then Some(62)
    else if c == '/' then Some(63)
    else None
  }

  lemma ValueLetter(v: sextet)
    ensures Value(Letter(v)) == Some(v)
  {
  }

  /** Characters that may occur in encoded text: the alphabet and the pad. */
  predicate Encoded(c: char) {
    Value(c).Some? || c == '='
  }

  /** Three bytes as four letters: the 24 bits cut into four 6-bit values. */
  function Group(a: byte, b: byte, c: byte): string {
    [Letter(a / 4), Letter((a % 4) * 16 + b / 16), Letter((b % 16) * 4 + c / 64), Letter(c % 64)]
  }

  /** `base64.b64encode`. */
  function Encode(bs: seq<byte>): (r: string)
    ensures |r| == (|bs| + 2) / 3 * 4
    ensures forall i :: 0 <= i < |r| ==> Encoded(r[i])
    decreases |bs|
  {
    if |bs| >= 3 then
      var g := Group(bs[0], bs[1], bs[2]);
      var rest := Encode(bs[3..]);
      GroupEncoded(bs[0], bs[1], bs[2]);
      EncodedAppend(g, rest);
      EncodedLength(|bs|);
      g + rest
    else if |bs| == 2 then
      TwoEncoded(bs[0], bs[1]);
      [Letter(bs[0] / 4), Letter((bs[0] % 4) * 16 + bs[1] / 16), Letter((bs[1] % 16) * 4), '=']
    else if |bs| == 1 then
      ValueLetter(bs[0] / 4);
      ValueLetter((bs[0] % 4) * 16);
      [Letter(bs[0] / 4), Letter((bs[0] % 4) * 16), '=', '=']
    else []
  }

  lemma EncodedLength(n: nat)
    requires n >= 3
    ensures 4 + (n - 3 + 2) / 3 * 4 == (n + 2) / 3 * 4
  {
  }

  lemma GroupEncoded(a: byte, b: byte, c: byte)
    ensures forall i :: 0 <= i < 4 ==> Encoded(Group(a, b, c)[i])
  {
    ValueLetter(a / 4);
    ValueLetter((a % 4) * 16 + b / 16);
    ValueLetter((b % 16) * 4 + c / 64);
    ValueLetter(c % 64);
  }

  lemma TwoEncoded(a: byte, b: byte)
    ensures Encoded(Letter(a / 4)) && Encoded(Letter((a % 4) * 16 + b / 16)) && Encoded(Letter((b % 16) * 4))
  {
    ValueLetter(a / 4);
    ValueLetter((a % 4) * 16 + b / 16);
    ValueLetter((b % 16) * 4);
  }

  lemma EncodedAppend(a: string, b: string)
    requires forall i :: 0 <= i < |a| ==> Encoded(a[i])
    requires forall i :: 0 <= i < |b| ==> Encoded(b[i])
    ensures forall i :: 0 <= i < |a + b| ==> Encoded((a + b)[i])
  {
  }

  /** Four letters back to three bytes. */
  function DecodeGroup(s: string): (r: Option<seq<byte>>)
    requires |s| == 4
    ensures r.Some? ==> |r.value| == 3
  {
    var v0 :- Value(s[0]);
    var v1 :- Value(s[1]);
    var v2 :- Value(s[2]);
    var v3 :- Value(s[3]);
    Some([v0 * 4 + v1 / 16, (v1 % 16) * 16 + v2 / 4, (v2 % 4) * 64 + v3])
  }

  /** The final group: `xx==` carries one byte, `xxx=` two, and `xxxx` three. */
  function DecodeLast(s: string): (r: Option<seq<byte>>)
    requires |s| == 4
    ensures r.Some? ==> 1 <= |r.value| <= 3
  {
    if s[3] != '=' then DecodeGroup(s)
    else
      var v0 :- Value(s[0]);
      var v1 :- Value(s[1]);
      if s[2] == '=' then Some([v0 * 4 + v1 / 16])
      else
        var v2 :- Value(s[2]);
        Some([v0 * 4 + v1 / 16, (v1 % 16) * 16 + v2 / 4])
  }

  /** Strict decoding: text whose length is a multiple of four, all letters except for
      padding in the final group; `None` otherwise. */
  function Decode(s: string): (r: Option<seq<byte>>)
    ensures r.Some? ==> |s| % 4 == 0
    decreases |s|
  {
    if s == [] then Some([])
    else if |s| < 4 then None
    else if |s| == 4 then DecodeLast(s)
    else
      var g :- DecodeGroup(s[..4]);
      var rest :- Decode(s[4..]);
      Some(g + rest)
  }

  lemma GroupBytes(a: byte, b: byte, c: byte)
    ensures DecodeGroup(Group(a, b, c)) == Some([a, b, c])
  {
    var v0, v1, v2, v3 := a / 4, (a % 4) * 16 + b / 16, (b % 16) * 4 + c / 64, c % 64;
    ValueLetter(v0); ValueLetter(v1); ValueLetter(v2); ValueLetter(v3);
    assert v1 / 16 == a % 4 && v1 % 16 == b / 16;
    assert v2 / 4 == b % 16 && v2 % 4 == c / 64;
  }

  lemma TwoBytes(a: byte, b: byte)
    ensures DecodeLast([Letter(a / 4), Letter((a % 4) * 16 + b / 16), Letter((b % 16) * 4), '='])
            == Some([a, b])
  {
    var v0, v1, v2 := a / 4, (a % 4) * 16 + b / 16, (b % 16) * 4;
    ValueLetter(v0); ValueLetter(v1); ValueLetter(v2);
    assert v1 / 16 == a % 4 && v1 % 16 == b / 16;
    assert v2 / 4 == b % 16;
  }

  lemma OneByte(a: byte)
    ensures DecodeLast([Letter(a / 4), Letter((a % 4) * 16), '=', '=']) == Some([a])
  {
    var v0, v1 := a / 4, (a % 4) * 16;
    ValueLetter(v0); ValueLetter(v1);
    assert v1 / 16 == a % 4;
  }

  /** Decoding undoes encoding. */
  lemma {:induction false} DecodeEncode(bs: seq<byte>)
    ensures Decode(Encode(bs)) == Some(bs)
    decreases |bs|
  {
    if |bs| > 3 {
      DecodeEncode(bs[3..]);
      DecodeGroupThen(bs);
    } else if |bs| == 3 {
      DecodeThree(bs);
    } else if |bs| == 2 {
      TwoBytes(bs[0], bs[1]);
      assert bs == [bs[0], bs[1]];
    } else if |bs| == 1 {
      OneByte(bs[0]);
      assert bs == [bs[0]];
    }
  }

  /** A full group followed by more text decodes to its three bytes and then the rest. */
  lemma DecodeGroupThen(bs: seq<byte>)
    requires |bs| > 3 && Decode(Encode(bs[3..])) == Some(bs[3..])
    ensures Decode(Encode(bs)) == Some(bs)
  {
    var g := Group(bs[0], bs[1], bs[2]);
    var s := Encode(bs);
    var rest := Encode(bs[3..]);
    assert (|bs[3..]| + 2) / 3 >= 1;
    assert |rest| >= 4;
    assert s == g + rest;
    assert s[..4] == g && s[4..] == rest;
    GroupBytes(bs[0], bs[1], bs[2]);
    assert Decode(s) == Some([bs[0], bs[1], bs[2]] + bs[3..]);
    FirstThree(bs);
  }

  lemma FirstThree(bs: seq<byte>)
    requires |bs| >= 3
    ensures bs == [bs[0], bs[1], bs[2]] + bs[3..]
  {
  }

  /** Three bytes make one unpadded final group. */
  lemma DecodeThree(bs: seq<byte>)
    requires |bs| == 3
    ensures Decode(Encode(bs)) == Some(bs)
  {
    var s := Encode(bs);
    assert Encode(bs[3..]) == [];
    assert s == Group(bs[0], bs[1], bs[2]);
    GroupBytes(bs[0], bs[1], bs[2]);
    assert s[3] != '=' by { ValueLetter(bs[2] % 64); }
    assert DecodeLast(s) == DecodeGroup(s);
    assert bs == [bs[0], bs[1], bs[2]];
  }
}

=== FILE: blob.dfy ===
/** Blobs: the logical payloads a transport slices into chunks and a receiver reassembles.  A data
    blob holds a byte buffer, its declared total size and the count of bytes transferred so far;
    a control blob wraps one ready-made chunk (an acknowledgement) and is complete once that chunk
    has been handed out.  The blob class itself is not part of this model; its behaviour is the one
    the transports rely on: `get_chunk(max_size)` cuts the next `TLPv1.create` chunk at the
    transferred offset, and `append_chunk` writes a chunk's payload at its offset. */
module Blob {
  import opened Bytes
  import TLPv1

  datatype Blob =
    | Data(appId: nat, sessionId: u32, blobId: u32, data: seq<byte>, totalSize: u64, transferred: nat)
    | Control(chunk: TLPv1.Chunk, sent: bool)

  predicate IsDataBlob(b: Blob) { b.Data? }
  predicate IsControlBlob(b: Blob) { b.Control? }

  function SessionId(b: Blob): u32 {
    match b
    case Data(_, sid, _, _, _, _) => sid
    case Control(c, _) => c.header.sessionId
  }

  predicate IsComplete(b: Blob) {
    match b
    case Data(_, _, _, _, size, transferred) => transferred == size
    case Control(_, sent) => sent
  }

  /** An outbound data blob whose bytes are all in its buffer and not all yet cut. */
  predicate Sendable(b: Blob) {
    b.Data? ==> b.transferred <= b.totalSize <= |b.data|
  }

  /** A fresh outbound blob carrying `data`. */
  function Outbound(appId: nat, sessionId: u32, blobId: u32, data: seq<byte>): (b: Blob)
    requires |data| < U64_LIMIT
    ensures Sendable(b) && b.Data? && b.transferred == 0 && b.totalSize == |data|
    ensures IsComplete(b) <==> |data| == 0
  {
    Data(appId, sessionId, blobId, data, |data|, 0)
  }

  /** A fresh inbound blob expecting `totalSize` bytes, with `buffer` as its initial buffer. */
  function Inbound(appId: nat, sessionId: u32, blobId: u32, buffer: seq<byte>, totalSize: u64): (b: Blob)
    ensures b.Data? && b.transferred == 0 && b.data == buffer
  {
    Data(appId, sessionId, blobId, buffer, totalSize, 0)
  }

  /** Cuts the next chunk of at most `maxSize` bytes (header included) and advances the blob. */
  function GetChunk(b: Blob, maxSize: nat): (r: (TLPv1.Chunk, Blob))
    requires Sendable(b) && maxSize > TLPv1.HEADER_SIZE
    ensures b.Control? ==> r.0 == b.chunk && r.1 == b.(sent := true) && IsComplete(r.1)
    ensures b.Data? ==>
      var c := r.0;
      && r.1 == b.(transferred := b.transferred + |c.body|)
      && Sendable(r.1)
      && c.header.offset == b.transferred && c.header.chunkSize == |c.body|
      && c.body == b.data[b.transferred..b.transferred + |c.body|]
      && TLPv1.HEADER_SIZE + |c.body| <= maxSize
      && c.header.sessionId == b.sessionId && c.header.blobId == b.blobId
      && c.header.blobSize == b.totalSize && c.appId == b.appId
      && (b.transferred < b.totalSize ==> |c.body| > 0)
      && !TLPv1.IsControl(c)
      && (IsComplete(r.1) <==> TLPv1.RequireAck(c))
  {
    match b
    case Control(c, _) => (c, b.(sent := true))
    case Data(appId, sid, bid, data, size, transferred) =>
      var c0 := TLPv1.Create(appId, sid, bid, transferred, size, maxSize);
      var body := data[transferred..transferred + c0.header.chunkSize];
      var c := TLPv1.SetData(c0, body);
      (c, b.(transferred := transferred + |body|))
  }

  /** Writes `body` into `buf` at `offset`, growing the buffer with zeros when the offset lies past
      its end (a seek-and-write on an in-memory file). */
  function Overwrite(buf: seq<byte>, offset: nat, body: seq<byte>): (r: seq<byte>)
    ensures |r| == if offset + |body| > |buf| then offset + |body| else |buf|
    ensures r[offset..offset + |body|] == body
    ensures forall i :: 0 <= i < |r| && (i < offset || i >= offset + |body|) ==>
      r[i] == if i < |buf| then buf[i] else 0
  {
    var head := if offset <= |buf| then buf[..offset] else buf + Zeros(offset - |buf|);
    var tail := if offset + |body| < |buf| then buf[offset + |body|..] else [];
    head + body + tail
  }

  /** Appends a received chunk to an inbound data blob. */
  function AppendChunk(b: Blob, c: TLPv1.Chunk): (r: Blob)
    requires b.Data?
    ensures r.Data? && r.transferred == b.transferred + |c.body|
    ensures r.data == Overwrite(b.data, c.header.offset, c.body)
    ensures r.appId == b.appId && r.sessionId == b.sessionId && r.blobId == b.blobId
    ensures r.totalSize == b.totalSize
  {
    b.(data := Overwrite(b.data, c.header.offset, c.body), transferred := b.transferred + |c.body|)
  }

  // ---------------------------------------------------------------------------
  // Slicing a whole blob and reassembling it

  /** All the chunks a transport cuts from `b` until it is complete, in order. */
  function Slice(b: Blob, maxSize: nat): (cs: seq<TLPv1.Chunk>)
    requires b.Data? && Sendable(b) && maxSize > TLPv1.HEADER_SIZE
    decreases b.totalSize - b.transferred
  {
    if IsComplete(b) then []
    else
      var (c, b') := GetChunk(b, maxSize);
      [c] + Slice(b', maxSize)
  }

  /** Appends chunks in order. */
  function AppendAll(b: Blob, cs: seq<TLPv1.Chunk>): (r: Blob)
    requires b.Data?
    ensures r.Data? && r.totalSize == b.totalSize
    decreases |cs|
  {
    if |cs| == 0 then b else AppendAll(AppendChunk(b, cs[0]), cs[1..])
  }

  /** Receiving, in order, the chunks of a blob into an inbound blob that already holds the
      bytes sent so far reproduces the whole payload and completes the inbound blob. */
  lemma {:induction false} ReassembleSlice(out: Blob, inb: Blob, maxSize: nat)
    requires out.Data? && Sendable(out) && maxSize > TLPv1.HEADER_SIZE
    requires out.totalSize == |out.data|
    requires inb.Data? && inb.totalSize == out.totalSize
    requires inb.transferred == out.transferred && inb.data == out.data[..out.transferred]
    ensures AppendAll(inb, Slice(out, maxSize)).data == out.data
    ensures AppendAll(inb, Slice(out, maxSize)).transferred == out.totalSize
    ensures IsComplete(AppendAll(inb, Slice(out, maxSize)))
    decreases out.totalSize - out.transferred
  {
    if IsComplete(out) {
      assert out.data[..out.transferred] == out.data;
    } else {
      var (c, out') := GetChunk(out, maxSize);
      var inb' := AppendChunk(inb, c);
      var t := out.transferred;
      var t' := t + |c.body|;
      assert inb'.data == out.data[..t'] by {
        assert Overwrite(out.data[..t], t, out.data[t..t']) == out.data[..t] + out.data[t..t'];
        assert out.data[..t] + out.data[t..t'] == out.data[..t'];
      }
      ReassembleSlice(out', inb', maxSize);
      assert Slice(out, maxSize)[1..] == Slice(out', maxSize);
    }
  }

  /** A fresh outbound blob, sliced and received into a fresh empty inbound blob of the same size,
      arrives whole. */
  lemma RoundTrip(appId: nat, sessionId: u32, blobId: u32, data: seq<byte>, maxSize: nat)
    requires |data| < U64_LIMIT && maxSize > TLPv1.HEADER_SIZE
    ensures
      var out := Outbound(appId, sessionId, blobId, data);
      var r := AppendAll(Inbound(appId, sessionId, blobId, [], |data|), Slice(out, maxSize));
      r.data == data && IsComplete(r)
  {
    var out := Outbound(appId, sessionId, blobId, data);
    ReassembleSlice(out, Inbound(appId, sessionId, blobId, [], |data|), maxSize);
  }

  /** Chunk payload sizes of a `size`-byte blob from offset `from`, at most `maxSize` bytes per
      chunk with the header. */
  function SliceSizes(size: nat, from: nat, maxSize: nat): seq<nat>
    requires from <= size && maxSize > TLPv1.HEADER_SIZE
    decreases size - from
  {
    if from == size then []
    else
      var k := if size - from < maxSize - TLPv1.HEADER_SIZE then size - from else maxSize - TLPv1.HEADER_SIZE;
      [k] + SliceSizes(size, from + k, maxSize)
  }

  /** The chunk sizes of `Slice` are those of `SliceSizes`. */
  lemma {:induction false} SliceHasSizes(b: Blob, maxSize: nat)
    requires b.Data? && Sendable(b) && maxSize > TLPv1.HEADER_SIZE
    ensures var cs := Slice(b, maxSize);
      |cs| == |SliceSizes(b.totalSize, b.transferred, maxSize)|
      && forall i :: 0 <= i < |cs| ==> |cs[i].body| == SliceSizes(b.totalSize, b.transferred, maxSize)[i]
    decreases b.totalSize - b.transferred
  {
    if !IsComplete(b) {
      var (c, b') := GetChunk(b, maxSize);
      SliceHasSizes(b', maxSize);
      SliceStep(b, maxSize);
      var cs, rest := Slice(b, maxSize), Slice(b', maxSize);
      var ss := SliceSizes(b.totalSize, b.transferred, maxSize);
      forall i | 0 <= i < |cs| ensures |cs[i].body| == ss[i] {
        if i > 0 {
          assert cs[i] == rest[i - 1];
        }
      }
    }
  }

  /** One step of both: the first chunk cut, and its size. */
  lemma SliceStep(b: Blob, maxSize: nat)
    requires b.Data? && Sendable(b) && maxSize > TLPv1.HEADER_SIZE && !IsComplete(b)
    ensures var (c, b') := GetChunk(b, maxSize);
      && Slice(b, maxSize) == [c] + Slice(b', maxSize)
      && SliceSizes(b.totalSize, b.transferred, maxSize) == [|c.body|] + SliceSizes(b'.totalSize, b'.transferred, maxSize)
  {
    var (c, b') := GetChunk(b, maxSize);
    var room := maxSize - TLPv1.HEADER_SIZE;
    var k := if b.totalSize - b.transferred < room then b.totalSize - b.transferred else room;
    assert |c.body| == k;
  }

  /** A 3000-byte blob through 1250-byte chunks (the relay limit) travels as payloads of 1202, 1202
      and 596 bytes: each chunk also carries the 48-byte header. */
  lemma ThreeThousandBytes()
    ensures SliceSizes(3000, 0, 1250) == [1202, 1202, 596]
  {
    assert SliceSizes(3000, 2404, 1250) == [596] + SliceSizes(3000, 3000, 1250);
    assert SliceSizes(3000, 1202, 1250) == [1202] + SliceSizes(3000, 2404, 1250);
  }
}

=== FILE: bytes.dfy ===
/** Octets and the fixed-width integer packings of Python's `struct` module used by the wire
    formats: little-endian (`<L`, `<Q`) and big-endian (`!B`, `!H`, `!I`, `>L`) unsigned
    integers of a given byte width, each with its inverse. */
module Bytes {

  type byte = b: int | 0 <= b < 256

  const U16_LIMIT: int := 0x1_0000
  const U32_LIMIT: int := 0x1_0000_0000
  const U64_LIMIT: int := 0x1_0000_0000_0000_0000

  type u16 = x: int | 0 <= x < U16_LIMIT
  type u32 = x: int | 0 <= x < U32_LIMIT
  type u64 = x: int | 0 <= x < U64_LIMIT

  /** 256 to the power `k`: the number of values a `k`-byte field holds. */
  function Pow256(k: nat): (r: nat)
    ensures r >= 1
  {
    if k == 0 then 1 else 256 * Pow256(k - 1)
  }

  lemma Pow256Widths()
    ensures Pow256(1) == 256 && Pow256(2) == U16_LIMIT
    ensures Pow256(4) == U32_LIMIT && Pow256(8) == U64_LIMIT
  {
    assert Pow256(2) == 256 * 256;
    assert Pow256(4) == 256 * 256 * 256 * 256;
    assert Pow256(8) == 256 * 256 * 256 * 256 * 256 * 256 * 256 * 256;
  }

  /** `n` written in `k` bytes, least significant first. */
  function PackLE(n: nat, k: nat): (r: seq<byte>)
    requires n < Pow256(k)
    ensures |r| == k
  {
    if k == 0 then [] else [n % 256] + PackLE(n / 256, k - 1)
  }

  /** The value of bytes read least significant first. */
  function UnpackLE(bs: seq<byte>): (n: nat)
    ensures n < Pow256(|bs|)
  {
    if |bs| == 0 then 0 else bs[0] + 256 * UnpackLE(bs[1..])
  }

  /** `n` written in `k` bytes, most significant first (network order). */
  function PackBE(n: nat, k: nat): (r: seq<byte>)
    requires n < Pow256(k)
    ensures |r| == k
  {
    if k == 0 then [] else PackBE(n / 256, k - 1) + [n % 256]
  }

  /** The value of bytes read most significant first. */
  function UnpackBE(bs: seq<byte>): (n: nat)
    ensures n < Pow256(|bs|)
  {
    if |bs| == 0 then 0 else 256 * UnpackBE(bs[..|bs| - 1]) + bs[|bs| - 1]
  }

  /** Reading back a little-endian packing gives the packed value. */
  lemma {:induction false} UnpackPackLE(n: nat, k: nat)
    requires n < Pow256(k)
    ensures UnpackLE(PackLE(n, k)) == n
  {
    if k > 0 {
      UnpackPackLE(n / 256, k - 1);
      assert PackLE(n, k)[1..] == PackLE(n / 256, k - 1);
    }
  }

  /** Packing what was read gives back the same bytes. */
  lemma {:induction false} PackUnpackLE(bs: seq<byte>)
    ensures PackLE(UnpackLE(bs), |bs|) == bs
  {
    if |bs| > 0 {
      var n := UnpackLE(bs);
      PackUnpackLE(bs[1..]);
      Digit(UnpackLE(bs[1..]), bs[0]);
      assert bs == [bs[0]] + bs[1..];
    }
  }

  lemma {:induction false} UnpackPackBE(n: nat, k: nat)
    requires n < Pow256(k)
    ensures UnpackBE(PackBE(n, k)) == n
  {
    if k > 0 {
      UnpackPackBE(n / 256, k - 1);
      var r := PackBE(n, k);
      assert r[..|r| - 1] == PackBE(n / 256, k - 1);
    }
  }

  lemma {:induction false} PackUnpackBE(bs: seq<byte>)
    ensures PackBE(UnpackBE(bs), |bs|) == bs
  {
    if |bs| > 0 {
      var init := bs[..|bs| - 1];
      var n := UnpackBE(bs);
      PackUnpackBE(init);
      Digit(UnpackBE(init), bs[|bs| - 1]);
      assert bs == init + [bs[|bs| - 1]];
    }
  }

  /** The low byte and the rest of a base-256 number. */
  lemma Digit(hi: nat, d: byte)
    ensures (256 * hi + d) % 256 == d && (256 * hi + d) / 256 == hi
  {
  }

  /** Packings into 4 and 8 bytes, the widths of `struct`'s `L`/`I` and `Q` codes. */
  function LE32(n: u32): (r: seq<byte>)
    ensures |r| == 4 && UnpackLE(r) == n
  {
    Pow256Widths();
    UnpackPackLE(n, 4);
    PackLE(n, 4)
  }

  function LE64(n: u64): (r: seq<byte>)
    ensures |r| == 8 && UnpackLE(r) == n
  {
    Pow256Widths();
    UnpackPackLE(n, 8);
    PackLE(n, 8)
  }

  function BE16(n: u16): (r: seq<byte>)
    ensures |r| == 2 && UnpackBE(r) == n
  {
    Pow256Widths();
    UnpackPackBE(n, 2);
    PackBE(n, 2)
  }

  function BE32(n: u32): (r: seq<byte>)
    ensures |r| == 4 && UnpackBE(r) == n
  {
    Pow256Widths();
    UnpackPackBE(n, 4);
    PackBE(n, 4)
  }

  /** Reads a 4-byte little-endian field; its value always fits 32 bits. */
  function ReadLE32(bs: seq<byte>): (n: u32)
    requires |bs| == 4
    ensures LE32(n) == bs
  {
    Pow256Widths();
    PackUnpackLE(bs);
    UnpackLE(bs)
  }

  function ReadLE64(bs: seq<byte>): (n: u64)
    requires |bs| == 8
    ensures LE64(n) == bs
  {
    Pow256Widths();
    PackUnpackLE(bs);
    UnpackLE(bs)
  }

  function ReadBE16(bs: seq<byte>): (n: u16)
    requires |bs| == 2
    ensures BE16(n) == bs
  {
    Pow256Widths();
    PackUnpackBE(bs);
    UnpackBE(bs)
  }

  function ReadBE32(bs: seq<byte>): (n: u32)
    requires |bs| == 4
    ensures BE32(n) == bs
  {
    Pow256Widths();
    PackUnpackBE(bs);
    UnpackBE(bs)
  }

  lemma ReadLE32Inverse(n: u32)
    ensures ReadLE32(LE32(n)) == n
  {
  }

  lemma ReadLE64Inverse(n: u64)
    ensures ReadLE64(LE64(n)) == n
  {
  }

  lemma ReadBE16Inverse(n: u16)
    ensures ReadBE16(BE16(n)) == n
  {
  }

  lemma ReadBE32Inverse(n: u32)
    ensures ReadBE32(BE32(n)) == n
  {
  }

  /** Every byte of a sequence is zero. */
  predicate AllZero(bs: seq<byte>) {
    forall i :: 0 <= i < |bs| ==> bs[i] == 0
  }

  function Zeros(k: nat): (r: seq<byte>)
    ensures |r| == k && AllZero(r)
  {
    seq(k, _ => 0)
  }
}

=== FILE: command.dfy ===
/** MSNP command lines (`papyon/msnp/command.py`): a three-character name, an optional
    transaction id, space-separated arguments and, for payload commands, a length argument
    followed after the CRLF by that many characters of payload. */
module Command {
  import opened Results
  import opened Text

  const CRLF: string := "\r\n"

  const OUTGOING_NO_TRID: set<string> := {"OUT", "PNG"}
  const INCOMING_NO_TRID: set<string> :=
    {"QNG", "IPG", "NOT", "NLN", "FLN", "GCF", "QRY", "SBS", "UBN", "UBM", "UBX", "RNG", "JOI", "BYE", "MSG"}
  const OUTGOING_PAYLOAD: set<string> := {"QRY", "SDC", "PGD", "ADL", "RML", "UUN", "UUM", "UUX", "MSG", "FQY"}
  const INCOMING_PAYLOAD: set<string> := {"GCF", "MSG", "UBN", "UBM", "UBX", "IPG", "NOT", "ADL", "RML", "FQY", "241", "509"}

  /** `arguments` is `None` until some are given or parsed; `payloadLen` is the declared length. */
  datatype Command = Command(name: string, trid: Option<int>, arguments: Option<seq<string>>,
                             payload: Option<string>, payloadLen: int)

  datatype ParseError =
    | EmptyLine            // no word at all: `words[0]` raises IndexError
    | BadName              // a name that is not 3 characters long
    | BadTransactionId     // a second word that is not an integer
    | NoPayloadLength      // a payload command without arguments: `None[-1]` raises TypeError

  /** `_reset`. */
  function Reset(): (c: Command)
    ensures c.name == "" && c.trid.None? && c.arguments.None? && c.payload.None? && c.payloadLen == 0
  {
    Command("", None, None, None, 0)
  }

  /** `is_error`: the name is an integer (an error code). */
  predicate IsError(c: Command) {
    ParseInt(c.name).Some?
  }

  /** `build`: sets every field; the payload length follows a given payload and is otherwise
      left as it was. */
  function Build(c: Command, name: string, trid: Option<int>, payload: Option<string>, arguments: seq<string>): (r: Command)
    ensures r.name == name && r.trid == trid && r.arguments == Some(arguments) && r.payload == payload
    ensures r.payloadLen == if payload.Some? then |payload.value| else c.payloadLen
  {
    Command(name, trid, Some(arguments), payload, if payload.Some? then |payload.value| else c.payloadLen)
  }

  /** The command line without its terminator: the name, the transaction id (never for `OUT`)
      and the space-joined arguments. */
  function Header(c: Command): string {
    var withId := if c.trid.Some? && c.name != "OUT" then c.name + " " + IntToString(c.trid.value) else c.name;
    if c.arguments.Some? && |c.arguments.value| > 0 then withId + " " + Join(c.arguments.value, " ") else withId
  }

  /** `__str__`: a non-empty payload adds its length and follows the CRLF; otherwise the line
      just ends with CRLF. */
  function Serialize(c: Command): (r: string)
    ensures c.payload.Some? && |c.payload.value| > 0 ==>
      r == Header(c) + " " + IntToString(|c.payload.value|) + CRLF + c.payload.value
    ensures !(c.payload.Some? && |c.payload.value| > 0) ==> r == Header(c) + CRLF
  {
    if c.payload.Some? && |c.payload.value| > 0 then Header(c) + " " + IntToString(|c.payload.value|) + CRLF + c.payload.value
    else Header(c) + CRLF
  }

  /** Whether a parsed name carries a transaction id. */
  predicate HasTrid(name: string) {
    name !in INCOMING_NO_TRID && name !in OUTGOING_NO_TRID
  }

  /** `__parse_command` up to the payload length: name, transaction id and arguments. */
  function ParseWords(words: seq<string>): (r: Result<Command, ParseError>)
    ensures r.Success? ==> |r.value.name| == 3 && r.value.payload.None? && r.value.payloadLen == 0
    ensures (r.Failure? && r.error == EmptyLine) <==> |words| == 0
    ensures |words| > 0 && |words[0]| != 3 ==> r == Failure(BadName)
    ensures r.Success? ==> r.value.name == words[0] && (r.value.trid.Some? <==> HasTrid(words[0]) && |words| > 1)
  {
    if |words| == 0 then Failure(EmptyLine)
    else if |words[0]| != 3 then Failure(BadName)
    else if HasTrid(words[0]) && |words| > 1 then
      match ParseInt(words[1])
      case None => Failure(BadTransactionId)
      case Some(t) => Success(Command(words[0], Some(t), if |words| > 2 then Some(words[2..]) else None, None, 0))
    else Success(Command(words[0], None, if |words| > 1 then Some(words[1..]) else None, None, 0))
  }

  /** The last argument of a payload command (or of an error with arguments) is the payload
      length; when it is not an integer the length is 0 and the argument stays. */
  function TakeLength(c: Command): (r: Result<Command, ParseError>)
    ensures r.Success? ==> r.value.name == c.name && r.value.trid == c.trid && r.value.payload == c.payload
  {
    var wantsLength := c.name in INCOMING_PAYLOAD || (IsError(c) && c.arguments.Some? && |c.arguments.value| > 0);
    if !wantsLength then Success(c)
    else if c.arguments.None? then Failure(NoPayloadLength)
    else if |c.arguments.value| == 0 then Failure(NoPayloadLength)
    else
      var args := c.arguments.value;
      match ParseInt(args[|args| - 1])
      case None => Success(c.(payloadLen := 0))
      case Some(n) => Success(c.(payloadLen := n, arguments := Some(args[..|args| - 1])))
  }

  /** `parse`: the fields are reset, the first line is the command, and whatever follows the
      first CRLF is the payload. */
  function Parse(buf: string): (r: Result<Command, ParseError>)
    ensures r.Success? ==> |r.value.name| == 3
    ensures r.Success? ==> (r.value.payload.Some? <==> Contains(buf, CRLF))
  {
    var (line, payload) := match SplitOnce(buf, CRLF)
      case None => (buf, None)
      case Some((l, p)) => (l, Some(p));
    var c :- ParseWords(Words(line));
    var c' :- TakeLength(c);
    Success(c'.(payload := payload))
  }

  // ---------------------------------------------------------------------------
  // Round trips

  /** Words fit for a command line: non-empty and blank-free. */
  predicate Plain(ws: seq<string>) {
    forall i :: 0 <= i < |ws| ==> |ws[i]| > 0 && NoSpace(ws[i])
  }

  /** Blank-free words joined by spaces hold no CR. */
  lemma {:induction false} JoinLacksCR(ws: seq<string>)
    requires Plain(ws)
    ensures Lacks(Join(ws, " "), '\r')
    decreases |ws|
  {
    if |ws| == 1 {
      NoSpaceLacksCR(ws[0]);
    } else if |ws| > 1 {
      NoSpaceLacksCR(ws[0]);
      JoinLacksCR(ws[1..]);
      LacksAppend(ws[0], " ", '\r');
      LacksAppend(ws[0] + " ", Join(ws[1..], " "), '\r');
    }
  }

  lemma NoSpaceLacksCR(w: string)
    requires NoSpace(w)
    ensures Lacks(w, '\r')
  {
    forall i | 0 <= i < |w| ensures w[i] != '\r' { assert !IsSpace(w[i]); }
  }

  /** The command line of a command with a transaction id is the join of its words. */
  lemma HeaderWords(c: Command, args: seq<string>)
    requires c.trid.Some? && c.name != "OUT" && c.arguments == Some(args)
    ensures Header(c) == Join([c.name, IntToString(c.trid.value)] + args, " ")
  {
    var tid := IntToString(c.trid.value);
    var ws := [c.name, tid] + args;
    assert ws[1..] == [tid] + args;
    JoinCons(c.name, [tid] + args, " ");
    if args == [] {
      assert [tid] + args == [tid];
    } else {
      JoinCons(tid, args, " ");
    }
  }

  /** A line of plain words followed by CRLF and a payload splits at that CRLF. */
  lemma SplitLine(ws: seq<string>, payload: string)
    requires Plain(ws)
    ensures SplitOnce(Join(ws, " ") + CRLF + payload, CRLF) == Some((Join(ws, " "), payload))
  {
    JoinLacksCR(ws);
    SplitOnceAfterPrefix(Join(ws, " "), CRLF, payload);
  }

  /** The words of a command with a transaction id and plain arguments. */
  lemma WordsPlain(name: string, t: int, args: seq<string>)
    requires |name| == 3 && NoSpace(name) && Plain(args)
    ensures Plain([name, IntToString(t)] + args)
  {
  }

  /** `parse(str(build(name, trid, None, *args)))` gives back the name, the transaction id and
      the arguments (`None` for no arguments), with an empty payload: the closing CRLF leaves
      one. */
  lemma RoundTrip(c: Command, name: string, t: int, args: seq<string>)
    requires |name| == 3 && NoSpace(name) && HasTrid(name) && name !in INCOMING_PAYLOAD && ParseInt(name).None?
    requires Plain(args)
    ensures Parse(Serialize(Build(c, name, Some(t), None, args)))
         == Success(Command(name, Some(t), if args == [] then None else Some(args), Some(""), 0))
  {
    var b := Build(c, name, Some(t), None, args);
    var ws := [name, IntToString(t)] + args;
    WordsPlain(name, t, args);
    HeaderWords(b, args);
    assert Serialize(b) == Join(ws, " ") + CRLF + "";
    SplitLine(ws, "");
    WordsOfJoin(ws);
    ParseIntToString(t);
    assert ws[2..] == args;
  }

  /** A line of plain words, CRLF and a payload parses as the words do, with that payload. */
  lemma ParseLine(ws: seq<string>, payload: string)
    requires Plain(ws)
    ensures Parse(Join(ws, " ") + CRLF + payload)
         == match ParseWords(ws)
            case Failure(e) => Failure(e)
            case Success(c) =>
              match TakeLength(c)
              case Failure(e) => Failure(e)
              case Success(c') => Success(c'.(payload := Some(payload)))
  {
    SplitLine(ws, payload);
    WordsOfJoin(ws);
  }

  /** The words of a payload command: its length is the last one. */
  lemma PayloadWords(c: Command, name: string, t: int, payload: string, args: seq<string>)
    requires |name| == 3 && NoSpace(name) && HasTrid(name) && Plain(args) && |payload| > 0
    ensures var b := Build(c, name, Some(t), Some(payload), args);
            Serialize(b) == Join([name, IntToString(t)] + args + [IntToString(|payload|)], " ") + CRLF + payload
  {
    var b := Build(c, name, Some(t), Some(payload), args);
    HeaderWords(b, args);
    JoinSnoc([name, IntToString(t)] + args, IntToString(|payload|), " ");
  }

  /** A payload command with a transaction id reads back exactly as built: the length argument
      is taken off the arguments and becomes the payload length. */
  lemma PayloadRoundTrip(c: Command, name: string, t: int, payload: string, args: seq<string>)
    requires |name| == 3 && NoSpace(name) && HasTrid(name) && name in INCOMING_PAYLOAD
    requires Plain(args) && |payload| > 0
    ensures Parse(Serialize(Build(c, name, Some(t), Some(payload), args))) == Success(Build(c, name, Some(t), Some(payload), args))
  {
    var len := IntToString(|payload|);
    var ws := [name, IntToString(t)] + args + [len];
    WordsPlain(name, t, args + [len]);
    assert ws == [name, IntToString(t)] + (args + [len]);
    PayloadWords(c, name, t, payload, args);
    ParseLine(ws, payload);
    ParseIntToString(t);
    ParseIntToString(|payload|);
    assert ws[2..] == args + [len];
    assert (args + [len])[..|args|] == args;
  }

  /** A command line without a word, or whose first word is not three characters, is refused. */
  lemma ParseErrors(buf: string)
    requires !Contains(buf, CRLF)
    ensures Words(buf) == [] ==> Parse(buf) == Failure(EmptyLine)
    ensures Words(buf) != [] && |Words(buf)[0]| != 3 ==> Parse(buf) == Failure(BadName)
  {
  }
}

=== FILE: conversation.dfy ===
/** Conversations (`papyon/conversation.py`): the factory that picks a switchboard or an
    external-network conversation, splitting long messages, what a conversation puts on the
    wire for a text message, a nudge and a typing notification, how a received message is
    dispatched, and which content types each kind of conversation handles or forwards.

    Message bodies are text (the UTF-8 encoding and the charset part of the content type are
    not modelled); `MSNObject.__str__` and `MSNObject.parse` are parameters (`encode`, `decode`). */
module Conversation {
  import opened Results
  import opened Text
  import TextFormat
  import P2p
  import SwitchboardManager
  import opened Networks

  // ---------------------------------------------------------------------------
  // The factory

  datatype Contact = Contact(account: string, network: Network)

  datatype Kind = SwitchboardConversation(contacts: set<Contact>) | ExternalConversation(contact: Contact)

  datatype CreateError = MixedNetworks | TooManyExternal

  function MsnContacts(contacts: set<Contact>): set<Contact> {
    set c | c in contacts && c.network == Msn
  }

  /** `Conversation(client, contacts)`: only MSN contacts (or none) give a switchboard
      conversation; a single external contact gives an external-network conversation; mixing
      networks, or more than one external contact, is refused. */
  function Create(contacts: set<Contact>): (r: Result<Kind, CreateError>)
    ensures (r.Success? && r.value.SwitchboardConversation?) <==> MsnContacts(contacts) == contacts
    ensures r.Success? && r.value.SwitchboardConversation? ==> r.value.contacts == contacts
    ensures r == Failure(MixedNetworks) <==> MsnContacts(contacts) != {} && MsnContacts(contacts) != contacts
    ensures r == Failure(TooManyExternal) <==> MsnContacts(contacts) == {} && |contacts| > 1
    ensures r.Success? && r.value.ExternalConversation? <==> MsnContacts(contacts) == {} && |contacts| == 1
    ensures r.Success? && r.value.ExternalConversation? ==> contacts == {r.value.contact} && r.value.contact.network == External
  {
    var msn := MsnContacts(contacts);
    var external := contacts - msn;
    if |external| == 0 then
      assert msn == contacts;
      Success(SwitchboardConversation(contacts))
    else
      var e :| e in external;
      if |msn| != 0 then
        Failure(MixedNetworks)
      else
        assert contacts == external;
        if |external| > 1 then
          Failure(TooManyExternal)
        else
          SingletonOf(external, e);
          Success(ExternalConversation(e))
  }

  /** Only MSN contacts, mixed networks, and only external contacts, as the factory tells them
      apart. */
  lemma NetworksOf(contacts: set<Contact>)
    ensures MsnContacts(contacts) == contacts <==> forall c :: c in contacts ==> c.network == Msn
    ensures MsnContacts(contacts) == {} <==> forall c :: c in contacts ==> c.network == External
  {
    if MsnContacts(contacts) == {} {
      forall c | c in contacts ensures c.network == External {
        assert c !in MsnContacts(contacts);
      }
    }
  }

  lemma SingletonOf<T>(s: set<T>, x: T)
    requires x in s && |s| == 1
    ensures s == {x}
  {
    if y :| y in s && y != x {
      assert {x, y} <= s;
      assert |{x, y}| == 2;
      SubsetCard({x, y}, s);
    }
  }

  lemma SubsetCard<T>(a: set<T>, b: set<T>)
    requires a <= b
    ensures |a| <= |b|
  {
    assert b == a + (b - a);
  }

  // ---------------------------------------------------------------------------
  // Messages and splitting

  /** A message to send: its text, optional formatting, the custom emoticons it uses (alias and
      object, in the order the dictionary yields them) and the sender's display name. */
  datatype Message = Message(content: string, formatting: Option<TextFormat.Format>, objects: seq<(string, P2p.MsnObject)>, displayName: Option<string>)

  datatype SplitError = ZeroSize

  /** `content[i:i+size] for i in range(0, len(content), size)`. */
  function Chunks(s: string, size: nat): (r: seq<string>)
    requires size > 0
    ensures forall i :: 0 <= i < |r| ==> 0 < |r[i]| <= size
    ensures forall i :: 0 <= i < |r| - 1 ==> |r[i]| == size
    ensures |s| == 0 <==> |r| == 0
    decreases |s|
  {
    if |s| == 0 then []
    else if |s| <= size then [s]
    else [s[..size]] + Chunks(s[size..], size)
  }

  function Concat(ps: seq<string>): string
    decreases |ps|
  {
    if |ps| == 0 then "" else ps[0] + Concat(ps[1..])
  }

  /** The chunks put back together are the text. */
  lemma {:induction false} ChunksConcat(s: string, size: nat)
    requires size > 0
    ensures Concat(Chunks(s, size)) == s
    decreases |s|
  {
    if |s| > size {
      var r := Chunks(s, size);
      assert r[1..] == Chunks(s[size..], size);
      ChunksConcat(s[size..], size);
      assert s == s[..size] + s[size..];
    }
  }

  /** `ConversationMessage.split`: a zero size is an error (a `range` step of zero), a negative
      size gives no part; otherwise each part holds the next `size` characters and keeps the
      formatting, emoticons and display name. */
  function Split(m: Message, size: int): (r: Result<seq<Message>, SplitError>)
    ensures r.Failure? <==> size == 0
    ensures size < 0 ==> r == Success([])
    ensures r.Success? ==> forall i :: 0 <= i < |r.value| ==>
      r.value[i].formatting == m.formatting && r.value[i].objects == m.objects && r.value[i].displayName == m.displayName
    ensures r.Success? && size > 0 ==> forall i :: 0 <= i < |r.value| ==> 0 < |r.value[i].content| <= size
  {
    if size == 0 then Failure(ZeroSize)
    else if size < 0 then Success([])
    else
      var cs := Chunks(m.content, size);
      Success(seq(|cs|, i requires 0 <= i < |cs| => m.(content := cs[i])))
  }

  function Contents(ms: seq<Message>): seq<string> {
    seq(|ms|, i requires 0 <= i < |ms| => ms[i].content)
  }

  /** Splitting loses no text: the parts' contents put back together are the content. */
  lemma SplitKeepsContent(m: Message, size: int)
    requires size > 0
    ensures Split(m, size).Success? && Concat(Contents(Split(m, size).value)) == m.content
  {
    var cs := Chunks(m.content, size);
    assert Contents(Split(m, size).value) == cs;
    ChunksConcat(m.content, size);
  }

  // ---------------------------------------------------------------------------
  // Sending

  /** A message as sent: content type, body and headers. */
  datatype Wire = Wire(contentType: string, body: string, headers: map<string, string>)

  const TEXT_PLAIN := "text/plain"
  const CONTROL := "text/x-msmsgscontrol"
  const DATACAST := "text/x-msnmsgr-datacast"
  const EMOTICON := "text/x-mms-emoticon"
  const ANIMEMOTICON := "text/x-mms-animemoticon"
  const FORMAT_HEADER := "X-MMS-IM-Format"
  const CONTEXT_HEADER := "P4-Context"
  const TYPING_HEADER := "TypingUser"
  const NUDGE_BODY := "ID: 1\r\n\r\n"

  /** `max_message_size`. */
  const MAX_MESSAGE_SIZE := 1500

  /** Alias and encoded object, for each emoticon in turn. */
  function Flat(objects: seq<(string, P2p.MsnObject)>, encode: P2p.MsnObject -> string): (r: seq<string>)
    ensures |r| == 2 * |objects|
    ensures forall i :: 0 <= i < |objects| ==> r[2 * i] == objects[i].0 && r[2 * i + 1] == encode(objects[i].1)
  {
    if |objects| == 0 then []
    else [objects[0].0, encode(objects[0].1)] + Flat(objects[1..], encode)
  }

  function PublishAll(store: P2p.Store, objects: seq<(string, P2p.MsnObject)>): (r: P2p.Store)
    ensures forall p :: p in store.published ==> p in r.published
    ensures P2p.Valid(store) ==> P2p.Valid(r)
    ensures P2p.NoDuplicates(store) ==> P2p.NoDuplicates(r)
    decreases |objects|
  {
    if |objects| == 0 then store
    else PublishAll(P2p.Publish(store, objects[0].1), objects[1..])
  }

  /** `send_text_message` for content within the size limit: the emoticons are published and
      announced in one `text/x-mms-animemoticon` message (when there are any), then the text
      goes out as `text/plain` with the formatting header when there is a formatting. */
  function SendOne(store: P2p.Store, m: Message, encode: P2p.MsnObject -> string): (P2p.Store, seq<Wire>) {
    var emoticons := if |m.objects| > 0 then [Wire(ANIMEMOTICON, Join(Flat(m.objects, encode), "\t"), map[])] else [];
    var headers := if m.formatting.Some? then map[FORMAT_HEADER := TextFormat.Serialize(m.formatting.value)] else map[];
    (PublishAll(store, m.objects), emoticons + [Wire(TEXT_PLAIN, m.content, headers)])
  }

  function SendParts(store: P2p.Store, parts: seq<Message>, encode: P2p.MsnObject -> string): (r: (P2p.Store, seq<Wire>))
    decreases |parts|
  {
    if |parts| == 0 then (store, [])
    else
      var (s1, w1) := SendOne(store, parts[0], encode);
      var (s2, w2) := SendParts(s1, parts[1..], encode);
      (s2, w1 + w2)
  }

  /** `send_text_message`: content over the size limit is split and each part sent on its own. */
  function SendTextMessage(store: P2p.Store, m: Message, encode: P2p.MsnObject -> string): (P2p.Store, seq<Wire>) {
    if |m.content| > MAX_MESSAGE_SIZE then
      var parts := Split(m, MAX_MESSAGE_SIZE).value;
      SendParts(store, parts, encode)
    else SendOne(store, m, encode)
  }

  /** The `text/plain` bodies among the wire messages, in order. */
  function TextBodies(ws: seq<Wire>): seq<string>
    decreases |ws|
  {
    if |ws| == 0 then []
    else (if ws[0].contentType == TEXT_PLAIN then [ws[0].body] else []) + TextBodies(ws[1..])
  }

  lemma TextBodiesAppend(a: seq<Wire>, b: seq<Wire>)
    ensures TextBodies(a + b) == TextBodies(a) + TextBodies(b)
    decreases |a|
  {
    if |a| > 0 {
      var h := if a[0].contentType == TEXT_PLAIN then [a[0].body] else [];
      assert (a + b)[0] == a[0] && (a + b)[1..] == a[1..] + b;
      assert TextBodies(a + b) == h + TextBodies(a[1..] + b);
      TextBodiesAppend(a[1..], b);
      AppendAssoc(h, TextBodies(a[1..]), TextBodies(b));
    } else {
      assert a + b == b;
    }
  }

  lemma ConcatAppend(a: seq<string>, b: seq<string>)
    ensures Concat(a + b) == Concat(a) + Concat(b)
    decreases |a|
  {
    if |a| > 0 {
      assert (a + b)[0] == a[0] && (a + b)[1..] == a[1..] + b;
      assert Concat(a + b) == a[0] + Concat(a[1..] + b);
      ConcatAppend(a[1..], b);
      AppendAssoc(a[0], Concat(a[1..]), Concat(b));
    } else {
      assert a + b == b;
    }
  }

  lemma SendOneText(store: P2p.Store, m: Message, encode: P2p.MsnObject -> string)
    ensures TextBodies(SendOne(store, m, encode).1) == [m.content]
  {
    var emoticons := if |m.objects| > 0 then [Wire(ANIMEMOTICON, Join(Flat(m.objects, encode), "\t"), map[])] else [];
    var headers := if m.formatting.Some? then map[FORMAT_HEADER := TextFormat.Serialize(m.formatting.value)] else map[];
    TextBodiesAppend(emoticons, [Wire(TEXT_PLAIN, m.content, headers)]);
  }

  lemma SendPartsCons(store: P2p.Store, parts: seq<Message>, encode: P2p.MsnObject -> string)
    requires |parts| > 0
    ensures var first := SendOne(store, parts[0], encode);
      SendParts(store, parts, encode).1 == first.1 + SendParts(first.0, parts[1..], encode).1
  {
  }

  lemma ContentsCons(ms: seq<Message>)
    requires |ms| > 0
    ensures Contents(ms) == [ms[0].content] + Contents(ms[1..])
  {
  }

  lemma {:induction false} SendPartsText(store: P2p.Store, parts: seq<Message>, encode: P2p.MsnObject -> string)
    ensures TextBodies(SendParts(store, parts, encode).1) == Contents(parts)
    decreases |parts|
  {
    if |parts| > 0 {
      var first := SendOne(store, parts[0], encode);
      var rest := SendParts(first.0, parts[1..], encode);
      SendPartsCons(store, parts, encode);
      SendOneText(store, parts[0], encode);
      SendPartsText(first.0, parts[1..], encode);
      TextBodiesAppend(first.1, rest.1);
      ContentsCons(parts);
    }
  }

  /** However long the message, the text goes out in `text/plain` messages of at most 1500
      characters that put back together are the content. */
  lemma SendTextMessageSplits(store: P2p.Store, m: Message, encode: P2p.MsnObject -> string)
    ensures var bodies := TextBodies(SendTextMessage(store, m, encode).1);
      && Concat(bodies) == m.content
      && forall i :: 0 <= i < |bodies| ==> |bodies[i]| <= MAX_MESSAGE_SIZE
  {
    if |m.content| > MAX_MESSAGE_SIZE {
      var parts := Split(m, MAX_MESSAGE_SIZE).value;
      SendPartsText(store, parts, encode);
      SplitKeepsContent(m, MAX_MESSAGE_SIZE);
    } else {
      SendOneText(store, m, encode);
      assert Concat([m.content]) == m.content + Concat([]);
    }
  }

  /** `send_nudge`. */
  function SendNudge(): Wire {
    Wire(DATACAST, NUDGE_BODY, map[])
  }

  /** `send_typing_notification`, naming the local account. */
  function SendTypingNotification(account: string): Wire {
    Wire(CONTROL, "\r\n\r\n", map[TYPING_HEADER := account])
  }

  // ---------------------------------------------------------------------------
  // Receiving

  datatype Peer = Peer(account: string, displayName: string)

  /** A message as delivered to the application. */
  datatype Received = Received(content: string, format: TextFormat.Format, objects: map<string, Option<P2p.MsnObject>>, displayName: string)

  datatype Event = MessageReceived(sender: Peer, message: Received) | UserTyping(sender: Peer) | NudgeReceived(sender: Peer)

  /** The emoticons announced most recently, which the next text message carries. */
  datatype Receiver = Receiver(lastObjects: map<string, Option<P2p.MsnObject>>)

  /** The formatting header, or `=` (which reads as the default format) when it is absent or
      empty. */
  function FormatOf(w: Wire): string {
    if FORMAT_HEADER in w.headers && w.headers[FORMAT_HEADER] != "" then w.headers[FORMAT_HEADER] else "="
  }

  /** The emoticon body read pairwise: alias then encoded object, stopping at an empty alias; an
      object that does not decode (or is missing) is recorded as `None`; a later alias wins. */
  function ReadObjects(acc: map<string, Option<P2p.MsnObject>>, parts: seq<string>, decode: string -> Option<P2p.MsnObject>): (r: map<string, Option<P2p.MsnObject>>)
    ensures acc.Keys <= r.Keys
    decreases |parts|
  {
    if |parts| == 0 || parts[0] == "" then acc
    else if |parts| == 1 then acc[parts[0] := None]
    else ReadObjects(acc[parts[0] := decode(parts[1])], parts[2..], decode)
  }

  /** `_on_message_received`. A text message is delivered with its formatting read (a malformed
      formatting header is an error), the emoticons announced before it and the `P4-Context`
      display name or else the sender's; control messages are typing notifications; emoticon
      messages replace the announced emoticons; a datacast whose body is `ID: 1` is a nudge;
      anything else is ignored. */
  function OnMessageReceived(rcv: Receiver, sender: Peer, w: Wire, decode: string -> Option<P2p.MsnObject>): (r: Result<(Receiver, Option<Event>), TextFormat.FormatError>)
    ensures r.Failure? ==> w.contentType == TEXT_PLAIN && TextFormat.ParseAsWritten(FormatOf(w)).Failure?
    ensures r.Success? && r.value.1.Some? && r.value.1.value.MessageReceived? ==>
      && w.contentType == TEXT_PLAIN
      && r.value.1.value.message.content == w.body
      && r.value.1.value.message.objects == rcv.lastObjects
      && r.value.0.lastObjects == map[]
    ensures r.Success? && w.contentType != EMOTICON && w.contentType != ANIMEMOTICON && w.contentType != TEXT_PLAIN ==> r.value.0 == rcv
    ensures r.Success? && r.value.1.None? ==> w.contentType != TEXT_PLAIN && w.contentType != CONTROL
  {
    if w.contentType == TEXT_PLAIN then
      var format :- TextFormat.ParseAsWritten(FormatOf(w));
      var name := if CONTEXT_HEADER in w.headers then w.headers[CONTEXT_HEADER] else sender.displayName;
      Success((Receiver(map[]), Some(MessageReceived(sender, Received(w.body, format, rcv.lastObjects, name)))))
    else if w.contentType == CONTROL then Success((rcv, Some(UserTyping(sender))))
    else if w.contentType == EMOTICON || w.contentType == ANIMEMOTICON then
      Success((Receiver(ReadObjects(map[], Text.Split(w.body, "\t"), decode)), None))
    else if w.contentType == DATACAST && Strip(w.body) == "ID: 1" then Success((rcv, Some(NudgeReceived(sender))))
    else Success((rcv, None))
  }

  /** Several wire messages received in order; the events they raise, in order. */
  function Deliver(rcv: Receiver, sender: Peer, ws: seq<Wire>, decode: string -> Option<P2p.MsnObject>): Result<(Receiver, seq<Event>), TextFormat.FormatError>
    decreases |ws|
  {
    if |ws| == 0 then Success((rcv, []))
    else
      var (r1, e1) :- OnMessageReceived(rcv, sender, ws[0], decode);
      var (r2, es) :- Deliver(r1, sender, ws[1..], decode);
      Success((r2, (if e1.Some? then [e1.value] else []) + es))
  }

  // ---------------------------------------------------------------------------
  // Sending and receiving together

  /** The emoticons as the receiving side records them. */
  function ObjectsMap(objects: seq<(string, P2p.MsnObject)>): map<string, Option<P2p.MsnObject>>
    decreases |objects|
  {
    if |objects| == 0 then map[]
    else ObjectsMap(objects[..|objects| - 1])[objects[|objects| - 1].0 := Some(objects[|objects| - 1].1)]
  }

  /** Emoticons that can travel in a tab-separated body: each alias non-empty, no tab in an
      alias or an encoded object, and every encoded object decodes back. */
  predicate Sendable(objects: seq<(string, P2p.MsnObject)>, encode: P2p.MsnObject -> string, decode: string -> Option<P2p.MsnObject>) {
    && (forall i :: 0 <= i < |objects| ==> objects[i].0 != "" && Lacks(objects[i].0, '\t'))
    && (forall i :: 0 <= i < |objects| ==> Lacks(encode(objects[i].1), '\t') && decode(encode(objects[i].1)) == Some(objects[i].1))
  }

  lemma {:induction false} ReadFlat(acc: map<string, Option<P2p.MsnObject>>, objects: seq<(string, P2p.MsnObject)>, encode: P2p.MsnObject -> string, decode: string -> Option<P2p.MsnObject>)
    requires Sendable(objects, encode, decode)
    ensures ReadObjects(acc, Flat(objects, encode), decode) == Extend(acc, objects)
    decreases |objects|
  {
    if |objects| > 0 {
      var f := Flat(objects, encode);
      assert f[2..] == Flat(objects[1..], encode);
      ReadFlat(acc[objects[0].0 := Some(objects[0].1)], objects[1..], encode, decode);
    }
  }

  /** The accumulated map with the emoticons added in order. */
  function Extend(acc: map<string, Option<P2p.MsnObject>>, objects: seq<(string, P2p.MsnObject)>): map<string, Option<P2p.MsnObject>>
    decreases |objects|
  {
    if |objects| == 0 then acc else Extend(acc[objects[0].0 := Some(objects[0].1)], objects[1..])
  }

  lemma {:induction false} ExtendIsObjectsMap(acc: map<string, Option<P2p.MsnObject>>, objects: seq<(string, P2p.MsnObject)>)
    ensures Extend(acc, objects) == Merge(acc, ObjectsMap(objects))
    decreases |objects|
  {
    if |objects| > 0 {
      var n := |objects| - 1;
      var last := objects[n];
      ExtendSnoc(acc, objects[..n], last);
      assert objects[..n] + [last] == objects;
      ExtendIsObjectsMap(acc, objects[..n]);
    }
  }

  lemma {:induction false} ExtendSnoc(acc: map<string, Option<P2p.MsnObject>>, objects: seq<(string, P2p.MsnObject)>, last: (string, P2p.MsnObject))
    ensures Extend(acc, objects + [last]) == Extend(acc, objects)[last.0 := Some(last.1)]
    decreases |objects|
  {
    if |objects| > 0 {
      assert (objects + [last])[1..] == objects[1..] + [last];
      ExtendSnoc(acc[objects[0].0 := Some(objects[0].1)], objects[1..], last);
    }
  }

  function Merge(a: map<string, Option<P2p.MsnObject>>, b: map<string, Option<P2p.MsnObject>>): map<string, Option<P2p.MsnObject>> {
    map k | k in a.Keys + b.Keys :: if k in b then b[k] else a[k]
  }

  lemma FlatLacksTab(objects: seq<(string, P2p.MsnObject)>, encode: P2p.MsnObject -> string, decode: string -> Option<P2p.MsnObject>)
    requires Sendable(objects, encode, decode)
    ensures forall i :: 0 <= i < |Flat(objects, encode)| ==> Lacks(Flat(objects, encode)[i], '\t')
  {
    var f := Flat(objects, encode);
    forall i | 0 <= i < |f| ensures Lacks(f[i], '\t') {
      var j := i / 2;
      if i % 2 == 0 {
        assert f[2 * j] == objects[j].0;
      } else {
        assert f[2 * j + 1] == encode(objects[j].1);
      }
    }
  }

  lemma MergeEmpty(b: map<string, Option<P2p.MsnObject>>)
    ensures Merge(map[], b) == b
  {
  }

  /** What the emoticon announcement of `SendOne` carries is read back as the emoticons sent. */
  lemma EmoticonsRoundTrip(objects: seq<(string, P2p.MsnObject)>, encode: P2p.MsnObject -> string, decode: string -> Option<P2p.MsnObject>)
    requires |objects| > 0 && Sendable(objects, encode, decode)
    ensures ReadObjects(map[], Text.Split(Join(Flat(objects, encode), "\t"), "\t"), decode) == ObjectsMap(objects)
  {
    FlatLacksTab(objects, encode, decode);
    SplitJoin(Flat(objects, encode), "\t");
    ReadFlat(map[], objects, encode, decode);
    ExtendIsObjectsMap(map[], objects);
    MergeEmpty(ObjectsMap(objects));
  }

  /** The default format, which an absent formatting header reads as. */
  lemma ParseNoFormat()
    ensures TextFormat.ParseAsWritten("=") == Success(TextFormat.Default)
  {
    assert Lacks("=", ';');
    SplitWhole("=", ";");
    TextFormat.CleanStable("");
    TextFormat.ApplyPair(TextFormat.Default, "", "", false, "", "");
    assert "=" == "" + "=" + "";
    TextFormat.FoldCons(TextFormat.Default, "=", [], false, TextFormat.Default);
    assert ["="] == ["="] + [];
  }

  /** The formatting a receiver is handed for `m`: the one sent, read by `TextFormat.parse` as
      written, which leaves right alignment off; the default when none was sent. */
  function Delivered(m: Message): TextFormat.Format {
    if m.formatting.Some? then m.formatting.value.(rightAlignment := false) else TextFormat.Default
  }

  /** The text message `SendOne` puts on the wire. */
  function TextWire(m: Message): Wire {
    var headers := if m.formatting.Some? then map[FORMAT_HEADER := TextFormat.Serialize(m.formatting.value)] else map[];
    Wire(TEXT_PLAIN, m.content, headers)
  }

  /** The emoticon announcement `SendOne` puts on the wire. */
  function AnnounceWire(m: Message, encode: P2p.MsnObject -> string): Wire {
    Wire(ANIMEMOTICON, Join(Flat(m.objects, encode), "\t"), map[])
  }

  lemma SendOneWires(store: P2p.Store, m: Message, encode: P2p.MsnObject -> string)
    ensures SendOne(store, m, encode).1 == (if |m.objects| > 0 then [AnnounceWire(m, encode)] else []) + [TextWire(m)]
  {
  }

  /** The receiver reads back the formatting the sender wrote, except that `TextFormat.parse`
      as written never sets right alignment: a right-aligned message arrives left-aligned. */
  lemma ReadFormat(m: Message)
    requires m.formatting.Some? ==> TextFormat.Writable(m.formatting.value)
    ensures TextFormat.ParseAsWritten(FormatOf(TextWire(m))) == Success(Delivered(m))
  {
    if m.formatting.Some? {
      TextFormat.RoundTripWith(m.formatting.value, false);
      var s := TextFormat.Serialize(m.formatting.value);
      assert s != "" by { assert s[..3] == "FN="; }
      assert FormatOf(TextWire(m)) == s;
    } else {
      ParseNoFormat();
    }
  }

  lemma ReceiveText(rcv: Receiver, sender: Peer, m: Message, decode: string -> Option<P2p.MsnObject>)
    requires m.formatting.Some? ==> TextFormat.Writable(m.formatting.value)
    ensures var format := Delivered(m);
      Deliver(rcv, sender, [TextWire(m)], decode)
        == Success((Receiver(map[]), [MessageReceived(sender, Received(m.content, format, rcv.lastObjects, sender.displayName))]))
  {
    ReadFormat(m);
    var format := Delivered(m);
    var ev := MessageReceived(sender, Received(m.content, format, rcv.lastObjects, sender.displayName));
    assert CONTEXT_HEADER !in TextWire(m).headers;
    assert OnMessageReceived(rcv, sender, TextWire(m), decode) == Success((Receiver(map[]), Some(ev)));
    assert [TextWire(m)][0] == TextWire(m) && [TextWire(m)][1..] == [];
    assert [ev] + [] == [ev];
  }

  lemma DeliverCons(rcv: Receiver, sender: Peer, w: Wire, rest: seq<Wire>, decode: string -> Option<P2p.MsnObject>, rcv1: Receiver)
    requires OnMessageReceived(rcv, sender, w, decode) == Success((rcv1, None))
    ensures Deliver(rcv, sender, [w] + rest, decode) == Deliver(rcv1, sender, rest, decode)
  {
    assert ([w] + rest)[0] == w && ([w] + rest)[1..] == rest;
    var tail := Deliver(rcv1, sender, rest, decode);
    if tail.Success? {
      assert [] + tail.value.1 == tail.value.1;
    }
  }

  /** A text message within the size limit, sent by `SendOne` and received in order by the peer,
      is delivered as exactly one message with the same content, the formatting sent less its
      right alignment (or the default), the emoticons sent (or, when none were sent, those announced before) and the
      sender's display name. */
  lemma SendThenReceive(store: P2p.Store, m: Message, encode: P2p.MsnObject -> string, decode: string -> Option<P2p.MsnObject>, rcv: Receiver, sender: Peer)
    requires Sendable(m.objects, encode, decode)
    requires m.formatting.Some? ==> TextFormat.Writable(m.formatting.value)
    ensures var format := Delivered(m);
      var objects := if |m.objects| > 0 then ObjectsMap(m.objects) else rcv.lastObjects;
      Deliver(rcv, sender, SendOne(store, m, encode).1, decode)
        == Success((Receiver(map[]), [MessageReceived(sender, Received(m.content, format, objects, sender.displayName))]))
  {
    SendOneWires(store, m, encode);
    if |m.objects| > 0 {
      var rcv1 := Receiver(ObjectsMap(m.objects));
      EmoticonsRoundTrip(m.objects, encode, decode);
      assert OnMessageReceived(rcv, sender, AnnounceWire(m, encode), decode) == Success((rcv1, None));
      DeliverCons(rcv, sender, AnnounceWire(m, encode), [TextWire(m)], decode, rcv1);
      ReceiveText(rcv1, sender, m, decode);
    } else {
      ReceiveText(rcv, sender, m, decode);
    }
  }

  /** A nudge sent is received as a nudge, and a typing notification as one. */
  lemma NudgeAndTypingReceived(rcv: Receiver, sender: Peer, account: string, decode: string -> Option<P2p.MsnObject>)
    ensures OnMessageReceived(rcv, sender, SendNudge(), decode) == Success((rcv, Some(NudgeReceived(sender))))
    ensures OnMessageReceived(rcv, sender, SendTypingNotification(account), decode) == Success((rcv, Some(UserTyping(sender))))
  {
    var b := NUDGE_BODY;
    assert b == "ID: 1" + "\r\n\r\n";
    RStripSuffix("ID: 1", "\r\n\r\n", Whitespace);
    LStripUnchanged(b, Whitespace);
  }

  // ---------------------------------------------------------------------------
  // Which messages each kind of conversation takes and forwards

  /** The content types a switchboard conversation handles. */
  const HANDLED: seq<string> := [TEXT_PLAIN, CONTROL, DATACAST, EMOTICON, ANIMEMOTICON]

  /** `SwitchboardConversation._can_handle_message` as written: the test against the control type
      is `in` on a bare string, so it asks whether the content type occurs inside
      `text/x-msmsgscontrol`. */
  function CanHandleAsWritten(contentType: string, hasHandler: bool): bool {
    if !hasHandler && Contains(CONTROL, contentType) then false
    else contentType in HANDLED
  }

  /** The intended reading: no conversation is created for a typing notification alone, and
      otherwise the five handled types are accepted. */
  function CanHandle(contentType: string, hasHandler: bool): (r: bool)
    ensures r <==> contentType in HANDLED && (hasHandler || contentType != CONTROL)
  {
    if !hasHandler && contentType == CONTROL then false
    else contentType in HANDLED
  }

  /** A text lacking one of `sub`'s characters does not contain `sub`. */
  lemma MissingCharNotContained(s: string, sub: string, i: nat)
    requires i < |sub| && Lacks(s, sub[i])
    ensures !Contains(s, sub)
  {
  }

  /** The substring test agrees with the intended equality test: no other handled type occurs
      inside the control type. */
  lemma CanHandleAgrees(contentType: string, hasHandler: bool)
    ensures CanHandleAsWritten(contentType, hasHandler) == CanHandle(contentType, hasHandler)
  {
    if contentType in HANDLED && contentType != CONTROL {
      if contentType == TEXT_PLAIN {
        MissingCharNotContained(CONTROL, TEXT_PLAIN, 5);
      } else if contentType == DATACAST {
        MissingCharNotContained(CONTROL, DATACAST, 15);
      } else if contentType == EMOTICON {
        MissingCharNotContained(CONTROL, EMOTICON, 15);
      } else {
        MissingCharNotContained(CONTROL, ANIMEMOTICON, 11);
      }
    }
    if contentType == CONTROL {
      assert OccursAt(CONTROL, CONTROL, 0);
    }
  }

  /** `SwitchboardConversation._send_message`: datacasts and control messages are sent without
      acknowledgement, everything else with a half acknowledgement. */
  function AckFor(contentType: string): (r: SwitchboardManager.Ack)
    ensures r == SwitchboardManager.NoAck || r == SwitchboardManager.Half
  {
    if contentType == DATACAST || contentType == CONTROL then SwitchboardManager.NoAck else SwitchboardManager.Half
  }

  /** Everything a conversation sends is a type the peer's switchboard conversation handles;
      nudges and typing notifications go unacknowledged, text and emoticons half-acknowledged. */
  lemma SentIsHandled(store: P2p.Store, m: Message, encode: P2p.MsnObject -> string, account: string)
    ensures forall w :: w in SendOne(store, m, encode).1 ==> CanHandle(w.contentType, true) && AckFor(w.contentType) == SwitchboardManager.Half
    ensures CanHandle(SendNudge().contentType, false) && AckFor(SendNudge().contentType) == SwitchboardManager.NoAck
    ensures CanHandle(SendTypingNotification(account).contentType, true) && !CanHandle(SendTypingNotification(account).contentType, false)
    ensures AckFor(SendTypingNotification(account).contentType) == SwitchboardManager.NoAck
  {
  }

  /** `ExternalNetworkConversation._send_message`: emoticon messages are not sent to external
      contacts; anything else goes to every participant. */
  function ExternalRecipients(participants: set<string>, contentType: string): (r: set<string>)
    ensures r <= participants
    ensures r == participants <==> (contentType != EMOTICON && contentType != ANIMEMOTICON) || participants == {}
  {
    if contentType == EMOTICON || contentType == ANIMEMOTICON then {} else participants
  }

  /** An external contact receives a message's text but not its emoticon announcement. */
  lemma ExternalGetsTextOnly(store: P2p.Store, m: Message, encode: P2p.MsnObject -> string, participants: set<string>)
    ensures forall w :: w in SendOne(store, m, encode).1 ==>
      ExternalRecipients(participants, w.contentType) == (if w.contentType == TEXT_PLAIN then participants else {})
  {
  }
}

=== FILE: default_transport.dfy ===
/** The fallback transport (`papyon/msnp2p/transport/default.py`): bound to one peer endpoint,
    always "connected" and never ready to send; its `_send_chunk` takes the peer, the guid and
    the chunk and does nothing with them. */
module DefaultTransport {
  import opened Results
  import TLPv1
  import TransportBase

  const NAME: string := "default"
  const PROTOCOL: string := "None"
  const RATING: nat := 0
  const MAX_CHUNK_SIZE: nat := 0

  datatype Transport = Transport(name: string, peer: string, peerGuid: Option<string>, queues: TransportBase.State)

  datatype InitError = ArityMismatch(expected: nat, given: nat)

  /** The base initialiser of every transport: besides the manager it takes exactly one
      positional argument, the transport's name; with any other count Python raises before any
      state exists.  The chunk-id seed is a parameter. */
  function BaseInit(args: seq<string>, peer: string, peerGuid: Option<string>, seed: nat): (r: Result<Transport, InitError>)
    requires 1000 <= seed < TLPv1.MAX_INT32
    ensures r.Success? <==> |args| == 1
    ensures r.Failure? ==> r.error == ArityMismatch(1, |args|)
    ensures r.Success? ==> r.value.name == args[0] && r.value.peer == peer && r.value.peerGuid == peerGuid
    ensures r.Success? ==> TransportBase.Valid(r.value.queues) && TransportBase.IdInRange(r.value.queues)
    ensures r.Success? ==> r.value.queues.control == [] && r.value.queues.data == []
  {
    if |args| != 1 then Failure(ArityMismatch(1, |args|))
    else Success(Transport(args[0], peer, peerGuid, TransportBase.InitInRange(seed)))
  }

  /** The constructor as written: it forwards only the manager to the base initialiser, so no
      default transport can be built — every call stops on the missing name. */
  function CreateAsWritten(peer: string, peerGuid: Option<string>, seed: nat): (r: Result<Transport, InitError>)
    requires 1000 <= seed < TLPv1.MAX_INT32
    ensures r == Failure(ArityMismatch(1, 0))
  {
    BaseInit([], peer, peerGuid, seed)
  }

  /** The constructor with the transport's name forwarded, as the `name` property promises. */
  function Create(peer: string, peerGuid: Option<string>, seed: nat): (t: Transport)
    requires 1000 <= seed < TLPv1.MAX_INT32
    ensures t.name == NAME && t.peer == peer && t.peerGuid == peerGuid
    ensures TransportBase.Valid(t.queues) && TransportBase.IdInRange(t.queues)
    ensures t.queues.control == [] && t.queues.data == [] && t.queues.pendingBlob == map[]
    ensures CanSend(t, peer, peerGuid)
    ensures Connected(t) && !ReadyToSend(t)
  {
    BaseInit([NAME], peer, peerGuid, seed).value
  }

  /** `can_send`: only to the endpoint the transport was made for. */
  predicate CanSend(t: Transport, peer: string, peerGuid: Option<string>) {
    t.peer == peer && t.peerGuid == peerGuid
  }

  /** `connected`: the transport reports itself connected whatever its state, since it has no
      link to open. */
  predicate Connected(t: Transport): (r: bool)
    ensures r
  {
    true
  }

  /** `_ready_to_send`: never. */
  predicate ReadyToSend(t: Transport) {
    false
  }

  /** `_send_chunk(peer, peer_guid, chunk)` called with all three arguments: nothing about
      the transport changes. */
  function SendChunk(t: Transport, c: TLPv1.Chunk): (r: Transport)
    ensures r == t && Connected(r) && !ReadyToSend(r)
  {
    t
  }
}

=== FILE: direct_transport.dfy ===
/** The direct transport: chunks over a TCP connection to the peer
    (`papyon/msnp2p/transport/direct.py`).  Every packet on the socket is a 4-byte little-endian
    length followed by that many bytes.  The connecting side opens with a `foo` packet and a
    nonce chunk; the listening side takes the first packet as `foo`, the next as the nonce, and
    every later one as a chunk. */
module DirectTransport {
  import opened Results
  import opened Bytes
  import opened Text
  import TLPv1
  import Uuids

  const NAME: string := "direct"
  const PROTOCOL: string := "TCPv1"
  const RATING: nat := 1
  const MAX_CHUNK_SIZE: nat := 1350
  /** The payload of the opening packet: `foo` and a NUL. */
  const FOO: seq<byte> := [0x66, 0x6f, 0x6f, 0x00]
  /** A chunk body of four zero bytes is a keep-alive and is not passed on. */
  const KEEP_ALIVE: seq<byte> := [0, 0, 0, 0]

  // ---------------------------------------------------------------------------
  // Framing

  /** `_send_data`: the length of `data`, 4 bytes little-endian, then `data`. */
  function Frame(data: seq<byte>): (r: seq<byte>)
    requires |data| < U32_LIMIT
    ensures |r| == 4 + |data| && r[4..] == data && UnpackLE(r[..4]) == |data|
  {
    LE32(|data|) + data
  }

  /** `_send_chunk`: a chunk goes out as one packet. */
  function SendChunk(c: TLPv1.Chunk): (r: seq<byte>)
    requires TLPv1.Fits(c.header) && |c.body| < U32_LIMIT - TLPv1.HEADER_SIZE
    ensures r == Frame(TLPv1.Serialize(c))
  {
    Frame(TLPv1.Serialize(c))
  }

  /** `_send_nonce`: a chunk with only the nonce and a random blob id (a parameter here). */
  function NonceChunk(nonce: Uuids.Uuid, blobId: u32): (c: TLPv1.Chunk)
    ensures TLPv1.IsNonce(c) && c.body == [] && c.header.blobId == blobId
    ensures c.header.dw1 < U32_LIMIT && TLPv1.GetNonce(c) == nonce
  {
    var blank := TLPv1.Chunk(TLPv1.EmptyHeader().(blobId := blobId), [], 0);
    TLPv1.GetSetNonce(blank, nonce);
    TLPv1.SetNonce(blank, nonce)
  }

  // ---------------------------------------------------------------------------
  // Receiving

  /** The receiving side of a connection: bytes not yet consumed, the length of the packet being
      read once its prefix is in, and the handshake flags. */
  datatype Receiver = Receiver(
    buf: seq<byte>,
    pending: Option<nat>,
    server: bool,
    fooReceived: bool,
    nonceReceived: bool,
    connected: bool)

  datatype Event =
    | Connected
    | ChunkIn(chunk: TLPv1.Chunk)
    | Malformed                      // a packet too short to be a chunk: the parser raises

  /** The receiver after a read, what it emitted, and whether the handler stopped with bytes
      possibly still buffered (an exception, or the early exit after `foo`). */
  datatype Outcome = Outcome(rx: Receiver, events: seq<Event>, halted: bool)

  function Measure(rx: Receiver): nat {
    2 * |rx.buf| + if rx.pending.Some? then 1 else 0
  }

  function Prepend(e: Event, o: Outcome): (r: Outcome)
    ensures r.rx == o.rx && r.halted == o.halted && r.events == [e] + o.events
  {
    o.(events := [e] + o.events)
  }

  /** The loop of `_on_data_received` over the buffered bytes: read a length prefix once 4 bytes
      are in, then wait for that many bytes, and hand the packet to the handshake or the chunk
      parser.  `stopAfterFoo` selects the source's early return after the `foo` packet. */
  function Process(rx: Receiver, stopAfterFoo: bool): (o: Outcome)
    ensures o.rx.server == rx.server
    ensures rx.connected ==> o.rx.connected
    ensures !o.halted ==> |o.rx.buf| < 4 || o.rx.pending.Some?
    decreases Measure(rx), 1
  {
    if |rx.buf| == 0 then Outcome(rx, [], false)
    else if rx.pending.None? then
      if |rx.buf| < 4 then Outcome(rx, [], false)
      else Deliver(rx.(buf := rx.buf[4..], pending := Some(UnpackLE(rx.buf[..4]))), stopAfterFoo)
    else Deliver(rx, stopAfterFoo)
  }

  /** One packet whose length is known: wait for it, or consume it and continue. */
  function Deliver(rx: Receiver, stopAfterFoo: bool): (o: Outcome)
    requires rx.pending.Some?
    ensures o.rx.server == rx.server
    ensures rx.connected ==> o.rx.connected
    ensures !o.halted ==> |o.rx.buf| < 4 || o.rx.pending.Some?
    decreases Measure(rx), 0
  {
    var size := rx.pending.value;
    if |rx.buf| < size then Outcome(rx, [], false)
    else
      var body := rx.buf[..size];
      var rest := rx.(buf := rx.buf[size..], pending := None);
      if rx.server && !rx.fooReceived then
        if stopAfterFoo then Outcome(rest.(fooReceived := true), [], true)
        else Process(rest.(fooReceived := true), stopAfterFoo)
      else if !rx.nonceReceived then
        Prepend(Connected, Process(rest.(nonceReceived := true, connected := true), stopAfterFoo))
      else
        match TLPv1.Parse(body)
        case Failure(_) => Outcome(rest, [Malformed], true)
        case Success(c) =>
          if c.body == KEEP_ALIVE then Process(rest, stopAfterFoo)
          else Prepend(ChunkIn(c), Process(rest, stopAfterFoo))
  }

  /** `_on_data_received` as written: new bytes are appended to the buffer and the loop runs, with
      the early return after `foo`. */
  function OnDataReceivedAsWritten(rx: Receiver, data: seq<byte>): (o: Outcome)
    ensures o.rx.server == rx.server && (rx.connected ==> o.rx.connected)
  {
    Process(rx.(buf := rx.buf + data), true)
  }

  /** `_on_data_received` with the loop continuing after `foo`. */
  function OnDataReceived(rx: Receiver, data: seq<byte>): (o: Outcome)
    ensures o.rx.server == rx.server && (rx.connected ==> o.rx.connected)
  {
    Process(rx.(buf := rx.buf + data), false)
  }

  /** Running the loop on `o`'s receiver with `b` appended, after what `o` already emitted. */
  function Then(o: Outcome, b: seq<byte>, stopAfterFoo: bool): Outcome {
    var o2 := Process(o.rx.(buf := o.rx.buf + b), stopAfterFoo);
    Outcome(o2.rx, o.events + o2.events, o2.halted)
  }

  lemma ThenPrepend(e: Event, o: Outcome, b: seq<byte>, stopAfterFoo: bool)
    ensures Then(Prepend(e, o), b, stopAfterFoo) == Prepend(e, Then(o, b, stopAfterFoo))
  {
    var o2 := Process(o.rx.(buf := o.rx.buf + b), stopAfterFoo);
    assert [e] + o.events + o2.events == [e] + (o.events + o2.events);
  }

  /** Bytes arriving later never change what a run that waited for more input did: the loop on
      the longer buffer does the same steps, then carries on where the shorter one stopped. */
  lemma {:induction false} ProcessAppend(rx: Receiver, b: seq<byte>, stopAfterFoo: bool)
    requires !Process(rx, stopAfterFoo).halted
    ensures Process(rx.(buf := rx.buf + b), stopAfterFoo) == Then(Process(rx, stopAfterFoo), b, stopAfterFoo)
    decreases Measure(rx), 1, 0
  {
    var rxb := rx.(buf := rx.buf + b);
    if |rx.buf| == 0 {
      assert rx.buf + b == b;
      assert Process(rx, stopAfterFoo) == Outcome(rx, [], false);
    } else if rx.pending.None? {
      if |rx.buf| >= 4 {
        var h := rx.(buf := rx.buf[4..], pending := Some(UnpackLE(rx.buf[..4])));
        SplitAppend(rx.buf, b, 4);
        assert rxb.(buf := rxb.buf[4..], pending := Some(UnpackLE(rxb.buf[..4]))) == h.(buf := h.buf + b);
        DeliverAppend(h, b, stopAfterFoo);
      }
    } else {
      DeliverAppend(rx, b, stopAfterFoo);
    }
  }

  lemma {:induction false} DeliverAppend(rx: Receiver, b: seq<byte>, stopAfterFoo: bool)
    requires rx.pending.Some? && !Deliver(rx, stopAfterFoo).halted
    ensures Deliver(rx.(buf := rx.buf + b), stopAfterFoo) == Then(Deliver(rx, stopAfterFoo), b, stopAfterFoo)
    decreases Measure(rx), 0, 1
  {
    if |rx.buf| < rx.pending.value {
      assert Deliver(rx, stopAfterFoo) == Outcome(rx, [], false);
    } else {
      PacketAppend(rx, b, stopAfterFoo);
    }
  }

  /** `DeliverAppend` once the whole packet is in. */
  lemma {:induction false} PacketAppend(rx: Receiver, b: seq<byte>, stopAfterFoo: bool)
    requires rx.pending.Some? && |rx.buf| >= rx.pending.value && !Deliver(rx, stopAfterFoo).halted
    ensures Deliver(rx.(buf := rx.buf + b), stopAfterFoo) == Then(Deliver(rx, stopAfterFoo), b, stopAfterFoo)
    decreases Measure(rx), 0, 0
  {
    var size := rx.pending.value;
    var rest := rx.(buf := rx.buf[size..], pending := None);
    SplitAppend(rx.buf, b, size);
    if rx.server && !rx.fooReceived {
      ProcessAppend(rest.(fooReceived := true), b, stopAfterFoo);
    } else if !rx.nonceReceived {
      var next := rest.(nonceReceived := true, connected := true);
      ProcessAppend(next, b, stopAfterFoo);
      ThenPrepend(Connected, Process(next, stopAfterFoo), b, stopAfterFoo);
    } else {
      match TLPv1.Parse(rx.buf[..size])
      case Failure(_) =>
      case Success(c) =>
        ProcessAppend(rest, b, stopAfterFoo);
        if c.body != KEEP_ALIVE {
          ThenPrepend(ChunkIn(c), Process(rest, stopAfterFoo), b, stopAfterFoo);
        }
    }
  }

  lemma SplitAppend(buf: seq<byte>, b: seq<byte>, size: nat)
    requires size <= |buf|
    ensures (buf + b)[..size] == buf[..size] && (buf + b)[size..] == buf[size..] + b
  {
  }

  /** With the loop continuing after `foo`, how the stream is cut into reads does not matter:
      receiving `a` and then `b` gives the state and the events of receiving `a + b`, as long as
      the first read did not end in an error. */
  lemma ReadBoundaries(rx: Receiver, a: seq<byte>, b: seq<byte>)
    requires !OnDataReceived(rx, a).halted
    ensures var o1 := OnDataReceived(rx, a);
      var o2 := OnDataReceived(o1.rx, b);
      OnDataReceived(rx, a + b) == Outcome(o2.rx, o1.events + o2.events, o2.halted)
  {
    assert rx.buf + (a + b) == (rx.buf + a) + b;
    ProcessAppend(rx.(buf := rx.buf + a), b, false);
  }

  /** A receiver past the handshake with nothing buffered. */
  predicate Idle(rx: Receiver) {
    rx.buf == [] && rx.pending.None? && rx.nonceReceived && (rx.server ==> rx.fooReceived)
  }

  /** A whole packet at the head of the buffer: its prefix is read and its payload is next. */
  lemma OnePacket(rx: Receiver, p: seq<byte>, t: seq<byte>, stopAfterFoo: bool)
    requires rx.pending.None? && |p| < U32_LIMIT
    ensures Process(rx.(buf := Frame(p) + t), stopAfterFoo)
         == Deliver(rx.(buf := p + t, pending := Some(|p|)), stopAfterFoo)
  {
    var b := Frame(p) + t;
    assert b[..4] == Frame(p)[..4];
    assert b[4..] == p + t;
  }

  /** The payload of that packet is consumed whole and the rest of the buffer stays. */
  lemma PacketBody(p: seq<byte>, t: seq<byte>)
    ensures (p + t)[..|p|] == p && (p + t)[|p|..] == t
  {
  }

  /** A chunk sent as one packet reaches an idle receiver as the same chunk (its application id
      does not travel on this transport), and the receiver is idle again; a keep-alive is
      swallowed. */
  lemma ChunkDelivered(rx: Receiver, c: TLPv1.Chunk, stopAfterFoo: bool)
    requires Idle(rx)
    requires TLPv1.Fits(c.header) && TLPv1.Consistent(c.header, |c.body|)
    requires |c.body| < U32_LIMIT - TLPv1.HEADER_SIZE
    ensures c.body != KEEP_ALIVE ==>
      OnDataReceived(rx, SendChunk(c)) == Outcome(rx, [ChunkIn(c.(appId := 0))], false)
    ensures c.body == KEEP_ALIVE ==> OnDataReceived(rx, SendChunk(c)) == Outcome(rx, [], false)
  {
    var data := TLPv1.Serialize(c);
    assert rx.buf + SendChunk(c) == Frame(data) + [];
    OnePacket(rx, data, [], false);
    PacketBody(data, []);
    TLPv1.ParseSerialize(c);
    assert rx.(buf := data + [], pending := Some(|data|)).(buf := [], pending := None) == rx;
    assert Process(rx, false) == Outcome(rx, [], false);
  }

  /** The listening side receives the connecting side's opening (`foo`, then the nonce packet)
      and becomes connected, whether both packets come in one read or in two. */
  lemma HandshakeConnects(nonce: Uuids.Uuid, blobId: u32)
    ensures var server := Receiver([], None, true, false, false, false);
      var nonceBytes := TLPv1.Serialize(NonceChunk(nonce, blobId));
      var connected := Receiver([], None, true, true, true, true);
      && OnDataReceived(server, Frame(FOO) + Frame(nonceBytes)) == Outcome(connected, [Connected], false)
      && OnDataReceived(OnDataReceived(server, Frame(FOO)).rx, Frame(nonceBytes)) == Outcome(connected, [Connected], false)
  {
    var server := Receiver([], None, true, false, false, false);
    var nb := TLPv1.Serialize(NonceChunk(nonce, blobId));
    var afterFoo := Receiver([], None, true, true, false, false);
    var connected := Receiver([], None, true, true, true, true);
    assert OnDataReceived(server, Frame(FOO)) == Outcome(afterFoo, [], false) by {
      assert server.buf + Frame(FOO) == Frame(FOO) + [];
      OnePacket(server, FOO, [], false);
      PacketBody(FOO, []);
      assert Process(afterFoo, false) == Outcome(afterFoo, [], false);
    }
    assert OnDataReceived(afterFoo, Frame(nb)) == Outcome(connected, [Connected], false) by {
      assert afterFoo.buf + Frame(nb) == Frame(nb) + [];
      OnePacket(afterFoo, nb, [], false);
      PacketBody(nb, []);
      assert Process(connected, false) == Outcome(connected, [], false);
    }
    ReadBoundaries(server, Frame(FOO), Frame(nb));
  }

  /** As written, the same opening in one read leaves the listening side unconnected, with the
      whole nonce packet still buffered, until some later read arrives. */
  lemma HandshakeStallsAsWritten(nonce: Uuids.Uuid, blobId: u32)
    ensures var server := Receiver([], None, true, false, false, false);
      var nonceBytes := TLPv1.Serialize(NonceChunk(nonce, blobId));
      var o := OnDataReceivedAsWritten(server, Frame(FOO) + Frame(nonceBytes));
      !o.rx.connected && o.events == [] && o.rx.buf == Frame(nonceBytes)
  {
    var server := Receiver([], None, true, false, false, false);
    var nb := TLPv1.Serialize(NonceChunk(nonce, blobId));
    assert server.buf + (Frame(FOO) + Frame(nb)) == Frame(FOO) + Frame(nb);
    OnePacket(server, FOO, Frame(nb), true);
    PacketBody(FOO, Frame(nb));
  }

  // ---------------------------------------------------------------------------
  // Handshake and connection state

  /** The handshake flags and the nonce the two sides must agree on. */
  datatype Link = Link(nonce: string, nonceSent: bool, nonceReceived: bool, connected: bool, failed: bool)

  /** What `_receive_nonce` did: nothing, failed the transport, or connected it (and whether it
      sent its own nonce first). */
  datatype NonceResult = Ignored | Mismatch | Accepted(sentNonce: bool)

  /** `_receive_nonce`: chunks without the KEY flag are ignored; otherwise the carried UUID,
      printed and upper-cased, must equal the local nonce upper-cased. */
  function ReceiveNonce(l: Link, c: TLPv1.Chunk): (r: (Link, NonceResult))
    requires c.header.dw1 < U32_LIMIT
    ensures !TLPv1.IsNonce(c) ==> r == (l, Ignored)
    ensures r.1.Mismatch? <==> TLPv1.IsNonce(c) && Upper(Uuids.Format(TLPv1.GetNonce(c))) != Upper(l.nonce)
    ensures r.1.Mismatch? ==> r.0.failed && !r.0.connected
    ensures r.1.Accepted? ==> r.0.connected && r.0.nonceReceived && r.0.nonceSent && r.1.sentNonce == !l.nonceSent
  {
    if !TLPv1.IsNonce(c) then (l, Ignored)
    else if Upper(l.nonce) != Upper(Uuids.Format(TLPv1.GetNonce(c))) then (l.(failed := true, connected := false), Mismatch)
    else (l.(nonceReceived := true, nonceSent := true, connected := true), Accepted(!l.nonceSent))
  }

  /** A peer that sends the nonce chunk for `u` is accepted exactly when the local nonce is `u`'s
      text in some letter case. */
  lemma NonceHandshake(l: Link, u: Uuids.Uuid, v: Uuids.Uuid, blobId: u32)
    requires Upper(l.nonce) == Upper(Uuids.Format(v))
    ensures ReceiveNonce(l, NonceChunk(u, blobId)).1.Accepted? <==> u == v
  {
    Uuids.FormatUpperInjective(u, v);
  }

  // ---------------------------------------------------------------------------
  // Listening, sending predicates

  datatype Listener = Listener(listening: bool, port: nat, mappingTimeout: bool)

  /** `_set_listening`: an unknown or unspecified (`0.0.0.0`) address becomes the client's own
      address and an unknown port the local one; the `listening` signal is emitted once. */
  function SetListening(l: Listener, ip: Option<string>, port: Option<nat>, clientIp: string): (r: (Listener, Option<(string, nat)>))
    ensures r.0.listening && !r.0.mappingTimeout && r.0.port == l.port
    ensures r.1.Some? <==> !l.listening
    ensures r.1.Some? ==> r.1.value.0 == (if ip.None? || ip.value == "" || ip.value == "0.0.0.0" then clientIp else ip.value)
    ensures r.1.Some? ==> r.1.value.1 == (if port.None? || port.value == 0 then l.port else port.value)
  {
    var addr := if ip.None? || ip.value == "" || ip.value == "0.0.0.0" then clientIp else ip.value;
    var p := if port.None? || port.value == 0 then l.port else port.value;
    var l' := l.(mappingTimeout := false);
    if !l.listening then (l'.(listening := true), Some((addr, p))) else (l', None)
  }

  /** A second report of the listening address changes nothing and signals nothing. */
  lemma SetListeningOnce(l: Listener, ip: Option<string>, port: Option<nat>, ip2: Option<string>, port2: Option<nat>, clientIp: string)
    ensures var (l1, _) := SetListening(l, ip, port, clientIp);
      SetListening(l1, ip2, port2, clientIp) == (l1, None)
  {
  }

  /** `can_send`: only to the endpoint the transport was made for. */
  predicate CanSend(peer: string, peerGuid: Option<string>, toPeer: string, toGuid: Option<string>) {
    peer == toPeer && peerGuid == toGuid
  }

  /** `_ready_to_send`: once connected. */
  predicate ReadyToSend(l: Link) {
    l.connected
  }
}

=== FILE: filetransfer.dfy ===
/** The file-transfer session (`papyon/msnp2p/filetransfer.py`): the binary context carried
    in the INVITE of a file transfer, and the session's reactions to reject, cancel and BYE.

    The context is five little-endian 32-bit words (574, 2, size, 0, preview flag), the file
    name as UTF-16LE packed into exactly 550 bytes, four 0xFF bytes, then the preview image.
    The file name is modelled as its sequence of UTF-16 code units. */
module FileTransfer {
  import opened Results
  import opened Bytes

  /** Length of everything before the preview. */
  const HEADER_LENGTH: nat := 574
  /** Width of the file-name field, `struct.pack("550s", ...)`. */
  const NAME_FIELD: nat := 550
  /** Offset of the file-name field, after the five 32-bit words. */
  const NAME_OFFSET: nat := 20

  /** What a session knows of the offered file. */
  datatype Transfer = Transfer(filename: seq<u16>, size: nat, hasPreview: bool, preview: Option<seq<byte>>)

  /** `__init__`: no name, size 0, no preview. */
  function New(): (t: Transfer)
    ensures t.filename == [] && t.size == 0 && !t.hasPreview && t.preview.None?
  {
    Transfer([], 0, false, None)
  }

  /** `invite`: the session records the offer; the preview flag follows the preview. */
  function Invite(filename: seq<u16>, size: nat, preview: Option<seq<byte>>): (t: Transfer)
    ensures t.hasPreview <==> preview.Some?
    ensures t.filename == filename && t.size == size && t.preview == preview
  {
    Transfer(filename, size, preview.Some?, preview)
  }

  // ---------------------------------------------------------------------------
  // UTF-16LE code units

  /** Each code unit as two bytes, low byte first. */
  function EncodeUnits(units: seq<u16>): (r: seq<byte>)
    ensures |r| == 2 * |units|
  {
    if units == [] then []
    else [units[0] % 256, units[0] / 256] + EncodeUnits(units[1..])
  }

  /** Pairs of bytes back to code units, low byte first; an odd number of bytes is truncated
      data. */
  function CodeUnits(bs: seq<byte>): (r: Option<seq<u16>>)
    ensures r.Some? <==> |bs| % 2 == 0
    ensures r.Some? ==> |r.value| == |bs| / 2
    decreases |bs|
  {
    if bs == [] then Some([])
    else if |bs| == 1 then None
    else
      match CodeUnits(bs[2..])
      case None => None
      case Some(rest) => Some([Unit(bs[0], bs[1])] + rest)
  }

  function Unit(lo: byte, hi: byte): u16 {
    (lo as int + 256 * hi as int) as u16
  }

  predicate IsHigh(u: u16) { 0xD800 <= u <= 0xDBFF }
  predicate IsLow(u: u16) { 0xDC00 <= u <= 0xDFFF }

  /** Well-formed UTF-16: every high surrogate is followed by a low one, and every low surrogate
      follows a high one. */
  predicate Paired(units: seq<u16>) {
    (forall i :: 0 <= i < |units| && IsHigh(units[i]) ==> i + 1 < |units| && IsLow(units[i + 1]))
    && (forall i :: 0 <= i < |units| && IsLow(units[i]) ==> 0 < i && IsHigh(units[i - 1]))
  }

  /** Python's strict `utf-16-le` decoder, a code unit at a time: a unit outside the surrogate
      range is taken as it is, a high surrogate must be followed by a low one, and anything else
      (an odd trailing byte, a surrogate at the end, a lone low surrogate, a high one followed by
      something else) is a decoding error.  The name is kept as code units, so a pair stays two
      units. */
  function DecodeUnits(bs: seq<byte>): (r: Option<seq<u16>>)
    ensures r.Some? <==> CodeUnits(bs).Some? && Paired(CodeUnits(bs).value)
    ensures r.Some? ==> r == CodeUnits(bs)
    decreases |bs|
  {
    if bs == [] then Some([])
    else if |bs| == 1 then None
    else
      var u := Unit(bs[0], bs[1]);
      if !IsHigh(u) && !IsLow(u) then
        var rest := DecodeUnits(bs[2..]);
        PairedCons(u, CodeUnits(bs[2..]));
        if rest.None? then None else Some([u] + rest.value)
      else if |bs| < 4 then
        assert CodeUnits(bs).Some? ==> CodeUnits(bs).value == [u] && [u][0] == u;
        None
      else
        var u2 := Unit(bs[2], bs[3]);
        assert bs[2..][2..] == bs[4..];
        assert CodeUnits(bs).Some? ==>
          CodeUnits(bs[4..]).Some? && CodeUnits(bs).value == [u, u2] + CodeUnits(bs[4..]).value;
        PairedPair(u, u2, CodeUnits(bs[4..]));
        if IsHigh(u) && IsLow(u2) then
          var rest := DecodeUnits(bs[4..]);
          if rest.None? then None else Some([u, u2] + rest.value)
        else None
  }

  /** A unit outside the surrogate range in front of units changes nothing to their pairing. */
  lemma PairedCons(u: u16, rest: Option<seq<u16>>)
    requires !IsHigh(u) && !IsLow(u)
    ensures rest.Some? ==> (Paired([u] + rest.value) <==> Paired(rest.value))
  {
    if rest.Some? {
      var r := rest.value;
      var t := [u] + r;
      if Paired(r) {
        forall i | 0 <= i < |t| && IsHigh(t[i]) ensures i + 1 < |t| && IsLow(t[i + 1]) {
          assert i > 0 && t[i] == r[i - 1];
          assert t[i + 1] == r[i];
        }
        forall i | 0 <= i < |t| && IsLow(t[i]) ensures 0 < i && IsHigh(t[i - 1]) {
          assert i > 0 && t[i] == r[i - 1];
          assert i - 1 > 0;
          assert t[i - 1] == r[i - 2];
        }
      }
      if Paired(t) {
        forall i | 0 <= i < |r| && IsLow(r[i]) ensures 0 < i && IsHigh(r[i - 1]) {
          assert t[i + 1] == r[i];
          assert IsHigh(t[i]);
          assert i > 0 && t[i] == r[i - 1];
        }
        forall i | 0 <= i < |r| && IsHigh(r[i]) ensures i + 1 < |r| && IsLow(r[i + 1]) {
          assert t[i + 1] == r[i];
          assert IsLow(t[i + 2]);
          assert t[i + 2] == r[i + 1];
        }
      }
    }
  }

  /** Two surrogates in front of units pair up exactly when they are a high and a low one and
      the units pair up. */
  lemma PairedPair(u: u16, u2: u16, rest: Option<seq<u16>>)
    requires IsHigh(u) || IsLow(u)
    ensures rest.Some? ==> (Paired([u, u2] + rest.value) <==> IsHigh(u) && IsLow(u2) && Paired(rest.value))
  {
    if rest.Some? {
      var r := rest.value;
      var t := [u, u2] + r;
      if IsHigh(u) && IsLow(u2) && Paired(r) {
        forall i | 0 <= i < |t| && IsHigh(t[i]) ensures i + 1 < |t| && IsLow(t[i + 1]) {
          if i >= 2 {
            assert t[i] == r[i - 2];
            assert t[i + 1] == r[i - 1];
          }
        }
        forall i | 0 <= i < |t| && IsLow(t[i]) ensures 0 < i && IsHigh(t[i - 1]) {
          if i >= 2 {
            assert t[i] == r[i - 2];
            assert i > 2;
            assert t[i - 1] == r[i - 3];
          }
        }
      }
      if Paired(t) {
        assert t[0] == u && t[1] == u2;
        assert IsHigh(u) ==> IsLow(u2);
        assert !IsLow(u);
        forall i | 0 <= i < |r| && IsLow(r[i]) ensures 0 < i && IsHigh(r[i - 1]) {
          assert t[i + 2] == r[i];
          assert IsHigh(t[i + 1]);
          assert i > 0 && t[i + 1] == r[i - 1];
        }
        forall i | 0 <= i < |r| && IsHigh(r[i]) ensures i + 1 < |r| && IsLow(r[i + 1]) {
          assert t[i + 2] == r[i];
          assert IsLow(t[i + 3]);
          assert t[i + 3] == r[i + 1];
        }
      }
    }
  }

  lemma {:induction false} CodeUnitsEncode(units: seq<u16>)
    ensures CodeUnits(EncodeUnits(units)) == Some(units)
  {
    if units != [] {
      var bs := EncodeUnits(units);
      assert bs[2..] == EncodeUnits(units[1..]);
      CodeUnitsEncode(units[1..]);
      assert [units[0]] + units[1..] == units;
    }
  }

  /** Decoding undoes encoding for well-formed UTF-16. */
  lemma DecodeEncodeUnits(units: seq<u16>)
    requires Paired(units)
    ensures DecodeUnits(EncodeUnits(units)) == Some(units)
  {
    CodeUnitsEncode(units);
  }

  /** A lone high surrogate followed by 'A' is refused, as Python's decoder refuses it. */
  lemma LoneSurrogateRefused()
    ensures DecodeUnits([0x00, 0xD8, 0x41, 0x00]) == None
  {
    assert Unit(0x00, 0xD8) == 0xD800;
    assert Unit(0x41, 0x00) == 0x41;
  }

  /** Zero bytes are zero code units. */
  lemma {:induction false} DecodeZeros(k: nat)
    ensures CodeUnits(Zeros(2 * k)) == Some(seq(k, _ => 0))
  {
    if k > 0 {
      assert Zeros(2 * k)[2..] == Zeros(2 * (k - 1));
      DecodeZeros(k - 1);
      assert [0 as u16] + seq(k - 1, _ => 0) == seq(k, _ => 0);
    }
  }

  /** Pairs of bytes of a concatenation of even-length parts are those of each part. */
  lemma {:induction false} DecodeAppend(a: seq<byte>, b: seq<byte>)
    requires |a| % 2 == 0 && |b| % 2 == 0
    ensures CodeUnits(a + b) == Some(CodeUnits(a).value + CodeUnits(b).value)
    decreases |a|
  {
    if a != [] {
      assert (a + b)[2..] == a[2..] + b;
      DecodeAppend(a[2..], b);
      assert (a + b)[0] == a[0] && (a + b)[1] == a[1];
      var u := Unit(a[0], a[1]);
      var x, y := CodeUnits(a[2..]).value, CodeUnits(b).value;
      assert CodeUnits(a) == Some([u] + x);
      assert CodeUnits(a + b) == Some([u] + (x + y));
      assert [u] + (x + y) == ([u] + x) + y;
    } else {
      assert a + b == b;
      assert CodeUnits(a) == Some([]);
      assert CodeUnits(a).value + CodeUnits(b).value == CodeUnits(b).value;
    }
  }

  /** Zero padding after well-formed UTF-16 keeps it well-formed. */
  lemma PairedPadding(units: seq<u16>, k: nat)
    requires Paired(units)
    ensures Paired(units + seq(k, _ => 0))
  {
    var t := units + seq(k, _ => 0);
    forall i | 0 <= i < |t| && IsHigh(t[i]) ensures i + 1 < |t| && IsLow(t[i + 1]) {
      assert i < |units| && t[i] == units[i];
      assert t[i + 1] == units[i + 1];
    }
    forall i | 0 <= i < |t| && IsLow(t[i]) ensures 0 < i && IsHigh(t[i - 1]) {
      assert i < |units| && t[i] == units[i];
      assert t[i - 1] == units[i - 1];
    }
  }

  /** `struct.pack("550s", s)`: cut to the field, or padded with zero bytes. */
  function PackField(bs: seq<byte>, width: nat): (r: seq<byte>)
    ensures |r| == width
    ensures |bs| <= width ==> r == bs + Zeros(width - |bs|)
  {
    if |bs| >= width then bs[..width] else bs + Zeros(width - |bs|)
  }

  /** `rstrip("\x00")` on the decoded name. */
  function StripNuls(units: seq<u16>): (r: seq<u16>)
    ensures |r| <= |units| && r == units[..|r|]
    ensures r == [] || r[|r| - 1] != 0
    ensures forall i :: |r| <= i < |units| ==> units[i] == 0
    decreases |units|
  {
    if units == [] || units[|units| - 1] != 0 then units
    else StripNuls(units[..|units| - 1])
  }

  /** A name without trailing NUL loses nothing to the padding and the strip. */
  lemma {:induction false} StripPadding(units: seq<u16>, k: nat)
    requires units == [] || units[|units| - 1] != 0
    ensures StripNuls(units + seq(k, _ => 0)) == units
    decreases k
  {
    if k > 0 {
      assert (units + seq(k, _ => 0))[..|units| + k - 1] == units + seq(k - 1, _ => 0);
      StripPadding(units, k - 1);
    } else {
      assert units + seq(0, _ => 0) == units;
    }
  }

  // ---------------------------------------------------------------------------
  // The context

  /** The five 32-bit words that open a context. */
  function Words(size: u32, flag: u32): (r: seq<byte>)
    ensures |r| == NAME_OFFSET && r[8..12] == LE32(size) && r[16..20] == LE32(flag)
  {
    var a, b, c, d, e := LE32(574), LE32(2), LE32(size), LE32(0), LE32(flag);
    FiveWords(a, b, c, d, e);
    a + b + c + d + e
  }

  /** Five 4-byte words side by side: the third at bytes 8 to 12, the fifth at 16 to 20. */
  lemma FiveWords(a: seq<byte>, b: seq<byte>, c: seq<byte>, d: seq<byte>, e: seq<byte>)
    requires |a| == 4 && |b| == 4 && |c| == 4 && |d| == 4 && |e| == 4
    ensures var r := a + b + c + d + e; |r| == 20 && r[8..12] == c && r[16..20] == e
  {
  }

  /** The bytes after the name field: four 0xFF bytes and, with a preview, the preview. */
  function Trailer(t: Transfer): (r: seq<byte>)
    ensures |r| >= 4 && r[4..] == if t.hasPreview then t.preview.GetOr([]) else []
  {
    [0xFF, 0xFF, 0xFF, 0xFF] + (if t.hasPreview then t.preview.GetOr([]) else [])
  }

  /** `_build_context`; `None` when the size does not fit the 32-bit word (`struct.error`). */
  function BuildContext(t: Transfer): (r: Option<seq<byte>>)
    ensures r.Some? <==> t.size < U32_LIMIT
    ensures r.Some? ==> |r.value| == HEADER_LENGTH + (if t.hasPreview then |t.preview.GetOr([])| else 0)
  {
    if t.size >= U32_LIMIT then None
    else Some(Words(t.size, if t.hasPreview then 1 else 0) + PackField(EncodeUnits(t.filename), NAME_FIELD) + Trailer(t))
  }

  /** The bytes `context[20:570]` the name is read from. */
  function NameBytes(context: seq<byte>): seq<byte>
    requires |context| >= NAME_OFFSET
  {
    context[NAME_OFFSET..Min(|context|, NAME_OFFSET + NAME_FIELD)]
  }

  /** The parts of a context every reader looks at: the size word, the flag word, the decoded
      name and the bytes after the header. `None` for fewer than 20 bytes, or a name field of odd
      length or with an unpaired surrogate. */
  function Fields(context: seq<byte>): (r: Option<(nat, nat, seq<u16>, seq<byte>)>)
    ensures r.Some? <==> |context| >= NAME_OFFSET && |NameBytes(context)| % 2 == 0
                         && Paired(CodeUnits(NameBytes(context)).value)
    ensures r.Some? ==> r.value.2 == StripNuls(CodeUnits(NameBytes(context)).value)
  {
    if |context| < NAME_OFFSET then None
    else
      var size := ReadLE32(context[8..12]);
      var flag := ReadLE32(context[16..20]);
      var field := NameBytes(context);
      match DecodeUnits(field)
      case None => None
      case Some(units) =>
        Some((size, flag, StripNuls(units), if |context| > HEADER_LENGTH then context[HEADER_LENGTH..] else []))
  }

  function Min(a: int, b: int): int {
    if a < b then a else b
  }

  /** `parse_context` as written: the preview flag is set when the fifth word is ZERO, and the
      preview (bytes from 574 on) is read only then; otherwise the old preview stays. `None` is
      `FTParseError`. */
  function ParseContextAsWritten(t: Transfer, context: seq<byte>): (r: Option<Transfer>)
    ensures r.Some? <==> Fields(context).Some?
    ensures r.Some? ==> (r.value.hasPreview <==> Fields(context).value.1 == 0)
  {
    match Fields(context)
    case None => None
    case Some(f) =>
      var hasPreview := f.1 == 0;
      Some(Transfer(f.2, f.0, hasPreview, if hasPreview then Some(f.3) else t.preview))
  }

  /** `parse_context` with the flag read the way `_build_context` writes it: non-zero means a
      preview follows. */
  function ParseContext(t: Transfer, context: seq<byte>): (r: Option<Transfer>)
    ensures r.Some? <==> Fields(context).Some?
    ensures r.Some? ==> (r.value.hasPreview <==> Fields(context).value.1 != 0)
  {
    match Fields(context)
    case None => None
    case Some(f) =>
      var hasPreview := f.1 != 0;
      Some(Transfer(f.2, f.0, hasPreview, if hasPreview then Some(f.3) else t.preview))
  }

  /** A name that survives the 550-byte field, the decoder and the NUL strip: well-formed
      UTF-16 of at most 275 code units, the last one not NUL. */
  predicate FitsField(filename: seq<u16>) {
    |filename| <= NAME_FIELD / 2 && (filename == [] || filename[|filename| - 1] != 0) && Paired(filename)
  }

  /** The name field of a fitting name decodes, once stripped, to that name. */
  lemma NameField(filename: seq<u16>)
    requires FitsField(filename)
    ensures DecodeUnits(PackField(EncodeUnits(filename), NAME_FIELD)).Some?
    ensures StripNuls(DecodeUnits(PackField(EncodeUnits(filename), NAME_FIELD)).value) == filename
  {
    var enc := EncodeUnits(filename);
    var pad := NAME_FIELD / 2 - |filename|;
    assert PackField(enc, NAME_FIELD) == enc + Zeros(2 * pad);
    DecodeAppend(enc, Zeros(2 * pad));
    CodeUnitsEncode(filename);
    DecodeZeros(pad);
    PairedPadding(filename, pad);
    StripPadding(filename, pad);
  }

  /** The fields of any context laid out as words, a whole name field and a trailer. */
  lemma LaidOut(w: seq<byte>, name: seq<byte>, tr: seq<byte>)
    requires |w| == NAME_OFFSET && |name| == NAME_FIELD && |tr| >= 4 && Paired(CodeUnits(name).value)
    ensures Fields(w + name + tr)
         == Some((ReadLE32(w[8..12]), ReadLE32(w[16..20]), StripNuls(CodeUnits(name).value), tr[4..]))
  {
    var c := w + name + tr;
    assert c[8..12] == w[8..12] && c[16..20] == w[16..20];
    assert c[NAME_OFFSET..NAME_OFFSET + NAME_FIELD] == name;
    assert c[HEADER_LENGTH..] == tr[4..];
  }

  /** The fields of a built context: the size, the flag word, the name and the preview. */
  lemma BuiltFields(t: Transfer)
    requires t.size < U32_LIMIT && FitsField(t.filename)
    ensures Fields(BuildContext(t).value)
         == Some((t.size, if t.hasPreview then 1 else 0, t.filename, if t.hasPreview then t.preview.GetOr([]) else []))
  {
    var flag: u32 := if t.hasPreview then 1 else 0;
    NameField(t.filename);
    LaidOut(Words(t.size, flag), PackField(EncodeUnits(t.filename), NAME_FIELD), Trailer(t));
    ReadLE32Inverse(t.size);
    ReadLE32Inverse(flag);
  }

  /** With the flag read as written, an offered preview is lost: the receiver believes there is
      none. */
  lemma PreviewLostAsWritten(filename: seq<u16>, size: nat, preview: seq<byte>)
    requires size < U32_LIMIT && FitsField(filename)
    ensures ParseContextAsWritten(New(), BuildContext(Invite(filename, size, Some(preview))).value)
         == Some(Transfer(filename, size, false, None))
  {
    BuiltFields(Invite(filename, size, Some(preview)));
  }

  /** ... and a transfer without a preview is read as having an empty one. */
  lemma PhantomPreviewAsWritten(filename: seq<u16>, size: nat)
    requires size < U32_LIMIT && FitsField(filename)
    ensures ParseContextAsWritten(New(), BuildContext(Invite(filename, size, None)).value)
         == Some(Transfer(filename, size, true, Some([])))
  {
    BuiltFields(Invite(filename, size, None));
  }

  /** The receiver of an invitation learns the offer: name, size and preview come back. */
  lemma ContextRoundTrip(t: Transfer, filename: seq<u16>, size: nat, preview: Option<seq<byte>>)
    requires size < U32_LIMIT && FitsField(filename)
    ensures ParseContext(t, BuildContext(Invite(filename, size, preview)).value)
         == Some(Transfer(filename, size, preview.Some?, if preview.Some? then preview else t.preview))
  {
    BuiltFields(Invite(filename, size, preview));
  }

  /** A context too short for the five words is refused. */
  lemma ShortContext(t: Transfer, context: seq<byte>)
    requires |context| < NAME_OFFSET
    ensures ParseContext(t, context).None? && ParseContextAsWritten(t, context).None?
  {
  }

  // ---------------------------------------------------------------------------
  // Ending the session

  datatype Action = Decline(status: int) | Close | EmitCanceled | Dispose

  /** `reject` declines with 603; `cancel` closes. */
  function Reject(): (a: Action)
    ensures a == Decline(603)
  {
    Decline(603)
  }

  /** `_on_bye_received`: a BYE before completion reports a cancellation, then the session is
      disposed of in any case. */
  function OnByeReceived(completed: bool): (r: seq<Action>)
    ensures |r| > 0 && r[|r| - 1] == Dispose
    ensures EmitCanceled in r <==> !completed
  {
    if completed then [Dispose] else [EmitCanceled, Dispose]
  }
}

=== FILE: http_message.dfy ===
/** HTTP-style messages (`papyon/gnet/message/HTTP.py`): an ordered table of headers and a body,
    written as CRLF-separated `name: value` lines, an empty line and the body; requests and
    responses add a start line.  The same layout carries SLP messages. */
module HttpMessage {
  import opened Results
  import opened Text

  const CRLF: string := "\r\n"
  const CONTENT_TYPE: string := "Content-Type"
  const CONTENT_ENCODING: string := "Content-Encoding"

  type Header = (string, string)

  /** The header table keeps insertion order and one entry per name. */
  predicate UniqueNames(hs: seq<Header>) {
    forall i, j :: 0 <= i < j < |hs| ==> hs[i].0 != hs[j].0
  }

  /** The position of `name` in the table. */
  function IndexOf(hs: seq<Header>, name: string): (r: Option<nat>)
    ensures r.Some? ==> r.value < |hs| && hs[r.value].0 == name
    ensures r.Some? ==> forall i :: 0 <= i < r.value ==> hs[i].0 != name
    ensures r.None? ==> forall i :: 0 <= i < |hs| ==> hs[i].0 != name
  {
    if hs == [] then None
    else if hs[0].0 == name then Some(0)
    else match IndexOf(hs[1..], name)
      case None => None
      case Some(i) => Some(i + 1)
  }

  /** `get_header` (`None` where the source raises `KeyError`). */
  function Lookup(hs: seq<Header>, name: string): (r: Option<string>)
    ensures r.Some? <==> exists i :: 0 <= i < |hs| && hs[i].0 == name
    ensures r.Some? ==> exists i :: 0 <= i < |hs| && hs[i] == (name, r.value)
  {
    match IndexOf(hs, name)
    case None => None
    case Some(i) => Some(hs[i].1)
  }

  /** `add_header`: a new name goes to the end; a known name keeps its place and takes the new
      value. */
  function AddHeader(hs: seq<Header>, name: string, value: string): (r: seq<Header>)
    ensures UniqueNames(hs) ==> UniqueNames(r)
    ensures Lookup(r, name) == Some(value)
    ensures forall n :: n != name ==> Lookup(r, n) == Lookup(hs, n)
    ensures Lookup(hs, name).Some? ==> |r| == |hs| && forall i :: 0 <= i < |hs| ==> r[i].0 == hs[i].0
    ensures Lookup(hs, name).None? ==> r == hs + [(name, value)]
  {
    match IndexOf(hs, name)
    case None =>
      var r := hs + [(name, value)];
      assert forall n :: n != name ==> IndexOf(r, n) == IndexOf(hs, n) by {
        forall n | n != name ensures IndexOf(r, n) == IndexOf(hs, n) {
          IndexOfAppend(hs, (name, value), n);
        }
      }
      assert IndexOf(r, name) == Some(|hs|) by { IndexOfAppend(hs, (name, value), name); }
      r
    case Some(i) =>
      var r := hs[i := (name, value)];
      assert forall n :: n != name ==> IndexOf(r, n) == IndexOf(hs, n) by {
        forall n | n != name ensures IndexOf(r, n) == IndexOf(hs, n) {
          IndexOfUpdate(hs, i, value, n);
        }
      }
      assert IndexOf(r, name) == Some(i) by { IndexOfUpdate(hs, i, value, name); }
      r
  }

  lemma {:induction false} IndexOfAppend(hs: seq<Header>, h: Header, n: string)
    ensures IndexOf(hs + [h], n) == (if IndexOf(hs, n).Some? then IndexOf(hs, n)
                                     else if h.0 == n then Some(|hs|) else None)
    decreases |hs|
  {
    if hs != [] {
      assert (hs + [h])[1..] == hs[1..] + [h];
      IndexOfAppend(hs[1..], h, n);
    }
  }

  lemma {:induction false} IndexOfUpdate(hs: seq<Header>, i: nat, v: string, n: string)
    requires i < |hs|
    ensures IndexOf(hs[i := (hs[i].0, v)], n) == IndexOf(hs, n)
    decreases |hs|
  {
    if hs != [] && i > 0 {
      assert hs[i := (hs[i].0, v)][1..] == hs[1..][i - 1 := (hs[i].0, v)];
      IndexOfUpdate(hs[1..], i - 1, v, n);
    }
  }

  datatype Message = Message(headers: seq<Header>, body: string)

  /** `clear`: no headers, empty body. */
  function Clear(): (m: Message)
    ensures m.headers == [] && m.body == ""
  {
    Message([], "")
  }

  function HeaderLine(h: Header): string {
    h.0 + ":" + (" " + h.1)
  }

  function HeaderLines(hs: seq<Header>): (r: seq<string>)
    ensures |r| == |hs| && forall i :: 0 <= i < |hs| ==> r[i] == HeaderLine(hs[i])
  {
    seq(|hs|, i requires 0 <= i < |hs| => HeaderLine(hs[i]))
  }

  /** `__str__`: the header lines in order, an empty line, and the body — or, when the message
      declares a content encoding, a placeholder naming it. */
  function Serialize(m: Message): (r: string)
    ensures Lookup(m.headers, CONTENT_ENCODING).None? ==> r == Join(HeaderLines(m.headers) + ["", m.body], CRLF)
    ensures Lookup(m.headers, CONTENT_ENCODING).Some? ==>
      r == Join(HeaderLines(m.headers) + ["", "<" + Lookup(m.headers, CONTENT_ENCODING).value + " encoded data>"], CRLF)
  {
    var tail := match Lookup(m.headers, CONTENT_ENCODING)
      case Some(e) => "<" + e + " encoded data>"
      case None => m.body;
    Join(HeaderLines(m.headers) + ["", tail], CRLF)
  }

  datatype ParseError = InvalidHeaderLine(line: string) | NoStartLine | InvalidStartLine | InvalidStatus | InvalidVersion

  /** A line that ends the headers: blank, or a single NUL. */
  predicate EndsHeaders(line: string) {
    Strip(line) == "" || line == "\0"
  }

  /** The number of header lines: those before the first line that ends the headers. */
  function HeaderCount(lines: seq<string>): (n: nat)
    ensures n <= |lines|
    ensures forall k :: 0 <= k < n ==> !EndsHeaders(lines[k])
    ensures n < |lines| ==> EndsHeaders(lines[n])
  {
    if lines == [] || EndsHeaders(lines[0]) then 0 else 1 + HeaderCount(lines[1..])
  }

  /** The loop of `parse` from some header table on: each header line is split at its first
      `:` into a right-stripped name and a left-stripped value; the first line ending the headers
      makes every later line, CRLF-joined, the body. */
  function ParseLines(hs: seq<Header>, lines: seq<string>): (r: Result<Message, ParseError>)
    ensures r.Success? && UniqueNames(hs) ==> UniqueNames(r.value.headers)
    decreases |lines|
  {
    if lines == [] then Success(Message(hs, ""))
    else if EndsHeaders(lines[0]) then
      Success(Message(hs, if |lines| >= 2 then Join(lines[1..], CRLF) else ""))
    else match SplitOnce(lines[0], ":")
      case None => Failure(InvalidHeaderLine(lines[0]))
      case Some((name, value)) => ParseLines(AddHeader(hs, RStrip(name), LStrip(value)), lines[1..])
  }

  /** Parsing fails exactly when one of the header lines has no `:`; otherwise the body is
      every line after the one ending the headers, CRLF-joined. */
  lemma {:induction false} ParseLinesOutcome(hs: seq<Header>, lines: seq<string>)
    ensures ParseLines(hs, lines).Failure? <==> exists k :: 0 <= k < HeaderCount(lines) && !Contains(lines[k], ":")
    ensures ParseLines(hs, lines).Success? ==>
      ParseLines(hs, lines).value.body == (if HeaderCount(lines) < |lines| then Join(lines[HeaderCount(lines) + 1..], CRLF) else "")
    decreases |lines|
  {
    if lines != [] && !EndsHeaders(lines[0]) {
      match SplitOnce(lines[0], ":")
      case None =>
      case Some((name, value)) =>
        ParseLinesOutcome(AddHeader(hs, RStrip(name), LStrip(value)), lines[1..]);
        ParseLinesShift(lines);
    }
  }

  /** Header counting and the body's lines seen from the second line on. */
  lemma ParseLinesShift(lines: seq<string>)
    requires lines != [] && !EndsHeaders(lines[0])
    ensures HeaderCount(lines) == 1 + HeaderCount(lines[1..])
    ensures forall k :: 1 <= k < |lines| ==> lines[k] == lines[1..][k - 1]
    ensures HeaderCount(lines[1..]) < |lines[1..]| ==> lines[HeaderCount(lines) + 1..] == lines[1..][HeaderCount(lines[1..]) + 1..]
  {
  }

  /** `HTTPMessage.parse`: the text split at CRLF, parsed into a cleared message. */
  function Parse(chunk: string): (r: Result<Message, ParseError>)
    ensures r.Success? ==> UniqueNames(r.value.headers)
  {
    ParseLines(Clear().headers, Split(chunk, CRLF))
  }

  /** A header that survives the round trip: the name has no `:`, CR or trailing whitespace; the
      value has no CR and no leading whitespace. */
  predicate Writable(h: Header) {
    Lacks(h.0, ':') && Lacks(h.0, '\r') && Lacks(h.1, '\r')
    && (h.0 == "" || !IsSpace(h.0[|h.0| - 1]))
    && (h.1 == "" || !IsSpace(h.1[0]))
  }

  predicate AllWritable(hs: seq<Header>) {
    forall i :: 0 <= i < |hs| ==> Writable(hs[i])
  }

  /** `add_header` keeps every entry writable when the new one is. */
  lemma AddHeaderWritable(hs: seq<Header>, name: string, value: string)
    requires AllWritable(hs) && Writable((name, value))
    ensures AllWritable(AddHeader(hs, name, value))
  {
    match IndexOf(hs, name)
    case None =>
    case Some(i) =>
      var r := AddHeader(hs, name, value);
      assert r == hs[i := (name, value)];
  }

  predicate WellFormed(m: Message) {
    UniqueNames(m.headers) && Lookup(m.headers, CONTENT_ENCODING).None?
    && forall i :: 0 <= i < |m.headers| ==> Writable(m.headers[i])
  }

  /** A header line is not a line that ends the headers, and has no CR. */
  lemma HeaderLineKept(h: Header)
    requires Writable(h)
    ensures !EndsHeaders(HeaderLine(h)) && Lacks(HeaderLine(h), '\r')
  {
    var line := HeaderLine(h);
    assert line[|h.0|] == ':';
    StripKeeps(line, ':');
  }

  /** Stripping the name's right end and the value's left end undoes the `: ` separator. */
  lemma HeaderLineStrips(h: Header)
    requires Writable(h)
    ensures RStrip(h.0) == h.0 && LStrip(" " + h.1) == h.1
  {
    if h.0 != "" { WhitespaceIsSpace(h.0[|h.0| - 1]); }
    RStripUnchanged(h.0, Whitespace);
    assert (" " + h.1)[1..] == h.1;
    if h.1 != "" { WhitespaceIsSpace(h.1[0]); }
    LStripUnchanged(h.1, Whitespace);
  }

  /** One header line reads back as its header. */
  lemma HeaderLineParts(h: Header)
    requires Writable(h)
    ensures !EndsHeaders(HeaderLine(h)) && Lacks(HeaderLine(h), '\r')
    ensures SplitOnce(HeaderLine(h), ":") == Some((h.0, " " + h.1))
    ensures RStrip(h.0) == h.0 && LStrip(" " + h.1) == h.1
  {
    HeaderLineKept(h);
    SplitOnceAfterPrefix(h.0, ":", " " + h.1);
    HeaderLineStrips(h);
  }

  /** Parsing the header lines of a table onto a table with none of its names appends it. */
  lemma {:induction false} ParseHeaderLines(acc: seq<Header>, hs: seq<Header>, rest: seq<string>)
    requires UniqueNames(acc + hs)
    requires forall i :: 0 <= i < |hs| ==> Writable(hs[i])
    ensures ParseLines(acc, HeaderLines(hs) + rest) == ParseLines(acc + hs, rest)
    decreases |hs|
  {
    if hs == [] {
      assert HeaderLines(hs) + rest == rest;
      assert acc + hs == acc;
    } else {
      var h := hs[0];
      HeaderLineParts(h);
      HeaderLinesCons(hs, rest);
      FreshName(acc, hs);
      ShiftHeader(acc, hs);
      ParseHeaderLines(acc + [h], hs[1..], rest);
    }
  }

  lemma HeaderLinesCons(hs: seq<Header>, rest: seq<string>)
    requires hs != []
    ensures (HeaderLines(hs) + rest)[0] == HeaderLine(hs[0])
    ensures (HeaderLines(hs) + rest)[1..] == HeaderLines(hs[1..]) + rest
  {
    assert (HeaderLines(hs) + rest)[1..] == HeaderLines(hs[1..]) + rest;
  }

  /** The next header of a table with unique names is not yet in the part before it. */
  lemma FreshName(acc: seq<Header>, hs: seq<Header>)
    requires hs != [] && UniqueNames(acc + hs)
    ensures Lookup(acc, hs[0].0).None?
  {
    forall i | 0 <= i < |acc| ensures acc[i].0 != hs[0].0 {
      assert (acc + hs)[i] == acc[i] && (acc + hs)[|acc|] == hs[0];
    }
  }

  lemma ShiftHeader(acc: seq<Header>, hs: seq<Header>)
    requires hs != []
    ensures (acc + [hs[0]]) + hs[1..] == acc + hs
  {
    assert hs == [hs[0]] + hs[1..];
  }

  /** The lines of a well-formed message's text: its header lines, an empty line, and the
      lines of its body. */
  lemma SerializeLines(m: Message)
    requires Lookup(m.headers, CONTENT_ENCODING).None? && AllWritable(m.headers)
    ensures Split(Serialize(m), CRLF) == HeaderLines(m.headers) + ([""] + Split(m.body, CRLF))
  {
    SerializeJoin(m);
    HeaderLinesLackCR(m.headers);
    SplitLinesBody(HeaderLines(m.headers), m.body);
  }

  /** CR-free lines, an empty line and a body, CRLF-joined, split back into the lines, the
      empty line and the body's own lines. */
  lemma SplitLinesBody(lines: seq<string>, body: string)
    requires forall i :: 0 <= i < |lines + [""]| ==> Lacks((lines + [""])[i], CRLF[0])
    ensures Split(Join(lines + [""] + [body], CRLF), CRLF) == lines + ([""] + Split(body, CRLF))
  {
    SplitJoinLines(lines + [""], body, CRLF);
    Regroup(lines, "", Split(body, CRLF));
  }

  lemma Regroup(a: seq<string>, x: string, b: seq<string>)
    ensures a + [x] + b == a + ([x] + b)
  {
  }

  /** Without a content encoding, the text is the header lines, an empty line and the body,
      joined by CRLF. */
  lemma SerializeJoin(m: Message)
    requires Lookup(m.headers, CONTENT_ENCODING).None?
    ensures Serialize(m) == Join(HeaderLines(m.headers) + [""] + [m.body], CRLF)
  {
    assert HeaderLines(m.headers) + [""] + [m.body] == HeaderLines(m.headers) + ["", m.body];
  }

  /** No header line, nor the empty line after them, holds a CR. */
  lemma HeaderLinesLackCR(hs: seq<Header>)
    requires forall i :: 0 <= i < |hs| ==> Writable(hs[i])
    ensures forall i :: 0 <= i < |HeaderLines(hs) + [""]| ==> Lacks((HeaderLines(hs) + [""])[i], CRLF[0])
  {
    var lines := HeaderLines(hs);
    forall i | 0 <= i < |lines + [""]| ensures Lacks((lines + [""])[i], CRLF[0]) {
      if i < |lines| { HeaderLineParts(hs[i]); }
    }
  }

  /** Past the header lines, an empty line makes the rest the body. */
  lemma ParseBodyLines(hs: seq<Header>, body: string)
    ensures ParseLines(hs, [""] + Split(body, CRLF)) == Success(Message(hs, body))
  {
    var tail := [""] + Split(body, CRLF);
    assert EndsHeaders(tail[0]) by { assert Strip("") == ""; }
    assert tail[1..] == Split(body, CRLF);
    JoinSplit(body, CRLF);
  }

  /** A well-formed message is read back from its text unchanged. */
  lemma ParseSerialize(m: Message)
    requires WellFormed(m)
    ensures Parse(Serialize(m)) == Success(m)
  {
    SerializeLines(m);
    ParseHeaderLines([], m.headers, [""] + Split(m.body, CRLF));
    assert [] + m.headers == m.headers;
    ParseBodyLines(m.headers, m.body);
  }

  // ---------------------------------------------------------------------------
  // Content type

  datatype ContentTypeError = NoCharsetValue

  /** `content_type`: the `Content-Type` header split at its first `;` into a stripped MIME type
      and the stripped text after the parameter's first `=` (a parameter with no `=` raises);
      `('text/plain', 'UTF-8')` when absent and charset `UTF-8` when there is no parameter. */
  function ContentType(hs: seq<Header>): (r: Result<(string, string), ContentTypeError>)
    ensures Lookup(hs, CONTENT_TYPE).None? ==> r == Success(("text/plain", "UTF-8"))
    ensures r.Failure? ==> Lookup(hs, CONTENT_TYPE).Some? && Contains(Lookup(hs, CONTENT_TYPE).value, ";")
    ensures Lookup(hs, CONTENT_TYPE).Some? && !Contains(Lookup(hs, CONTENT_TYPE).value, ";") ==>
      r == Success((Strip(Lookup(hs, CONTENT_TYPE).value), "UTF-8"))
  {
    match Lookup(hs, CONTENT_TYPE)
    case None => Success(("text/plain", "UTF-8"))
    case Some(ct) =>
      match SplitOnce(ct, ";")
      case None => Success((Strip(ct), "UTF-8"))
      case Some((mime, param)) =>
        match SplitOnce(param, "=")
        case None => Failure(NoCharsetValue)
        case Some((_, charset)) => Success((Strip(mime), Strip(charset)))
  }

  /** The `content_type` setter with a (type, charset) pair. */
  function SetContentType(hs: seq<Header>, mime: string, charset: string): (r: seq<Header>)
    ensures Lookup(r, CONTENT_TYPE) == Some(mime + "; charset=" + charset)
    ensures forall n :: n != CONTENT_TYPE ==> Lookup(r, n) == Lookup(hs, n)
  {
    AddHeader(hs, CONTENT_TYPE, mime + "; charset=" + charset)
  }

  /** Setting a type and charset and reading them back gives the same pair, when the type has no
      `;` and neither has surrounding whitespace. */
  lemma ContentTypeRoundTrip(hs: seq<Header>, mime: string, charset: string)
    requires Lacks(mime, ';') && Strip(mime) == mime && Strip(charset) == charset
    ensures ContentType(SetContentType(hs, mime, charset)) == Success((mime, charset))
  {
    var ct := mime + "; charset=" + charset;
    assert Lookup(SetContentType(hs, mime, charset), CONTENT_TYPE) == Some(ct);
    CharsetParameter(mime, charset);
  }

  /** The header text the setter writes splits back into the type and the charset. */
  lemma CharsetParameter(mime: string, charset: string)
    requires Lacks(mime, ';')
    ensures SplitOnce(mime + "; charset=" + charset, ";") == Some((mime, " charset=" + charset))
    ensures SplitOnce(" charset=" + charset, "=") == Some((" charset", charset))
  {
    assert mime + "; charset=" + charset == mime + ";" + (" charset=" + charset);
    SplitOnceAfterPrefix(mime, ";", " charset=" + charset);
    CharsetValue(charset);
  }

  lemma CharsetValue(charset: string)
    ensures SplitOnce(" charset=" + charset, "=") == Some((" charset", charset))
  {
    assert " charset=" + charset == " charset" + "=" + charset;
    assert Lacks(" charset", '=');
    SplitOnceAfterPrefix(" charset", "=", charset);
  }

  // ---------------------------------------------------------------------------
  // Requests and responses

  datatype Response = Response(message: Message, status: int, reason: string, version: string)
  datatype Request = Request(message: Message, verb: string, resource: string, version: string)

  /** `HTTPResponse.__str__`: `HTTP/<version> <status> <reason>`, CRLF, the message. */
  function SerializeResponse(r: Response): string {
    "HTTP/" + r.version + " " + IntToString(r.status) + " " + r.reason + CRLF + Serialize(r.message)
  }

  /** `HTTPResponse.parse`: the first line splits at its first two spaces into version, integer
      status and reason; the version is what follows its first `/`. */
  function ParseResponse(chunk: string): (r: Result<Response, ParseError>)
    ensures r.Failure? && !Contains(chunk, CRLF) ==> r.error == NoStartLine
    ensures r.Success? ==> exists start, rest :: chunk == start + CRLF + rest && Parse(rest) == Success(r.value.message)
  {
    match SplitOnce(chunk, CRLF)
    case None => Failure(NoStartLine)
    case Some((start, rest)) =>
      match SplitOnce(start, " ")
      case None => Failure(InvalidStartLine)
      case Some((v, more)) =>
        match SplitOnce(more, " ")
        case None => Failure(InvalidStartLine)
        case Some((status, reason)) =>
          match ParseInt(status)
          case None => Failure(InvalidStatus)
          case Some(code) =>
            match SplitOnce(v, "/")
            case None => Failure(InvalidVersion)
            case Some((_, version)) =>
              match Parse(rest)
              case Failure(e) => Failure(e)
              case Success(m) => Success(Response(m, code, reason, version))
  }

  /** A response whose version has no space or CR and whose reason has no CR reads back as
      itself. */
  lemma ParseSerializeResponse(r: Response)
    requires WellFormed(r.message)
    requires Lacks(r.version, ' ') && Lacks(r.version, '\r') && Lacks(r.reason, '\r')
    ensures ParseResponse(SerializeResponse(r)) == Success(r)
  {
    var st := IntToString(r.status);
    var v := "HTTP/" + r.version;
    var start := v + " " + st + " " + r.reason;
    StatusLine(r.version, st, r.reason);
    assert SerializeResponse(r) == start + CRLF + Serialize(r.message);
    SplitOnceAfterPrefix(start, CRLF, Serialize(r.message));
    ParseIntToString(r.status);
    VersionPart(r.version);
    ParseSerialize(r.message);
    ParseResponseParts(SerializeResponse(r), start, Serialize(r.message), v, st, r.reason, r.status, r.version, r.message);
  }

  /** The status line of a response splits into the version word, the status and the reason. */
  lemma StatusLine(version: string, st: string, reason: string)
    requires Lacks(version, ' ') && Lacks(version, '\r') && Lacks(reason, '\r') && NoSpace(st)
    ensures Lacks("HTTP/" + version + " " + st + " " + reason, '\r')
    ensures SplitOnce("HTTP/" + version + " " + st + " " + reason, " ") == Some(("HTTP/" + version, st + " " + reason))
    ensures SplitOnce(st + " " + reason, " ") == Some((st, reason))
  {
    StatusLineNoCR(version, st, reason);
    var v := "HTTP/" + version;
    VersionWord(version);
    NoSpaceLacks(st);
    RegroupText4(v + " ", st, " ", reason);
    SplitOnceAfterPrefix(v, " ", st + " " + reason);
    SplitOnceAfterPrefix(st, " ", reason);
  }

  lemma StatusLineNoCR(version: string, st: string, reason: string)
    requires Lacks(version, '\r') && Lacks(reason, '\r') && NoSpace(st)
    ensures Lacks("HTTP/" + version + " " + st + " " + reason, '\r')
  {
    NoSpaceLacks(st);
    assert Lacks("HTTP/", '\r') && Lacks(" ", '\r');
    LacksAppend("HTTP/", version, '\r');
    LacksAppend("HTTP/" + version, " ", '\r');
    LacksAppend("HTTP/" + version + " ", st, '\r');
    LacksAppend("HTTP/" + version + " " + st, " ", '\r');
    LacksAppend("HTTP/" + version + " " + st + " ", reason, '\r');
  }

  lemma NoSpaceLacks(st: string)
    requires NoSpace(st)
    ensures Lacks(st, ' ') && Lacks(st, '\r')
  {
    forall i | 0 <= i < |st| ensures st[i] != ' ' && st[i] != '\r' { assert !IsSpace(st[i]); }
  }

  lemma RegroupText4(a: string, b: string, c: string, d: string)
    ensures a + b + c + d == a + (b + c + d)
  {
  }

  /** `HTTPResponse.parse` on a text whose pieces are known. */
  lemma ParseResponseParts(chunk: string, start: string, rest: string, v: string, st: string, reason: string,
                           status: int, version: string, m: Message)
    requires SplitOnce(chunk, CRLF) == Some((start, rest))
    requires SplitOnce(start, " ") == Some((v, st + " " + reason))
    requires SplitOnce(st + " " + reason, " ") == Some((st, reason))
    requires ParseInt(st) == Some(status)
    requires SplitOnce(v, "/") == Some(("HTTP", version))
    requires Parse(rest) == Success(m)
    ensures ParseResponse(chunk) == Success(Response(m, status, reason, version))
  {
  }

  /** The version is what follows the first `/` of `HTTP/<version>`. */
  lemma VersionPart(version: string)
    ensures SplitOnce("HTTP/" + version, "/") == Some(("HTTP", version))
  {
    var p: string := "HTTP";
    assert Lacks(p, '/');
    assert "HTTP/" + version == p + "/" + version;
    SplitOnceAfterPrefix(p, "/", version);
  }

  /** `HTTPRequest.__str__`: `<method> <resource> HTTP/<version>`, CRLF, the message. */
  function SerializeRequest(r: Request): string {
    r.verb + " " + r.resource + " HTTP/" + r.version + CRLF + Serialize(r.message)
  }

  /** `HTTPRequest.parse`: the first line must have exactly three space-separated words. */
  function ParseRequest(chunk: string): (r: Result<Request, ParseError>)
    ensures r.Failure? && !Contains(chunk, CRLF) ==> r.error == NoStartLine
    ensures r.Success? ==> exists start, rest ::
      && chunk == start + CRLF + rest
      && |Split(start, " ")| == 3 && Split(start, " ")[0] == r.value.verb && Split(start, " ")[1] == r.value.resource
      && Parse(rest) == Success(r.value.message)
  {
    match SplitOnce(chunk, CRLF)
    case None => Failure(NoStartLine)
    case Some((start, rest)) =>
      var words := Split(start, " ");
      if |words| != 3 then Failure(InvalidStartLine)
      else match SplitOnce(words[2], "/")
        case None => Failure(InvalidVersion)
        case Some((_, version)) =>
          match Parse(rest)
          case Failure(e) => Failure(e)
          case Success(m) => Success(Request(m, words[0], words[1], version))
  }

  /** Three space-free words joined by single spaces split back into those words. */
  lemma ThreeWords(a: string, b: string, c: string)
    requires Lacks(a, ' ') && Lacks(b, ' ') && Lacks(c, ' ')
    ensures Split(a + " " + b + " " + c, " ") == [a, b, c]
  {
    var tail := b + " " + c;
    assert Split(tail, " ") == [b, c] by {
      SplitAfterPrefix(b, " ", c);
      SplitWhole(c, " ");
    }
    assert a + " " + b + " " + c == a + " " + tail;
    SplitAfterPrefix(a, " ", tail);
  }

  lemma VersionWord(version: string)
    requires Lacks(version, ' ')
    ensures Lacks("HTTP/" + version, ' ')
  {
    var v := "HTTP/" + version;
    forall i | 0 <= i < |v| ensures v[i] != ' ' {
      if i >= 5 { assert v[i] == version[i - 5]; }
    }
  }

  lemma RequestLineNoCR(verb: string, resource: string, version: string)
    requires Lacks(verb, '\r') && Lacks(resource, '\r') && Lacks(version, '\r')
    ensures Lacks(verb + " " + resource + " HTTP/" + version, '\r')
  {
  }

  /** A request whose method, resource and version have no space or CR reads back as itself. */
  lemma ParseSerializeRequest(r: Request)
    requires WellFormed(r.message)
    requires Lacks(r.verb, ' ') && Lacks(r.resource, ' ') && Lacks(r.version, ' ')
    requires Lacks(r.verb, '\r') && Lacks(r.resource, '\r') && Lacks(r.version, '\r')
    ensures ParseRequest(SerializeRequest(r)) == Success(r)
  {
    var start := r.verb + " " + r.resource + " HTTP/" + r.version;
    RequestLineNoCR(r.verb, r.resource, r.version);
    assert SerializeRequest(r) == start + CRLF + Serialize(r.message);
    SplitOnceAfterPrefix(start, CRLF, Serialize(r.message));
    VersionWord(r.version);
    assert start == r.verb + " " + r.resource + " " + ("HTTP/" + r.version);
    ThreeWords(r.verb, r.resource, "HTTP/" + r.version);
    VersionPart(r.version);
    ParseSerialize(r.message);
    ParseRequestParts(SerializeRequest(r), start, Serialize(r.message), r.verb, r.resource, "HTTP/" + r.version, r.version, r.message);
  }

  /** `HTTPRequest.parse` on a text whose pieces are known. */
  lemma ParseRequestParts(chunk: string, start: string, rest: string, verb: string, resource: string,
                          word: string, version: string, m: Message)
    requires SplitOnce(chunk, CRLF) == Some((start, rest))
    requires Split(start, " ") == [verb, resource, word]
    requires SplitOnce(word, "/") == Some(("HTTP", version))
    requires Parse(rest) == Success(m)
    ensures ParseRequest(chunk) == Success(Request(m, verb, resource, version))
  {
  }
}

=== FILE: mailbox.dfy ===
/** The mailbox's unread-mail counter (`papyon/msnp/mailbox.py`): the notification server
    reports an initial count and later increases and decreases, and every change of the count
    is announced with the new value.  The announcing signal is declared with a `guint` count,
    so a count outside that range is stored but cannot be announced: the emit raises
    `TypeError` after the assignment. */
module Mailbox {
  /** `unread-mail-count-changed(count, initial)`. */
  datatype Event = UnreadCountChanged(count: int, initial: bool)

  datatype Mailbox = Mailbox(unread: int)

  /** The outcome of an update: the mailbox afterwards, the signals emitted, and whether the
      emit raised. */
  datatype Update = Update(mailbox: Mailbox, events: seq<Event>, raised: bool)

  /** One more than the largest `guint`. */
  const UINT_LIMIT: int := 0x1_0000_0000

  /** Whether a count can be passed as the signal's `guint` argument. */
  predicate IsUint(n: int) {
    0 <= n < UINT_LIMIT
  }

  /** A new mailbox has no unread mail. */
  function New(): (m: Mailbox)
    ensures m.unread == 0
  {
    Mailbox(0)
  }

  /** Whether an update that stored a new count announces it: exactly one event carrying the
      new count when it is a `guint`, otherwise no event and a raised emit. */
  predicate Announces(r: Update, initial: bool) {
    (r.raised <==> !IsUint(r.mailbox.unread))
    && r.events == (if r.raised then [] else [UnreadCountChanged(r.mailbox.unread, initial)])
  }

  /** The emit after the count is stored. */
  function Emit(m: Mailbox, initial: bool): Update {
    if IsUint(m.unread) then Update(m, [UnreadCountChanged(m.unread, initial)], false)
    else Update(m, [], true)
  }

  /** `_unread_mail_increased`: the count grows by `delta`. */
  function Increased(m: Mailbox, delta: int): (r: Update)
    ensures r.mailbox.unread - m.unread == delta
    ensures Announces(r, false)
  {
    Emit(Mailbox(m.unread + delta), false)
  }

  /** `_unread_mail_decreased`: only a positive count changes, and then by the whole `delta`,
      even past zero. */
  function Decreased(m: Mailbox, delta: int): (r: Update)
    ensures m.unread > 0 ==> m.unread - r.mailbox.unread == delta && Announces(r, false)
    ensures m.unread <= 0 ==> r == Update(m, [], false)
  {
    if m.unread > 0 then Emit(Mailbox(m.unread - delta), false)
    else Update(m, [], false)
  }

  /** `_initial_set`: a positive number replaces the count; anything else is ignored. */
  function InitialSet(m: Mailbox, n: int): (r: Update)
    ensures n > 0 ==> r.mailbox.unread == n && Announces(r, true)
    ensures n <= 0 ==> r == Update(m, [], false)
  {
    if n > 0 then Emit(Mailbox(n), true) else Update(m, [], false)
  }

  /** A decrease undoes an increase that left the count positive. */
  lemma DecreaseUndoesIncrease(m: Mailbox, delta: int)
    requires m.unread + delta > 0
    ensures Decreased(Increased(m, delta).mailbox, delta).mailbox == m
  {
  }

  /** Only the initial report is flagged initial, and it carries the reported number; every
      count announced is a `guint`. */
  lemma EventsTrackCount(m: Mailbox, delta: int, n: int)
    ensures forall e :: e in Increased(m, delta).events + Decreased(m, delta).events ==> !e.initial && IsUint(e.count)
    ensures forall e :: e in InitialSet(m, n).events ==> e.initial && e.count == n
  {
  }

  /** The count is not clamped: a decrease larger than a positive count stores a negative
      count, which the emit then refuses, so nothing is announced. */
  lemma DecreasePastZero(n: int, delta: int)
    requires 0 < n < delta
    ensures Decreased(Mailbox(n), delta).mailbox.unread == n - delta < 0
    ensures Decreased(Mailbox(n), delta).raised && Decreased(Mailbox(n), delta).events == []
  {
  }
}

=== FILE: nat_traversal.dfy ===
/** Discovery of the external address through Microsoft's echo server
    (`papyon/msnp2p/transport/nat_traversal.py`): once the probe connection is open, a fixed
    20-byte request goes out; the 20-byte answer carries the external port and IPv4 address,
    each XOR-masked with the repeated bytes `0x41 0x31`. */
module NatTraversal {
  import opened Results
  import opened Bytes
  import opened Text

  const ECHO_SERVER: string := "64.4.35.253"
  const ECHO_PORT: nat := 7001
  /** The single transaction id every probe is filed under. */
  const TR_ID: nat := 12
  const PORT_MASK: u16 := 0x4131
  const IP_MASK: u32 := 0x41314131
  const REPLY_SIZE: nat := 20

  /** The probe the client sends as soon as the connection is open. */
  const PROBE: seq<byte> := [0x02, 0x01, 0x41, 0x31, 0x41, 0x31, 0x41, 0x31,
                             0x00, 0x00, 0x00, 0x00, 0x00, 0x00, 0x00, 0x00, 0x5d, 0x00, 0x00, 0x00]

  function Pow2(w: nat): (r: nat)
    ensures r >= 1
  {
    if w == 0 then 1 else 2 * Pow2(w - 1)
  }

  lemma Pow2Widths()
    ensures Pow2(16) == U16_LIMIT && Pow2(32) == U32_LIMIT
  {
    assert Pow2(1) == 2;
    assert Pow2(2) == 4;
    assert Pow2(3) == 8;
    assert Pow2(4) == 16;
    assert Pow2(5) == 32;
    assert Pow2(6) == 64;
    assert Pow2(7) == 128;
    assert Pow2(8) == 256;
    assert Pow2(9) == 512;
    assert Pow2(10) == 1024;
    assert Pow2(11) == 2048;
    assert Pow2(12) == 4096;
    assert Pow2(13) == 8192;
    assert Pow2(14) == 16384;
    assert Pow2(15) == 32768;
    assert Pow2(16) == 65536;
    assert Pow2(17) == 131072;
    assert Pow2(18) == 262144;
    assert Pow2(19) == 524288;
    assert Pow2(20) == 1048576;
    assert Pow2(21) == 2097152;
    assert Pow2(22) == 4194304;
    assert Pow2(23) == 8388608;
    assert Pow2(24) == 16777216;
    assert Pow2(25) == 33554432;
    assert Pow2(26) == 67108864;
    assert Pow2(27) == 134217728;
    assert Pow2(28) == 268435456;
    assert Pow2(29) == 536870912;
    assert Pow2(30) == 1073741824;
    assert Pow2(31) == 2147483648;
    assert Pow2(32) == 4294967296;
  }

  /** Bitwise exclusive or of the low `w` bits of `x` and `m`. */
  function Xor(x: nat, m: nat, w: nat): (r: nat)
    ensures r < Pow2(w)
  {
    if w == 0 then 0 else (x % 2 + m % 2) % 2 + 2 * Xor(x / 2, m / 2, w - 1)
  }

  /** Masking twice restores any `w`-bit value, so the same mask both hides and reveals. */
  lemma {:induction false} XorTwice(x: nat, m: nat, w: nat)
    requires x < Pow2(w)
    ensures Xor(Xor(x, m, w), m, w) == x
  {
    if w > 0 {
      var y := Xor(x, m, w);
      XorLowBit(x, m, w);
      XorTwice(x / 2, m / 2, w - 1);
      BitTwice(x % 2, m % 2);
      assert Xor(y, m, w) == (y % 2 + m % 2) % 2 + 2 * Xor(y / 2, m / 2, w - 1);
    }
  }

  /** The low bit of the exclusive or, and the rest of it. */
  lemma XorLowBit(x: nat, m: nat, w: nat)
    requires w > 0
    ensures Xor(x, m, w) % 2 == (x % 2 + m % 2) % 2
    ensures Xor(x, m, w) / 2 == Xor(x / 2, m / 2, w - 1)
  {
  }

  /** One bit toggled twice by the same mask bit. */
  lemma BitTwice(a: nat, b: nat)
    requires a < 2 && b < 2
    ensures ((a + b) % 2 + b) % 2 == a
  {
  }

  function Xor16(x: u16, m: u16): (r: u16) {
    Pow2Widths();
    Xor(x, m, 16)
  }

  function Xor32(x: u32, m: u32): (r: u32) {
    Pow2Widths();
    Xor(x, m, 32)
  }

  /** The port and address masks are self-inverse. */
  lemma MaskSelfInverse(p: u16, ip: u32)
    ensures Xor16(Xor16(p, PORT_MASK), PORT_MASK) == p
    ensures Xor32(Xor32(ip, IP_MASK), IP_MASK) == ip
  {
    Pow2Widths();
    XorTwice(p, PORT_MASK, 16);
    XorTwice(ip, IP_MASK, 32);
  }

  /** The answer's fields, big-endian: `!BBHIHHII`. */
  datatype EchoReply = EchoReply(version: byte, code: byte, port: u16, ip: u32, discardPort: u16,
                                 testPort: u16, testIp: u32, trId: u32)

  function EncodeReply(r: EchoReply): (bs: seq<byte>)
    ensures |bs| == REPLY_SIZE
  {
    [r.version, r.code] + BE16(r.port) + BE32(r.ip) + BE16(r.discardPort) + BE16(r.testPort)
      + BE32(r.testIp) + BE32(r.trId)
  }

  /** `struct.unpack("!BBHIHHII", data)` on a 20-byte answer. */
  function DecodeReply(bs: seq<byte>): (r: EchoReply)
    requires |bs| == REPLY_SIZE
    ensures EncodeReply(r) == bs
  {
    var r := EchoReply(bs[0], bs[1], ReadBE16(bs[2..4]), ReadBE32(bs[4..8]), ReadBE16(bs[8..10]),
                       ReadBE16(bs[10..12]), ReadBE32(bs[12..16]), ReadBE32(bs[16..20]));
    assert bs == [bs[0], bs[1]] + bs[2..4] + bs[4..8] + bs[8..10] + bs[10..12] + bs[12..16] + bs[16..20];
    r
  }

  lemma DecodeEncodeReply(r: EchoReply)
    ensures DecodeReply(EncodeReply(r)) == r
  {
    var bs := EncodeReply(r);
    var p1 := [r.version, r.code] + BE16(r.port);
    var p2 := p1 + BE32(r.ip);
    var p3 := p2 + BE16(r.discardPort);
    var p4 := p3 + BE16(r.testPort);
    var p5 := p4 + BE32(r.testIp);
    assert |p5| == 16 && bs == p5 + BE32(r.trId);
    assert bs[16..20] == BE32(r.trId);
    assert bs[12..16] == BE32(r.testIp) by {
      FrontSlice(p5, BE32(r.trId), 12, 16);
    }
    assert bs[10..12] == BE16(r.testPort) by {
      FrontSlice(p5, BE32(r.trId), 10, 12);
      FrontSlice(p4, BE32(r.testIp), 10, 12);
    }
    assert bs[8..10] == BE16(r.discardPort) by {
      FrontSlice(p5, BE32(r.trId), 8, 10);
      FrontSlice(p4, BE32(r.testIp), 8, 10);
      FrontSlice(p3, BE16(r.testPort), 8, 10);
    }
    assert bs[4..8] == BE32(r.ip) by {
      FrontSlice(p5, BE32(r.trId), 4, 8);
      FrontSlice(p4, BE32(r.testIp), 4, 8);
      FrontSlice(p3, BE16(r.testPort), 4, 8);
      FrontSlice(p2, BE16(r.discardPort), 4, 8);
    }
    assert bs[2..4] == BE16(r.port) by {
      FrontSlice(p5, BE32(r.trId), 2, 4);
      FrontSlice(p4, BE32(r.testIp), 2, 4);
      FrontSlice(p3, BE16(r.testPort), 2, 4);
      FrontSlice(p2, BE16(r.discardPort), 2, 4);
      FrontSlice(p1, BE32(r.ip), 2, 4);
    }
    ReadBE16Inverse(r.port);
    ReadBE32Inverse(r.ip);
    ReadBE16Inverse(r.discardPort);
    ReadBE16Inverse(r.testPort);
    ReadBE32Inverse(r.testIp);
    ReadBE32Inverse(r.trId);
  }

  /** A slice within the front part of a concatenation is a slice of that part. */
  lemma FrontSlice(a: seq<byte>, b: seq<byte>, i: nat, j: nat)
    requires i <= j <= |a|
    ensures (a + b)[i..j] == a[i..j]
  {
  }

  /** `socket.inet_ntoa`: the four bytes of the address in decimal, most significant first,
      separated by dots. */
  function DottedQuad(ip: u32): (s: string)
    ensures NoSpace(s)
  {
    var b := BE32(ip);
    NatToString(b[0]) + "." + NatToString(b[1]) + "." + NatToString(b[2]) + "." + NatToString(b[3])
  }

  lemma DecimalLacksDot(n: nat)
    ensures Lacks(NatToString(n), '.')
    ensures ParseDigits(NatToString(n)) == Some(n)
  {
    var d := NatToString(n);
    forall i | 0 <= i < |d| ensures d[i] != '.' {
      assert IsDigit(d[i]);
    }
  }

  /** Four dot-free fields joined by dots split back into the same four. */
  lemma SplitQuad(d0: string, d1: string, d2: string, d3: string)
    requires Lacks(d0, '.') && Lacks(d1, '.') && Lacks(d2, '.') && Lacks(d3, '.')
    ensures Split(d0 + "." + d1 + "." + d2 + "." + d3, ".") == [d0, d1, d2, d3]
  {
    var sep: string := ".";
    QuadText(d0, d1, d2, d3);
    SplitAfterPrefix(d0, sep, d1 + sep + (d2 + sep + d3));
    SplitAfterPrefix(d1, sep, d2 + sep + d3);
    SplitAfterPrefix(d2, sep, d3);
    SplitWhole(d3, sep);
  }

  lemma QuadText(d0: string, d1: string, d2: string, d3: string)
    ensures d0 + "." + d1 + "." + d2 + "." + d3 == d0 + "." + (d1 + "." + (d2 + "." + d3))
  {
  }

  /** The dotted text names the address it was made from: it splits into four decimal fields
      whose values, read as big-endian bytes, are the address. */
  lemma DottedQuadFields(ip: u32)
    ensures var parts := Split(DottedQuad(ip), ".");
      |parts| == 4 && (forall k :: 0 <= k < 4 ==> ParseDigits(parts[k]).Some? && ParseDigits(parts[k]).value < 256)
      && ReadBE32([ParseDigits(parts[0]).value, ParseDigits(parts[1]).value,
                   ParseDigits(parts[2]).value, ParseDigits(parts[3]).value]) == ip
  {
    var b := BE32(ip);
    DecimalLacksDot(b[0]);
    DecimalLacksDot(b[1]);
    DecimalLacksDot(b[2]);
    DecimalLacksDot(b[3]);
    SplitQuad(NatToString(b[0]), NatToString(b[1]), NatToString(b[2]), NatToString(b[3]));
    var parts := Split(DottedQuad(ip), ".");
    assert parts == [NatToString(b[0]), NatToString(b[1]), NatToString(b[2]), NatToString(b[3])];
    assert [b[0], b[1], b[2], b[3]] == b;
    ReadBE32Inverse(ip);
  }

  /** What the echo server answers to a client whose external address is `extIp:extPort`. */
  function ServerReply(extIp: u32, extPort: u16): (r: EchoReply)
    ensures r.trId == TR_ID
  {
    EchoReply(2, 2, Xor16(extPort, PORT_MASK), Xor32(extIp, IP_MASK), 0, 0, 0, TR_ID)
  }

  // ---------------------------------------------------------------------------
  // The probe exchange

  type Address = (string, nat)

  /** The open probe requests (by transaction id) and probe connections (by connection id). */
  datatype Traversal = Traversal(requests: map<nat, Address>, transports: set<nat>)

  /** `_request_echo_server`: a new probe connection is recorded. */
  function RequestEchoServer(t: Traversal, conn: nat): (r: Traversal)
    ensures conn in r.transports && r.requests == t.requests
    ensures r.transports == t.transports + {conn}
  {
    t.(transports := t.transports + {conn})
  }

  /** `_on_echo_transport_status_changed`: when the connection opens, the local address is filed
      under transaction 12 and the probe is sent; other states do nothing. */
  function OnStatusChanged(t: Traversal, open: bool, localAddr: Address): (r: (Traversal, Option<seq<byte>>))
    ensures open ==> r.0.requests == t.requests[TR_ID := localAddr] && r.1 == Some(PROBE)
    ensures open ==> r.0.transports == t.transports
    ensures !open ==> r == (t, None)
  {
    if open then (t.(requests := t.requests[TR_ID := localAddr]), Some(PROBE)) else (t, None)
  }

  /** The continuation's arguments: local then external address. */
  datatype Answer = Answer(localIp: string, localPort: nat, externalIp: string, externalPort: nat)

  datatype Received =
    | Ignored                           // not exactly 20 bytes
    | Answered(t: Traversal, answer: Answer)
    | NoRequest                         // no request under transaction 12: a lookup error
    | UnknownConnection                 // the connection is not a probe connection: a lookup error
    | Raised(t: Traversal)              // the tables were cleared, then the handler raised

  /** `_on_echo_transport_received`: a 20-byte answer is unmasked, the request under transaction
      12 (whatever id the answer carries) and the connection are forgotten, and the continuation
      receives both addresses. */
  function OnReceived(t: Traversal, conn: nat, data: seq<byte>): (r: Received)
    ensures r.Ignored? <==> |data| != REPLY_SIZE
    ensures r.NoRequest? <==> |data| == REPLY_SIZE && TR_ID !in t.requests
    ensures r.UnknownConnection? <==> |data| == REPLY_SIZE && TR_ID in t.requests && conn !in t.transports
    ensures r.Answered? <==> |data| == REPLY_SIZE && TR_ID in t.requests && conn in t.transports
    ensures r.Answered? ==> r.t.requests == t.requests - {TR_ID} && r.t.transports == t.transports - {conn}
    ensures r.Answered? ==> (r.answer.localIp, r.answer.localPort) == t.requests[TR_ID]
    ensures r.Answered? ==> var e := DecodeReply(data);
      r.answer.externalPort == Xor16(e.port, PORT_MASK) && r.answer.externalIp == DottedQuad(Xor32(e.ip, IP_MASK))
  {
    if |data| != REPLY_SIZE then Ignored
    else
      var e := DecodeReply(data);
      var port := Xor16(e.port, PORT_MASK);
      var ip := DottedQuad(Xor32(e.ip, IP_MASK));
      if TR_ID !in t.requests then NoRequest
      else if conn !in t.transports then UnknownConnection
      else
        var (localIp, localPort) := t.requests[TR_ID];
        Answered(Traversal(t.requests - {TR_ID}, t.transports - {conn}), Answer(localIp, localPort, ip, port))
  }

  /** `_on_echo_transport_received` as written: after the request and the connection are
      forgotten and the connection is closed, the handler schedules
      `self._dispose_faulty_transport`, which `NATTraversal` does not define (nor is `gobject`
      imported), so it raises before the continuation is called.  Every other outcome is the
      intended handler's. */
  function OnReceivedAsWritten(t: Traversal, conn: nat, data: seq<byte>): (r: Received)
    ensures !r.Answered?
    ensures r.Raised? <==> OnReceived(t, conn, data).Answered?
    ensures r.Raised? ==> r.t == OnReceived(t, conn, data).t
    ensures r.Raised? ==> r.t.requests == t.requests - {TR_ID} && r.t.transports == t.transports - {conn}
    ensures !r.Raised? ==> r == OnReceived(t, conn, data)
  {
    if |data| != REPLY_SIZE then Ignored
    else if TR_ID !in t.requests then NoRequest
    else if conn !in t.transports then UnknownConnection
    else Raised(Traversal(t.requests - {TR_ID}, t.transports - {conn}))
  }

  /** The whole exchange: a probe connection that opens from `local` and receives the server's
      answer for `extIp:extPort` reports exactly those addresses and leaves no trace. */
  lemma EchoExchange(conn: nat, local: Address, extIp: u32, extPort: u16)
    ensures var (t1, sent) := OnStatusChanged(RequestEchoServer(Traversal(map[], {}), conn), true, local);
      && sent == Some(PROBE)
      && OnReceived(t1, conn, EncodeReply(ServerReply(extIp, extPort)))
         == Answered(Traversal(map[], {}), Answer(local.0, local.1, DottedQuad(extIp), extPort))
  {
    DecodeEncodeReply(ServerReply(extIp, extPort));
    MaskSelfInverse(extPort, extIp);
    var (t1, _) := OnStatusChanged(RequestEchoServer(Traversal(map[], {}), conn), true, local);
    assert t1.requests - {TR_ID} == map[];
    assert t1.transports - {conn} == {};
  }

  /** The exchange as written: the probe is sent and the answer clears both tables, but the
      handler raises, so the continuation never receives the addresses. */
  lemma EchoExchangeAsWritten(conn: nat, local: Address, extIp: u32, extPort: u16)
    ensures var (t1, sent) := OnStatusChanged(RequestEchoServer(Traversal(map[], {}), conn), true, local);
      && sent == Some(PROBE)
      && OnReceivedAsWritten(t1, conn, EncodeReply(ServerReply(extIp, extPort))) == Raised(Traversal(map[], {}))
  {
    EchoExchange(conn, local, extIp, extPort);
  }
}

=== FILE: network.dfy ===
/** The networks a contact can live on (`NetworkID` in `papyon/profile.py`, which is not part
    of this model): the MSN network itself and external (Yahoo!) accounts. */
module Networks {
  datatype Network = Msn | External
}

=== FILE: offline_messages.dfy ===
/** The offline-messages box of `papyon/service/OfflineIM/offline_messages_box.py`:
    the order on offline messages, the synchronisation state, the metadata merge that never
    stores an id twice, the per-recipient run ids and sequence numbers of outgoing messages,
    and the fetch and delete requests with their callbacks.

    The SOAP scenarios (RSI, OIM) are external: a request is returned as an action, and the
    callback the scenario would run is a function of its own. Dates are timestamps; the
    ISO 8601 parsing and the clock are parameters. */
module OfflineMessages {
  import opened Results
  import opened Networks

  datatype State = NotSynchronized | Synchronizing | Synchronized

  /** An offline message. `sender` and `network` stand for the contact object that
      `search_or_build_contact` in the address book returns. */
  datatype Message = Message(
    id: string, sender: string, network: Network, displayName: string, date: int,
    text: string, runId: string, sequenceNum: int, isMobile: bool)

  /** A message as the metadata announces it, before its text is fetched. */
  function NewMessage(id: string, sender: string, network: Network, displayName: string, date: int): (m: Message)
    ensures m.id == id && m.sender == sender && m.network == network && m.date == date
    ensures m.text == "" && m.runId == "" && m.sequenceNum == -1 && !m.isMobile
  {
    Message(id, sender, network, displayName, date, "", "", -1, false)
  }

  // ---------------------------------------------------------------------------------------
  // Order

  /** The three-way comparison of two messages: messages of one run compare by sequence
      number, messages of different runs by date, and the later-or-equal date is the greater. */
  function Compare(a: Message, b: Message): (r: int)
    ensures a.runId == b.runId ==> (r < 0 <==> a.sequenceNum < b.sequenceNum)
    ensures a.runId == b.runId ==> (r == 0 <==> a.sequenceNum == b.sequenceNum)
    ensures a.runId != b.runId ==> (r == 1 <==> a.date >= b.date) && (r == -1 <==> a.date < b.date)
  {
    if a.runId == b.runId then a.sequenceNum - b.sequenceNum
    else if a.date >= b.date then 1
    else -1
  }

  function Sign(x: int): int { if x < 0 then -1 else if x == 0 then 0 else 1 }

  /** The comparison is antisymmetric unless two messages of different runs share a date. */
  lemma CompareAntisymmetric(a: Message, b: Message)
    requires a.runId == b.runId || a.date != b.date
    ensures Sign(Compare(a, b)) == -Sign(Compare(b, a))
  {
  }

  /** Two messages of different runs with the same date are each greater than the other. */
  lemma EqualDatesBothGreater(a: Message, b: Message)
    requires a.runId != b.runId && a.date == b.date
    ensures Compare(a, b) > 0 && Compare(b, a) > 0
  {
  }

  /** The comparison is not transitive across runs: the later message of a run can precede
      a message of another run that in turn precedes the earlier message of the first run. */
  lemma CompareCycle(a: Message, b: Message, c: Message)
    requires a.runId == b.runId && a.runId != c.runId
    requires a.sequenceNum < b.sequenceNum && b.date < c.date < a.date
    ensures Compare(a, b) < 0 && Compare(b, c) < 0 && Compare(c, a) < 0
  {
  }

  /** `a < b` as Python 2 evaluates it for messages, through `__cmp__`. */
  predicate Less(a: Message, b: Message) {
    Compare(a, b) < 0
  }

  // ---------------------------------------------------------------------------------------
  // The fetch callback's sort: Python 2's `list.sort` on fewer than 64 elements, where the
  // whole list is one run: the run found at the front, then binary insertion of the rest.

  /** The end of the run at the front (`count_run`): it grows while each element is less
      than the one before (`descending`), or while none is. */
  function RunEnd(s: seq<Message>, n: nat, descending: bool): (e: nat)
    requires 2 <= n <= |s|
    requires forall k :: 0 < k < n ==> Less(s[k], s[k - 1]) == descending
    ensures n <= e <= |s|
    ensures forall k :: 0 < k < e ==> Less(s[k], s[k - 1]) == descending
    ensures e < |s| ==> Less(s[e], s[e - 1]) != descending
    decreases |s| - n
  {
    if n < |s| && Less(s[n], s[n - 1]) == descending then RunEnd(s, n + 1, descending) else n
  }

  function Reversed(s: seq<Message>): (r: seq<Message>)
    ensures |r| == |s| && forall k :: 0 <= k < |s| ==> r[k] == s[|s| - 1 - k]
    ensures multiset(r) == multiset(s)
  {
    if s == [] then []
    else
      assert s == [s[0]] + s[1..];
      Reversed(s[1..]) + [s[0]]
  }

  /** The slot `binarysort` finds for `pivot` between `l` and `r`: it halves the range,
      going left when the pivot is less than the middle element and right otherwise. */
  function Slot(pivot: Message, t: seq<Message>, l: nat, r: nat): (p: nat)
    requires l <= r <= |t|
    ensures l <= p <= r
    decreases r - l
  {
    if l >= r then l
    else
      var m := l + (r - l) / 2;
      if Less(pivot, t[m]) then Slot(pivot, t, l, m) else Slot(pivot, t, m + 1, r)
  }

  function InsertAt(t: seq<Message>, p: nat, x: Message): (r: seq<Message>)
    requires p <= |t|
    ensures |r| == |t| + 1 && r[p] == x
    ensures forall k :: 0 <= k < p ==> r[k] == t[k]
    ensures forall k :: p < k < |r| ==> r[k] == t[k - 1]
    ensures multiset(r) == multiset(t) + multiset{x}
  {
    assert t == t[..p] + t[p..];
    t[..p] + [x] + t[p..]
  }

  /** `binarysort`: each remaining element is inserted in turn at its slot among the
      elements already placed. */
  function InsertAll(placed: seq<Message>, rest: seq<Message>): (r: seq<Message>)
    ensures multiset(r) == multiset(placed) + multiset(rest)
    ensures |r| == |placed| + |rest|
    decreases |rest|
  {
    if rest == [] then placed
    else
      assert rest == [rest[0]] + rest[1..];
      InsertAll(InsertAt(placed, Slot(rest[0], placed, 0, |placed|), rest[0]), rest[1..])
  }

  /** `messages.sort()` in the fetch callback: the run at the front, reversed when it
      descends, followed by binary insertion of the other elements. */
  function Sort(s: seq<Message>): (r: seq<Message>)
    ensures multiset(r) == multiset(s)
    ensures |r| == |s|
  {
    if |s| < 2 then s
    else
      var descending := Less(s[1], s[0]);
      var n := RunEnd(s, 2, descending);
      assert s == s[..n] + s[n..];
      InsertAll(if descending then Reversed(s[..n]) else s[..n], s[n..])
  }

  /** The order of the messages in the counterexample to transitivity: `a`, `b` and `d`
      of one run dated 30, 10 and 25 and `x` of another run dated 20. The front run is
      `a b d` and `x` lands between `b` and `d`: after `b`, dated earlier, and before `d`,
      dated later, which the earlier `a` of the same run precedes. */
  lemma SortAcrossRuns(a: Message, b: Message, d: Message, x: Message)
    requires a.runId == b.runId == d.runId != x.runId
    requires a.sequenceNum == 1 && b.sequenceNum == 2 && d.sequenceNum == 3
    requires a.date == 30 && b.date == 10 && d.date == 25 && x.date == 20
    ensures Sort([a, b, d, x]) == [a, b, x, d]
  {
    var s := [a, b, d, x];
    FrontRunAcrossRuns(a, b, d, x);
    assert s[..3] == [a, b, d] && s[3..] == [x];
    assert Sort(s) == InsertAll([a, b, d], [x]);
    SlotAcrossRuns(a, b, d, x);
    assert InsertAll([a, b, d], [x]) == InsertAll(InsertAt([a, b, d], 2, x), []);
    InsertAtThird(a, b, d, x);
  }

  lemma InsertAtThird(a: Message, b: Message, d: Message, x: Message)
    ensures InsertAt([a, b, d], 2, x) == [a, b, x, d]
  {
    var r := InsertAt([a, b, d], 2, x);
    assert r[0] == a && r[1] == b && r[2] == x && r[3] == d;
  }

  lemma FrontRunAcrossRuns(a: Message, b: Message, d: Message, x: Message)
    requires a.runId == b.runId == d.runId != x.runId
    requires a.sequenceNum == 1 && b.sequenceNum == 2 && d.sequenceNum == 3
    requires d.date == 25 && x.date == 20
    ensures !Less(b, a) && RunEnd([a, b, d, x], 2, false) == 3
  {
    var s := [a, b, d, x];
    assert !Less(s[2], s[1]) && Less(s[3], s[2]);
    assert RunEnd(s, 3, false) == 3;
  }

  lemma SlotAcrossRuns(a: Message, b: Message, d: Message, x: Message)
    requires b.runId == d.runId != x.runId
    requires b.date == 10 && d.date == 25 && x.date == 20
    ensures Slot(x, [a, b, d], 0, 3) == 2
  {
    var t := [a, b, d];
    assert !Less(x, t[1]) && Less(x, t[2]);
    assert Slot(x, t, 2, 2) == 2;
  }

  predicate OneRun(s: seq<Message>, run: string) {
    forall i :: 0 <= i < |s| ==> s[i].runId == run
  }

  predicate BySequence(s: seq<Message>) {
    forall i, j :: 0 <= i < j < |s| ==> s[i].sequenceNum <= s[j].sequenceNum
  }

  lemma InOneRun(s: seq<Message>, run: string, m: Message)
    requires OneRun(s, run) && m in multiset(s)
    ensures m.runId == run
  {
    var i :| 0 <= i < |s| && s[i] == m;
  }

  /** Sequence order between neighbours is sequence order. */
  lemma {:induction false} NeighboursBySequence(s: seq<Message>)
    requires forall k :: 0 < k < |s| ==> s[k - 1].sequenceNum <= s[k].sequenceNum
    ensures BySequence(s)
  {
    forall i, j | 0 <= i < j < |s| ensures s[i].sequenceNum <= s[j].sequenceNum {
      NeighboursUpTo(s, i, j);
    }
  }

  lemma {:induction false} NeighboursUpTo(s: seq<Message>, i: nat, j: nat)
    requires forall k :: 0 < k < |s| ==> s[k - 1].sequenceNum <= s[k].sequenceNum
    requires i <= j < |s|
    ensures s[i].sequenceNum <= s[j].sequenceNum
    decreases j - i
  {
    if i < j {
      NeighboursUpTo(s, i, j - 1);
    }
  }

  /** In one run the front run is in sequence order once a descending one is reversed. */
  lemma FrontRunBySequence(s: seq<Message>, n: nat, descending: bool, run: string)
    requires OneRun(s, run) && 2 <= n <= |s|
    requires forall k :: 0 < k < n ==> Less(s[k], s[k - 1]) == descending
    ensures OneRun(if descending then Reversed(s[..n]) else s[..n], run)
    ensures BySequence(if descending then Reversed(s[..n]) else s[..n])
  {
    var t := s[..n];
    if descending {
      var u := Reversed(t);
      forall k | 0 < k < |u| ensures u[k - 1].sequenceNum <= u[k].sequenceNum {
        assert u[k - 1] == s[n - k] && u[k] == s[n - 1 - k];
        assert Less(s[n - k], s[n - k - 1]);
      }
      NeighboursBySequence(u);
    } else {
      forall k | 0 < k < |t| ensures t[k - 1].sequenceNum <= t[k].sequenceNum {
        assert !Less(s[k], s[k - 1]);
      }
      NeighboursBySequence(t);
    }
  }

  /** In one run in sequence order, the slot has the messages it does not precede on its
      left and the ones it precedes on its right. */
  lemma {:induction false} SlotSplits(x: Message, t: seq<Message>, l: nat, r: nat, run: string)
    requires x.runId == run && OneRun(t, run) && BySequence(t) && l <= r <= |t|
    requires forall k :: 0 <= k < l ==> t[k].sequenceNum <= x.sequenceNum
    requires forall k :: r <= k < |t| ==> x.sequenceNum < t[k].sequenceNum
    ensures forall k :: 0 <= k < Slot(x, t, l, r) ==> t[k].sequenceNum <= x.sequenceNum
    ensures forall k :: Slot(x, t, l, r) <= k < |t| ==> x.sequenceNum < t[k].sequenceNum
    decreases r - l
  {
    if l < r {
      var m := l + (r - l) / 2;
      if Less(x, t[m]) {
        SlotSplits(x, t, l, m, run);
      } else {
        SlotSplits(x, t, m + 1, r, run);
      }
    }
  }

  lemma {:induction false} InsertAllBySequence(placed: seq<Message>, rest: seq<Message>, run: string)
    requires OneRun(placed, run) && OneRun(rest, run) && BySequence(placed)
    ensures OneRun(InsertAll(placed, rest), run) && BySequence(InsertAll(placed, rest))
    decreases |rest|
  {
    if rest != [] {
      var x := rest[0];
      var p := Slot(x, placed, 0, |placed|);
      SlotSplits(x, placed, 0, |placed|, run);
      var t := InsertAt(placed, p, x);
      forall i, j | 0 <= i < j < |t| ensures t[i].sequenceNum <= t[j].sequenceNum {
        if j < p {
        } else if i > p {
        } else if i == p {
          assert t[j] == placed[j - 1];
        } else if j == p {
          assert t[i] == placed[i];
        } else {
          assert t[i] == placed[i] && t[j] == placed[j - 1];
        }
      }
      InsertAllBySequence(t, rest[1..], run);
    }
  }

  /** Messages of one conversation come out of the fetch callback's sort in sequence order. */
  lemma SortOneRun(s: seq<Message>, run: string)
    requires OneRun(s, run)
    ensures OneRun(Sort(s), run) && BySequence(Sort(s))
  {
    if |s| >= 2 {
      var descending := Less(s[1], s[0]);
      var n := RunEnd(s, 2, descending);
      FrontRunBySequence(s, n, descending, run);
      InsertAllBySequence(if descending then Reversed(s[..n]) else s[..n], s[n..], run);
    }
  }

  // ---------------------------------------------------------------------------------------
  // Synchronisation and the metadata merge

  /** A peer and its conversation: the run id chosen for it and the last sequence number
      it was given. */
  datatype Recipient = Recipient(account: string, network: Network)
  datatype Conversation = Conversation(runId: string, sequenceNum: int)

  datatype Box = Box(state: State, messages: seq<Message>, conversations: map<Recipient, Conversation>)

  function EmptyBox(): (b: Box)
    ensures b.state == NotSynchronized && b.messages == [] && b.conversations == map[]
  {
    Box(NotSynchronized, [], map[])
  }

  /** One `M` element of the metadata document. The network code is 0 when the element
      has none. */
  datatype Entry = Entry(id: string, networkCode: int, account: string, name: string, date: Option<int>)

  /** Network code 13 is an external account; 11 and every other code are MSN. */
  function NetworkOf(code: int): (n: Network)
    ensures n == External <==> code == 13
  {
    if code == 11 then Msn
    else if code == 13 then External
    else Msn
  }

  predicate HasId(s: seq<Message>, id: string) {
    exists i :: 0 <= i < |s| && s[i].id == id
  }

  predicate UniqueIds(s: seq<Message>) {
    forall i, j :: 0 <= i < j < |s| ==> s[i].id != s[j].id
  }

  /** The message an entry announces; an entry without a date is dated `now`. */
  function FromEntry(e: Entry, now: int): (m: Message)
    ensures m.id == e.id && m.sender == e.account && m.network == NetworkOf(e.networkCode)
    ensures m.date == (if e.date.Some? then e.date.value else now)
  {
    NewMessage(e.id, e.account, NetworkOf(e.networkCode), e.name, if e.date.Some? then e.date.value else now)
  }

  /** Adds the entries, in order, whose id is not yet stored; the test sees the messages
      added earlier in the same document. Returns the stored messages and the new ones. */
  function Merge(stored: seq<Message>, entries: seq<Entry>, now: int): (r: (seq<Message>, seq<Message>))
    ensures r.0 == stored + r.1
    ensures forall k :: 0 <= k < |entries| ==> HasId(r.0, entries[k].id)
    ensures forall k :: 0 <= k < |r.1| ==> !HasId(stored, r.1[k].id)
    ensures UniqueIds(stored) ==> UniqueIds(r.0)
    ensures |r.1| <= |entries|
    decreases |entries|
  {
    if entries == [] then (stored, [])
    else
      var e := entries[0];
      var next := if HasId(stored, e.id) then stored else stored + [FromEntry(e, now)];
      var (all, added) := Merge(next, entries[1..], now);
      assert HasId(all, e.id) by {
        if HasId(stored, e.id) {
          var i :| 0 <= i < |stored| && stored[i].id == e.id;
          assert all[i] == stored[i];
        } else {
          assert all[|stored|] == FromEntry(e, now);
        }
      }
      assert forall k :: 1 <= k < |entries| ==> entries[k] == entries[1..][k - 1];
      if HasId(stored, e.id) then (all, added)
      else
        assert forall k :: 0 <= k < |added| ==> !HasId(stored, added[k].id) by {
          forall k | 0 <= k < |added| ensures !HasId(stored, added[k].id) {
            HasIdAppend(stored, [FromEntry(e, now)], added[k].id);
          }
        }
        (all, [FromEntry(e, now)] + added)
  }

  lemma HasIdAppend(s: seq<Message>, t: seq<Message>, id: string)
    ensures HasId(s, id) ==> HasId(s + t, id)
  {
    if HasId(s, id) {
      var i :| 0 <= i < |s| && s[i].id == id;
      assert (s + t)[i] == s[i];
    }
  }

  lemma {:induction false} MergeKnown(stored: seq<Message>, entries: seq<Entry>, now: int)
    requires forall k :: 0 <= k < |entries| ==> HasId(stored, entries[k].id)
    ensures Merge(stored, entries, now) == (stored, [])
    decreases |entries|
  {
    if entries != [] {
      MergeKnown(stored, entries[1..], now);
    }
  }

  /** Merging the same metadata twice stores nothing the second time. */
  lemma MergeIdempotent(stored: seq<Message>, entries: seq<Entry>, now: int, later: int)
    ensures Merge(Merge(stored, entries, now).0, entries, later) == (Merge(stored, entries, now).0, [])
  {
    MergeKnown(Merge(stored, entries, now).0, entries, later);
  }

  /** The metadata callback: merges the entries, ends in `Synchronized` whatever the state,
      and signals `messages-received` with the new messages only when there are some. */
  function ParseMetadata(b: Box, entries: seq<Entry>, now: int): (r: (Box, Option<seq<Message>>))
    ensures r.0.state == Synchronized && r.0.conversations == b.conversations
    ensures |b.messages| <= |r.0.messages| && r.0.messages[..|b.messages|] == b.messages
    ensures forall k :: 0 <= k < |entries| ==> HasId(r.0.messages, entries[k].id)
    ensures UniqueIds(b.messages) ==> UniqueIds(r.0.messages)
    ensures r.1.Some? <==> |r.0.messages| > |b.messages|
    ensures r.1.Some? ==> r.0.messages == b.messages + r.1.value
  {
    var (all, added) := Merge(b.messages, entries, now);
    assert all[..|b.messages|] == b.messages;
    (b.(state := Synchronized, messages := all), if |added| > 0 then Some(added) else None)
  }

  datatype SyncAction = AlreadyStarted | RequestHeaders | Parsed(received: Option<seq<Message>>)

  /** `sync` runs only from `NotSynchronized`: without a document it asks the server for the
      headers and stays `Synchronizing`; with one it parses it at once. */
  function Sync(b: Box, document: Option<seq<Entry>>, now: int): (r: (Box, SyncAction))
    ensures b.state != NotSynchronized <==> r.1 == AlreadyStarted
    ensures b.state != NotSynchronized ==> r.0 == b
    ensures b.state == NotSynchronized && document.None? ==> r == (b.(state := Synchronizing), RequestHeaders)
    ensures b.state == NotSynchronized && document.Some? ==> r.0.state == Synchronized && r.1.Parsed?
  {
    if b.state != NotSynchronized then (b, AlreadyStarted)
    else
      var started := b.(state := Synchronizing);
      match document
      case None => (started, RequestHeaders)
      case Some(entries) =>
        var (parsed, received) := ParseMetadata(started, entries, now);
        (parsed, Parsed(received))
  }

  /** Once started, a second `sync` does nothing until the box is reset. */
  lemma SyncOnce(b: Box, d1: Option<seq<Entry>>, d2: Option<seq<Entry>>, now: int, later: int)
    requires b.state == NotSynchronized
    ensures Sync(Sync(b, d1, now).0, d2, later) == (Sync(b, d1, now).0, AlreadyStarted)
  {
  }

  // ---------------------------------------------------------------------------------------
  // Sending

  datatype SendAction = Unmanaged | Skipped | Oim(runId: string, sequenceNum: int)

  /** The sequence number a send to a recipient uses and the conversation stored after it,
      as written: the second send reuses the number of the first. */
  function NextAsWritten(c: Option<Conversation>, freshRunId: string): (r: (Conversation, int))
    ensures r.0 == Next(c, freshRunId).0
    ensures c.None? ==> r.1 == Next(c, freshRunId).1
    ensures c.Some? ==> r.1 + 1 == Next(c, freshRunId).1 && r.1 == c.value.sequenceNum
  {
    match c
    case None => (Conversation(freshRunId, 1), 1)
    case Some(cv) => (cv.(sequenceNum := cv.sequenceNum + 1), cv.sequenceNum)
  }

  /** The corrected numbering: every send uses the number after the last one stored. */
  function Next(c: Option<Conversation>, freshRunId: string): (r: (Conversation, int))
    ensures r.0.sequenceNum == r.1
    ensures c.None? ==> r.0.runId == freshRunId && r.1 == 1
    ensures c.Some? ==> r.0.runId == c.value.runId && r.1 == c.value.sequenceNum + 1
  {
    match c
    case None => (Conversation(freshRunId, 1), 1)
    case Some(cv) => (cv.(sequenceNum := cv.sequenceNum + 1), cv.sequenceNum + 1)
  }

  function Lookup(m: map<Recipient, Conversation>, to: Recipient): Option<Conversation> {
    if to in m then Some(m[to]) else None
  }

  /** `send_message`: protocol 18 and later sends an unmanaged message; otherwise an external
      recipient is skipped and any other gets the next number of its conversation. The guid
      a new conversation needs is the parameter `freshRunId`. */
  function SendWith(b: Box, protocol: int, to: Recipient, freshRunId: string, asWritten: bool): (r: (Box, SendAction))
    ensures protocol >= 18 ==> r == (b, Unmanaged)
    ensures protocol < 18 && to.network == External ==> r == (b, Skipped)
    ensures protocol < 18 && to.network == Msn ==>
      && r.1.Oim?
      && r.0.state == b.state && r.0.messages == b.messages
      && (forall p :: p != to ==> Lookup(r.0.conversations, p) == Lookup(b.conversations, p))
      && to in r.0.conversations && r.0.conversations[to].runId == r.1.runId
      && (to in b.conversations ==> r.1.runId == b.conversations[to].runId)
      && (to !in b.conversations ==> r.1 == Oim(freshRunId, 1) && r.0.conversations[to].sequenceNum == 1)
      && (to in b.conversations ==>
            r.0.conversations[to].sequenceNum == b.conversations[to].sequenceNum + 1 &&
            r.1.sequenceNum == (if asWritten then b.conversations[to].sequenceNum else b.conversations[to].sequenceNum + 1))
  {
    if protocol >= 18 then (b, Unmanaged)
    else if to.network == External then (b, Skipped)
    else
      var c := Lookup(b.conversations, to);
      var (stored, number) := if asWritten then NextAsWritten(c, freshRunId) else Next(c, freshRunId);
      (b.(conversations := b.conversations[to := stored]), Oim(stored.runId, number))
  }

  function SendAsWritten(b: Box, protocol: int, to: Recipient, freshRunId: string): (r: (Box, SendAction))
    ensures protocol < 18 && to.network == Msn ==> r.1.Oim?
  {
    SendWith(b, protocol, to, freshRunId, true)
  }

  function Send(b: Box, protocol: int, to: Recipient, freshRunId: string): (r: (Box, SendAction))
    ensures protocol >= 18 ==> r == (b, Unmanaged)
    ensures protocol < 18 && to.network == External ==> r == (b, Skipped)
    ensures protocol < 18 && to.network == Msn ==>
      && r.1.Oim?
      && r.0.state == b.state && r.0.messages == b.messages
      && (forall p :: p != to ==> Lookup(r.0.conversations, p) == Lookup(b.conversations, p))
      && to in r.0.conversations && r.0.conversations[to] == Conversation(r.1.runId, r.1.sequenceNum)
      && (to in b.conversations ==> r.1.runId == b.conversations[to].runId)
      && (to !in b.conversations ==> r.1 == Oim(freshRunId, 1))
  {
    SendWith(b, protocol, to, freshRunId, false)
  }

  /** `count` sends in a row to one recipient; the actions they produce. */
  function SendMany(b: Box, protocol: int, to: Recipient, freshRunId: string, count: nat, asWritten: bool): (r: (Box, seq<SendAction>))
    ensures |r.1| == count
    decreases count
  {
    if count == 0 then (b, [])
    else
      var (b1, a) := SendWith(b, protocol, to, freshRunId, asWritten);
      var (b2, rest) := SendMany(b1, protocol, to, freshRunId, count - 1, asWritten);
      (b2, [a] + rest)
  }

  lemma {:induction false} SendManyFrom(b: Box, to: Recipient, freshRunId: string, count: nat, run: string, last: int)
    requires to.network == Msn && Lookup(b.conversations, to) == Some(Conversation(run, last))
    ensures forall k :: 0 <= k < count ==> SendMany(b, 17, to, freshRunId, count, false).1[k] == Oim(run, last + 1 + k)
    decreases count
  {
    if count > 0 {
      var b1 := SendWith(b, 17, to, freshRunId, false).0;
      SendManyFrom(b1, to, freshRunId, count - 1, run, last + 1);
    }
  }

  /** With the corrected numbering, the sends of one conversation carry one run id and the
      sequence numbers 1, 2, 3, ... */
  lemma SendNumbers(b: Box, to: Recipient, freshRunId: string, count: nat)
    requires to.network == Msn && to !in b.conversations
    ensures forall k :: 0 <= k < count ==> SendMany(b, 17, to, freshRunId, count, false).1[k] == Oim(freshRunId, k + 1)
  {
    if count > 0 {
      var b1 := SendWith(b, 17, to, freshRunId, false).0;
      SendManyFrom(b1, to, freshRunId, count - 1, freshRunId, 1);
    }
  }

  lemma {:induction false} SendManyFromAsWritten(b: Box, to: Recipient, freshRunId: string, count: nat, run: string, stored: int)
    requires to.network == Msn && Lookup(b.conversations, to) == Some(Conversation(run, stored))
    ensures forall k :: 0 <= k < count ==> SendMany(b, 17, to, freshRunId, count, true).1[k] == Oim(run, stored + k)
    decreases count
  {
    if count > 0 {
      var b1 := SendWith(b, 17, to, freshRunId, true).0;
      SendManyFromAsWritten(b1, to, freshRunId, count - 1, run, stored + 1);
    }
  }

  /** As written, the sends of one conversation carry the sequence numbers 1, 1, 2, 3, ...:
      the first two share a number. */
  lemma SendNumbersAsWritten(b: Box, to: Recipient, freshRunId: string, count: nat)
    requires to.network == Msn && to !in b.conversations && count >= 2
    ensures SendMany(b, 17, to, freshRunId, count, true).1[0] == Oim(freshRunId, 1)
    ensures forall k :: 1 <= k < count ==> SendMany(b, 17, to, freshRunId, count, true).1[k] == Oim(freshRunId, k)
  {
    var b1 := SendWith(b, 17, to, freshRunId, true).0;
    SendManyFromAsWritten(b1, to, freshRunId, count - 1, freshRunId, 1);
  }

  // ---------------------------------------------------------------------------------------
  // Fetching and deleting

  datatype Request = NoRequest | RequestIds(ids: seq<string>)

  /** The request `fetch_messages` and `delete_messages` make: all stored messages when no
      list is given, nothing for an empty list, otherwise the ids of the listed messages.
      With no list given the list handed on to the callback is the store itself, which
      `MessagesFetched` and `MessagesDeletedAsWritten` take as `None`. */
  function RequestFor(b: Box, listed: Option<seq<Message>>): (r: Request)
    ensures var s := if listed.Some? then listed.value else b.messages;
      && (r == NoRequest <==> |s| == 0)
      && (r.RequestIds? ==> |r.ids| == |s| && forall k :: 0 <= k < |s| ==> r.ids[k] == s[k].id)
  {
    var s := if listed.Some? then listed.value else b.messages;
    if |s| == 0 then NoRequest else RequestIds(seq(|s|, k requires 0 <= k < |s| => s[k].id))
  }

  function FirstWithId(s: seq<Message>, id: string): (i: nat)
    requires HasId(s, id)
    ensures i < |s| && s[i].id == id
    ensures forall k :: 0 <= k < i ==> s[k].id != id
  {
    if s[0].id == id then 0
    else
      assert HasId(s[1..], id) by {
        var k :| 0 <= k < |s| && s[k].id == id;
        assert s[1..][k - 1].id == id;
      }
      1 + FirstWithId(s[1..], id)
  }

  /** The per-message fetch callback: stores run id, sequence number and text on the first
      message with the id; an unknown id changes nothing. */
  function MessageFetched(b: Box, id: string, runId: string, sequenceNum: int, text: string): (r: Box)
    ensures !HasId(b.messages, id) ==> r == b
    ensures r.state == b.state && r.conversations == b.conversations && |r.messages| == |b.messages|
    ensures forall k :: 0 <= k < |b.messages| ==> r.messages[k].id == b.messages[k].id
    ensures HasId(b.messages, id) ==>
      var i := FirstWithId(b.messages, id);
      && r.messages[i] == b.messages[i].(runId := runId, sequenceNum := sequenceNum, text := text)
      && forall k :: 0 <= k < |b.messages| && k != i ==> r.messages[k] == b.messages[k]
  {
    if !HasId(b.messages, id) then b
    else
      var i := FirstWithId(b.messages, id);
      var m := b.messages[i];
      b.(messages := b.messages[i := m.(runId := runId, sequenceNum := sequenceNum, text := text)])
  }

  /** The callback that ends a fetch: it sorts the fetched list in place and signals
      `messages-fetched` with it. With no list given, the list fetched is the store itself,
      so the store is left sorted; a list given is another list, and the store keeps its
      order. */
  function MessagesFetched(b: Box, listed: Option<seq<Message>>): (r: (Box, seq<Message>))
    ensures multiset(r.1) == multiset(if listed.Some? then listed.value else b.messages)
    ensures listed.None? ==> r.0 == b.(messages := r.1)
    ensures listed.Some? ==> r.0 == b
  {
    match listed
    case None =>
      var sorted := Sort(b.messages);
      (b.(messages := sorted), sorted)
    case Some(fetched) => (b, Sort(fetched))
  }

  /** After fetching everything, a store holding one conversation is in sequence order and
      is the list signalled. */
  lemma FetchAllInOrder(b: Box, run: string)
    requires OneRun(b.messages, run)
    ensures var (after, signalled) := MessagesFetched(b, None);
      after.messages == signalled && OneRun(signalled, run) && BySequence(signalled)
  {
    SortOneRun(b.messages, run);
  }

  /** The fetch callback keeps every id, so the merge's uniqueness survives it. */
  lemma MessageFetchedKeepsIds(b: Box, id: string, runId: string, sequenceNum: int, text: string)
    requires UniqueIds(b.messages)
    ensures UniqueIds(MessageFetched(b, id, runId, sequenceNum, text).messages)
  {
    var r := MessageFetched(b, id, runId, sequenceNum, text);
    forall i, j | 0 <= i < j < |r.messages| ensures r.messages[i].id != r.messages[j].id {
      assert r.messages[i].id == b.messages[i].id && r.messages[j].id == b.messages[j].id;
    }
  }

  /** `list.remove` as written: Python 2 compares with `__cmp__`, so it removes the first
      stored message that compares equal, and nothing when none does. */
  function RemoveAsWritten(s: seq<Message>, m: Message): (r: seq<Message>)
    ensures |r| == |s| || |r| + 1 == |s|
  {
    if s == [] then []
    else if Compare(s[0], m) == 0 then s[1..]
    else [s[0]] + RemoveAsWritten(s[1..], m)
  }

  function DeleteDoneWith(s: seq<Message>, deleted: seq<Message>, asWritten: bool): (r: seq<Message>)
    ensures |r| <= |s|
    decreases |deleted|
  {
    if deleted == [] then s
    else
      var m := deleted[0];
      DeleteDoneWith(if asWritten then RemoveAsWritten(s, m) else Remove(s, m.id), deleted[1..], asWritten)
  }

  /** The delete loop over the store itself, as written: Python steps through the list by
      index while each removal shifts the rest left, so the message after each removed one
      is passed over. */
  function DeleteLiveAsWritten(s: seq<Message>, i: nat): (r: seq<Message>)
    ensures |r| <= |s|
    decreases |s| - i
  {
    if i >= |s| then s
    else DeleteLiveAsWritten(RemoveAsWritten(s, s[i]), i + 1)
  }

  /** The delete callback as written. A list given is removed message by message and
      signalled; with no list given the loop runs over the store itself, and the store left
      is the list signalled. */
  function MessagesDeletedAsWritten(b: Box, listed: Option<seq<Message>>): (r: (Box, seq<Message>))
    ensures r.0.state == b.state && r.0.conversations == b.conversations
    ensures |r.0.messages| <= |b.messages|
    ensures listed.Some? ==> r.1 == listed.value
    ensures listed.None? ==> r.1 == r.0.messages
  {
    match listed
    case None =>
      var left := DeleteLiveAsWritten(b.messages, 0);
      (b.(messages := left), left)
    case Some(deleted) => (b.(messages := DeleteDoneWith(b.messages, deleted, true)), deleted)
  }

  /** Deleting an unfetched message removes the first unfetched message instead: every
      unfetched message has an empty run id and sequence number -1, so all compare equal. */
  lemma WrongMessageDeletedAsWritten(b: Box, first: Message, second: Message)
    requires b.messages == [first, second]
    requires first.runId == second.runId == "" && first.sequenceNum == second.sequenceNum == -1
    ensures MessagesDeletedAsWritten(b, Some([second])).0.messages == [second]
  {
    assert RemoveAsWritten([first, second], second) == [second];
    assert DeleteDoneWith([first, second], [second], true) == DeleteDoneWith([second], [], true);
  }

  /** Removal as written takes out the first message that compares equal. */
  lemma {:induction false} RemoveAsWrittenAt(t: seq<Message>, m: Message, p: nat)
    requires p < |t| && Compare(t[p], m) == 0
    requires forall k :: 0 <= k < p ==> Compare(t[k], m) != 0
    ensures RemoveAsWritten(t, m) == t[..p] + t[p + 1..]
  {
    if p > 0 {
      RemoveAsWrittenAt(t[1..], m, p - 1);
      assert t[..p] == [t[0]] + t[1..][..p - 1];
      assert t[p + 1..] == t[1..][p..];
    }
  }

  /** The messages at odd positions, in order. */
  function Odd(s: seq<Message>, count: nat): (r: seq<Message>)
    requires 2 * count <= |s|
    ensures |r| == count && forall k :: 0 <= k < count ==> r[k] == s[2 * k + 1]
  {
    seq(count, k requires 0 <= k < count => s[2 * k + 1])
  }

  /** Messages no two of which compare equal, as fetched messages of distinct conversations
      or distinct sequence numbers are. */
  predicate Distinct(s: seq<Message>) {
    forall i, j :: 0 <= i < |s| && 0 <= j < |s| && i != j ==> Compare(s[i], s[j]) != 0
  }

  /** The state of the loop after `i` steps: the odd messages before `2 i` kept, the rest
      untouched. */
  lemma {:induction false} DeleteLiveFrom(s: seq<Message>, i: nat)
    requires Distinct(s) && 2 * i <= |s|
    ensures DeleteLiveAsWritten(Odd(s, i) + s[2 * i..], i) == Odd(s, |s| / 2)
    decreases |s| - 2 * i
  {
    var live := Odd(s, i) + s[2 * i..];
    if 2 * i == |s| {
      assert live == Odd(s, |s| / 2);
    } else {
      assert live[i] == s[2 * i];
      forall k | 0 <= k < i ensures Compare(live[k], s[2 * i]) != 0 {
        assert live[k] == s[2 * k + 1];
      }
      RemoveAsWrittenAt(live, s[2 * i], i);
      var after := live[..i] + live[i + 1..];
      assert after == Odd(s, i) + s[2 * i + 1..];
      if 2 * i + 1 == |s| {
        assert after == Odd(s, |s| / 2);
      } else {
        assert after == Odd(s, i + 1) + s[2 * (i + 1)..];
        DeleteLiveFrom(s, i + 1);
      }
    }
  }

  /** Deleting everything as written keeps every second message: of stored messages no two
      of which compare equal, exactly those at odd positions stay, and they are the list
      signalled as deleted. */
  lemma DeleteAllKeepsEveryOtherAsWritten(b: Box)
    requires Distinct(b.messages)
    ensures MessagesDeletedAsWritten(b, None).0.messages == Odd(b.messages, |b.messages| / 2)
    ensures MessagesDeletedAsWritten(b, None).1 == Odd(b.messages, |b.messages| / 2)
  {
    assert Odd(b.messages, 0) + b.messages[0..] == b.messages;
    DeleteLiveFrom(b.messages, 0);
  }

  /** Three fetched messages a, b, c: deleting everything leaves b and signals b. */
  lemma DeleteThreeLeavesMiddleAsWritten(box: Box, a: Message, b: Message, c: Message)
    requires box.messages == [a, b, c] && Distinct([a, b, c])
    ensures MessagesDeletedAsWritten(box, None) == (box.(messages := [b]), [b])
  {
    DeleteAllKeepsEveryOtherAsWritten(box);
    assert Odd([a, b, c], 1) == [b];
  }

  /** Removes the stored message with this id, the object identity of the source; ids are
      unique in the store. */
  function Remove(s: seq<Message>, id: string): (r: seq<Message>)
    ensures !HasId(s, id) ==> r == s
    ensures |r| == |s| || |r| + 1 == |s|
  {
    if s == [] then []
    else if s[0].id == id then s[1..]
    else
      assert HasId(s, id) ==> HasId(s[1..], id) by {
        if HasId(s, id) {
          var k :| 0 <= k < |s| && s[k].id == id;
          assert s[1..][k - 1].id == id;
        }
      }
      [s[0]] + Remove(s[1..], id)
  }

  /** The messages a delete asks for: those listed, or else every stored message. */
  function ToDelete(b: Box, listed: Option<seq<Message>>): seq<Message> {
    if listed.Some? then listed.value else b.messages
  }

  /** The delete callback with removal by identity, over the messages the delete asked for
      as they were then: deleted messages already gone are ignored, and that list is
      signalled. */
  function MessagesDeleted(b: Box, listed: Option<seq<Message>>): (r: (Box, seq<Message>))
    ensures r.0.state == b.state && r.0.conversations == b.conversations
    ensures r.1 == ToDelete(b, listed)
    ensures |r.0.messages| <= |b.messages|
  {
    var deleted := ToDelete(b, listed);
    (b.(messages := DeleteDoneWith(b.messages, deleted, false)), deleted)
  }

  /** The stored messages whose id is not in `ids`, in order. */
  function Without(s: seq<Message>, ids: set<string>): (r: seq<Message>)
    ensures forall k :: 0 <= k < |r| ==> r[k].id !in ids
  {
    if s == [] then []
    else if s[0].id in ids then Without(s[1..], ids)
    else [s[0]] + Without(s[1..], ids)
  }

  function Ids(deleted: seq<Message>): set<string> {
    set k | 0 <= k < |deleted| :: deleted[k].id
  }

  lemma {:induction false} RemoveIsWithout(s: seq<Message>, id: string)
    requires UniqueIds(s)
    ensures Remove(s, id) == Without(s, {id})
    ensures UniqueIds(Remove(s, id))
  {
    if s != [] {
      assert UniqueIds(s[1..]) by {
        forall i, j | 0 <= i < j < |s[1..]| ensures s[1..][i].id != s[1..][j].id {
          assert s[1..][i] == s[i + 1] && s[1..][j] == s[j + 1];
        }
      }
      if s[0].id == id {
        assert !HasId(s[1..], id) by {
          forall k | 0 <= k < |s[1..]| ensures s[1..][k].id != id {
            assert s[1..][k] == s[k + 1];
          }
        }
        WithoutAbsent(s[1..], id);
      } else {
        RemoveIsWithout(s[1..], id);
        var r := [s[0]] + Remove(s[1..], id);
        forall i, j | 0 <= i < j < |r| ensures r[i].id != r[j].id {
          if i == 0 {
            assert r[j] in multiset(Remove(s[1..], id));
            RemoveFrom(s[1..], id, r[j]);
            var k :| 0 <= k < |s[1..]| && s[1..][k] == r[j];
            assert s[k + 1] == r[j];
          }
        }
      }
    }
  }

  lemma {:induction false} WithoutAbsent(s: seq<Message>, id: string)
    requires !HasId(s, id)
    ensures Without(s, {id}) == s
  {
    if s != [] {
      assert !HasId(s[1..], id) by {
        forall k | 0 <= k < |s[1..]| ensures s[1..][k].id != id {
          assert s[1..][k] == s[k + 1];
        }
      }
      WithoutAbsent(s[1..], id);
    }
  }

  lemma {:induction false} RemoveFrom(s: seq<Message>, id: string, m: Message)
    requires m in multiset(Remove(s, id))
    ensures m in multiset(s)
  {
    if s != [] && s[0].id != id && m != s[0] {
      RemoveFrom(s[1..], id, m);
      assert s == [s[0]] + s[1..];
    }
  }

  lemma {:induction false} WithoutWithout(s: seq<Message>, a: set<string>, b: set<string>)
    ensures Without(Without(s, a), b) == Without(s, a + b)
  {
    if s != [] {
      WithoutWithout(s[1..], a, b);
    }
  }

  /** With unique ids, removing messages one by one by identity leaves exactly the stored
      messages whose id was not removed, in their order. */
  lemma {:induction false} DeleteDoneKeepsOthers(s: seq<Message>, deleted: seq<Message>)
    requires UniqueIds(s)
    ensures DeleteDoneWith(s, deleted, false) == Without(s, Ids(deleted))
    ensures UniqueIds(DeleteDoneWith(s, deleted, false))
    decreases |deleted|
  {
    if deleted == [] {
      assert Ids(deleted) == {};
      WithoutNone(s);
    } else {
      var m := deleted[0];
      RemoveIsWithout(s, m.id);
      DeleteDoneKeepsOthers(Remove(s, m.id), deleted[1..]);
      WithoutWithout(s, {m.id}, Ids(deleted[1..]));
      assert {m.id} + Ids(deleted[1..]) == Ids(deleted) by {
        forall x | x in Ids(deleted) ensures x in {m.id} + Ids(deleted[1..]) {
          var k :| 0 <= k < |deleted| && deleted[k].id == x;
          if k > 0 { assert deleted[1..][k - 1].id == x; }
        }
        forall x | x in Ids(deleted[1..]) ensures x in Ids(deleted) {
          var k :| 0 <= k < |deleted[1..]| && deleted[1..][k].id == x;
          assert deleted[k + 1].id == x;
        }
      }
    }
  }

  /** With unique ids, the delete callback leaves exactly the stored messages whose id was
      not deleted, in their order. */
  lemma MessagesDeletedKeepsOthers(b: Box, listed: Option<seq<Message>>)
    requires UniqueIds(b.messages)
    ensures MessagesDeleted(b, listed).0.messages == Without(b.messages, Ids(ToDelete(b, listed)))
    ensures UniqueIds(MessagesDeleted(b, listed).0.messages)
  {
    DeleteDoneKeepsOthers(b.messages, ToDelete(b, listed));
  }

  /** With unique ids, deleting everything empties the store and signals every message that
      was stored. */
  lemma DeleteAllEmpties(b: Box)
    requires UniqueIds(b.messages)
    ensures MessagesDeleted(b, None) == (b.(messages := []), b.messages)
  {
    MessagesDeletedKeepsOthers(b, None);
    WithoutAll(b.messages, Ids(b.messages));
  }

  lemma {:induction false} WithoutAll(s: seq<Message>, ids: set<string>)
    requires forall k :: 0 <= k < |s| ==> s[k].id in ids
    ensures Without(s, ids) == []
  {
    if s != [] {
      assert s[0].id in ids;
      forall k | 0 <= k < |s[1..]| ensures s[1..][k].id in ids {
        assert s[1..][k] == s[k + 1];
      }
      WithoutAll(s[1..], ids);
    }
  }

  lemma {:induction false} WithoutNone(s: seq<Message>)
    ensures Without(s, {}) == s
  {
    if s != [] {
      WithoutNone(s[1..]);
    }
  }
}

=== FILE: p2p.dfy ===
/** The client-facing peer-to-peer layer (`papyon/p2p.py`): MSN objects and their equality, the
    store of published objects and the rules for requesting one from a peer, and the meta
    session that invites every endpoint of a peer and keeps the one that answers.

    Sessions are opaque handles (`int`); SHA-1 digests are opaque strings supplied with the
    object. */
module P2p {
  import opened Results
  import opened Text

  // ---------------------------------------------------------------------------
  // MSN objects

  const CUSTOM_EMOTICON: int := 2
  const DISPLAY_PICTURE: int := 3

  /** Application ids of the two transfers an object request can open. */
  const CUSTOM_EMOTICON_TRANSFER: int := 11
  const DISPLAY_PICTURE_TRANSFER: int := 12

  datatype MsnObject = MsnObject(creator: string, size: int, typ: int, dataSha: string, checksum: string, data: Option<seq<int>>)

  /** `MSNObject.__eq__` against a value that may be `None`: nothing equals `None`; two objects
      are equal when type, data digest and checksum agree (creator, size and data are not
      compared). */
  predicate Equal(a: MsnObject, b: Option<MsnObject>) {
    b.Some? && b.value.typ == a.typ && b.value.dataSha == a.dataSha && b.value.checksum == a.checksum
  }

  /** `MSNObject.__hash__`: the decimal type followed by the data digest. */
  function Hash(o: MsnObject): (r: string)
    ensures |r| > |o.dataSha| && r[|r| - |o.dataSha|..] == o.dataSha
  {
    IntToString(o.typ) + o.dataSha
  }

  /** Equality is an equivalence, and objects that are equal hash equally, as a set needs. */
  lemma EqualIsEquivalence(a: MsnObject, b: MsnObject, c: MsnObject)
    ensures Equal(a, Some(a))
    ensures Equal(a, Some(b)) ==> Equal(b, Some(a))
    ensures Equal(a, Some(b)) && Equal(b, Some(c)) ==> Equal(a, Some(c))
    ensures Equal(a, Some(b)) ==> Hash(a) == Hash(b)
    ensures !Equal(a, None)
  {
  }

  // ---------------------------------------------------------------------------
  // Object store

  /** The published objects, as a set under `Equal` (kept in insertion order). */
  datatype Store = Store(published: seq<MsnObject>)

  /** Only objects with data are ever stored. */
  predicate Valid(s: Store) {
    forall p :: p in s.published ==> p.data.Some?
  }

  predicate NoDuplicates(s: Store) {
    forall i, j :: 0 <= i < j < |s.published| ==> !Equal(s.published[i], Some(s.published[j]))
  }

  /** `publish`: only an object that has data is stored; adding an object equal to a stored one
      changes nothing. */
  function Publish(s: Store, o: MsnObject): (r: Store)
    ensures o.data.None? ==> r == s
    ensures o.data.Some? ==> o in r.published || exists p :: p in s.published && Equal(p, Some(o))
    ensures forall p :: p in s.published ==> p in r.published
    ensures forall p :: p in r.published ==> p in s.published || p == o
    ensures NoDuplicates(s) ==> NoDuplicates(r)
    ensures Valid(s) ==> Valid(r)
  {
    if o.data.None? then s
    else if exists p :: p in s.published && Equal(p, Some(o)) then s
    else Store(s.published + [o])
  }

  /** `_get_published_object`: the stored object with the same data digest, whatever its type
      or checksum; `None` asks for nothing. */
  function GetPublished(s: Store, o: Option<MsnObject>): (r: Option<MsnObject>)
    ensures o.None? ==> r.None?
    ensures r.Some? ==> r.value in s.published && r.value.dataSha == o.value.dataSha
    ensures o.Some? && r.None? ==> forall p :: p in s.published ==> p.dataSha != o.value.dataSha
  {
    if o.None? then None else FirstWithDigest(s.published, o.value.dataSha)
  }

  function FirstWithDigest(ps: seq<MsnObject>, sha: string): (r: Option<MsnObject>)
    ensures r.Some? ==> r.value in ps && r.value.dataSha == sha
    ensures r.None? ==> forall p :: p in ps ==> p.dataSha != sha
  {
    if ps == [] then None
    else if ps[0].dataSha == sha then Some(ps[0])
    else FirstWithDigest(ps[1..], sha)
  }

  /** Publishing an object with data makes it (or an equal one) retrievable by its digest. */
  lemma PublishThenGet(s: Store, o: MsnObject)
    requires o.data.Some?
    ensures GetPublished(Publish(s, o), Some(o)).Some?
  {
    var r := Publish(s, o);
    if o in r.published {
      FirstWithDigestFinds(r.published, o);
    } else {
      var p :| p in s.published && Equal(p, Some(o));
      FirstWithDigestFinds(r.published, p);
    }
  }

  lemma {:induction false} FirstWithDigestFinds(ps: seq<MsnObject>, p: MsnObject)
    requires p in ps
    ensures FirstWithDigest(ps, p.dataSha).Some?
  {
    if ps[0] != p {
      FirstWithDigestFinds(ps[1..], p);
    }
  }

  datatype RequestOutcome =
    | NoRequest                                     // asked for None
    | Immediate(o: MsnObject)                       // callback at once, no session
    | NoPeer                                        // creator not in the address book
    | NotImplemented                                // raises NotImplementedError
    | Invite(applicationId: int, o: MsnObject)      // a meta session invites the peer

  /** `MSNObjectStore.request`. A published object with the same digest lends its data; an
      object with data calls back at once. Otherwise a peer is needed (`peerKnown`: given, or the
      creator found in the address book), and only custom emoticons and display pictures can be
      requested. */
  function Request(s: Store, o: Option<MsnObject>, peerKnown: bool): (r: RequestOutcome)
    ensures o.None? <==> r == NoRequest
    ensures r.Immediate? ==> r.o.data.Some? && (o.value.data.Some? || GetPublished(s, o).Some?)
    ensures r.Invite? || r.NotImplemented? || r.NoPeer? ==>
      if GetPublished(s, o).Some? then GetPublished(s, o).value.data.None? else o.value.data.None?
    ensures r.Invite? || r.NotImplemented? || r.NoPeer? ==> (Valid(s) ==> GetPublished(s, o).None?)
    ensures r.Invite? ==> peerKnown && r.o.typ == o.value.typ && r.o.dataSha == o.value.dataSha
    ensures r.Invite? && Valid(s) ==> r.o == o.value
    ensures r.Invite? ==> (o.value.typ == CUSTOM_EMOTICON <==> r.applicationId == CUSTOM_EMOTICON_TRANSFER)
    ensures r.Invite? ==> (o.value.typ == DISPLAY_PICTURE <==> r.applicationId == DISPLAY_PICTURE_TRANSFER)
    ensures r.NotImplemented? ==> o.value.typ != CUSTOM_EMOTICON && o.value.typ != DISPLAY_PICTURE
  {
    if o.None? then NoRequest
    else
      var pub := GetPublished(s, o);
      var obj := if pub.Some? then o.value.(data := pub.value.data) else o.value;
      if obj.data.Some? then Immediate(obj)
      else if !peerKnown then NoPeer
      else if obj.typ == CUSTOM_EMOTICON then Invite(CUSTOM_EMOTICON_TRANSFER, obj)
      else if obj.typ == DISPLAY_PICTURE then Invite(DISPLAY_PICTURE_TRANSFER, obj)
      else NotImplemented
  }

  /** Requesting an object that was published with data never opens a session. */
  lemma PublishedServedLocally(s: Store, o: MsnObject, peerKnown: bool)
    requires Valid(s) && o.data.Some?
    ensures Request(Publish(s, o), Some(o), peerKnown).Immediate?
  {
  }

  datatype HandleOutcome = RejectAndRaise | Ignore | AcceptWith(data: Option<seq<int>>)

  /** `MSNObjectStore._handle_message`: a context that does not parse is rejected (and the error
      re-raised); an object not published here is left unanswered; a published one is accepted
      with its data. */
  function Handle(s: Store, parsed: Option<MsnObject>): (r: HandleOutcome)
    ensures parsed.None? <==> r == RejectAndRaise
    ensures r.AcceptWith? <==> GetPublished(s, parsed).Some?
    ensures r.AcceptWith? ==> exists p :: p in s.published && p.dataSha == parsed.value.dataSha && p.data == r.data
  {
    if parsed.None? then RejectAndRaise
    else match GetPublished(s, parsed)
      case None => Ignore
      case Some(p) => AcceptWith(p.data)
  }

  // ---------------------------------------------------------------------------
  // Meta sessions

  datatype EndPoint = EndPoint(id: string, hasWebcam: bool)

  /** The endpoint guid each child session is created for: one session with no guid when the
      peer lists no endpoints, otherwise one per endpoint, skipping this machine when the peer is
      our own profile. */
  function Targets(endPoints: seq<EndPoint>, peerIsSelf: bool, machineGuid: string): (r: seq<Option<string>>)
    ensures endPoints == [] ==> r == [None]
    ensures endPoints != [] ==> forall g :: g in r ==> g.Some?
    ensures endPoints != [] ==> forall e :: e in endPoints ==> (Some(e.id) in r <==> !(peerIsSelf && e.id == machineGuid))
    ensures endPoints != [] ==> forall g :: g in r ==> exists e :: e in endPoints && g == Some(e.id)
  {
    if endPoints == [] then [None] else EndPointTargets(endPoints, peerIsSelf, machineGuid)
  }

  function EndPointTargets(endPoints: seq<EndPoint>, peerIsSelf: bool, machineGuid: string): (r: seq<Option<string>>)
    ensures forall g :: g in r ==> exists e :: e in endPoints && g == Some(e.id) && !(peerIsSelf && e.id == machineGuid)
    ensures forall e :: e in endPoints && !(peerIsSelf && e.id == machineGuid) ==> Some(e.id) in r
    ensures |r| <= |endPoints|
  {
    if endPoints == [] then []
    else
      var rest := EndPointTargets(endPoints[1..], peerIsSelf, machineGuid);
      if peerIsSelf && endPoints[0].id == machineGuid then rest else [Some(endPoints[0].id)] + rest
  }

  /** `WebcamMetaSession._create_session`: a receive-only invite (not producing) is not sent to
      a known endpoint without webcam capability. */
  function WebcamCreates(guid: Option<string>, endPoint: Option<EndPoint>, producer: bool): (r: bool)
    ensures !r <==> guid.Some? && endPoint.Some? && !producer && !endPoint.value.hasWebcam
  {
    !(guid.Some? && endPoint.Some? && !producer && !endPoint.value.hasWebcam)
  }

  /** `_add_session` over the created children: `None` (nothing created) is skipped. */
  function AddAll(created: seq<Option<int>>): (r: seq<int>)
    ensures forall x :: x in r <==> Some(x) in created
    ensures |r| <= |created|
  {
    if created == [] then []
    else
      var rest := AddAll(created[1..]);
      assert forall x :: Some(x) in created <==> created[0] == Some(x) || Some(x) in created[1..];
      if created[0].Some? then [created[0].value] + rest else rest
  }

  datatype Meta = Meta(sessions: seq<int>)

  datatype MetaSignal = MetaAccepted | MetaRejected | MetaCompleted | MetaProgressed | MetaDisposed

  datatype MetaAction = Cancel(session: int) | Signal(signal: MetaSignal)

  /** The first child, through which the meta session forwards attribute reads. */
  function Primary(m: Meta): (r: Option<int>)
    ensures r.Some? <==> |m.sessions| > 0
    ensures r.Some? ==> r.value in m.sessions
  {
    if |m.sessions| > 0 then Some(m.sessions[0]) else None
  }

  /** `list.remove`: drops the first occurrence. */
  function RemoveFirst(xs: seq<int>, x: int): (r: seq<int>)
    requires x in xs
    ensures |r| == |xs| - 1
    ensures forall y :: y != x ==> (y in r <==> y in xs)
    ensures multiset(r) == multiset(xs) - multiset{x}
  {
    assert xs == [xs[0]] + xs[1..];
    if xs[0] == x then xs[1..]
    else
      [xs[0]] + RemoveFirst(xs[1..], x)
  }

  /** `_keep_session`: a held session becomes the only child and every other child is cancelled;
      for an unknown session nothing changes and the answer is false. */
  function KeepSession(m: Meta, keep: int): (r: (Meta, seq<MetaAction>, bool))
    ensures !r.2 <==> keep !in m.sessions
    ensures !r.2 ==> r.0 == m && r.1 == []
    ensures r.2 ==> r.0.sessions == [keep]
    ensures r.2 ==> |r.1| == |m.sessions| - 1 && forall a :: a in r.1 ==> a.Cancel?
    ensures r.2 ==> forall x :: x != keep ==> (Cancel(x) in r.1 <==> x in m.sessions)
  {
    if keep !in m.sessions then (m, [], false)
    else
      var others := RemoveFirst(m.sessions, keep);
      (Meta([keep]), Cancels(others), true)
  }

  function Cancels(xs: seq<int>): (r: seq<MetaAction>)
    ensures |r| == |xs| && forall i :: 0 <= i < |xs| ==> r[i] == Cancel(xs[i])
  {
    if xs == [] then [] else [Cancel(xs[0])] + Cancels(xs[1..])
  }

  /** A child answered (accepted or rejected): it is kept, the others cancelled, and the answer
      passed on. */
  function OnAnswered(m: Meta, session: int, accepted: bool): (r: (Meta, seq<MetaAction>))
    ensures |r.1| >= 1 && r.1[|r.1| - 1] == Signal(if accepted then MetaAccepted else MetaRejected)
    ensures session in m.sessions ==> r.0.sessions == [session]
    ensures session !in m.sessions ==> r.0 == m && |r.1| == 1
  {
    var k := KeepSession(m, session);
    (k.0, k.1 + [Signal(if accepted then MetaAccepted else MetaRejected)])
  }

  /** Disposal of any child empties the meta session, without cancelling the others. */
  function OnDisposed(m: Meta): (r: (Meta, seq<MetaAction>))
    ensures r.0.sessions == [] && r.1 == [Signal(MetaDisposed)]
    ensures Primary(r.0).None?
  {
    (Meta([]), [Signal(MetaDisposed)])
  }

  /** Keeping a session twice is the same as keeping it once, and cancels nobody the second
      time. */
  lemma KeepIdempotent(m: Meta, keep: int)
    requires keep in m.sessions
    ensures var k := KeepSession(m, keep); KeepSession(k.0, keep) == (k.0, [], true)
  {
  }

  /** When every endpoint answers, the first answer decides: later answers from cancelled
      children leave the meta session as the first answer left it. */
  lemma FirstAnswerWins(m: Meta, first: int, later: int, a1: bool, a2: bool)
    requires first in m.sessions && later != first
    ensures var r1 := OnAnswered(m, first, a1); OnAnswered(r1.0, later, a2).0 == r1.0
  {
  }
}

=== FILE: relay_transport.dfy ===
/** The relay transport, which carries peer-to-peer chunks inside switchboard messages
    (`papyon/msnp2p/transport/switchboard.py`): each chunk travels as the body of a message of
    type `application/x-msnmsgrp2p`, followed by its application id as 4 big-endian bytes;
    version-2 peers address each other as `account;{guid}` in `P2P-Src`/`P2P-Dest` headers. */
module RelayTransport {
  import opened Results
  import opened Bytes
  import opened Text
  import TLPv1
  import TransportManager

  const CONTENT_TYPE: string := "application/x-msnmsgrp2p"
  const NAME: string := "switchboard"
  const RATING: nat := 0
  /** Chunk size including the header but not the 4-byte application-id trailer. */
  const MAX_CHUNK_SIZE: nat := 1250

  /** `account;{guid}`, the version-2 address of an endpoint. */
  function Address(account: string, guid: string): (r: string)
    ensures Contains(r, ";")
  {
    assert OccursAt(account + ";{" + guid + "}", ";", |account|) by {
      assert (account + ";{" + guid + "}")[|account|..|account| + 1] == ";";
    }
    account + ";{" + guid + "}"
  }

  /** An address splits back into the account and the GUID, when the account has no `;`. */
  lemma AddressParts(account: string, guid: string)
    requires Lacks(account, ';')
    ensures SplitOnce(Address(account, guid), ";") == Some((account, "{" + guid + "}"))
    ensures Unbrace("{" + guid + "}") == guid
  {
    var a := Address(account, guid);
    assert a == account + ";" + ("{" + guid + "}");
    FindAfterPrefix(account, ";", "{" + guid + "}");
  }

  /** `_can_handle_message`: relay chunks are recognised by their content type. */
  predicate CanHandleMessage(contentType: string) {
    contentType == CONTENT_TYPE
  }

  /** The message's `P2P-Src` is an address whose account is `account`. */
  predicate NamesAccount(headers: map<string, string>, account: string) {
    "P2P-Src" in headers && SplitOnce(headers["P2P-Src"], ";").Some?
    && SplitOnce(headers["P2P-Src"], ";").value.0 == account
  }

  datatype Origin = Origin(peer: string, peerIsProfile: bool, peerGuid: Option<string>)

  datatype HandleError = NoParticipant

  /** `handle_message`: the peer and endpoint of the transport an unsolicited relay message
      creates.  A `P2P-Src` holding `;` names the sender's endpoint, and names ourselves when its
      account is our own; otherwise the peer is the switchboard's first participant (none is an
      error). */
  function HandleMessage(headers: map<string, string>, profileAccount: string, participants: seq<string>): (r: Result<Origin, HandleError>)
    ensures r.Success? && r.value.peerIsProfile ==> r.value.peer == profileAccount && r.value.peerGuid.Some?
    ensures r.Success? && !r.value.peerIsProfile ==> |participants| > 0 && r.value.peer == participants[0]
    ensures r.Failure? <==> (|participants| == 0 && !NamesAccount(headers, profileAccount))
    ensures r.Success? ==> (r.value.peerGuid.Some? <==> "P2P-Src" in headers && Contains(headers["P2P-Src"], ";"))
  {
    var guid: Option<string> :=
      if "P2P-Src" in headers && SplitOnce(headers["P2P-Src"], ";").Some?
      then Some(Unbrace(SplitOnce(headers["P2P-Src"], ";").value.1)) else None;
    var isProfile := NamesAccount(headers, profileAccount);
    if isProfile then Success(Origin(profileAccount, true, guid))
    else if |participants| == 0 then Failure(NoParticipant)
    else Success(Origin(participants[0], false, guid))
  }

  /** A switchboard message as the relay transport sends it. */
  datatype OutMessage = OutMessage(contentType: string, headers: map<string, string>, body: seq<byte>)

  /** `_send_chunk`: version 1 names only the destination account; version 2 names both
      endpoints.  The body is the chunk followed by its application id, big-endian. */
  function SendChunk(version: nat, ownAccount: string, machineGuid: string, peerAccount: string,
                     peerGuid: string, c: TLPv1.Chunk): (m: OutMessage)
    requires version == 1 || version == 2
    requires TLPv1.Fits(c.header) && c.appId < U32_LIMIT
    ensures m.contentType == CONTENT_TYPE && m.body == TLPv1.Serialize(c) + BE32(c.appId)
    ensures version == 1 ==> m.headers == map["P2P-Dest" := peerAccount]
    ensures version == 2 ==> m.headers == map["P2P-Src" := Address(ownAccount, machineGuid),
                                              "P2P-Dest" := Address(peerAccount, peerGuid)]
  {
    var headers := if version == 1 then map["P2P-Dest" := peerAccount]
      else map["P2P-Src" := Address(ownAccount, machineGuid), "P2P-Dest" := Address(peerAccount, peerGuid)];
    OutMessage(CONTENT_TYPE, headers, TLPv1.Serialize(c) + BE32(c.appId))
  }

  datatype Inbound =
    | NotForUs                                        // a version-2 chunk for another endpoint
    | Received(chunk: TLPv1.Chunk)                    // a version-1 chunk, application id restored
    | ReceivedV2(raw: seq<byte>, appId: nat)          // a version-2 chunk (its format is not modelled)
    | Malformed                                       // the body is too short to parse or unpack

  /** A `P2P-Dest` holding `;` marks a version-2 message. */
  predicate IsV2(headers: map<string, string>) {
    "P2P-Dest" in headers && Contains(headers["P2P-Dest"], ";")
  }

  /** `_on_message_received`: a `P2P-Dest` with `;` marks version 2, and such a message for
      another endpoint is dropped; otherwise the body minus its last 4 bytes is a chunk and those
      4 bytes are its application id.  A body too short for the parser or for the 4-byte
      unpack raises there, so nothing is handed up. */
  function OnMessageReceived(headers: map<string, string>, body: seq<byte>, machineGuid: string): (r: Inbound)
    ensures IsV2(headers) ==>
      (r.NotForUs? <==> Unbrace(SplitOnce(headers["P2P-Dest"], ";").value.1) != machineGuid)
    ensures r.Received? ==>
      !IsV2(headers) && |body| >= TLPv1.HEADER_SIZE + 4 && r.chunk.body == body[TLPv1.HEADER_SIZE..|body| - 4]
      && r.chunk.appId == UnpackBE(body[|body| - 4..])
    ensures r.ReceivedV2? ==>
      IsV2(headers) && |body| >= 4 && r.raw == body[..|body| - 4] && r.appId == UnpackBE(body[|body| - 4..])
    ensures r.Malformed? <==> !r.NotForUs? && |body| < (if IsV2(headers) then 4 else TLPv1.HEADER_SIZE + 4)
  {
    var v2 := "P2P-Dest" in headers && SplitOnce(headers["P2P-Dest"], ";").Some?;
    if v2 && Unbrace(SplitOnce(headers["P2P-Dest"], ";").value.1) != machineGuid then NotForUs
    else if v2 then
      (if |body| < 4 then Malformed else ReceivedV2(body[..|body| - 4], UnpackBE(body[|body| - 4..])))
    else if |body| < TLPv1.HEADER_SIZE + 4 then Malformed
    else
      match TLPv1.Parse(body[..|body| - 4])
      case Failure(_) => Malformed
      case Success(c) => Received(c.(appId := UnpackBE(body[|body| - 4..])))
  }

  /** A consistent chunk sent over a version-1 relay arrives as the same chunk, application id
      included, provided the destination account holds no `;` (which would mark version 2). */
  lemma RelayRoundTripV1(c: TLPv1.Chunk, machineGuid: string, peerAccount: string)
    requires TLPv1.Fits(c.header) && TLPv1.Consistent(c.header, |c.body|) && c.appId < U32_LIMIT
    requires Lacks(peerAccount, ';')
    ensures var m := SendChunk(1, "", "", peerAccount, "", c);
      OnMessageReceived(m.headers, m.body, machineGuid) == Received(c)
  {
    var m := SendChunk(1, "", "", peerAccount, "", c);
    var frame := TLPv1.Serialize(c);
    assert m.body[..|m.body| - 4] == frame;
    assert m.body[|m.body| - 4..] == BE32(c.appId);
    assert m.headers["P2P-Dest"] == peerAccount;
    NoOccurrenceWithoutHead(peerAccount, ";");
    TLPv1.ParseSerialize(c);
  }

  /** A version-2 message reaches only the endpoint it is addressed to: the receiving endpoint
      keeps it exactly when its machine GUID is the destination GUID. */
  lemma RelayV2Addressing(c: TLPv1.Chunk, own: string, ownGuid: string, peer: string, peerGuid: string, receiverGuid: string)
    requires TLPv1.Fits(c.header) && c.appId < U32_LIMIT && Lacks(peer, ';')
    ensures var m := SendChunk(2, own, ownGuid, peer, peerGuid, c);
      OnMessageReceived(m.headers, m.body, receiverGuid).NotForUs? <==> receiverGuid != peerGuid
  {
    AddressParts(peer, peerGuid);
  }

  /** The receiver of a version-2 message recovers the sender's account and endpoint from it: the
      transport it creates is bound to the sender's GUID, and to our own profile exactly when the
      sender is another endpoint of our own account. */
  lemma RelayV2Origin(c: TLPv1.Chunk, own: string, ownGuid: string, peer: string, peerGuid: string,
                      profileAccount: string, participants: seq<string>)
    requires TLPv1.Fits(c.header) && c.appId < U32_LIMIT && Lacks(own, ';')
    requires own == profileAccount || |participants| > 0
    ensures var m := SendChunk(2, own, ownGuid, peer, peerGuid, c);
      var r := HandleMessage(m.headers, profileAccount, participants);
      r.Success? && r.value.peerGuid == Some(ownGuid) && (r.value.peerIsProfile <==> own == profileAccount)
  {
    AddressParts(own, ownGuid);
  }

  /** `_on_contact_left`: the peer leaving closes the transport, which unregisters it. */
  function OnContactLeft(m: TransportManager.Manager, transportId: nat): (r: TransportManager.Manager)
    requires TransportManager.Valid(m)
    ensures transportId !in TransportManager.Ids(r.transports)
    ensures TransportManager.Ids(r.transports) == TransportManager.Ids(m.transports) - {transportId}
  {
    TransportManager.Unregister(m, transportId)
  }
}

=== FILE: results.dfy ===
/** Failure-compatible wrappers shared by every module of the model: an optional value and a
    value-or-error result, both usable with `:-`. */
module Results {

  /** A value that may be absent (Python's `None`). */
  datatype Option<+T> = None | Some(value: T) {

    predicate IsFailure() {
      None?
    }

    function PropagateFailure<U>(): Option<U>
      requires None?
    {
      None
    }

    function Extract(): T
      requires Some?
    {
      value
    }

    /** The value, or `default` when absent (Python's `dict.get(key, default)` idiom). */
    function GetOr(default: T): (r: T)
      ensures Some? ==> r == value
      ensures None? ==> r == default
    {
      match this
      case Some(v) => v
      case None => default
    }
  }

  /** Either a value or the error that the source raises instead of returning one. */
  datatype Result<+R, +E> = Success(value: R) | Failure(error: E) {

    predicate IsFailure() {
      Failure?
    }

    function PropagateFailure<U>(): Result<U, E>
      requires Failure?
    {
      Failure(error)
    }

    function Extract(): R
      requires Success?
    {
      value
    }
  }
}

=== FILE: sdp.dfy ===
/** SDP bodies for SIP calls (`papyon/sip/sdp.py`, after RFC 4566): parsing a message into
    media descriptions, and the `rtpmap`/`fmtp` attribute codecs.

    The media classes the descriptions derive from (`papyon/media`) are not part of this
    model: a codec created from a payload type starts with no encoding, clock rate or
    parameters, and `get_codec` is taken to find the first codec with that payload type or
    raise `KeyError`. The media direction is not modelled. */
module Sdp {
  import opened Results
  import opened Text

  datatype Codec = Codec(payload: int, encoding: Option<string>, clockrate: Option<int>, params: map<string, string>)

  /** An attribute value: text, a number (the RTCP port), or none (a bare `a=flag`). */
  datatype AttrValue = Str(s: string) | Num(n: int) | NoValue

  datatype Description = Description(name: string, port: int, ip: string, codecs: seq<Codec>, attributes: map<string, seq<AttrValue>>)

  datatype Message = Message(ip: string, descriptions: seq<Description>)

  /** The Python exceptions the parsers raise. `parse_attribute` swallows `ValueError` and
      `KeyError`; anything else ends the whole parse. */
  datatype Fault = ValueFault | IndexFault | KeyFault

  /** The message's address: its own, or else the first description's. */
  function Ip(m: Message): string {
    if m.ip == "" && |m.descriptions| > 0 then m.descriptions[0].ip else m.ip
  }

  // ---------------------------------------------------------------------------
  // Codec attributes

  /** `build_rtpmap`: `<payload> <encoding>/<clock rate>`. */
  function BuildRtpmap(payload: int, encoding: string, clockrate: int): string {
    IntToString(payload) + " " + encoding + "/" + IntToString(clockrate)
  }

  /** `parse_rtpmap`: exactly two words, the second holding a `/`; both numbers must parse. */
  function ParseRtpmap(s: string): (r: Result<(int, string, int), Fault>)
    ensures r.Success? ==> |Words(s)| == 2 && ParseInt(Words(s)[0]) == Some(r.value.0)
    ensures |Words(s)| != 2 ==> r == Failure(ValueFault)
  {
    var ws := Words(s);
    if |ws| != 2 then Failure(ValueFault)
    else
      var parts := Split(ws[1], "/");
      if |parts| < 2 then Failure(IndexFault)
      else match (ParseInt(parts[1]), ParseInt(ws[0]))
        case (Some(clock), Some(payload)) => Success((payload, parts[0], clock))
        case _ => Failure(ValueFault)
  }

  /** The codec parameters as the codec holds them (`codec.params.items()` order). */
  function ParamsMap(params: seq<(string, string)>): map<string, string> {
    ParamsFrom(map[], params)
  }

  /** The entries added to `acc` in order, a later key replacing an earlier one. */
  function ParamsFrom(acc: map<string, string>, params: seq<(string, string)>): map<string, string>
    decreases |params|
  {
    if |params| == 0 then acc else ParamsFrom(acc[params[0].0 := params[0].1], params[1..])
  }

  /** One `build_params_list` entry: the telephone events as `0-16`, anything else `key=value`. */
  function ParamToken(p: (string, string)): (t: string)
    ensures |t| > 0
  {
    if p.0 == "events" then "0-16" else p.0 + "=" + p.1
  }

  /** `build_params_list`: the entries space-joined, `""` when there are none. */
  function BuildParamsList(params: seq<(string, string)>): (r: string)
    ensures |params| == 0 <==> r == ""
  {
    if |params| == 0 then ""
    else
      var ts := seq(|params|, i requires 0 <= i < |params| => ParamToken(params[i]));
      if |ts| > 1 then
        JoinCons(ts[0], ts[1..], " ");
        assert ts == [ts[0]] + ts[1..];
        Join(ts, " ")
      else Join(ts, " ")
  }

  /** `build_fmtp`. */
  function BuildFmtp(payload: int, params: seq<(string, string)>): string {
    IntToString(payload) + " " + BuildParamsList(params)
  }

  /** One `parse_fmtp` token: `key=value` with exactly one `=`, or a bare token meaning the
      telephone events `0-15`. */
  function ParseParam(t: string): Result<(string, string), Fault> {
    if Contains(t, "=") then
      var parts := Split(t, "=");
      if |parts| == 2 then Success((parts[0], parts[1])) else Failure(ValueFault)
    else Success(("events", "0-15"))
  }

  function ParseParams(acc: map<string, string>, ts: seq<string>): (r: Result<map<string, string>, Fault>)
    ensures r.Success? ==> acc.Keys <= r.value.Keys
    decreases |ts|
  {
    if |ts| == 0 then Success(acc)
    else
      var (k, v) :- ParseParam(ts[0]);
      ParseParams(acc[k := v], ts[1..])
  }

  /** `parse_fmtp`: the first word is the payload type, the later words the parameters; an
      empty value has no first word. */
  function ParseFmtp(s: string): (r: Result<(int, map<string, string>), Fault>)
    ensures |Words(s)| == 0 ==> r == Failure(IndexFault)
    ensures r.Success? ==> ParseInt(Words(s)[0]) == Some(r.value.0)
  {
    var ws := Words(s);
    if |ws| == 0 then Failure(IndexFault)
    else match ParseInt(ws[0])
      case None => Failure(ValueFault)
      case Some(payload) =>
        var params :- ParseParams(map[], ws[1..]);
        Success((payload, params))
  }

  // ---------------------------------------------------------------------------
  // Descriptions

  /** A description as an `m=` line creates it: one codec per payload type, the encryption
      attribute `rejected`, and the RTCP port one above the media port. */
  function NewDescription(name: string, port: int, ip: string, payloads: seq<int>): (d: Description)
    ensures |d.codecs| == |payloads| && forall i :: 0 <= i < |payloads| ==> d.codecs[i].payload == payloads[i]
    ensures "rtcp" in d.attributes && d.attributes["rtcp"] == [Num(port + 1)]
  {
    Description(name, port, ip, seq(|payloads|, i requires 0 <= i < |payloads| => Codec(payloads[i], None, None, map[])),
                map["encryption" := [Str("rejected")], "rtcp" := [Num(port + 1)]])
  }

  /** `add_attribute`: the value appended to the key's list. */
  function AddAttribute(d: Description, key: string, v: AttrValue): (r: Description)
    ensures key in r.attributes && r.attributes[key] == (if key in d.attributes then d.attributes[key] else []) + [v]
    ensures forall k :: k in d.attributes && k != key ==> k in r.attributes && r.attributes[k] == d.attributes[k]
    ensures r.codecs == d.codecs && r.ip == d.ip
  {
    d.(attributes := d.attributes[key := (if key in d.attributes then d.attributes[key] else []) + [v]])
  }

  /** The first codec with the payload type. */
  function FindCodec(codecs: seq<Codec>, payload: int): (r: Option<nat>)
    ensures r.Some? ==> r.value < |codecs| && codecs[r.value].payload == payload
    ensures r.Some? ==> forall j :: 0 <= j < r.value ==> codecs[j].payload != payload
    ensures r.None? ==> forall j :: 0 <= j < |codecs| ==> codecs[j].payload != payload
    decreases |codecs|
  {
    if |codecs| == 0 then None
    else if codecs[0].payload == payload then Some(0)
    else match FindCodec(codecs[1..], payload)
      case None => None
      case Some(i) => Some(i + 1)
  }

  /** `parse_attribute`. `rtcp` sets the RTCP port; `rtpmap` and `fmtp` update the codec of their
      payload type and are recorded; anything else is recorded as it is. A value that does not
      parse, or names no codec, is dropped; a missing `/` in an `rtpmap`, or an empty `fmtp`,
      is an error. */
  function ParseAttribute(d: Description, key: string, value: string): (r: Result<Description, Fault>)
    ensures r.Failure? ==> r.error == IndexFault && (key == "rtpmap" || key == "fmtp")
    ensures r.Success? ==> r.value.name == d.name && r.value.port == d.port && r.value.ip == d.ip
    ensures r.Success? ==> |r.value.codecs| == |d.codecs|
  {
    if key == "rtcp" then
      match ParseInt(value)
      case Some(n) => Success(d.(attributes := d.attributes["rtcp" := [Num(n)]]))
      case None => Success(d)
    else if key == "rtpmap" then
      match ParseRtpmap(value)
      case Failure(IndexFault) => Failure(IndexFault)
      case Failure(_) => Success(d)
      case Success((payload, encoding, clock)) =>
        match FindCodec(d.codecs, payload)
        case None => Success(d)
        case Some(i) =>
          var c := d.codecs[i].(encoding := Some(encoding), clockrate := Some(clock));
          Success(AddAttribute(d.(codecs := d.codecs[i := c]), key, Str(value)))
    else if key == "fmtp" then
      match ParseFmtp(value)
      case Failure(IndexFault) => Failure(IndexFault)
      case Failure(_) => Success(d)
      case Success((payload, params)) =>
        match FindCodec(d.codecs, payload)
        case None => Success(d)
        case Some(i) =>
          Success(AddAttribute(d.(codecs := d.codecs[i := d.codecs[i].(params := params)]), key, Str(value)))
    else Success(AddAttribute(d, key, Str(value)))
  }

  // ---------------------------------------------------------------------------
  // Messages

  datatype SdpError = InvalidField(key: char, value: string)

  function ParseInts(ws: seq<string>): (r: Option<seq<int>>)
    ensures r.Some? ==> |r.value| == |ws| && forall i :: 0 <= i < |ws| ==> ParseInt(ws[i]) == Some(r.value[i])
    ensures r.None? ==> exists i :: 0 <= i < |ws| && ParseInt(ws[i]).None?
    decreases |ws|
  {
    if |ws| == 0 then Some([])
    else
      var n :- ParseInt(ws[0]);
      var ns :- ParseInts(ws[1..]);
      Some([n] + ns)
  }

  /** Python's `xs[k:]`, empty when `k` is past the end. */
  function From<T>(xs: seq<T>, k: nat): seq<T> {
    if k <= |xs| then xs[k..] else []
  }

  /** The message with its last description replaced. */
  function WithLast(m: Message, d: Description): Message
    requires |m.descriptions| > 0
  {
    m.(descriptions := m.descriptions[..|m.descriptions| - 1] + [d])
  }

  /** One line of `_parse`. Blank lines, and lines whose second character is not `=`, are
      skipped. `o=` sets the session address (sixth word); `m=` starts a description; `c=` sets
      the session address before the first `m=` and the current description's after; `a=`
      lines before the first `m=` are ignored, `a=k:v` is parsed as an attribute and a bare
      `a=flag` is recorded without value. Other keys are ignored. A field that does not hold
      what its key needs is an error. */
  function ParseLine(m: Message, line: string): (r: Result<Message, SdpError>)
    ensures var l := Strip(line); (|l| < 2 || l[1] != '=') ==> r == Success(m)
    ensures r.Failure? ==> var l := Strip(line); |l| >= 2 && l[1] == '=' && r.error == InvalidField(l[0], l[2..])
    ensures var l := Strip(line); |m.descriptions| == 0 && |l| >= 2 && l[0] == 'a' && l[1] == '=' ==> r == Success(m)
    ensures r.Success? ==> |r.value.descriptions| == |m.descriptions| || |r.value.descriptions| == |m.descriptions| + 1
    ensures r.Success? && |r.value.descriptions| == |m.descriptions| + 1 ==> r.value.descriptions[..|m.descriptions|] == m.descriptions
  {
    var l := Strip(line);
    if |l| < 2 || l[1] != '=' then Success(m) else ParseField(m, l[0], l[2..])
  }

  /** The field `<key>=<val>` of a line. */
  function ParseField(m: Message, key: char, val: string): (r: Result<Message, SdpError>)
    ensures r.Failure? ==> r.error == InvalidField(key, val)
    ensures key == 'a' && |m.descriptions| == 0 ==> r == Success(m)
    ensures r.Success? ==> |r.value.descriptions| == |m.descriptions| || |r.value.descriptions| == |m.descriptions| + 1
    ensures r.Success? && |r.value.descriptions| == |m.descriptions| + 1 ==> r.value.descriptions[..|m.descriptions|] == m.descriptions
  {
    var ws := Words(val);
    var err := InvalidField(key, val);
    if key == 'o' then
      if |ws| > 5 then Success(m.(ip := ws[5])) else Failure(err)
    else if key == 'm' then
      if |ws| < 2 then Failure(err)
      else match (ParseInt(ws[1]), ParseInts(From(ws, 3)))
        case (Some(port), Some(payloads)) =>
          assert (m.descriptions + [NewDescription(ws[0], port, Ip(m), payloads)])[..|m.descriptions|] == m.descriptions;
          Success(m.(descriptions := m.descriptions + [NewDescription(ws[0], port, Ip(m), payloads)]))
        case _ => Failure(err)
    else if key == 'c' then
      if |ws| <= 2 then Failure(err)
      else if |m.descriptions| == 0 then Success(m.(ip := ws[2]))
      else Success(WithLast(m, m.descriptions[|m.descriptions| - 1].(ip := ws[2])))
    else if key == 'a' then
      if |m.descriptions| == 0 then Success(m)
      else
        var d := m.descriptions[|m.descriptions| - 1];
        match SplitOnce(val, ":")
        case None => Success(WithLast(m, AddAttribute(d, val, NoValue)))
        case Some((k, v)) =>
          match ParseAttribute(d, k, v)
          case Success(d2) => Success(WithLast(m, d2))
          case Failure(_) => Failure(err)
    else Success(m)
  }

  function ParseLines(m: Message, lines: seq<string>): Result<Message, SdpError>
    decreases |lines|
  {
    if |lines| == 0 then Success(m)
    else
      var m1 :- ParseLine(m, lines[0]);
      ParseLines(m1, lines[1..])
  }

  /** `SDPMessage._parse` on a fresh message. Lines are split at `\n` (the `\r` of a `\r\n` is
      removed by the strip). On an error the descriptions are cleared and the parse fails. */
  function Parse(body: string): Result<Message, SdpError> {
    ParseLines(Message("", []), Split(body, "\n"))
  }

  // ---------------------------------------------------------------------------
  // The lines `__str__` writes, read back

  /** `__str__`'s origin line. */
  function OriginLine(ip: string): string {
    "o=- 0 0 IN IP4 " + ip
  }

  /** `__str__`'s media line. */
  function MediaLine(name: string, port: int, payloads: seq<int>): string {
    "m=" + name + " " + IntToString(port) + " RTP/AVP " + Join(seq(|payloads|, i requires 0 <= i < |payloads| => IntToString(payloads[i])), " ")
  }

  /** `__str__`'s line for one value of a description attribute. */
  function AttrLine(key: string, value: string): string {
    "a=" + key + ":" + value
  }

  /** `__str__`'s connection line. */
  function ConnectionLine(ip: string): string {
    "c=IN IP4 " + ip
  }

  // ---------------------------------------------------------------------------
  // Round trips

  lemma NoSpaceAppend(a: string, b: string)
    requires NoSpace(a) && NoSpace(b)
    ensures NoSpace(a + b)
  {
    forall i | 0 <= i < |a + b| ensures !IsSpace((a + b)[i]) {
      if i >= |a| { assert (a + b)[i] == b[i - |a|]; }
    }
  }

  /** A number's decimal text holds only digits and a minus sign. */
  lemma IntLacks(n: int, c: char)
    requires !IsDigit(c) && c != '-'
    ensures Lacks(IntToString(n), c)
  {
    if n < 0 {
      var d := NatToString(-n);
      assert IntToString(n) == "-" + d;
      forall i | 0 <= i < |d| + 1 ensures IntToString(n)[i] != c {
        if i > 0 { assert IntToString(n)[i] == d[i - 1]; }
      }
    }
  }

  /** What `build_rtpmap` writes, `parse_rtpmap` reads back, for an encoding name without space
      or `/`. */
  lemma RtpmapRoundTrip(payload: int, encoding: string, clockrate: int)
    requires |encoding| > 0 && NoSpace(encoding) && Lacks(encoding, '/')
    ensures ParseRtpmap(BuildRtpmap(payload, encoding, clockrate)) == Success((payload, encoding, clockrate))
  {
    var p, c := IntToString(payload), IntToString(clockrate);
    var b := encoding + "/" + c;
    NoSpaceAppend(encoding, "/");
    NoSpaceAppend(encoding + "/", c);
    assert Join([p, b], " ") == BuildRtpmap(payload, encoding, clockrate);
    WordsOfJoin([p, b]);
    IntLacks(clockrate, '/');
    SplitJoin([encoding, c], "/");
    assert Join([encoding, c], "/") == b;
    ParseIntToString(payload);
    ParseIntToString(clockrate);
  }

  /** Parameters that survive `build_params_list`: keys and values without space or `=`, and
      the telephone events (written `0-16`) holding `0-15`, which is what a bare token reads as. */
  predicate Writable(params: seq<(string, string)>) {
    forall i :: 0 <= i < |params| ==>
      && NoSpace(params[i].0) && Lacks(params[i].0, '=')
      && NoSpace(params[i].1) && Lacks(params[i].1, '=')
      && (params[i].0 == "events" ==> params[i].1 == "0-15")
  }

  lemma ParamTokenRoundTrip(p: (string, string))
    requires NoSpace(p.0) && Lacks(p.0, '=') && NoSpace(p.1) && Lacks(p.1, '=')
    requires p.0 == "events" ==> p.1 == "0-15"
    ensures ParseParam(ParamToken(p)) == Success(p)
    ensures NoSpace(ParamToken(p))
  {
    if p.0 == "events" {
      assert Lacks("0-16", '=');
      NoOccurrenceWithoutHead("0-16", "=");
    } else {
      var t := p.0 + "=" + p.1;
      NoSpaceAppend(p.0, "=");
      NoSpaceAppend(p.0 + "=", p.1);
      assert Join([p.0, p.1], "=") == t;
      SplitJoin([p.0, p.1], "=");
      assert OccursAt(t, "=", |p.0|);
    }
  }

  function Tokens(params: seq<(string, string)>): (ts: seq<string>)
    ensures |ts| == |params| && forall i :: 0 <= i < |params| ==> ts[i] == ParamToken(params[i])
  {
    seq(|params|, i requires 0 <= i < |params| => ParamToken(params[i]))
  }

  lemma {:induction false} ParseTokens(acc: map<string, string>, params: seq<(string, string)>)
    requires Writable(params)
    ensures ParseParams(acc, Tokens(params)) == Success(ParamsFrom(acc, params))
    decreases |params|
  {
    if |params| > 0 {
      ParamTokenRoundTrip(params[0]);
      assert Tokens(params)[1..] == Tokens(params[1..]);
      assert Writable(params[1..]) by {
        forall i | 0 <= i < |params| - 1 ensures params[1..][i] == params[i + 1] { }
      }
      ParseTokens(acc[params[0].0 := params[0].1], params[1..]);
    }
  }

  lemma WordsTrailingSpace(w: string)
    requires |w| > 0 && NoSpace(w)
    ensures Words(w + " ") == [w]
  {
    WordOfWord(w, " ");
    assert (w + " ")[|w|..] == " ";
    assert Words(" ") == Words(" "[1..]);
  }

  /** What `build_fmtp` writes, `parse_fmtp` reads back as the codec's payload type and
      parameters. */
  lemma FmtpRoundTrip(payload: int, params: seq<(string, string)>)
    requires Writable(params)
    ensures ParseFmtp(BuildFmtp(payload, params)) == Success((payload, ParamsMap(params)))
  {
    var p := IntToString(payload);
    var ts := Tokens(params);
    forall i | 0 <= i < |params| ensures |ts[i]| > 0 && NoSpace(ts[i]) {
      ParamTokenRoundTrip(params[i]);
    }
    if |params| == 0 {
      WordsTrailingSpace(p);
      assert BuildFmtp(payload, params) == p + " ";
    } else {
      assert BuildParamsList(params) == Join(ts, " ");
      JoinCons(p, ts, " ");
      assert BuildFmtp(payload, params) == Join([p] + ts, " ");
      WordsOfJoin([p] + ts);
      assert ([p] + ts)[1..] == ts;
    }
    ParseIntToString(payload);
    ParseTokens(map[], params);
  }

  /** The telephone events are written as `0-16` but read as `0-15`, whatever the codec held. */
  lemma EventsReadAsWritten(payload: int, v: string)
    ensures BuildParamsList([("events", v)]) == "0-16"
    ensures ParseFmtp(BuildFmtp(payload, [("events", v)])) == Success((payload, map["events" := "0-15"]))
  {
    var written, held := [("events", v)], [("events", "0-15")];
    assert Tokens(written) == Tokens(held) == ["0-16"];
    assert BuildParamsList(written) == Join(["0-16"], " ") == BuildParamsList(held);
    FmtpRoundTrip(payload, held);
  }
}

=== FILE: sdp_read_back.dfy ===
/** The lines the SDP writer (`SDPMessage.__str__`) emits for a message with one media
    description, read back by the parser. The attribute lines are not covered here. */
module SdpReadBack {
  import opened Results
  import opened Text
  import opened Sdp

  lemma {:induction false} JoinEnds(ws: seq<string>)
    requires |ws| > 0 && forall i :: 0 <= i < |ws| ==> |ws[i]| > 0 && NoSpace(ws[i])
    ensures var j := Join(ws, " "); |j| > 0 && !IsSpace(j[0]) && !IsSpace(j[|j| - 1])
    decreases |ws|
  {
    if |ws| > 1 {
      JoinCons(ws[0], ws[1..], " ");
      assert [ws[0]] + ws[1..] == ws;
      JoinEnds(ws[1..]);
    } else {
      assert Join(ws, " ") == ws[0];
    }
  }

  /** A line `<key>=<words>` strips to itself, and its value splits back into the words. */
  lemma FieldLine(m: Message, key: char, ws: seq<string>)
    requires !IsSpace(key) && |ws| > 0 && forall i :: 0 <= i < |ws| ==> |ws[i]| > 0 && NoSpace(ws[i])
    ensures ParseLine(m, [key, '='] + Join(ws, " ")) == ParseField(m, key, Join(ws, " "))
    ensures Words(Join(ws, " ")) == ws
  {
    var l := [key, '='] + Join(ws, " ");
    JoinEnds(ws);
    WhitespaceIsSpace(l[0]);
    WhitespaceIsSpace(l[|l| - 1]);
    StripSetUnchanged(l, Whitespace);
    assert l[2..] == Join(ws, " ");
    WordsOfJoin(ws);
  }

  /** The origin line is its six words space-joined. */
  lemma OriginWords(ip: string, ws: seq<string>)
    requires ws == ["-", "0", "0", "IN", "IP4", ip]
    ensures OriginLine(ip) == ['o', '='] + Join(ws, " ")
  {
    var head := ["-", "0", "0", "IN", "IP4"];
    OriginPrefix();
    JoinSnoc(head, ip, " ");
    assert ws == head + [ip];
    Regroup3(['o', '='], Join(head, " "), " ", ip);
  }

  lemma OriginPrefix()
    ensures "o=- 0 0 IN IP4 " == ['o', '='] + Join(["-", "0", "0", "IN", "IP4"], " ") + " "
  {
    assert Join(["-", "0", "0", "IN", "IP4"], " ") == "- 0 0 IN IP4";
  }

  lemma Regroup3(a: string, b: string, c: string, d: string)
    ensures a + b + c + d == a + (b + c + d)
  {
  }

  /** The origin line sets the session address. */
  lemma OriginRead(m: Message, ip: string)
    requires |ip| > 0 && NoSpace(ip)
    ensures ParseLine(m, OriginLine(ip)) == Success(m.(ip := ip))
  {
    var ws := ["-", "0", "0", "IN", "IP4", ip];
    OriginWords(ip, ws);
    FieldLine(m, 'o', ws);
  }

  function PayloadWords(payloads: seq<int>): (ps: seq<string>)
    ensures |ps| == |payloads| && forall i :: 0 <= i < |payloads| ==> ps[i] == IntToString(payloads[i])
  {
    seq(|payloads|, i requires 0 <= i < |payloads| => IntToString(payloads[i]))
  }

  lemma {:induction false} ParseIntsOfWords(payloads: seq<int>)
    ensures ParseInts(PayloadWords(payloads)) == Some(payloads)
  {
    var ws := PayloadWords(payloads);
    forall i | 0 <= i < |payloads| ensures ParseInt(ws[i]) == Some(payloads[i]) {
      ParseIntToString(payloads[i]);
    }
    ParseIntsAll(ws, payloads);
  }

  /** Words that each parse as the number at the same place parse as those numbers. */
  lemma {:induction false} ParseIntsAll(ws: seq<string>, ns: seq<int>)
    requires |ws| == |ns| && forall i :: 0 <= i < |ws| ==> ParseInt(ws[i]) == Some(ns[i])
    ensures ParseInts(ws) == Some(ns)
    decreases |ws|
  {
    if |ws| > 0 {
      assert forall i :: 0 <= i < |ws| - 1 ==> ws[1..][i] == ws[i + 1] && ns[1..][i] == ns[i + 1];
      ParseIntsAll(ws[1..], ns[1..]);
      assert ns == [ns[0]] + ns[1..];
    }
  }

  lemma MediaJoin(name: string, p: string, ps: seq<string>)
    requires |ps| > 0
    ensures Join([name] + ([p] + (["RTP/AVP"] + ps)), " ") == name + " " + (p + " " + ("RTP/AVP" + " " + Join(ps, " ")))
  {
    var w2 := ["RTP/AVP"] + ps;
    JoinCons("RTP/AVP", ps, " ");
    JoinCons(p, w2, " ");
    JoinCons(name, [p] + w2, " ");
  }

  /** The media line is its words space-joined: name, port, profile, payload types. */
  lemma MediaWords(name: string, port: int, payloads: seq<int>, ws: seq<string>)
    requires |payloads| > 0
    requires ws == [name] + ([IntToString(port)] + (["RTP/AVP"] + PayloadWords(payloads)))
    ensures MediaLine(name, port, payloads) == ['m', '='] + Join(ws, " ")
  {
    var p, j := IntToString(port), Join(PayloadWords(payloads), " ");
    MediaJoin(name, p, PayloadWords(payloads));
    ProfileSeparators();
    Regroup("m=", name, " ", p, "RTP/AVP", j);
  }

  lemma ProfileSeparators()
    ensures " RTP/AVP " == " " + "RTP/AVP" + " " && "m=" == ['m', '=']
  {
  }

  lemma Regroup(a: string, n: string, s: string, p: string, r: string, j: string)
    ensures a + n + s + p + (s + r + s) + j == a + (n + s + (p + s + (r + s + j)))
  {
  }

  /** The media line starts a description at the message's address. */
  lemma MediaRead(m: Message, name: string, port: int, payloads: seq<int>)
    requires |name| > 0 && NoSpace(name) && |payloads| > 0
    ensures ParseLine(m, MediaLine(name, port, payloads))
         == Success(m.(descriptions := m.descriptions + [NewDescription(name, port, Ip(m), payloads)]))
  {
    var ws := [name] + ([IntToString(port)] + (["RTP/AVP"] + PayloadWords(payloads)));
    assert ws[3..] == PayloadWords(payloads);
    MediaWords(name, port, payloads, ws);
    MediaWordsSpaceless(name, port, payloads, ws);
    FieldLine(m, 'm', ws);
    ParseIntToString(port);
    ParseIntsOfWords(payloads);
    var j := Join(ws, " ");
    assert Words(j)[0] == name && ParseInt(Words(j)[1]) == Some(port);
    assert ParseInts(From(Words(j), 3)) == Some(payloads);
    assert ParseField(m, 'm', j) == Success(m.(descriptions := m.descriptions + [NewDescription(name, port, Ip(m), payloads)]));
  }

  lemma MediaWordsSpaceless(name: string, port: int, payloads: seq<int>, ws: seq<string>)
    requires |name| > 0 && NoSpace(name)
    requires ws == [name] + ([IntToString(port)] + (["RTP/AVP"] + PayloadWords(payloads)))
    ensures forall i :: 0 <= i < |ws| ==> |ws[i]| > 0 && NoSpace(ws[i])
  {
    ProfileSpaceless();
    var ps := PayloadWords(payloads);
    forall i | 0 <= i < |ws| ensures |ws[i]| > 0 && NoSpace(ws[i]) {
      if i == 0 {
        assert ws[i] == name;
      } else if i == 1 {
        assert ws[i] == IntToString(port);
      } else if i == 2 {
        assert ws[i] == "RTP/AVP";
      } else {
        assert ws[i] == ps[i - 3];
      }
    }
  }

  lemma ProfileSpaceless()
    ensures |"RTP/AVP"| > 0 && NoSpace("RTP/AVP")
  {
  }

  /** The connection line is its three words space-joined. */
  lemma ConnectionWords(ip: string, ws: seq<string>)
    requires ws == ["IN", "IP4", ip]
    ensures ConnectionLine(ip) == ['c', '='] + Join(ws, " ")
  {
    ConnectionPrefix();
    JoinSnoc(["IN", "IP4"], ip, " ");
    assert ws == ["IN", "IP4"] + [ip];
    Regroup3(['c', '='], Join(["IN", "IP4"], " "), " ", ip);
  }

  lemma ConnectionPrefix()
    ensures "c=IN IP4 " == ['c', '='] + Join(["IN", "IP4"], " ") + " "
  {
    assert Join(["IN", "IP4"], " ") == "IN IP4";
  }

  /** The connection line sets the session address before the first description, and the
      current description's after. */
  lemma ConnectionRead(m: Message, ip: string)
    requires |ip| > 0 && NoSpace(ip)
    ensures |m.descriptions| == 0 ==> ParseLine(m, ConnectionLine(ip)) == Success(m.(ip := ip))
    ensures |m.descriptions| > 0 ==>
      ParseLine(m, ConnectionLine(ip)) == Success(WithLast(m, m.descriptions[|m.descriptions| - 1].(ip := ip)))
  {
    var ws := ["IN", "IP4", ip];
    ConnectionWords(ip, ws);
    ConnectionWordsSpaceless(ip, ws);
    FieldLine(m, 'c', ws);
    var j := Join(ws, " ");
    assert |Words(j)| == 3 && Words(j)[2] == ip;
    if |m.descriptions| == 0 {
      assert ParseField(m, 'c', j) == Success(m.(ip := ip));
    } else {
      assert ParseField(m, 'c', j) == Success(WithLast(m, m.descriptions[|m.descriptions| - 1].(ip := ip)));
    }
  }

  lemma ConnectionWordsSpaceless(ip: string, ws: seq<string>)
    requires |ip| > 0 && NoSpace(ip) && ws == ["IN", "IP4", ip]
    ensures forall i :: 0 <= i < |ws| ==> |ws[i]| > 0 && NoSpace(ws[i])
  {
  }

  /** A line of a key the parser does not read is skipped. */
  lemma OtherKeySkipped(m: Message, line: string)
    requires |line| >= 2 && line[1] == '=' && line[0] !in {'o', 'm', 'c', 'a'}
    requires Strip(line) == line
    ensures ParseLine(m, line) == Success(m)
  {
  }

  /** The version line `__str__` writes first is skipped. */
  lemma VersionSkipped(m: Message, rest: seq<string>)
    ensures ParseLines(m, ["v=0"] + rest) == ParseLines(m, rest)
  {
    VersionIgnored(m);
    ParseLinesCons(m, "v=0", rest, m);
  }

  lemma VersionIgnored(m: Message)
    ensures ParseLine(m, "v=0") == Success(m)
  {
    StripNoSpace("v=0");
    OtherKeySkipped(m, "v=0");
  }

  /** The session name, bandwidth and timing lines `__str__` writes after the origin are
      skipped. */
  lemma SessionLinesSkipped(m: Message, rest: seq<string>)
    ensures ParseLines(m, ["s=session"] + (["b=CT:99980"] + (["t=0 0"] + rest))) == ParseLines(m, rest)
  {
    SessionNameIgnored(m);
    BandwidthIgnored(m);
    TimingIgnored(m);
    ParseLinesCons(m, "t=0 0", rest, m);
    ParseLinesCons(m, "b=CT:99980", ["t=0 0"] + rest, m);
    ParseLinesCons(m, "s=session", ["b=CT:99980"] + (["t=0 0"] + rest), m);
  }

  lemma SessionNameIgnored(m: Message)
    ensures ParseLine(m, "s=session") == Success(m)
  {
    StripNoSpace("s=session");
    OtherKeySkipped(m, "s=session");
  }

  lemma BandwidthIgnored(m: Message)
    ensures ParseLine(m, "b=CT:99980") == Success(m)
  {
    StripNoSpace("b=CT:99980");
    OtherKeySkipped(m, "b=CT:99980");
  }

  lemma TimingIgnored(m: Message)
    ensures ParseLine(m, "t=0 0") == Success(m)
  {
    WhitespaceIsSpace('t');
    WhitespaceIsSpace('0');
    StripSetUnchanged("t=0 0", Whitespace);
    OtherKeySkipped(m, "t=0 0");
  }

  /** The lines `__str__` writes for a message with one description, before its attributes. */
  function Lines(ip: string, name: string, port: int, payloads: seq<int>, mediaIp: string): seq<string> {
    ["v=0"] + ([OriginLine(ip)] + (["s=session"] + (["b=CT:99980"] + (["t=0 0"] +
      ([MediaLine(name, port, payloads)] + [ConnectionLine(mediaIp)])))))
  }

  lemma ParseLinesCons(m: Message, line: string, rest: seq<string>, m1: Message)
    requires ParseLine(m, line) == Success(m1)
    ensures ParseLines(m, [line] + rest) == ParseLines(m1, rest)
  {
    assert ([line] + rest)[1..] == rest;
  }

  /** Two lines read one after the other. */
  lemma TwoLines(m: Message, l1: string, l2: string, m2: Message, m3: Message)
    requires ParseLine(m, l1) == Success(m2) && ParseLine(m2, l2) == Success(m3)
    ensures ParseLines(m, [l1] + [l2]) == Success(m3)
  {
    ParseLinesCons(m2, l2, [], m3);
    assert [l2] == [l2] + [];
    ParseLinesCons(m, l1, [l2], m2);
  }

  lemma NewDescriptionAt(name: string, port: int, ip: string, ip2: string, payloads: seq<int>)
    ensures NewDescription(name, port, ip, payloads).(ip := ip2) == NewDescription(name, port, ip2, payloads)
  {
  }

  /** The media and connection lines read after the session lines: one description, at the
      media address. */
  lemma MediaLinesRead(ip: string, name: string, port: int, payloads: seq<int>, mediaIp: string)
    requires |mediaIp| > 0 && NoSpace(mediaIp) && |name| > 0 && NoSpace(name) && |payloads| > 0
    ensures ParseLines(Message(ip, []), [MediaLine(name, port, payloads)] + [ConnectionLine(mediaIp)])
         == Success(Message(ip, [NewDescription(name, port, mediaIp, payloads)]))
  {
    var m1 := Message(ip, []);
    var d := NewDescription(name, port, ip, payloads);
    var d2 := NewDescription(name, port, mediaIp, payloads);
    MediaRead(m1, name, port, payloads);
    var m2 := m1.(descriptions := m1.descriptions + [d]);
    ConnectionRead(m2, mediaIp);
    NewDescriptionAt(name, port, ip, mediaIp, payloads);
    assert WithLast(m2, d.(ip := mediaIp)) == Message(ip, [d2]);
    TwoLines(m1, MediaLine(name, port, payloads), ConnectionLine(mediaIp), m2, Message(ip, [d2]));
  }

  /** Reading back what `__str__` writes gives the session address and one description with
      its name, port, payload types and address. */
  lemma LinesRead(ip: string, name: string, port: int, payloads: seq<int>, mediaIp: string)
    requires |ip| > 0 && NoSpace(ip) && |mediaIp| > 0 && NoSpace(mediaIp)
    requires |name| > 0 && NoSpace(name) && |payloads| > 0
    ensures ParseLines(Message("", []), Lines(ip, name, port, payloads, mediaIp))
         == Success(Message(ip, [NewDescription(name, port, mediaIp, payloads)]))
  {
    var m0, m1 := Message("", []), Message(ip, []);
    var tail := [MediaLine(name, port, payloads)] + [ConnectionLine(mediaIp)];
    MediaLinesRead(ip, name, port, payloads, mediaIp);
    SessionLinesSkipped(m1, tail);
    OriginRead(m0, ip);
    var afterOrigin := ["s=session"] + (["b=CT:99980"] + (["t=0 0"] + tail));
    ParseLinesCons(m0, OriginLine(ip), afterOrigin, m1);
    VersionSkipped(m0, [OriginLine(ip)] + afterOrigin);
  }

  /** A connection line before the media line gives the session address, which the description
      then takes as its own. */
  lemma SessionAddressInherited(ip: string, name: string, port: int, payloads: seq<int>)
    requires |ip| > 0 && NoSpace(ip) && |name| > 0 && NoSpace(name) && |payloads| > 0
    ensures ParseLines(Message("", []), [ConnectionLine(ip), MediaLine(name, port, payloads)])
         == Success(Message(ip, [NewDescription(name, port, ip, payloads)]))
  {
    var m0, m1 := Message("", []), Message(ip, []);
    ConnectionRead(m0, ip);
    MediaRead(m1, name, port, payloads);
    ParseLinesCons(m0, ConnectionLine(ip), [MediaLine(name, port, payloads)], m1);
    ParseLinesCons(m1, MediaLine(name, port, payloads), [], Message(ip, [NewDescription(name, port, ip, payloads)]));
  }

  /** A line that starts and ends with a non-space character is its own field. */
  lemma TrimmedLine(m: Message, key: char, val: string)
    requires !IsSpace(key) && |val| > 0 && !IsSpace(val[|val| - 1])
    ensures ParseLine(m, [key, '='] + val) == ParseField(m, key, val)
  {
    var l := [key, '='] + val;
    WhitespaceIsSpace(l[0]);
    assert l[|l| - 1] == val[|val| - 1];
    WhitespaceIsSpace(l[|l| - 1]);
    StripSetUnchanged(l, Whitespace);
    assert l[2..] == val;
  }

  lemma AttributeField(m: Message, key: string, value: string)
    requires |m.descriptions| > 0 && Lacks(key, ':')
    ensures var d := m.descriptions[|m.descriptions| - 1];
      ParseField(m, 'a', key + ":" + value)
        == match ParseAttribute(d, key, value)
           case Success(d2) => Success(WithLast(m, d2))
           case Failure(_) => Failure(InvalidField('a', key + ":" + value))
  {
    SplitOnceAfterPrefix(key, ":", value);
  }

  /** An `a=<key>:<value>` line after the first description is parsed as an attribute of the
      current description, an error in it failing the line. */
  lemma AttributeLine(m: Message, key: string, value: string)
    requires |m.descriptions| > 0 && Lacks(key, ':')
    requires |value| > 0 && !IsSpace(value[|value| - 1])
    ensures var d := m.descriptions[|m.descriptions| - 1];
      ParseLine(m, AttrLine(key, value))
        == match ParseAttribute(d, key, value)
           case Success(d2) => Success(WithLast(m, d2))
           case Failure(_) => Failure(InvalidField('a', key + ":" + value))
  {
    var val := key + ":" + value;
    assert val[|val| - 1] == value[|value| - 1];
    TrimmedLine(m, 'a', val);
    assert AttrLine(key, value) == ['a', '='] + val;
    AttributeField(m, key, value);
  }

  lemma LastNotSpace(s: string)
    requires |s| > 0 && NoSpace(s)
    ensures !IsSpace(s[|s| - 1])
  {
  }

  /** The `rtpmap` attribute the codecs setter writes for a codec sets, read back, that
      codec's encoding and clock rate and is recorded. */
  lemma RtpmapAttribute(d: Description, payload: int, encoding: string, clockrate: int, i: nat)
    requires FindCodec(d.codecs, payload) == Some(i)
    requires |encoding| > 0 && NoSpace(encoding) && Lacks(encoding, '/')
    ensures var v := BuildRtpmap(payload, encoding, clockrate);
      var c := d.codecs[i].(encoding := Some(encoding), clockrate := Some(clockrate));
      ParseAttribute(d, "rtpmap", v) == Success(AddAttribute(d.(codecs := d.codecs[i := c]), "rtpmap", Str(v)))
  {
    RtpmapRoundTrip(payload, encoding, clockrate);
  }

  /** The `fmtp` attribute the codecs setter writes for a codec sets, read back, that codec's
      parameters and is recorded. */
  lemma FmtpAttribute(d: Description, payload: int, params: seq<(string, string)>, i: nat)
    requires FindCodec(d.codecs, payload) == Some(i)
    requires Writable(params)
    ensures var v := BuildFmtp(payload, params);
      var c := d.codecs[i].(params := ParamsMap(params));
      ParseAttribute(d, "fmtp", v) == Success(AddAttribute(d.(codecs := d.codecs[i := c]), "fmtp", Str(v)))
  {
    FmtpRoundTrip(payload, params);
  }

  /** The `rtpmap` line, read back after the first description, updates the current
      description's codec. */
  lemma RtpmapLineRead(m: Message, payload: int, encoding: string, clockrate: int, i: nat)
    requires |m.descriptions| > 0
    requires FindCodec(m.descriptions[|m.descriptions| - 1].codecs, payload) == Some(i)
    requires |encoding| > 0 && NoSpace(encoding) && Lacks(encoding, '/')
    ensures var d := m.descriptions[|m.descriptions| - 1];
      var v := BuildRtpmap(payload, encoding, clockrate);
      var c := d.codecs[i].(encoding := Some(encoding), clockrate := Some(clockrate));
      ParseLine(m, AttrLine("rtpmap", v)) == Success(WithLast(m, AddAttribute(d.(codecs := d.codecs[i := c]), "rtpmap", Str(v))))
  {
    var d := m.descriptions[|m.descriptions| - 1];
    var v := BuildRtpmap(payload, encoding, clockrate);
    var t := IntToString(clockrate);
    assert v[|v| - 1] == t[|t| - 1];
    LastNotSpace(t);
    assert Lacks("rtpmap", ':');
    AttributeLine(m, "rtpmap", v);
    RtpmapAttribute(d, payload, encoding, clockrate, i);
  }

  /** The `fmtp` line the codecs setter adds for a codec with parameters, read back after the
      first description, updates the current description's codec. */
  lemma FmtpLineRead(m: Message, payload: int, params: seq<(string, string)>, i: nat)
    requires |m.descriptions| > 0
    requires FindCodec(m.descriptions[|m.descriptions| - 1].codecs, payload) == Some(i)
    requires |params| > 0 && Writable(params)
    ensures var d := m.descriptions[|m.descriptions| - 1];
      var v := BuildFmtp(payload, params);
      var c := d.codecs[i].(params := ParamsMap(params));
      ParseLine(m, AttrLine("fmtp", v)) == Success(WithLast(m, AddAttribute(d.(codecs := d.codecs[i := c]), "fmtp", Str(v))))
  {
    var d := m.descriptions[|m.descriptions| - 1];
    var v := BuildFmtp(payload, params);
    FmtpEndsInWord(payload, params);
    assert Lacks("fmtp", ':');
    AttributeLine(m, "fmtp", v);
    FmtpAttribute(d, payload, params, i);
  }

  lemma FmtpEndsInWord(payload: int, params: seq<(string, string)>)
    requires |params| > 0 && Writable(params)
    ensures var v := BuildFmtp(payload, params); |v| > 0 && !IsSpace(v[|v| - 1])
  {
    var v := BuildFmtp(payload, params);
    var ts := Tokens(params);
    forall k | 0 <= k < |params| ensures |ts[k]| > 0 && NoSpace(ts[k]) {
      ParamTokenRoundTrip(params[k]);
    }
    JoinEnds(ts);
    var j := Join(ts, " ");
    assert BuildParamsList(params) == j;
    assert v[|v| - 1] == j[|j| - 1];
  }

  /** A bare `a=<flag>` line records the flag without a value. */
  lemma FlagLineRead(m: Message, flag: string)
    requires |m.descriptions| > 0 && |flag| > 0 && NoSpace(flag) && Lacks(flag, ':')
    ensures ParseLine(m, "a=" + flag) == Success(WithLast(m, AddAttribute(m.descriptions[|m.descriptions| - 1], flag, NoValue)))
  {
    LastNotSpace(flag);
    TrimmedLine(m, 'a', flag);
    assert "a=" + flag == ['a', '='] + flag;
    NoOccurrenceWithoutHead(flag, ":");
  }

  /** The RTCP port line, read back, sets the current description's RTCP port. */
  lemma RtcpLineRead(m: Message, port: int)
    requires |m.descriptions| > 0
    ensures var d := m.descriptions[|m.descriptions| - 1];
      ParseLine(m, AttrLine("rtcp", IntToString(port))) == Success(WithLast(m, d.(attributes := d.attributes["rtcp" := [Num(port)]])))
  {
    var t := IntToString(port);
    LastNotSpace(t);
    assert Lacks("rtcp", ':');
    AttributeLine(m, "rtcp", t);
    ParseIntToString(port);
  }
}

=== FILE: session.dfy ===
/** The signalling state of one peer-to-peer session (`papyon/msnp2p/session.py`): its id,
    Call-ID, CSeq and branch, the protocol version, the SLP messages it sends, and how it reacts
    to incoming SLP messages, data events and its two timeouts.

    Sending, the transport manager and the session registry are outside this module: each
    operation returns the new session together with the list of actions it asks of them, in
    order. The random draws (session id, Call-ID, branches, nonces) are parameters. */
module Session {
  import opened Results
  import opened Text
  import opened Bytes
  import Slp
  import SlpBody
  import Timer
  import Uuids

  const MAX_INT32: int := 0x7fffffff
  /** Names of the two timeouts: the INVITE's answer (60 s) and the closing BYE (5 s). */
  const RESPONSE: string := "response"
  const BYE: string := "bye"

  datatype Signal = Accepted | Rejected | Completed | Progressed(size: int) | Canceled | Disposed

  datatype Action =
    | Register(sessionId: int)                       // the session manager records the session
    | SendSlp(m: Out)                                // to the peer
    | SendSlpTo(endPoint: string, m: Out)            // to one of the own profile's end points
    | SendData(data: seq<byte>)
    | Emit(signal: Signal)
    | Cleanup(sessionId: int)                        // transport manager: drop queued data
    | Unregister(sessionId: int)                     // session manager: forget and blacklist
    | Listen                                         // a new bridge starts listening
    | OpenBridge(nonce: Option<Uuids.Uuid>, ip: string, port: int)

  /** The own client: account, machine GUID, p2pv2 support and the profile's end points. */
  datatype Local = Local(account: string, machineGuid: string, supportsV2: bool, endPoints: seq<string>)
  /** The peer: account, the GUID of the end point talked to, p2pv2 support and how many end
      points it announces. */
  datatype Remote = Remote(account: string, guid: string, supportsV2: bool, endPoints: nat)

  datatype Session = Session(
    local: Local, peer: Remote, eufGuid: string, appId: int,
    id: int, callId: string, cseq: int, branch: string, incoming: bool, version: nat,
    completed: bool, data: Option<seq<byte>>, timers: Timer.Timer<int>)

  /** Version 2 exactly when both sides support p2pv2. */
  function Version(local: Local, peer: Remote): (v: nat)
    ensures v == 2 <==> local.supportsV2 && peer.supportsV2
    ensures v == 1 <==> !(local.supportsV2 && peer.supportsV2)
  {
    if local.supportsV2 && peer.supportsV2 then 2 else 1
  }

  /** `build_account`: an account qualified by an end point. */
  function BuildAccount(account: string, guid: string): string {
    account + ";{" + guid + "}"
  }

  /** The own identity in messages: bare in version 1, qualified by the machine GUID after. */
  function LocalId(s: Session): (r: string)
    ensures s.version >= 2 ==> r == BuildAccount(s.local.account, s.local.machineGuid)
    ensures s.version < 2 ==> r == s.local.account
  {
    if s.version >= 2 then BuildAccount(s.local.account, s.local.machineGuid) else s.local.account
  }

  /** The peer's identity in messages, qualified by its GUID from version 2 on. */
  function RemoteId(s: Session): (r: string)
    ensures s.version >= 2 ==> r == BuildAccount(s.peer.account, s.peer.guid)
    ensures s.version < 2 ==> r == s.peer.account
  {
    if s.version >= 2 then BuildAccount(s.peer.account, s.peer.guid) else s.peer.account
  }

  /** `"{%s}" % uuid.uuid4()`. */
  function Braced(u: Uuids.Uuid): string {
    "{" + Uuids.Format(u) + "}"
  }

  // ---------------------------------------------------------------------------
  // Creation

  /** A session we start: an id drawn from [1000, 0x7fffffff], CSeq 0, a fresh Call-ID and a
      fresh branch; it registers itself. */
  function Outgoing(local: Local, peer: Remote, eufGuid: string, appId: int, id: int,
                    callId: Uuids.Uuid, branch: Uuids.Uuid): (r: (Session, seq<Action>))
    requires 1000 <= id <= MAX_INT32
    ensures r.0.id == id && r.0.cseq == 0 && !r.0.incoming && r.0.version == Version(local, peer)
    ensures r.0.callId == Braced(callId) && r.0.branch == Braced(branch)
    ensures r.1 == [Register(id)]
  {
    (Session(local, peer, eufGuid, appId, id, Braced(callId), 0, Braced(branch), false, Version(local, peer),
             false, None, Timer.New()), [Register(id)])
  }

  /** A session the peer started: id, Call-ID, CSeq and branch come from its INVITE. `None`
      where reading them raises (an unreadable CSeq or a malformed Via). */
  function Incoming(local: Local, peer: Remote, eufGuid: string, appId: int, m: Slp.Message): (r: Option<(Session, seq<Action>)>)
    ensures r.Some? <==> Slp.CSeq(m).Some? && Slp.Branch(m).Some?
    ensures r.Some? ==> r.value.0.incoming && r.value.0.id == SlpBody.SessionId(m.body) && r.value.0.callId == Slp.CallId(m)
    ensures r.Some? ==> Some(r.value.0.cseq) == Slp.CSeq(m) && Some(r.value.0.branch) == Slp.Branch(m)
    ensures r.Some? ==> r.value.1 == [Register(SlpBody.SessionId(m.body))]
  {
    match (Slp.CSeq(m), Slp.Branch(m))
    case (Some(cseq), Some(branch)) =>
      var id := SlpBody.SessionId(m.body);
      Some((Session(local, peer, eufGuid, appId, id, Slp.CallId(m), cseq, branch, true, Version(local, peer),
                    false, None, Timer.New()), [Register(id)]))
    case _ => None
  }

  // ---------------------------------------------------------------------------
  // Messages

  /** The bodies a session writes. */
  datatype Content =
    | SessionReq(eufGuid: Option<string>, appId: Option<int>, context: Option<seq<byte>>, sessionId: int,
                 sChannelState: Option<int>, capabilities: Option<int>)
    | TransportReq(sessionId: int, bridges: seq<string>, connType: string, nonce: Uuids.Uuid)
    | SessionEnd(context: Option<seq<byte>>, sessionId: int, reason: Option<(int, string)>)
    | TransportNone(sessionId: int)

  /** The SLP body of each kind, with the constructor defaults the session relies on. */
  function Body(c: Content): SlpBody.Body {
    match c
    case SessionReq(euf, app, ctx, id, sc, caps) => SlpBody.SessionRequest(euf, app, ctx, Some(id), sc, caps)
    case TransportReq(id, bridges, connType, nonce) =>
      SlpBody.TransportRequest(Some(id), Some(0), Some(1), bridges, connType, false, false, nonce)
    case SessionEnd(ctx, id, reason) => SlpBody.SessionClose(ctx, Some(id), reason, Some(0), None)
    case TransportNone(id) =>
      SlpBody.TransportResponse(None, None, None, None, None, None, None, Some(id), None, None, SlpBody.UNKNOWN_CONNECT, 1)
  }

  /** A message as a session writes it: the start line, the values of the standard headers and
      the body; `Render` makes the SLP message. */
  datatype Out = Out(start: Slp.StartLine, to: string, frm: string, branch: string, cseq: int, callId: string,
                     onBehalf: string, content: Content)

  function Render(o: Out): Slp.Message {
    Slp.Message(o.start, Slp.StdHeaders(o.to, o.frm, o.branch, o.cseq, o.callId, 0, o.onBehalf), Body(o.content))
  }

  /** A request from this session to the peer, with the session's branch and CSeq. */
  function Request(s: Session, verb: string, content: Content): (o: Out)
    ensures o.cseq == s.cseq && o.branch == s.branch && o.callId == s.callId && o.content == content
    ensures o.to == RemoteId(s) && o.frm == LocalId(s) && o.start == Slp.RequestLine(verb, "MSNMSGR:" + RemoteId(s))
  {
    Out(Slp.RequestLine(verb, "MSNMSGR:" + RemoteId(s)), RemoteId(s), LocalId(s), s.branch, s.cseq, s.callId, "", content)
  }

  /** A response from this session to the peer, on the given branch. */
  function Response(s: Session, status: int, branch: string, content: Content): (o: Out)
    ensures o.cseq == s.cseq && o.branch == branch && o.callId == s.callId && o.content == content
    ensures o.to == RemoteId(s) && o.frm == LocalId(s) && o.start == Slp.StatusLine(status, None)
  {
    Out(Slp.StatusLine(status, None), RemoteId(s), LocalId(s), branch, s.cseq, s.callId, "", content)
  }

  /** `_invite`: an INVITE carrying a session request, and the response timeout armed. */
  function SendInvite(s: Session, context: seq<byte>): (r: (Session, seq<Action>))
    ensures RESPONSE in Timer.Timeouts(r.0.timers)
    ensures r.0 == s.(timers := r.0.timers)
    ensures r.1 == [SendSlp(Request(s, "INVITE", SessionReq(Some(s.eufGuid), Some(s.appId), Some(context), s.id, Some(0), Some(1))))]
  {
    var content := SessionReq(Some(s.eufGuid), Some(s.appId), Some(context), s.id, Some(0), Some(1));
    (s.(timers := Timer.Start(s.timers, RESPONSE, [])), [SendSlp(Request(s, "INVITE", content))])
  }

  /** `_transreq`: CSeq back to 0, then an INVITE carrying a transport request. */
  function TransReq(s: Session, bridges: seq<string>, connType: string, nonce: Uuids.Uuid): (r: (Session, seq<Action>))
    ensures r.0 == s.(cseq := 0)
    ensures r.1 == [SendSlp(Request(r.0, "INVITE", TransportReq(s.id, bridges, connType, nonce)))]
  {
    var s' := s.(cseq := 0);
    (s', [SendSlp(Request(s', "INVITE", TransportReq(s.id, bridges, connType, nonce)))])
  }

  /** The own end points to be told that this client answered: none when the peer announces
      end points of its own, otherwise every own end point but this machine. */
  function OtherEndPoints(s: Session): (r: seq<string>)
    ensures s.peer.endPoints > 0 ==> r == []
    ensures s.peer.endPoints == 0 ==> forall e :: e in r <==> e in s.local.endPoints && e != s.local.machineGuid
  {
    if s.peer.endPoints > 0 then [] else Others(s.local.endPoints, s.local.machineGuid)
  }

  function Others(es: seq<string>, self: string): (r: seq<string>)
    ensures forall e :: e in r <==> e in es && e != self
  {
    if es == [] then []
    else if es[0] == self then Others(es[1..], self)
    else [es[0]] + Others(es[1..], self)
  }

  /** `_close_end_points`: a BYE on the peer's behalf to each other own end point, the i-th
      with CSeq 0 and a fresh branch `draws(k + i)`. */
  function EndPointByes(s: Session, status: int, targets: seq<string>, draws: nat -> Uuids.Uuid, k: nat): (r: seq<Action>)
    ensures |r| == |targets|
    ensures forall i :: 0 <= i < |r| ==> r[i].SendSlpTo? && r[i].endPoint == targets[i]
    decreases |targets|
  {
    if targets == [] then []
    else
      var m := Out(Slp.RequestLine("BYE", "MSNMSGR:" + s.local.account), s.local.account, s.peer.account,
                   Braced(draws(k)), 0, s.callId, s.peer.account, SessionEnd(None, s.id, Some((status, s.local.machineGuid))));
      [SendSlpTo(targets[0], m)] + EndPointByes(s, status, targets[1..], draws, k + 1)
  }

  /** `_respond`: CSeq up by one and the response sent with it; then each other own end point
      is closed, which leaves CSeq at 0 and the branch at the last one drawn. */
  function Respond(s: Session, status: int, draws: nat -> Uuids.Uuid): (r: (Session, seq<Action>))
    ensures |r.1| == 1 + |OtherEndPoints(s)| && r.1[0] == SendSlp(RespondMessage(s, status))
    ensures OtherEndPoints(s) == [] ==> r.0 == s.(cseq := s.cseq + 1)
    ensures OtherEndPoints(s) != [] ==> r.0 == s.(cseq := 0, branch := Braced(draws(|OtherEndPoints(s)| - 1)))
  {
    var targets := OtherEndPoints(s);
    var byes := EndPointByes(s, status, targets, draws, 0);
    var s' := if targets == [] then s.(cseq := s.cseq + 1) else s.(cseq := 0, branch := Braced(draws(|targets| - 1)));
    (s', [SendSlp(RespondMessage(s, status))] + byes)
  }

  /** The response `_respond` sends: a bare session request body with the session id. */
  function RespondMessage(s: Session, status: int): (o: Out)
    ensures o.cseq == s.cseq + 1 && o.branch == s.branch && o.callId == s.callId
    ensures o.start == Slp.StatusLine(status, None) && o.content == SessionReq(None, None, None, s.id, None, None)
  {
    Response(s.(cseq := s.cseq + 1), status, s.branch, SessionReq(None, None, None, s.id, None, None))
  }

  /** `_accept`. */
  function Accept(s: Session, draws: nat -> Uuids.Uuid): (r: (Session, seq<Action>))
    ensures |r.1| >= 1 && r.1[0] == SendSlp(RespondMessage(s, 200))
  {
    Respond(s, 200, draws)
  }

  /** `_decline`: respond with the status, then dispose. */
  function Decline(s: Session, status: int, draws: nat -> Uuids.Uuid): (r: (Session, seq<Action>))
    ensures |r.1| >= 1 && r.1[0] == SendSlp(RespondMessage(s, status)) && Disposes(r)
  {
    var a := Respond(s, status, draws);
    var b := Dispose(a.0);
    (b.0, a.1 + b.1)
  }

  /** `_respond_transreq`: CSeq up by one, the answer on the transport request's branch. */
  function RespondTransreq(s: Session, branch: string, status: int, body: Content): (r: (Session, seq<Action>))
    ensures r.0 == s.(cseq := s.cseq + 1)
    ensures r.1 == [SendSlp(Response(r.0, status, branch, body))]
  {
    var s' := s.(cseq := s.cseq + 1);
    (s', [SendSlp(Response(s', status, branch, body))])
  }

  /** `_decline_transreq`: a 603 carrying only the session id, then dispose. */
  function DeclineTransreq(s: Session, branch: string): (r: (Session, seq<Action>))
    ensures Disposes(r) && r.1[0] == SendSlp(Response(s.(cseq := s.cseq + 1), 603, branch, TransportNone(s.id)))
  {
    var a := RespondTransreq(s, branch, 603, TransportNone(s.id));
    var b := Dispose(a.0);
    (b.0, a.1 + b.1)
  }

  /** `_dispose`: every timeout stopped, the transport cleaned up, the session unregistered,
      then `disposed`. */
  function Dispose(s: Session): (r: (Session, seq<Action>))
    ensures Timer.Timeouts(r.0.timers) == {} && r.0 == s.(timers := r.0.timers)
    ensures r.1 == [Cleanup(s.id), Unregister(s.id), Emit(Disposed)]
  {
    (s.(timers := Timer.StopAll(s.timers)), [Cleanup(s.id), Unregister(s.id), Emit(Disposed)])
  }

  /** The outcome of a step that ends in `_dispose`. */
  predicate Disposes(r: (Session, seq<Action>)) {
    |r.1| >= 3 && r.1[|r.1| - 1] == Emit(Disposed) && Timer.Timeouts(r.0.timers) == {}
  }

  /** `_close`: CSeq 0, a fresh branch, a BYE carrying a session-close body, then dispose. */
  function Close(s: Session, context: Option<seq<byte>>, reason: Option<(int, string)>, branch: Uuids.Uuid): (r: (Session, seq<Action>))
    ensures r.0.cseq == 0 && r.0.branch == Braced(branch) && Disposes(r)
    ensures r.1[0] == SendSlp(Request(s.(cseq := 0, branch := Braced(branch)), "BYE", SessionEnd(context, s.id, reason)))
  {
    var s' := s.(cseq := 0, branch := Braced(branch));
    var bye := Request(s', "BYE", SessionEnd(context, s.id, reason));
    var d := Dispose(s');
    (d.0, [SendSlp(bye)] + d.1)
  }

  // ---------------------------------------------------------------------------
  // Bridges and data

  /** `_on_bridge_selected`: with data to send, four zero bytes go first, then the data. */
  function OnBridgeSelected(s: Session): (r: seq<Action>)
    ensures r != [] <==> s.data.Some? && |s.data.value| > 0
    ensures r != [] ==> r == [SendData(Zeros(4)), SendData(s.data.value)]
  {
    if s.data.Some? && |s.data.value| > 0 then [SendData(Zeros(4)), SendData(s.data.value)] else []
  }

  /** `_request_bridge`: an active bridge with a rating above -1 is used at once, otherwise a
      transport request goes out. `activeRating` is the rating of the bridge the transport
      manager finds, if any. */
  function RequestBridge(s: Session, activeRating: Option<int>, bridges: seq<string>, connType: string,
                         nonce: Uuids.Uuid): (r: (Session, seq<Action>))
    ensures activeRating.Some? && activeRating.value > -1 ==> r == (s, OnBridgeSelected(s))
    ensures !(activeRating.Some? && activeRating.value > -1) ==> r == TransReq(s, bridges, connType, nonce)
  {
    if activeRating.Some? && activeRating.value > -1 then (s, OnBridgeSelected(s))
    else TransReq(s, bridges, connType, nonce)
  }

  /** `_switch_bridge`: the default transport is always chosen (direct connections are switched
      off); a bridge already connected, or none created, is used at once, otherwise it listens. */
  function SwitchBridge(s: Session, bridgeReady: bool): (r: seq<Action>)
    ensures bridgeReady ==> r == OnBridgeSelected(s)
    ensures !bridgeReady ==> r == [Listen]
  {
    if bridgeReady then OnBridgeSelected(s) else [Listen]
  }

  datatype BridgeError = NoAddress   // `internal_ips[0]` on an empty list raises IndexError

  /** `_transreq_accepted`: a peer that is not listening makes the session fall back to the
      bridge it has (`_bridge_failed`); otherwise a new bridge opens to the first external
      address, or to the first internal one when there is no external address. */
  function TransreqAccepted(s: Session, body: SlpBody.Body, bridgeReady: bool): (r: Result<seq<Action>, BridgeError>)
    ensures !SlpBody.Listening(body) ==> r == Success(OnBridgeSelected(s))
    ensures SlpBody.Listening(body) && !bridgeReady && |SlpBody.ExternalIps(body, s.version)| > 0 ==>
      r == Success([OpenBridge(SlpBody.NonceOf(body), SlpBody.ExternalIps(body, s.version)[0], SlpBody.ExternalPort(body, s.version))])
    ensures SlpBody.Listening(body) && !bridgeReady && |SlpBody.ExternalIps(body, s.version)| == 0 ==>
      (r.Failure? <==> |SlpBody.InternalIps(body, s.version)| == 0)
  {
    if !SlpBody.Listening(body) then Success(OnBridgeSelected(s))
    else if bridgeReady then Success(OnBridgeSelected(s))
    else
      var ext := SlpBody.ExternalIps(body, s.version);
      var inner := SlpBody.InternalIps(body, s.version);
      if |ext| > 0 then Success([OpenBridge(SlpBody.NonceOf(body), ext[0], SlpBody.ExternalPort(body, s.version))])
      else if |inner| > 0 then Success([OpenBridge(SlpBody.NonceOf(body), inner[0], SlpBody.InternalPort(body, s.version))])
      else Failure(NoAddress)
  }

  /** `_on_data_sent`: completed, reported, and a BYE timeout armed. */
  function OnDataSent(s: Session, data: seq<byte>): (r: (Session, seq<Action>))
    ensures r.0.completed && BYE in Timer.Timeouts(r.0.timers) && r.1 == [Emit(Completed)]
  {
    (s.(completed := true, timers := Timer.Start(s.timers, BYE, [])), [Emit(Completed)])
  }

  /** `_on_data_received`: completed, reported, then the session closes. */
  function OnDataReceived(s: Session, branch: Uuids.Uuid): (r: (Session, seq<Action>))
    ensures r.0.completed && Disposes(r) && r.1[0] == Emit(Completed)
  {
    var c := Close(s.(completed := true), None, None, branch);
    (c.0, [Emit(Completed)] + c.1)
  }

  /** `_on_data_transferred`: progress is reported. */
  function OnDataTransferred(s: Session, size: int): (r: seq<Action>)
    ensures r == [Emit(Progressed(size))]
  {
    [Emit(Progressed(size))]
  }

  /** A timeout firing: `on_response_timeout` closes the session, `on_bye_timeout` disposes of
      it; a timeout not armed does nothing. */
  function OnTimeout(s: Session, name: string, branch: Uuids.Uuid): (r: (Session, seq<Action>))
    ensures name !in Timer.Timeouts(s.timers) ==> r == (s, [])
    ensures name == RESPONSE && name in Timer.Timeouts(s.timers) ==> r.0.cseq == 0 && r.0.branch == Braced(branch) && Disposes(r)
    ensures name == BYE && name in Timer.Timeouts(s.timers) ==> Disposes(r)
  {
    if name !in Timer.Timeouts(s.timers) then (s, [])
    else
      var s' := s.(timers := Timer.OnTimeout(s.timers, name, {Timer.HandlerName(RESPONSE), Timer.HandlerName(BYE)}).0);
      if name == RESPONSE then Close(s', None, None, branch)
      else if name == BYE then Dispose(s')
      else (s', [])
  }

  // ---------------------------------------------------------------------------
  // Incoming SLP

  /** `_on_slp_message_received`: requests dispatch on their body (session request, transport
      request, close); answers to our session request stop the response timeout and report
      acceptance (200) or rejection (603, then dispose); a 200 to our transport request sets up
      the bridge. Anything else is ignored. */
  function OnSlpMessage(s: Session, m: Slp.Message, bridgeReady: bool): (r: Result<(Session, seq<Action>), BridgeError>)
  {
    var kind := m.body.kind;
    match m.start
    case RequestLine(_, _) =>
      if kind == SlpBody.SESSION_REQUEST then Success((s, []))
      else if kind == SlpBody.TRANSPORT_REQUEST then Success((s, SwitchBridge(s, bridgeReady)))
      else if kind == SlpBody.SESSION_CLOSE then Success(Dispose(s))
      else Success((s, []))
    case StatusLine(status, _) =>
      if kind == SlpBody.SESSION_REQUEST then
        var s' := s.(timers := Timer.Stop(s.timers, RESPONSE).0);
        if status == 200 then Success((s', [Emit(Accepted)]))
        else if status == 603 then
          var d := Dispose(s');
          Success((d.0, [Emit(Rejected)] + d.1))
        else Success((s', []))
      else if kind == SlpBody.TRANSPORT_RESPONSE && status == 200 then
        match TransreqAccepted(s, m.body, bridgeReady)
        case Failure(e) => Failure(e)
        case Success(acts) => Success((s, acts))
      else Success((s, []))
  }

  // ---------------------------------------------------------------------------
  // Properties

  /** A branch the Via header carries and gives back: no `=`, nothing to strip. */
  predicate CleanBranch(branch: string) {
    Lacks(branch, '=') && Strip(branch) == branch
  }

  /** What the peer reads from a rendered message: the standard header values as written. */
  lemma Rendered(o: Out)
    requires CleanBranch(o.branch)
    ensures var m := Render(o);
      && Slp.From(m) == Some(o.frm) && Slp.CSeq(m) == Some(o.cseq) && Slp.CallId(m) == o.callId
      && Slp.Branch(m) == Some(o.branch) && m.start == o.start && m.body == Body(o.content)
  {
    Slp.StdAccessors(Render(o), o.to, o.frm, o.branch, o.cseq, o.callId, 0, o.onBehalf);
  }

  /** The INVITE names this session: its CSeq, Call-ID, branch and id, from the local identity
      to the remote one, with the session's EUF-GUID and application id. */
  lemma InviteHeaders(s: Session, context: seq<byte>)
    requires CleanBranch(s.branch)
    ensures var m := Render(SendInvite(s, context).1[0].m);
      && m.start == Slp.RequestLine("INVITE", "MSNMSGR:" + RemoteId(s))
      && Slp.From(m) == Some(LocalId(s)) && Slp.CSeq(m) == Some(s.cseq) && Slp.CallId(m) == s.callId
      && Slp.Branch(m) == Some(s.branch) && SlpBody.SessionId(m.body) == s.id
      && SlpBody.EufGuid(m.body) == s.eufGuid && SlpBody.ApplicationId(m.body) == s.appId
      && SlpBody.Context(m.body) == Some(context)
  {
    Rendered(SendInvite(s, context).1[0].m);
    SlpBody.SessionRequestAccessors(Some(s.eufGuid), Some(s.appId), Some(context), Some(s.id), Some(0), Some(1));
  }

  /** The peer's session built from our INVITE has our id, Call-ID, CSeq and branch. */
  lemma IncomingMirrorsOutgoing(s: Session, context: seq<byte>, local: Local, peer: Remote, eufGuid: string, appId: int)
    requires CleanBranch(s.branch)
    ensures var r := Incoming(local, peer, eufGuid, appId, Render(SendInvite(s, context).1[0].m));
      && r.Some? && r.value.0.id == s.id && r.value.0.callId == s.callId
      && r.value.0.cseq == s.cseq && r.value.0.branch == s.branch
  {
    InviteHeaders(s, context);
  }

  /** The response carries the incremented CSeq, the session's branch, Call-ID and id. */
  lemma RespondHeaders(s: Session, status: int)
    requires CleanBranch(s.branch)
    ensures var m := Render(RespondMessage(s, status));
      && m.start == Slp.StatusLine(status, None) && Slp.CSeq(m) == Some(s.cseq + 1)
      && Slp.Branch(m) == Some(s.branch) && Slp.CallId(m) == s.callId && SlpBody.SessionId(m.body) == s.id
  {
    Rendered(RespondMessage(s, status));
    SlpBody.SessionRequestAccessors(None, None, None, Some(s.id), None, None);
  }

  /** The BYE of `_close` carries CSeq 0, the fresh branch and the closing context. */
  lemma CloseHeaders(s: Session, context: Option<seq<byte>>, reason: Option<(int, string)>, branch: Uuids.Uuid)
    requires CleanBranch(Braced(branch))
    ensures var m := Render(Close(s, context, reason, branch).1[0].m);
      && m.start == Slp.RequestLine("BYE", "MSNMSGR:" + RemoteId(s))
      && Slp.CSeq(m) == Some(0) && Slp.Branch(m) == Some(Braced(branch)) && Slp.CallId(m) == s.callId
      && SlpBody.Context(m.body) == context
  {
    Rendered(Close(s, context, reason, branch).1[0].m);
    SlpBody.SessionCloseAccessors(context, Some(s.id), reason, Some(0), None);
  }

  /** An unanswered INVITE closes the session when its timeout fires. */
  lemma UnansweredInviteCloses(s: Session, context: seq<byte>, branch: Uuids.Uuid)
    requires Timer.Valid(s.timers)
    ensures var r := OnTimeout(SendInvite(s, context).0, RESPONSE, branch);
      r.0.cseq == 0 && r.0.branch == Braced(branch) && Disposes(r)
  {
    Timer.StopAfterStart(s.timers, RESPONSE, []);
  }

  /** A 200 to our session request is reported as accepted and stops the response timeout. */
  lemma AcceptedStopsTimeout(s: Session, m: Slp.Message, bridgeReady: bool)
    requires m.start.StatusLine? && m.start.status == 200 && m.body.kind == SlpBody.SESSION_REQUEST
    ensures var r := OnSlpMessage(s, m, bridgeReady);
      r.Success? && r.value.1 == [Emit(Accepted)] && RESPONSE !in Timer.Timeouts(r.value.0.timers)
  {
  }

  /** A 603 to our session request is reported as rejected and disposes of the session. */
  lemma RejectedDisposes(s: Session, m: Slp.Message, bridgeReady: bool)
    requires m.start.StatusLine? && m.start.status == 603 && m.body.kind == SlpBody.SESSION_REQUEST
    ensures var r := OnSlpMessage(s, m, bridgeReady);
      r.Success? && r.value.1[0] == Emit(Rejected) && Disposes(r.value)
  {
  }

  /** A BYE from the peer disposes of the session. */
  lemma ByeDisposes(s: Session, m: Slp.Message, bridgeReady: bool)
    requires m.start.RequestLine? && m.body.kind == SlpBody.SESSION_CLOSE
    ensures OnSlpMessage(s, m, bridgeReady) == Success(Dispose(s))
  {
  }

  /** After a sent transfer the session lingers until the BYE timeout disposes of it. */
  lemma SentThenByeTimeout(s: Session, data: seq<byte>, branch: Uuids.Uuid)
    requires Timer.Valid(s.timers)
    ensures Disposes(OnTimeout(OnDataSent(s, data).0, BYE, branch))
  {
    Timer.StopAfterStart(s.timers, BYE, []);
  }
}

=== FILE: session_manager.dfy ===
/** The session registry of the peer-to-peer layer (`papyon/msnp2p/session_manager.py`):
    sessions by id, the coupling between registration and the transport blacklist, the routing
    of data events and of incoming SLP messages to sessions, and the creation of sessions for
    unmatched INVITEs by the registered handlers.

    The registry is a dictionary from session id to session; where the source iterates over
    it, the iteration order is a parameter. What a handler does with a message (decline,
    create a session, raise) is code outside this module and is given as a parameter, one
    outcome per handler in registration order. */
module SessionManager {
  import opened Results
  import Slp
  import SlpBody
  import Session

  /** `sessions` is the registry by id; `blacklist` is the transport manager's set of
      blacklisted session ids, which registration keeps in step. */
  datatype Manager = Manager(sessions: map<int, Session.Session>, blacklist: set<int>)

  /** Every session is registered under its own id. */
  predicate Valid(m: Manager) {
    forall id :: id in m.sessions ==> m.sessions[id].id == id
  }

  function Empty(): (m: Manager)
    ensures Valid(m) && m.sessions.Keys == {} && m.blacklist == {}
  {
    Manager(map[], {})
  }

  /** `_get_session`. */
  function Get(m: Manager, id: int): (r: Option<Session.Session>)
    ensures r.Some? <==> id in m.sessions
    ensures Valid(m) && r.Some? ==> r.value.id == id
  {
    if id in m.sessions then Some(m.sessions[id]) else None
  }

  /** `_search_session_by_call`: the first session, in the registry's iteration order `order`,
      with that Call-ID. */
  function SearchByCall(m: Manager, order: seq<int>, callId: string): (r: Option<Session.Session>)
    ensures r.Some? <==> exists i :: 0 <= i < |order| && order[i] in m.sessions && m.sessions[order[i]].callId == callId
    ensures r.Some? ==> r.value.callId == callId && r.value in m.sessions.Values
  {
    if order == [] then None
    else if order[0] in m.sessions && m.sessions[order[0]].callId == callId then Some(m.sessions[order[0]])
    else
      var r := SearchByCall(m, order[1..], callId);
      assert forall i :: 0 <= i < |order| - 1 ==> order[1..][i] == order[i + 1];
      r
  }

  /** `_register_session`: the session is stored under its id (replacing one with the same id)
      and its id leaves the blacklist. */
  function Register(m: Manager, s: Session.Session): (r: Manager)
    ensures Valid(m) ==> Valid(r)
    ensures Get(r, s.id) == Some(s) && s.id !in r.blacklist
    ensures r.blacklist == m.blacklist - {s.id}
    ensures r.sessions.Keys == m.sessions.Keys + {s.id}
    ensures forall id :: id != s.id ==> Get(r, id) == Get(m, id)
  {
    Manager(m.sessions[s.id := s], m.blacklist - {s.id})
  }

  datatype RegistryError = UnknownSession   // `del self._sessions[id]` raises KeyError

  /** `_unregister_session`: the session is forgotten and its id blacklisted; an id not
      registered raises. */
  function Unregister(m: Manager, id: int): (r: Result<Manager, RegistryError>)
    ensures r.Success? <==> id in m.sessions
    ensures r.Success? ==> Get(r.value, id).None? && r.value.blacklist == m.blacklist + {id}
    ensures r.Success? ==> r.value.sessions.Keys == m.sessions.Keys - {id}
    ensures r.Success? && Valid(m) ==> Valid(r.value)
    ensures r.Success? ==> forall other :: other != id ==> Get(r.value, other) == Get(m, other)
  {
    if id !in m.sessions then Failure(UnknownSession)
    else Success(Manager(m.sessions - {id}, m.blacklist + {id}))
  }

  // ---------------------------------------------------------------------------
  // Routing

  /** `_on_data_received`, `_on_data_sent`, `_on_data_transferred`: the event goes to the
      session with that id, and is dropped for an unknown id. */
  function DataTarget(m: Manager, id: int): (r: Option<Session.Session>)
    ensures r.Some? <==> id in m.sessions
    ensures Valid(m) && r.Some? ==> r.value.id == id
  {
    Get(m, id)
  }

  /** What a handler does with an unmatched INVITE: decline it (cannot handle it, or handles it
      without a session), create a session, or raise. */
  datatype Outcome = Declines | Creates(session: Session.Session) | Raises

  datatype Route =
    | Deliver(session: Session.Session)    // to an existing session
    | Created(session: Session.Session)    // to the session a handler created for it
    | Dropped

  /** An INVITE carrying a session request: the only message that may create a session. */
  predicate IsSessionInvite(msg: Slp.Message) {
    msg.start.RequestLine? && msg.start.verb == "INVITE" && msg.body.kind == SlpBody.SESSION_REQUEST
  }

  /** The handlers' loop: the first that creates a session wins; one that raises ends the search
      with nothing created. */
  function FirstCreated(outcomes: seq<Outcome>): (r: Option<Session.Session>)
    ensures r.Some? ==> Creates(r.value) in outcomes
    ensures (forall i :: 0 <= i < |outcomes| ==> !outcomes[i].Creates?) ==> r.None?
  {
    if outcomes == [] then None
    else match outcomes[0]
      case Creates(s) => Some(s)
      case Raises => None
      case Declines =>
        var r := FirstCreated(outcomes[1..]);
        assert forall i :: 0 <= i < |outcomes| - 1 ==> outcomes[1..][i] == outcomes[i + 1];
        r
  }

  /** `_on_slp_message_received`. A message with session id 0 is matched by Call-ID (searching
      the registry in its iteration order `order`), any other by session id. A match gets the
      message. Otherwise: id 0 is dropped; an INVITE with a session request is offered to the
      handlers (`contactFound` is false where looking up the sender raises), and a session one
      creates registers itself and gets the message; anything else is dropped. */
  function OnSlpMessage(m: Manager, order: seq<int>, msg: Slp.Message, contactFound: bool, outcomes: seq<Outcome>): (r: (Manager, Route))
    ensures r.1.Deliver? ==> r.0 == m && r.1.session in m.sessions.Values
    ensures r.1.Dropped? ==> r.0 == m
    ensures r.1.Created? ==> r.0 == Register(m, r.1.session) && Creates(r.1.session) in outcomes
  {
    var sid := SlpBody.SessionId(msg.body);
    var found := if sid == 0 then SearchByCall(m, order, Slp.CallId(msg)) else Get(m, sid);
    if found.Some? then (m, Deliver(found.value))
    else if sid == 0 then (m, Dropped)
    else if !IsSessionInvite(msg) || !contactFound then (m, Dropped)
    else match FirstCreated(outcomes)
      case None => (m, Dropped)
      case Some(s) => (Register(m, s), Created(s))
  }

  datatype Step = CloseSession(id: int) | CloseTransports

  /** `close`: every live session is closed, in the registry's iteration order `order`, then the
      transport manager. Closing a session disposes of it, which unregisters and blacklists it. */
  function Close(m: Manager, order: seq<int>): (r: (Manager, seq<Step>))
    requires forall id :: id in m.sessions <==> id in order
    ensures r.0.sessions == map[] && r.0.blacklist == m.blacklist + m.sessions.Keys
    ensures |r.1| == |order| + 1 && r.1[|order|] == CloseTransports
    ensures forall id :: id in m.sessions <==> CloseSession(id) in r.1
  {
    var steps := CloseAll(order);
    assert forall id :: id in order <==> CloseSession(id) in steps by {
      forall id ensures id in order <==> CloseSession(id) in steps {
        if id in order {
          var i :| 0 <= i < |order| && order[i] == id;
          assert steps[i] == CloseSession(id);
        }
      }
    }
    (Manager(map[], m.blacklist + m.sessions.Keys), steps + [CloseTransports])
  }

  function CloseAll(order: seq<int>): (r: seq<Step>)
    ensures |r| == |order| && forall i :: 0 <= i < |order| ==> r[i] == CloseSession(order[i])
  {
    if order == [] then [] else [CloseSession(order[0])] + CloseAll(order[1..])
  }

  // ---------------------------------------------------------------------------
  // Properties

  /** Registering then unregistering a session leaves its id blacklisted and the other
      sessions as they were. */
  lemma RegisterUnregister(m: Manager, s: Session.Session)
    requires Valid(m)
    ensures var r := Unregister(Register(m, s), s.id);
      && r.Success? && Get(r.value, s.id).None? && s.id in r.value.blacklist
      && forall id :: id != s.id ==> Get(r.value, id) == Get(m, id)
  {
  }

  /** Unregistering then registering again takes the id off the blacklist. */
  lemma ReRegister(m: Manager, s: Session.Session)
    requires Valid(m) && s.id in m.sessions
    ensures var r := Register(Unregister(m, s.id).value, s);
      Get(r, s.id) == Some(s) && s.id !in r.blacklist
  {
  }

  /** A message with a session id reaches the registered session with that id. */
  lemma KnownIdDelivered(m: Manager, order: seq<int>, msg: Slp.Message, contactFound: bool, outcomes: seq<Outcome>)
    requires SlpBody.SessionId(msg.body) != 0 && SlpBody.SessionId(msg.body) in m.sessions
    ensures OnSlpMessage(m, order, msg, contactFound, outcomes) == (m, Deliver(Get(m, SlpBody.SessionId(msg.body)).value))
  {
  }

  /** A signalling message (id 0) whose Call-ID no session has is dropped, whatever it is. */
  lemma UnmatchedSignallingDropped(m: Manager, order: seq<int>, msg: Slp.Message, contactFound: bool, outcomes: seq<Outcome>)
    requires SlpBody.SessionId(msg.body) == 0 && SearchByCall(m, order, Slp.CallId(msg)).None?
    ensures OnSlpMessage(m, order, msg, contactFound, outcomes) == (m, Dropped)
  {
  }

  /** Only an INVITE with a session request can create a session. */
  lemma OnlyInvitesCreate(m: Manager, order: seq<int>, msg: Slp.Message, contactFound: bool, outcomes: seq<Outcome>)
    requires OnSlpMessage(m, order, msg, contactFound, outcomes).1.Created?
    ensures IsSessionInvite(msg) && contactFound && SlpBody.SessionId(msg.body) != 0
    ensures SlpBody.SessionId(msg.body) !in m.sessions
  {
  }

  /** For an unmatched session INVITE, the first handler to create a session wins, provided no
      handler before it raised. */
  lemma FirstHandlerWins(m: Manager, order: seq<int>, msg: Slp.Message, outcomes: seq<Outcome>, k: nat, s: Session.Session)
    requires SlpBody.SessionId(msg.body) != 0 && SlpBody.SessionId(msg.body) !in m.sessions && IsSessionInvite(msg)
    requires k < |outcomes| && outcomes[k] == Creates(s) && forall j :: 0 <= j < k ==> outcomes[j].Declines?
    ensures OnSlpMessage(m, order, msg, true, outcomes) == (Register(m, s), Created(s))
  {
    FirstCreatedAt(outcomes, k, s);
  }

  lemma {:induction false} FirstCreatedAt(outcomes: seq<Outcome>, k: nat, s: Session.Session)
    requires k < |outcomes| && outcomes[k] == Creates(s) && forall j :: 0 <= j < k ==> outcomes[j].Declines?
    ensures FirstCreated(outcomes) == Some(s)
    decreases k
  {
    if k > 0 {
      FirstCreatedAt(outcomes[1..], k - 1, s);
    }
  }

  /** A handler that raises before any creates a session leaves the message dropped. */
  lemma RaiseDrops(m: Manager, order: seq<int>, msg: Slp.Message, outcomes: seq<Outcome>, k: nat)
    requires SearchByCall(m, order, Slp.CallId(msg)).None? || SlpBody.SessionId(msg.body) != 0
    requires SlpBody.SessionId(msg.body) !in m.sessions
    requires k < |outcomes| && outcomes[k].Raises? && forall j :: 0 <= j < k ==> outcomes[j].Declines?
    ensures OnSlpMessage(m, order, msg, true, outcomes) == (m, Dropped)
  {
    RaiseStops(outcomes, k);
  }

  lemma {:induction false} RaiseStops(outcomes: seq<Outcome>, k: nat)
    requires k < |outcomes| && outcomes[k].Raises? && forall j :: 0 <= j < k ==> outcomes[j].Declines?
    ensures FirstCreated(outcomes).None?
    decreases k
  {
    if k > 0 {
      RaiseStops(outcomes[1..], k - 1);
    }
  }
}

=== FILE: slp.dfy ===
/** SLP signalling messages (`papyon/msnp2p/SLP.py`): an HTTP-style header block preceded by a
    start line — `METHOD resource MSNSLP/1.0` for a request, `MSNSLP/1.0 status reason` for a
    response — and carrying a typed body (see `SlpBody`).  Serialising writes the body's content
    type and length into the headers; building reads the start line, the headers and the body
    back, and insists on readable `To`, `From` and `CSeq` headers. */
module Slp {
  import opened Results
  import opened Text
  import Http = HttpMessage
  import SlpBody
  import Uuids
  import opened Bytes

  const VERSION: string := "MSNSLP/1.0"
  const NUL: char := '\0'

  datatype StartLine =
    | RequestLine(verb: string, resource: string)
    | StatusLine(status: int, reason: Option<string>)

  datatype Message = Message(start: StartLine, headers: seq<Http.Header>, body: SlpBody.Body)

  datatype SlpError =
    | NotSlp                                  // no `MSNSLP/1.0` or no CRLF anywhere
    | InvalidStartLine
    | InvalidHeaders(error: Http.ParseError)  // the HTTP parser's error, which `build` lets through
    | MissingHeader(name: string)
    | UnknownStatus(status: int)              // a reason-less response whose status has no text
    | NoAccount                               // a request resource without `:`

  /** `SLPResponseMessage.STATUS_MESSAGE`. */
  function StatusMessage(status: int): (r: Option<string>)
    ensures r.Some? <==> status in {200, 404, 500, 603, 606}
  {
    if status == 200 then Some("OK")
    else if status == 404 then Some("Not Found")
    else if status == 500 then Some("Internal Error")
    else if status == 603 then Some("Decline")
    else if status == 606 then Some("Unacceptable")
    else None
  }

  // ---------------------------------------------------------------------------
  // The standard headers

  /** An account as the `To` and `From` headers write it. */
  function Address(account: string): string {
    "<msnmsgr:" + account + ">"
  }

  /** The `Via` header for a branch, when the branch is not empty. */
  function ViaOf(branch: string): Option<string> {
    if branch == "" then None else Some("MSNSLP/1.0/TLP ;branch=" + branch)
  }

  /** A header written only when its text is not empty. */
  function NonEmpty(s: string): Option<string> {
    if s == "" then None else Some(s)
  }

  /** The headers `SLPMessage.__init__` writes, in order: `To`, `From`, `Via` (only with a
      branch), `CSeq`, `Call-ID` (only when given), `Max-Forwards` and `On-Behalf` (only when
      given). */
  function StdHeaders(to: string, frm: string, branch: string, cseq: int, callId: string,
                      maxForwards: int, onBehalf: string): (hs: seq<Http.Header>)
    ensures Http.UniqueNames(hs)
  {
    Tail(Head(to, frm, branch, cseq), callId, maxForwards, onBehalf)
  }

  function Head(to: string, frm: string, branch: string, cseq: int): (hs: seq<Http.Header>)
    ensures Http.UniqueNames(hs)
  {
    SlpBody.Put(SlpBody.Put(SlpBody.Put(SlpBody.Put([], "To", Some(Address(to))), "From", Some(Address(frm))),
                            "Via", ViaOf(branch)), "CSeq", Some(IntToString(cseq)))
  }

  function Tail(hs: seq<Http.Header>, callId: string, maxForwards: int, onBehalf: string): (r: seq<Http.Header>)
    ensures Http.UniqueNames(hs) ==> Http.UniqueNames(r)
  {
    SlpBody.Put(SlpBody.Put(SlpBody.Put(hs, "Call-ID", NonEmpty(callId)), "Max-Forwards", Some(IntToString(maxForwards))),
                "On-Behalf", NonEmpty(onBehalf))
  }

  /** `SLPRequestMessage(method, resource, ...)`: the standard headers and a null body.  The
      source reads the addressee from the resource's text after the first `:` and fails when
      there is none. */
  function NewRequest(verb: string, resource: string, to: string, frm: string, branch: string, cseq: int,
                      callId: string, maxForwards: int, onBehalf: string): (r: Result<Message, SlpError>)
    ensures r.Failure? <==> !Contains(resource, ":")
    ensures r.Success? ==> r.value.start == RequestLine(verb, resource) && r.value.body == SlpBody.Null()
    ensures r.Success? ==> r.value.headers == StdHeaders(to, frm, branch, cseq, callId, maxForwards, onBehalf)
  {
    if !Contains(resource, ":") then Failure(NoAccount)
    else Success(Message(RequestLine(verb, resource), StdHeaders(to, frm, branch, cseq, callId, maxForwards, onBehalf),
                         SlpBody.Null()))
  }

  /** `SLPResponseMessage(status, reason, ...)`. */
  function NewResponse(status: int, reason: Option<string>, to: string, frm: string, branch: string, cseq: int,
                       callId: string, maxForwards: int, onBehalf: string): (m: Message)
    ensures m.start == StatusLine(status, reason) && m.body == SlpBody.Null()
    ensures m.headers == StdHeaders(to, frm, branch, cseq, callId, maxForwards, onBehalf)
  {
    Message(StatusLine(status, reason), StdHeaders(to, frm, branch, cseq, callId, maxForwards, onBehalf), SlpBody.Null())
  }

  // ---------------------------------------------------------------------------
  // Reading the standard headers

  /** `value.split(":", 1)[1][:-1]`: the text after the first `:`, without its last character;
      `None` where the source raises. */
  function AngleAccount(v: string): Option<string> {
    match SplitOnce(v, ":")
    case None => None
    case Some((_, rest)) => Some(if rest == [] then [] else rest[..|rest| - 1])
  }

  /** `to`: a request's addressee is the resource's text after the first `:`; a response's is
      read from its `To` header. */
  function To(m: Message): Option<string> {
    match m.start
    case RequestLine(_, resource) =>
      (match SplitOnce(resource, ":") case None => None case Some((_, account)) => Some(account))
    case StatusLine(_, _) =>
      (match Http.Lookup(m.headers, "To") case None => None case Some(v) => AngleAccount(v))
  }

  /** `frm`. */
  function From(m: Message): Option<string> {
    match Http.Lookup(m.headers, "From")
    case None => None
    case Some(v) => AngleAccount(v)
  }

  /** `cseq`: the header as an integer. */
  function CSeq(m: Message): Option<int> {
    match Http.Lookup(m.headers, "CSeq")
    case None => None
    case Some(v) => ParseInt(v)
  }

  /** `call_id`, "" when missing. */
  function CallId(m: Message): string {
    Http.Lookup(m.headers, "Call-ID").GetOr("")
  }

  /** `branch`: "" without a `Via` header; otherwise read from the header's parameter. */
  function Branch(m: Message): (r: Option<string>)
    ensures Http.Lookup(m.headers, "Via").None? ==> r == Some("")
  {
    match Http.Lookup(m.headers, "Via")
    case None => Some("")
    case Some(via) => BranchOf(via)
  }

  /** The branch parameter of a `Via` value: "" without a `;`, or when the parameter after the
      `;` is not `branch`; `None` where the source raises, a parameter that is not exactly one
      `key=value` pair. */
  function BranchOf(via: string): (r: Option<string>)
    ensures !Contains(via, ";") ==> r == Some("")
  {
    match SplitOnce(via, ";")
    case None => Some("")
    case Some((_, param)) =>
      var kv := Split(param, "=");
      if |kv| != 2 then None
      else if Strip(kv[0]) == "branch" then Some(Strip(kv[1]))
      else Some("")
  }

  /** The request setter for `to`: the resource becomes `MSNMSGR:` and the account, and the `To`
      header names it. */
  function SetTo(m: Message, account: string): (r: Message)
    requires m.start.RequestLine?
    ensures r.start.RequestLine? && r.start.verb == m.start.verb && r.body == m.body
    ensures To(r) == Some(account)
    ensures Http.Lookup(r.headers, "To") == Some(Address(account))
    ensures forall n :: n != "To" ==> Http.Lookup(r.headers, n) == Http.Lookup(m.headers, n)
  {
    assert Lacks("MSNMSGR", ':');
    SplitOnceAfterPrefix("MSNMSGR", ":", account);
    m.(start := RequestLine(m.start.verb, "MSNMSGR" + ":" + account),
       headers := Http.AddHeader(m.headers, "To", Address(account)))
  }

  // ---------------------------------------------------------------------------
  // Writing a message

  /** `SLPMessageBody.__str__`: the body's HTTP text followed by a NUL. */
  function BodyText(b: SlpBody.Body): string {
    Http.Serialize(Http.Message(b.headers, b.text)) + [NUL]
  }

  /** The headers `SLPMessage.__str__` leaves on the message: the body's content type and the
      length of its text, written over any earlier values. */
  function ContentHeaders(m: Message): (hs: seq<Http.Header>)
    ensures Http.UniqueNames(m.headers) ==> Http.UniqueNames(hs)
    ensures Http.Lookup(hs, "Content-Type") == Some(m.body.kind)
    ensures Http.Lookup(hs, "Content-Length") == Some(IntToString(|BodyText(m.body)|))
    ensures forall n :: n != "Content-Type" && n != "Content-Length" ==> Http.Lookup(hs, n) == Http.Lookup(m.headers, n)
  {
    Http.AddHeader(Http.AddHeader(m.headers, "Content-Type", m.body.kind), "Content-Length", IntToString(|BodyText(m.body)|))
  }

  /** The reason a response line carries: its own, or the standard text for its status. */
  function ReasonText(status: int, reason: Option<string>): Option<string> {
    if reason.Some? then reason else StatusMessage(status)
  }

  /** The start line: `METHOD resource MSNSLP/1.0`, or `MSNSLP/1.0 status reason`; a response
      without a reason whose status has no standard text cannot be written. */
  function StartText(s: StartLine): (r: Result<string, SlpError>)
    ensures r.Failure? <==> s.StatusLine? && ReasonText(s.status, s.reason).None?
  {
    match s
    case RequestLine(verb, resource) => Success(verb + " " + resource + " " + VERSION)
    case StatusLine(status, reason) =>
      match ReasonText(status, reason)
      case None => Failure(UnknownStatus(status))
      case Some(text) => Success(VERSION + " " + IntToString(status) + " " + text)
  }

  /** `str(message)`: the start line, CRLF, then the HTTP text of the headers (with the content
      headers added) and of the body's text. */
  function Serialize(m: Message): (r: Result<string, SlpError>)
    ensures r.Failure? <==> StartText(m.start).Failure?
  {
    var start :- StartText(m.start);
    Success(start + Http.CRLF + Http.Serialize(Http.Message(ContentHeaders(m), BodyText(m.body))))
  }

  // ---------------------------------------------------------------------------
  // Reading a message

  /** The body a registered content type starts from (`cls()`), or the generic one; it is what
      `build` returns for an empty content.  A transport request draws a fresh nonce, here the
      `nonce` argument. */
  function DefaultBody(kind: string, nonce: Uuids.Uuid): (b: SlpBody.Body)
    ensures b.kind == kind && b.text == ""
  {
    if kind == SlpBody.NULL then SlpBody.Null()
    else if kind == SlpBody.SESSION_REQUEST then SlpBody.SessionRequest(None, None, None, None, Some(0), Some(1))
    else if kind == SlpBody.TRANSPORT_REQUEST then
      SlpBody.TransportRequest(None, None, None, [], SlpBody.UNKNOWN_CONNECT, false, false, nonce)
    else if kind == SlpBody.TRANSPORT_RESPONSE then
      SlpBody.TransportResponse(None, None, None, None, None, None, None, None, None, None, SlpBody.UNKNOWN_CONNECT, 1)
    else if kind == SlpBody.SESSION_CLOSE then SlpBody.SessionClose(None, None, None, None, None)
    else if kind == SlpBody.SESSION_FAILURE then SlpBody.SessionFailure(None, Some(0), Some(1))
    else SlpBody.Generic(kind, None, Some(0), Some(1))
  }

  /** `SLPMessageBody.build`: an empty content keeps the default body; otherwise trailing NULs
      are dropped and the rest is read as an HTTP message. */
  function BuildBody(kind: string, content: string, nonce: Uuids.Uuid): (r: Result<SlpBody.Body, Http.ParseError>)
    ensures r.Success? ==> r.value.kind == kind
    ensures content == "" ==> r == Success(DefaultBody(kind, nonce))
  {
    if content == "" then Success(DefaultBody(kind, nonce))
    else
      match Http.Parse(RStripSet(content, {NUL}))
      case Failure(e) => Failure(e)
      case Success(hm) => Success(SlpBody.Body(kind, hm.headers, hm.body))
  }

  /** The start line as `build` reads it: a first word `MSNSLP/1.0` makes a response whose
      status is the second word and whose reason is the rest; otherwise a request whose
      resource must name an account after a `:`. */
  function ParseStart(line: string): (r: Result<StartLine, SlpError>)
    ensures r.Failure? ==> r.error == InvalidStartLine
    ensures r.Success? && r.value.StatusLine? ==> r.value.reason.Some?
    ensures r.Success? && r.value.RequestLine? ==> Contains(r.value.resource, ":")
  {
    var words := Split(line, " ");
    if |words| < 2 then Failure(InvalidStartLine)
    else if Strip(words[0]) == VERSION then
      match ParseInt(Strip(words[1]))
      case None => Failure(InvalidStartLine)
      case Some(status) => Success(StatusLine(status, Some(Strip(Join(words[2..], " ")))))
    else
      var resource := Strip(words[1]);
      if !Contains(resource, ":") then Failure(InvalidStartLine)
      else Success(RequestLine(Strip(words[0]), resource))
  }

  /** The mandatory headers `build` insists on, in its order. */
  function CheckHeaders(m: Message): (r: Result<Message, SlpError>)
    ensures r.Success? <==> To(m).Some? && From(m).Some? && CSeq(m).Some?
    ensures r.Success? ==> r.value == m
    ensures r.Failure? ==> r.error.MissingHeader?
  {
    if To(m).None? then Failure(MissingHeader("To"))
    else if From(m).None? then Failure(MissingHeader("From"))
    else if CSeq(m).None? then Failure(MissingHeader("CSeq"))
    else Success(m)
  }

  /** `SLPMessage.build`. */
  function Build(raw: string, nonce: Uuids.Uuid): (r: Result<Message, SlpError>)
    ensures (r.Failure? && r.error == NotSlp) <==> !Contains(raw, VERSION) || !Contains(raw, Http.CRLF)
    ensures r.Success? ==> To(r.value).Some? && From(r.value).Some? && CSeq(r.value).Some?
    ensures r.Success? ==> Http.UniqueNames(r.value.headers)
    ensures r.Success? ==> r.value.body.kind == Http.Lookup(r.value.headers, "Content-Type").GetOr(SlpBody.NULL)
  {
    if !Contains(raw, VERSION) || !Contains(raw, Http.CRLF) then Failure(NotSlp)
    else
      var parts := SplitOnce(raw, Http.CRLF).value;
      var start :- ParseStart(parts.0);
      match Http.Parse(parts.1)
      case Failure(e) => Failure(InvalidHeaders(e))
      case Success(hm) =>
        var kind := Http.Lookup(hm.headers, "Content-Type").GetOr(SlpBody.NULL);
        match BuildBody(kind, hm.body, nonce)
        case Failure(e) => Failure(InvalidHeaders(e))
        case Success(body) => CheckHeaders(Message(start, hm.headers, body))
  }

  // ---------------------------------------------------------------------------
  // Reading back what the constructors write

  /** `to` and `frm` give back the account an address header was written with. */
  lemma AddressRoundTrip(account: string)
    ensures AngleAccount(Address(account)) == Some(account)
  {
    assert Lacks("<msnmsgr", ':');
    assert Address(account) == "<msnmsgr" + ":" + (account + ">");
    SplitOnceAfterPrefix("<msnmsgr", ":", account + ">");
    assert (account + ">")[..|account|] == account;
  }

  /** The branch written into `Via` is read back, when it holds no `=` and no surrounding
      blanks. */
  lemma BranchRoundTrip(branch: string)
    requires branch != "" && Lacks(branch, '=') && Strip(branch) == branch
    ensures BranchOf(ViaOf(branch).value) == Some(branch)
  {
    ViaParam(branch);
    BranchParam(branch);
  }

  lemma ViaParam(branch: string)
    requires branch != ""
    ensures SplitOnce(ViaOf(branch).value, ";") == Some(("MSNSLP/1.0/TLP ", "branch=" + branch))
  {
    var head := "MSNSLP/1.0/TLP ";
    assert Lacks(head, ';');
    assert ViaOf(branch).value == head + ";" + ("branch=" + branch);
    SplitOnceAfterPrefix(head, ";", "branch=" + branch);
  }

  lemma BranchParam(branch: string)
    requires Lacks(branch, '=')
    ensures Split("branch=" + branch, "=") == ["branch", branch]
    ensures Strip("branch") == "branch"
  {
    assert Lacks("branch", '=');
    assert "branch=" + branch == "branch" + "=" + branch;
    SplitAfterPrefix("branch", "=", branch);
    SplitWhole(branch, "=");
    assert NoSpace("branch");
    StripNoSpace("branch");
  }

  lemma HeadLookups(to: string, frm: string, branch: string, cseq: int)
    ensures Http.Lookup(Head(to, frm, branch, cseq), "To") == Some(Address(to))
    ensures Http.Lookup(Head(to, frm, branch, cseq), "From") == Some(Address(frm))
    ensures Http.Lookup(Head(to, frm, branch, cseq), "Via") == ViaOf(branch)
    ensures Http.Lookup(Head(to, frm, branch, cseq), "CSeq") == Some(IntToString(cseq))
  {
    var h1 := SlpBody.Put([], "To", Some(Address(to)));
    var h2 := SlpBody.Put(h1, "From", Some(Address(frm)));
    var h3 := SlpBody.Put(h2, "Via", ViaOf(branch));
    SlpBody.PutOther(h1, "From", Some(Address(frm)), "To");
    SlpBody.PutOther(h2, "Via", ViaOf(branch), "To");
    SlpBody.PutOther(h2, "Via", ViaOf(branch), "From");
    SlpBody.PutOther(h3, "CSeq", Some(IntToString(cseq)), "To");
    SlpBody.PutOther(h3, "CSeq", Some(IntToString(cseq)), "From");
    SlpBody.PutOther(h3, "CSeq", Some(IntToString(cseq)), "Via");
  }

  lemma TailLookups(hs: seq<Http.Header>, callId: string, maxForwards: int, onBehalf: string, n: string)
    requires n != "Call-ID" && n != "Max-Forwards" && n != "On-Behalf"
    ensures Http.Lookup(Tail(hs, callId, maxForwards, onBehalf), n) == Http.Lookup(hs, n)
    ensures Http.Lookup(Tail(hs, callId, maxForwards, onBehalf), "Call-ID") == (if callId == "" then Http.Lookup(hs, "Call-ID") else Some(callId))
  {
    var h1 := SlpBody.Put(hs, "Call-ID", NonEmpty(callId));
    var h2 := SlpBody.Put(h1, "Max-Forwards", Some(IntToString(maxForwards)));
    SlpBody.PutOther(hs, "Call-ID", NonEmpty(callId), n);
    SlpBody.PutOther(h1, "Max-Forwards", Some(IntToString(maxForwards)), n);
    SlpBody.PutOther(h2, "On-Behalf", NonEmpty(onBehalf), n);
    SlpBody.PutOther(h1, "Max-Forwards", Some(IntToString(maxForwards)), "Call-ID");
    SlpBody.PutOther(h2, "On-Behalf", NonEmpty(onBehalf), "Call-ID");
  }

  /** The standard headers read back through the getters: the sender, the sequence number, the
      call id ("" when none was given) and the branch. */
  lemma StdAccessors(m: Message, to: string, frm: string, branch: string, cseq: int, callId: string,
                     maxForwards: int, onBehalf: string)
    requires m.headers == StdHeaders(to, frm, branch, cseq, callId, maxForwards, onBehalf)
    requires Lacks(branch, '=') && Strip(branch) == branch
    ensures From(m) == Some(frm) && CSeq(m) == Some(cseq) && CallId(m) == callId && Branch(m) == Some(branch)
    ensures Http.Lookup(m.headers, "To") == Some(Address(to))
  {
    var head := Head(to, frm, branch, cseq);
    HeadLookups(to, frm, branch, cseq);
    TailLookups(head, callId, maxForwards, onBehalf, "To");
    TailLookups(head, callId, maxForwards, onBehalf, "From");
    TailLookups(head, callId, maxForwards, onBehalf, "Via");
    TailLookups(head, callId, maxForwards, onBehalf, "CSeq");
    HeadOther(to, frm, branch, cseq, "Call-ID");
    AddressRoundTrip(frm);
    ParseIntToString(cseq);
    if branch != "" { BranchRoundTrip(branch); }
  }

  /** The head of the standard headers holds no other name. */
  lemma HeadOther(to: string, frm: string, branch: string, cseq: int, n: string)
    requires n != "To" && n != "From" && n != "Via" && n != "CSeq"
    ensures Http.Lookup(Head(to, frm, branch, cseq), n).None?
  {
    var h1 := SlpBody.Put([], "To", Some(Address(to)));
    var h2 := SlpBody.Put(h1, "From", Some(Address(frm)));
    var h3 := SlpBody.Put(h2, "Via", ViaOf(branch));
    SlpBody.PutOther([], "To", Some(Address(to)), n);
    SlpBody.PutOther(h1, "From", Some(Address(frm)), n);
    SlpBody.PutOther(h2, "Via", ViaOf(branch), n);
    SlpBody.PutOther(h3, "CSeq", Some(IntToString(cseq)), n);
  }

  /** A response made by the constructor answers to the addressee it was given, besides the
      standard headers. */
  lemma ResponseAccessors(status: int, reason: Option<string>, to: string, frm: string, branch: string, cseq: int,
                          callId: string, maxForwards: int, onBehalf: string)
    requires Lacks(branch, '=') && Strip(branch) == branch
    ensures var m := NewResponse(status, reason, to, frm, branch, cseq, callId, maxForwards, onBehalf);
      To(m) == Some(to) && From(m) == Some(frm) && CSeq(m) == Some(cseq) && CallId(m) == callId && Branch(m) == Some(branch)
  {
    var m := NewResponse(status, reason, to, frm, branch, cseq, callId, maxForwards, onBehalf);
    StdAccessors(m, to, frm, branch, cseq, callId, maxForwards, onBehalf);
    AddressRoundTrip(to);
  }

  /** A request for `MSNMSGR:account` answers to that account, besides the standard headers. */
  lemma RequestAccessors(verb: string, account: string, to: string, frm: string, branch: string, cseq: int,
                         callId: string, maxForwards: int, onBehalf: string)
    requires Lacks(branch, '=') && Strip(branch) == branch
    ensures var r := NewRequest(verb, "MSNMSGR:" + account, to, frm, branch, cseq, callId, maxForwards, onBehalf);
      r.Success? && To(r.value) == Some(account) && From(r.value) == Some(frm) && CSeq(r.value) == Some(cseq)
      && CallId(r.value) == callId && Branch(r.value) == Some(branch)
  {
    AccountResource(account);
    var r := NewRequest(verb, "MSNMSGR:" + account, to, frm, branch, cseq, callId, maxForwards, onBehalf);
    StdAccessors(r.value, to, frm, branch, cseq, callId, maxForwards, onBehalf);
  }

  // ---------------------------------------------------------------------------
  // Building a message back from its text

  /** A start line that reads back as itself: a method and resource without blanks, a resource
      naming an account and a method other than the version word; or a response reason that is
      known and has neither a CR nor surrounding blanks. */
  predicate StartWritable(s: StartLine) {
    match s
    case RequestLine(verb, resource) => NoSpace(verb) && verb != VERSION && NoSpace(resource) && Contains(resource, ":")
    case StatusLine(status, reason) =>
      var text := ReasonText(status, reason);
      text.Some? && Lacks(text.value, '\r') && Strip(text.value) == text.value
  }

  /** The start line as it reads back: a response always carries its reason text. */
  function Normal(s: StartLine): StartLine {
    if s.StatusLine? then StatusLine(s.status, ReasonText(s.status, s.reason)) else s
  }

  /** A message whose text `build` reads back: a writable start line, well-formed headers
      without a content encoding, a body type that is a clean header value, a body that is a
      well-formed HTTP message not ending in NUL, and readable `To`, `From` and `CSeq`. */
  predicate Writable(m: Message) {
    StartWritable(m.start) && HeadersWritable(m.headers) && BodyWritable(m.body)
    && To(m).Some? && From(m).Some? && CSeq(m).Some?
  }

  predicate HeadersWritable(hs: seq<Http.Header>) {
    Http.UniqueNames(hs) && Http.AllWritable(hs) && Http.Lookup(hs, Http.CONTENT_ENCODING).None?
  }

  predicate BodyWritable(b: SlpBody.Body) {
    && SlpBody.Clean(b.kind)
    && Http.WellFormed(Http.Message(b.headers, b.text))
    && (b.text == "" || b.text[|b.text| - 1] != NUL)
  }

  /** `sub` occurs in any text that has it between two others. */
  lemma ContainsWithin(a: string, sub: string, b: string)
    ensures Contains(a + sub + b, sub)
  {
    assert (a + sub + b)[|a|..|a| + |sub|] == sub;
    assert OccursAt(a + sub + b, sub, |a|);
  }

  lemma VersionWord()
    ensures NoSpace(VERSION) && Lacks(VERSION, ' ') && Lacks(VERSION, '\r') && Strip(VERSION) == VERSION
  {
    StripNoSpace(VERSION);
  }

  /** A request line reads back as its method and resource. */
  lemma RequestStart(verb: string, resource: string)
    requires StartWritable(RequestLine(verb, resource))
    ensures Lacks(StartText(RequestLine(verb, resource)).value, '\r')
    ensures Contains(StartText(RequestLine(verb, resource)).value, VERSION)
    ensures ParseStart(StartText(RequestLine(verb, resource)).value) == Success(RequestLine(verb, resource))
  {
    var line := verb + " " + resource + " " + VERSION;
    VersionWord();
    Http.NoSpaceLacks(verb);
    Http.NoSpaceLacks(resource);
    LacksAppend(verb, " ", '\r');
    LacksAppend(verb + " ", resource, '\r');
    LacksAppend(verb + " " + resource, " ", '\r');
    LacksAppend(verb + " " + resource + " ", VERSION, '\r');
    ContainsWithin(verb + " " + resource + " ", VERSION, "");
    assert verb + " " + resource + " " + VERSION + "" == line;
    Http.ThreeWords(verb, resource, VERSION);
    StripNoSpace(verb);
    StripNoSpace(resource);
  }

  /** A status line reads back as its status and reason. */
  lemma ResponseStart(status: int, text: string)
    requires Lacks(text, '\r') && Strip(text) == text
    ensures var line := VERSION + " " + IntToString(status) + " " + text;
      Lacks(line, '\r') && Contains(line, VERSION) && ParseStart(line) == Success(StatusLine(status, Some(text)))
  {
    ResponseLineShape(IntToString(status), text);
    ResponseParse(status, text);
  }

  lemma ResponseLineShape(st: string, text: string)
    requires NoSpace(st) && Lacks(text, '\r')
    ensures var line := VERSION + " " + st + " " + text;
      Lacks(line, '\r') && Contains(line, VERSION)
  {
    VersionWord();
    Http.NoSpaceLacks(st);
    SpacedLacks(VERSION, st, text, '\r');
    ContainsWithin("", VERSION, " " + st + " " + text);
    SpacedRegroup(VERSION, st, text);
  }

  lemma SpacedRegroup(a: string, b: string, c: string)
    ensures "" + a + (" " + b + " " + c) == a + " " + b + " " + c
  {
  }

  lemma ResponseParse(status: int, text: string)
    requires Strip(text) == text
    ensures ParseStart(VERSION + " " + IntToString(status) + " " + text) == Success(StatusLine(status, Some(text)))
  {
    var st := IntToString(status);
    var line := VERSION + " " + st + " " + text;
    VersionWord();
    Http.NoSpaceLacks(st);
    StatusWords(VERSION, st, text);
    var words := Split(line, " ");
    assert words[2..] == Split(text, " ");
    JoinSplit(text, " ");
    StripNoSpace(st);
    ParseIntToString(status);
  }

  /** Two blank-free words, then a text, split into the words and the text's pieces. */
  lemma StatusWords(v: string, st: string, text: string)
    requires Lacks(v, ' ') && Lacks(st, ' ')
    ensures Split(v + " " + st + " " + text, " ") == [v, st] + Split(text, " ")
  {
    var tail := st + " " + text;
    assert v + " " + st + " " + text == v + " " + tail;
    SplitAfterPrefix(v, " ", tail);
    SplitAfterPrefix(st, " ", text);
    assert [v] + ([st] + Split(text, " ")) == [v, st] + Split(text, " ");
  }

  /** Every writable start line reads back as its normal form. */
  lemma StartRoundTrip(s: StartLine)
    requires StartWritable(s)
    ensures StartText(s).Success?
    ensures Lacks(StartText(s).value, '\r') && Contains(StartText(s).value, VERSION)
    ensures ParseStart(StartText(s).value) == Success(Normal(s))
  {
    match s
    case RequestLine(verb, resource) => RequestStart(verb, resource);
    case StatusLine(status, reason) => ResponseStart(status, ReasonText(status, reason).value);
  }

  /** The names `__str__` adds are header tokens. */
  lemma ContentNames()
    ensures SlpBody.Token("Content-Type") && SlpBody.Token("Content-Length")
  {
    assert SlpBody.TokenFrom("Content-Type", 9);
    assert SlpBody.TokenFrom("Content-Type", 6);
    assert SlpBody.TokenFrom("Content-Type", 3);
    assert SlpBody.TokenFrom("Content-Length", 12);
    assert SlpBody.TokenFrom("Content-Length", 9);
    assert SlpBody.TokenFrom("Content-Length", 6);
    assert SlpBody.TokenFrom("Content-Length", 3);
  }

  /** The headers written with the body's type and length still read back. */
  lemma ContentHeadersWellFormed(m: Message)
    requires Writable(m)
    ensures Http.WellFormed(Http.Message(ContentHeaders(m), BodyText(m.body)))
  {
    var length := IntToString(|BodyText(m.body)|);
    ContentNames();
    SlpBody.TokenWritable("Content-Type", Some(m.body.kind));
    Text.ParseIntToString(|BodyText(m.body)|);
    assert SlpBody.IntText(Some(|BodyText(m.body)|)) == Some(length);
    SlpBody.TokenWritable("Content-Length", Some(length));
    Http.AddHeaderWritable(m.headers, "Content-Type", m.body.kind);
    Http.AddHeaderWritable(Http.AddHeader(m.headers, "Content-Type", m.body.kind), "Content-Length", length);
  }

  /** The HTTP text of a body never ends in NUL when its own text does not. */
  lemma BodyEnd(b: SlpBody.Body)
    requires Http.WellFormed(Http.Message(b.headers, b.text))
    requires b.text == "" || b.text[|b.text| - 1] != NUL
    ensures var t := Http.Serialize(Http.Message(b.headers, b.text)); t == "" || t[|t| - 1] != NUL
  {
    var lines := Http.HeaderLines(b.headers) + [""];
    Http.SerializeJoin(Http.Message(b.headers, b.text));
    JoinSnoc(lines, b.text, Http.CRLF);
    var t := Join(lines, Http.CRLF) + Http.CRLF + b.text;
    if b.text == "" {
      assert t[|t| - 1] == '\n';
    } else {
      assert t[|t| - 1] == b.text[|b.text| - 1];
    }
  }

  /** A body's text reads back as the body. */
  lemma BodyRoundTrip(b: SlpBody.Body, nonce: Uuids.Uuid)
    requires Http.WellFormed(Http.Message(b.headers, b.text))
    requires b.text == "" || b.text[|b.text| - 1] != NUL
    ensures BuildBody(b.kind, BodyText(b), nonce) == Success(b)
  {
    var t := Http.Serialize(Http.Message(b.headers, b.text));
    BodyEnd(b);
    RStripSuffix(t, [NUL], {NUL});
    Http.ParseSerialize(Http.Message(b.headers, b.text));
  }

  /** `build` on a text whose pieces are known. */
  lemma BuildParts(raw: string, nonce: Uuids.Uuid, start: string, rest: string, line: StartLine,
                   hm: Http.Message, body: SlpBody.Body)
    requires Contains(raw, VERSION) && Contains(raw, Http.CRLF)
    requires SplitOnce(raw, Http.CRLF) == Some((start, rest))
    requires ParseStart(start) == Success(line)
    requires Http.Parse(rest) == Success(hm)
    requires BuildBody(Http.Lookup(hm.headers, "Content-Type").GetOr(SlpBody.NULL), hm.body, nonce) == Success(body)
    ensures Build(raw, nonce) == CheckHeaders(Message(line, hm.headers, body))
  {
  }

  /** The getters read the same on the written headers as on the message's own. */
  lemma ReadersKept(m: Message, line: StartLine)
    requires line == Normal(m.start)
    ensures var w := Message(line, ContentHeaders(m), m.body);
      To(w) == To(m) && From(w) == From(m) && CSeq(w) == CSeq(m)
  {
    ContentLookup(m, "To");
    ContentLookup(m, "From");
    ContentLookup(m, "CSeq");
    SameReaders(m, Message(line, ContentHeaders(m), m.body));
  }

  /** Two messages whose start lines are of one kind (the same request line, or any two status
      lines) and whose `To`, `From` and `CSeq` headers agree read the same. */
  lemma SameReaders(m: Message, w: Message)
    requires (m.start.RequestLine? && w.start == m.start) || (m.start.StatusLine? && w.start.StatusLine?)
    requires Http.Lookup(w.headers, "To") == Http.Lookup(m.headers, "To")
    requires Http.Lookup(w.headers, "From") == Http.Lookup(m.headers, "From")
    requires Http.Lookup(w.headers, "CSeq") == Http.Lookup(m.headers, "CSeq")
    ensures To(w) == To(m) && From(w) == From(m) && CSeq(w) == CSeq(m)
  {
  }

  lemma ContentLookup(m: Message, n: string)
    requires n != "Content-Type" && n != "Content-Length"
    ensures Http.Lookup(ContentHeaders(m), n) == Http.Lookup(m.headers, n)
  {
  }

  /** `build` reads a writable message back from its text: the start line in normal form, the
      headers with the body's type and length added, and the body itself. */
  lemma BuildSerialize(m: Message, nonce: Uuids.Uuid)
    requires Writable(m)
    ensures Serialize(m).Success?
    ensures Build(Serialize(m).value, nonce) == Success(Message(Normal(m.start), ContentHeaders(m), m.body))
  {
    StartRoundTrip(m.start);
    var start := StartText(m.start).value;
    var hm := Http.Message(ContentHeaders(m), BodyText(m.body));
    var http := Http.Serialize(hm);
    var raw := Serialize(m).value;
    assert raw == start + Http.CRLF + http;
    SplitOnceAfterPrefix(start, Http.CRLF, http);
    ContainsWithin(start, Http.CRLF, http);
    ContainsVersion(start, http);
    ContentHeadersWellFormed(m);
    Http.ParseSerialize(hm);
    BodyRoundTrip(m.body, nonce);
    BuildParts(raw, nonce, start, http, Normal(m.start), hm, m.body);
    ReadersKept(m, Normal(m.start));
  }

  lemma ContainsVersion(start: string, http: string)
    requires Contains(start, VERSION)
    ensures Contains(start + Http.CRLF + http, VERSION)
  {
    var k :| 0 <= k <= |start| && OccursAt(start, VERSION, k);
    assert (start + Http.CRLF + http)[k..k + |VERSION|] == start[k..k + |VERSION|];
    assert OccursAt(start + Http.CRLF + http, VERSION, k);
  }

  // ---------------------------------------------------------------------------
  // An invitation read back

  /** The standard header names are header tokens. */
  lemma StdNames()
    ensures SlpBody.Token("To") && SlpBody.Token("From") && SlpBody.Token("Via") && SlpBody.Token("CSeq")
    ensures SlpBody.Token("Call-ID") && SlpBody.Token("Max-Forwards") && SlpBody.Token("On-Behalf")
  {
    assert SlpBody.TokenFrom("From", 2);
    assert SlpBody.TokenFrom("CSeq", 2);
    assert SlpBody.TokenFrom("Call-ID", 4);
    assert SlpBody.TokenFrom("Call-ID", 2);
    assert SlpBody.TokenFrom("Max-Forwards", 9);
    assert SlpBody.TokenFrom("Max-Forwards", 6);
    assert SlpBody.TokenFrom("Max-Forwards", 3);
    assert SlpBody.TokenFrom("On-Behalf", 6);
    assert SlpBody.TokenFrom("On-Behalf", 3);
  }

  /** An address written from a CR-free account is a clean header value. */
  lemma AddressClean(account: string)
    requires Lacks(account, '\r')
    ensures SlpBody.Clean(Address(account))
  {
    LacksAppend("<msnmsgr:", account, '\r');
    LacksAppend("<msnmsgr:" + account, ">", '\r');
  }

  lemma HeadWritable(to: string, frm: string, branch: string, cseq: int)
    requires Lacks(to, '\r') && Lacks(frm, '\r') && Lacks(branch, '\r')
    ensures Http.AllWritable(Head(to, frm, branch, cseq))
  {
    StdNames();
    AddressClean(to);
    AddressClean(frm);
    if branch != "" {
      LacksAppend("MSNSLP/1.0/TLP ;branch=", branch, '\r');
    }
    Text.ParseIntToString(cseq);
    assert SlpBody.IntText(Some(cseq)) == Some(IntToString(cseq));
    var h1 := SlpBody.Put([], "To", Some(Address(to)));
    var h2 := SlpBody.Put(h1, "From", Some(Address(frm)));
    var h3 := SlpBody.Put(h2, "Via", ViaOf(branch));
    SlpBody.TokenWritable("To", Some(Address(to)));
    SlpBody.TokenWritable("From", Some(Address(frm)));
    SlpBody.TokenWritable("Via", ViaOf(branch));
    SlpBody.TokenWritable("CSeq", Some(IntToString(cseq)));
    SlpBody.PutWritable([], "To", Some(Address(to)));
    SlpBody.PutWritable(h1, "From", Some(Address(frm)));
    SlpBody.PutWritable(h2, "Via", ViaOf(branch));
    SlpBody.PutWritable(h3, "CSeq", Some(IntToString(cseq)));
  }

  lemma TailWritable(hs: seq<Http.Header>, callId: string, maxForwards: int, onBehalf: string)
    requires Http.AllWritable(hs) && SlpBody.Clean(callId) && SlpBody.Clean(onBehalf)
    ensures Http.AllWritable(Tail(hs, callId, maxForwards, onBehalf))
  {
    StdNames();
    Text.ParseIntToString(maxForwards);
    assert SlpBody.IntText(Some(maxForwards)) == Some(IntToString(maxForwards));
    var h1 := SlpBody.Put(hs, "Call-ID", NonEmpty(callId));
    var h2 := SlpBody.Put(h1, "Max-Forwards", Some(IntToString(maxForwards)));
    SlpBody.TokenWritable("Call-ID", NonEmpty(callId));
    SlpBody.TokenWritable("Max-Forwards", Some(IntToString(maxForwards)));
    SlpBody.TokenWritable("On-Behalf", NonEmpty(onBehalf));
    SlpBody.PutWritable(hs, "Call-ID", NonEmpty(callId));
    SlpBody.PutWritable(h1, "Max-Forwards", Some(IntToString(maxForwards)));
    SlpBody.PutWritable(h2, "On-Behalf", NonEmpty(onBehalf));
  }

  /** The standard headers carry no content encoding. */
  lemma StdNoEncoding(to: string, frm: string, branch: string, cseq: int, callId: string,
                      maxForwards: int, onBehalf: string)
    ensures Http.Lookup(StdHeaders(to, frm, branch, cseq, callId, maxForwards, onBehalf), Http.CONTENT_ENCODING).None?
  {
    HeadOther(to, frm, branch, cseq, Http.CONTENT_ENCODING);
    TailLookups(Head(to, frm, branch, cseq), callId, maxForwards, onBehalf, Http.CONTENT_ENCODING);
  }

  /** A session-request body carries no content encoding. */
  lemma SessionRequestNoEncoding(eufGuid: Option<string>, appId: Option<int>, context: Option<seq<byte>>, sessionId: Option<int>)
    ensures Http.Lookup(SlpBody.SessionRequest(eufGuid, appId, context, sessionId, Some(0), Some(1)).headers,
                        Http.CONTENT_ENCODING).None?
  {
    SlpBody.CommonOther(sessionId, Some(0), Some(1), Http.CONTENT_ENCODING);
    SlpBody.RequestHeadersOther(SlpBody.Common(sessionId, Some(0), Some(1)), eufGuid, appId, context, Http.CONTENT_ENCODING);
  }

  /** The invitation a session sends: a request for `MSNMSGR:peer` carrying a session-request
      body. */
  function Invite(verb: string, peer: string, frm: string, branch: string, cseq: int, callId: string,
                  eufGuid: Option<string>, appId: Option<int>, context: Option<seq<byte>>, sessionId: Option<int>): Message
  {
    Message(RequestLine(verb, "MSNMSGR:" + peer), StdHeaders(peer, frm, branch, cseq, callId, 0, ""),
            SlpBody.SessionRequest(eufGuid, appId, context, sessionId, Some(0), Some(1)))
  }

  /** Standard headers from CR-free accounts and branch and a clean call id can be written. */
  lemma StdWritable(to: string, frm: string, branch: string, cseq: int, callId: string)
    requires Lacks(to, '\r') && Lacks(frm, '\r') && Lacks(branch, '\r') && SlpBody.Clean(callId)
    ensures HeadersWritable(StdHeaders(to, frm, branch, cseq, callId, 0, ""))
  {
    HeadWritable(to, frm, branch, cseq);
    assert SlpBody.Clean("");
    TailWritable(Head(to, frm, branch, cseq), callId, 0, "");
    StdNoEncoding(to, frm, branch, cseq, callId, 0, "");
  }

  /** A session-request body with a clean EUF-GUID is a well-formed HTTP message. */
  lemma SessionRequestWellFormed(eufGuid: Option<string>, appId: Option<int>, context: Option<seq<byte>>, sessionId: Option<int>)
    requires eufGuid.Some? ==> SlpBody.Clean(eufGuid.value)
    ensures BodyWritable(SlpBody.SessionRequest(eufGuid, appId, context, sessionId, Some(0), Some(1)))
  {
    SessionRequestNoEncoding(eufGuid, appId, context, sessionId);
    SlpBody.SessionRequestWritable(eufGuid, appId, context, sessionId, Some(0), Some(1));
    SessionRequestKind();
  }

  lemma SessionRequestKind()
    ensures SlpBody.Clean(SlpBody.SESSION_REQUEST)
  {
  }

  /** Blank-free names, a CR-free branch and clean call id and EUF-GUID make an invitation
      whose text reads back. */
  lemma InviteWritable(verb: string, peer: string, frm: string, branch: string, cseq: int, callId: string,
                       eufGuid: Option<string>, appId: Option<int>, context: Option<seq<byte>>, sessionId: Option<int>)
    requires NoSpace(verb) && verb != VERSION && NoSpace(peer) && Lacks(frm, '\r') && Lacks(branch, '\r')
    requires Lacks(branch, '=') && Strip(branch) == branch
    requires SlpBody.Clean(callId) && (eufGuid.Some? ==> SlpBody.Clean(eufGuid.value))
    ensures Writable(Invite(verb, peer, frm, branch, cseq, callId, eufGuid, appId, context, sessionId))
  {
    var m := Invite(verb, peer, frm, branch, cseq, callId, eufGuid, appId, context, sessionId);
    InviteStart(peer);
    assert StartWritable(m.start);
    Http.NoSpaceLacks(peer);
    StdWritable(peer, frm, branch, cseq, callId);
    SessionRequestWellFormed(eufGuid, appId, context, sessionId);
    StdAccessors(m, peer, frm, branch, cseq, callId, 0, "");
  }

  lemma InviteStart(peer: string)
    requires NoSpace(peer)
    ensures NoSpace("MSNMSGR:" + peer) && Contains("MSNMSGR:" + peer, ":")
    ensures SplitOnce("MSNMSGR:" + peer, ":") == Some(("MSNMSGR", peer))
  {
    AccountResource(peer);
  }

  /** The resource `MSNMSGR:account` names the account after its first `:`. */
  lemma AccountResource(account: string)
    ensures Contains("MSNMSGR:" + account, ":")
    ensures SplitOnce("MSNMSGR:" + account, ":") == Some(("MSNMSGR", account))
  {
    assert Lacks("MSNMSGR", ':');
    assert "MSNMSGR:" + account == "MSNMSGR" + ":" + account;
    SplitOnceAfterPrefix("MSNMSGR", ":", account);
  }

  /** What `build` gives back from a writable message's text answers every getter as the
      message does, and carries the same body. */
  lemma BuiltReads(m: Message, nonce: Uuids.Uuid)
    requires Writable(m)
    ensures Serialize(m).Success? && Build(Serialize(m).value, nonce).Success?
    ensures var w := Build(Serialize(m).value, nonce).value;
      && w.start == Normal(m.start) && w.body == m.body
      && To(w) == To(m) && From(w) == From(m) && CSeq(w) == CSeq(m) && CallId(w) == CallId(m) && Branch(w) == Branch(m)
  {
    BuildSerialize(m, nonce);
    ReadersKept(m, Normal(m.start));
    OtherReadersKept(m, Normal(m.start));
  }

  lemma OtherReadersKept(m: Message, line: StartLine)
    ensures var w := Message(line, ContentHeaders(m), m.body);
      CallId(w) == CallId(m) && Branch(w) == Branch(m)
  {
    ContentLookup(m, "Call-ID");
    ContentLookup(m, "Via");
    SameOtherReaders(m, Message(line, ContentHeaders(m), m.body));
  }

  lemma SameOtherReaders(m: Message, w: Message)
    requires Http.Lookup(w.headers, "Call-ID") == Http.Lookup(m.headers, "Call-ID")
    requires Http.Lookup(w.headers, "Via") == Http.Lookup(m.headers, "Via")
    ensures CallId(w) == CallId(m) && Branch(w) == Branch(m)
  {
  }

  /** `build(str(invite))` recovers the method, the resource and addressee, the sender, the
      sequence number, the call id, and the body's EUF-GUID, application id and context bytes. */
  lemma InviteRoundTrip(verb: string, peer: string, frm: string, branch: string, cseq: int, callId: string,
                        eufGuid: Option<string>, appId: Option<int>, context: Option<seq<byte>>, sessionId: Option<int>,
                        nonce: Uuids.Uuid)
    requires NoSpace(verb) && verb != VERSION && NoSpace(peer) && Lacks(frm, '\r') && Lacks(branch, '\r')
    requires Lacks(branch, '=') && Strip(branch) == branch
    requires SlpBody.Clean(callId) && (eufGuid.Some? ==> SlpBody.Clean(eufGuid.value))
    ensures match Serialize(Invite(verb, peer, frm, branch, cseq, callId, eufGuid, appId, context, sessionId))
      case Failure(_) => false
      case Success(text) =>
        match Build(text, nonce)
        case Failure(_) => false
        case Success(w) =>
          && w.start == RequestLine(verb, "MSNMSGR:" + peer) && To(w) == Some(peer)
          && From(w) == Some(frm) && CSeq(w) == Some(cseq) && CallId(w) == callId && Branch(w) == Some(branch)
          && SlpBody.EufGuid(w.body) == eufGuid.GetOr("") && SlpBody.ApplicationId(w.body) == appId.GetOr(0)
          && SlpBody.Context(w.body) == context
  {
    var m := Invite(verb, peer, frm, branch, cseq, callId, eufGuid, appId, context, sessionId);
    InviteWritable(verb, peer, frm, branch, cseq, callId, eufGuid, appId, context, sessionId);
    BuiltReads(m, nonce);
    InviteReads(verb, peer, frm, branch, cseq, callId, eufGuid, appId, context, sessionId);
  }

  /** What the readers find in an invite before it is written. */
  lemma InviteReads(verb: string, peer: string, frm: string, branch: string, cseq: int, callId: string,
                    eufGuid: Option<string>, appId: Option<int>, context: Option<seq<byte>>, sessionId: Option<int>)
    requires NoSpace(peer) && Lacks(branch, '=') && Strip(branch) == branch
    ensures var m := Invite(verb, peer, frm, branch, cseq, callId, eufGuid, appId, context, sessionId);
      && Normal(m.start) == RequestLine(verb, "MSNMSGR:" + peer) && To(m) == Some(peer)
      && From(m) == Some(frm) && CSeq(m) == Some(cseq) && CallId(m) == callId && Branch(m) == Some(branch)
      && SlpBody.EufGuid(m.body) == eufGuid.GetOr("") && SlpBody.ApplicationId(m.body) == appId.GetOr(0)
      && SlpBody.Context(m.body) == context
  {
    var m := Invite(verb, peer, frm, branch, cseq, callId, eufGuid, appId, context, sessionId);
    InviteStart(peer);
    StdAccessors(m, peer, frm, branch, cseq, callId, 0, "");
    SlpBody.SessionRequestAccessors(eufGuid, appId, context, sessionId, Some(0), Some(1));
  }
}

=== FILE: slp_body.dfy ===
/** SLP message bodies (`papyon/msnp2p/SLP.py`): an HTTP-style header block tagged with a
    content type.  Each registered content type has its own constructor, which fills in the
    headers from optional arguments, and typed accessors that read them back.  On the wire a
    body is its header block followed by one NUL. */
module SlpBody {
  import opened Results
  import opened Text
  import opened Bytes
  import opened HttpMessage
  import Base64
  import Uuids

  const NULL: string := "null"
  const SESSION_REQUEST: string := "application/x-msnmsgr-sessionreqbody"
  const SESSION_FAILURE: string := "application/x-msnmsgr-session-failure-respbody"
  const SESSION_CLOSE: string := "application/x-msnmsgr-sessionclosebody"
  const TRANSPORT_REQUEST: string := "application/x-msnmsgr-transreqbody"
  const TRANSPORT_RESPONSE: string := "application/x-msnmsgr-transrespbody"

  const NET_ID: int := -1388627126
  const NAT_TRAV_MSG_TYPE: string := "WLX-Nat-Trav-Msg-Direct-Connect-Req"
  const UNKNOWN_CONNECT: string := "Unknown-Connect"
  const ACCEPTED: int := 200
  const DECLINED: int := 603

  datatype Body = Body(kind: string, headers: seq<Header>, text: string)

  /** A header value that reads back unchanged: no CR and no leading whitespace. */
  predicate Clean(v: string) {
    Lacks(v, '\r') && (v == "" || !IsSpace(v[0]))
  }

  // ---------------------------------------------------------------------------
  // Writing optional headers

  /** `add_header` guarded by `if value is not None`. */
  function Put(hs: seq<Header>, name: string, v: Option<string>): (r: seq<Header>)
    ensures UniqueNames(hs) ==> UniqueNames(r)
    ensures Lookup(r, name) == (if v.Some? then v else Lookup(hs, name))
  {
    if v.Some? then AddHeader(hs, name, v.value) else hs
  }

  /** Writing one name leaves every other name as it was. */
  lemma PutOther(hs: seq<Header>, name: string, v: Option<string>, n: string)
    requires n != name
    ensures Lookup(Put(hs, name, v), n) == Lookup(hs, n)
  {
  }

  lemma PutWritable(hs: seq<Header>, name: string, v: Option<string>)
    requires AllWritable(hs) && (v.Some? ==> Writable((name, v.value)))
    ensures AllWritable(Put(hs, name, v))
  {
    if v.Some? { AddHeaderWritable(hs, name, v.value); }
  }

  /** `str(value)` of an optional integer. */
  function IntText(v: Option<int>): (r: Option<string>)
    ensures r.Some? <==> v.Some?
    ensures r.Some? ==> NoSpace(r.value) && Clean(r.value) && ParseInt(r.value) == v
  {
    if v.Some? then ParseIntToString(v.value); Some(IntToString(v.value)) else None
  }

  /** A header name of printable characters other than `:`, checked from index `i` on, one
      character at a time. */
  predicate TokenFrom(name: string, i: nat)
    decreases |name| - i
  {
    i >= |name| || ('!' <= name[i] <= '~' && name[i] != ':' && TokenFrom(name, i + 1))
  }

  predicate Token(name: string) {
    TokenFrom(name, 0)
  }

  lemma {:induction false} TokenChars(name: string, i: nat)
    requires TokenFrom(name, i)
    ensures forall k :: i <= k < |name| ==> !IsSpace(name[k]) && name[k] != ':'
    decreases |name| - i
  {
    if i < |name| {
      TokenChars(name, i + 1);
    }
  }

  /** A token name is writable next to any clean value. */
  lemma TokenWritable(name: string, v: Option<string>)
    requires Token(name) && (v.Some? ==> Clean(v.value))
    ensures v.Some? ==> Writable((name, v.value))
  {
    TokenChars(name, 0);
  }

  /** The names of the common body headers and of the session-request headers are tokens. */
  lemma BodyNames()
    ensures Token("SessionID") && Token("SChannelState") && Token("Capabilities-Flags")
    ensures Token("EUF-GUID") && Token("AppID") && Token("Context")
  {
    CommonNames();
    RequestNames();
  }

  lemma CommonNames()
    ensures Token("SessionID") && Token("SChannelState") && Token("Capabilities-Flags")
  {
    assert TokenFrom("SessionID", 6) && TokenFrom("SessionID", 3);
    assert TokenFrom("SChannelState", 9) && TokenFrom("SChannelState", 6) && TokenFrom("SChannelState", 3);
    CapabilitiesName();
  }

  lemma CapabilitiesName()
    ensures Token("Capabilities-Flags")
  {
    var n := "Capabilities-Flags";
    assert TokenFrom(n, 15);
    assert TokenFrom(n, 12);
    assert TokenFrom(n, 9);
    assert TokenFrom(n, 6);
    assert TokenFrom(n, 3);
  }

  lemma RequestNames()
    ensures Token("EUF-GUID") && Token("AppID") && Token("Context")
  {
    assert TokenFrom("EUF-GUID", 6) && TokenFrom("EUF-GUID", 3);
    assert TokenFrom("AppID", 3);
    assert TokenFrom("Context", 4);
  }

  // ---------------------------------------------------------------------------
  // The headers every body starts from

  /** `SessionID`, `SChannelState` and `Capabilities-Flags`, each only when given. */
  function Common(sessionId: Option<int>, sChannelState: Option<int>, capabilities: Option<int>): (hs: seq<Header>)
    ensures UniqueNames(hs)
  {
    Put(Put(Put([], "SessionID", IntText(sessionId)), "SChannelState", IntText(sChannelState)),
        "Capabilities-Flags", IntText(capabilities))
  }

  /** The common headers hold the given values. */
  lemma CommonLookups(sessionId: Option<int>, sChannelState: Option<int>, capabilities: Option<int>)
    ensures Lookup(Common(sessionId, sChannelState, capabilities), "SessionID") == IntText(sessionId)
    ensures Lookup(Common(sessionId, sChannelState, capabilities), "SChannelState") == IntText(sChannelState)
    ensures Lookup(Common(sessionId, sChannelState, capabilities), "Capabilities-Flags") == IntText(capabilities)
  {
    CommonNamesDiffer();
    ThreePuts("SessionID", IntText(sessionId), "SChannelState", IntText(sChannelState),
              "Capabilities-Flags", IntText(capabilities));
  }

  lemma CommonNamesDiffer()
    ensures "SessionID" != "SChannelState" && "SessionID" != "Capabilities-Flags"
    ensures "SChannelState" != "Capabilities-Flags"
  {
  }

  /** Three distinct names written in turn each hold what was written for them. */
  lemma ThreePuts(n1: string, v1: Option<string>, n2: string, v2: Option<string>, n3: string, v3: Option<string>)
    requires n1 != n2 && n1 != n3 && n2 != n3
    ensures var hs := Put(Put(Put([], n1, v1), n2, v2), n3, v3);
      Lookup(hs, n1) == v1 && Lookup(hs, n2) == v2 && Lookup(hs, n3) == v3
  {
    var hs1 := Put([], n1, v1);
    var hs2 := Put(hs1, n2, v2);
    PutOther(hs1, n2, v2, n1);
    PutOther(hs2, n3, v3, n1);
    PutOther(hs2, n3, v3, n2);
    PutOther([], n1, v1, n2);
    PutOther([], n1, v1, n3);
    PutOther(hs1, n2, v2, n3);
  }

  /** The common headers hold nothing else. */
  lemma CommonOther(sessionId: Option<int>, sChannelState: Option<int>, capabilities: Option<int>, n: string)
    requires n != "SessionID" && n != "SChannelState" && n != "Capabilities-Flags"
    ensures Lookup(Common(sessionId, sChannelState, capabilities), n).None?
  {
    var hs1 := Put([], "SessionID", IntText(sessionId));
    var hs2 := Put(hs1, "SChannelState", IntText(sChannelState));
    PutOther([], "SessionID", IntText(sessionId), n);
    PutOther(hs1, "SChannelState", IntText(sChannelState), n);
    PutOther(hs2, "Capabilities-Flags", IntText(capabilities), n);
  }

  lemma CommonWritable(sessionId: Option<int>, sChannelState: Option<int>, capabilities: Option<int>)
    ensures AllWritable(Common(sessionId, sChannelState, capabilities))
  {
    var hs1 := Put([], "SessionID", IntText(sessionId));
    var hs2 := Put(hs1, "SChannelState", IntText(sChannelState));
    BodyNames();
    TokenWritable("SessionID", IntText(sessionId));
    TokenWritable("SChannelState", IntText(sChannelState));
    TokenWritable("Capabilities-Flags", IntText(capabilities));
    PutWritable([], "SessionID", IntText(sessionId));
    PutWritable(hs1, "SChannelState", IntText(sChannelState));
    PutWritable(hs2, "Capabilities-Flags", IntText(capabilities));
  }

  // ---------------------------------------------------------------------------
  // Accessors shared by every body

  /** An integer header, or 0 when it is missing or not a number. */
  function IntHeader(b: Body, name: string): int {
    match Lookup(b.headers, name)
    case None => 0
    case Some(v) => ParseInt(v).GetOr(0)
  }

  /** A text header, or "" when it is missing. */
  function TextHeader(b: Body, name: string): string {
    Lookup(b.headers, name).GetOr("")
  }

  function SessionId(b: Body): int { IntHeader(b, "SessionID") }
  function SChannelState(b: Body): int { IntHeader(b, "SChannelState") }
  function CapabilitiesFlags(b: Body): int { IntHeader(b, "Capabilities-Flags") }

  /** The `Context` header decoded from base64; `None` when it is missing or undecodable. */
  function Context(b: Body): Option<seq<byte>> {
    match Lookup(b.headers, "Context")
    case None => None
    case Some(v) => Base64.Decode(v)
  }

  /** Base64 text of an optional context. */
  function EncodeContext(context: Option<seq<byte>>): (r: Option<string>)
    ensures r.Some? <==> context.Some?
    ensures r.Some? ==> Clean(r.value) && Base64.Decode(r.value) == context
  {
    if context.Some? then
      EncodedClean(context.value);
      Base64.DecodeEncode(context.value);
      Some(Base64.Encode(context.value))
    else None
  }

  lemma EncodedClean(bs: seq<byte>)
    ensures Clean(Base64.Encode(bs))
  {
    var e := Base64.Encode(bs);
    forall i | 0 <= i < |e| ensures e[i] != '\r' && !IsSpace(e[i]) {
      assert Base64.Encoded(e[i]);
    }
  }

  /** `SLPMessageBody(content_type, session_id, s_channel_state, capabilities_flags)`: the
      generic body, also the one built for an unregistered content type. */
  function Generic(kind: string, sessionId: Option<int>, sChannelState: Option<int>, capabilities: Option<int>): (b: Body)
    ensures b.kind == kind && b.text == "" && UniqueNames(b.headers)
  {
    Body(kind, Common(sessionId, sChannelState, capabilities), "")
  }

  /** The generic accessors give back the constructor's arguments, 0 for those left out. */
  lemma GenericAccessors(kind: string, sessionId: Option<int>, sChannelState: Option<int>, capabilities: Option<int>)
    ensures SessionId(Generic(kind, sessionId, sChannelState, capabilities)) == sessionId.GetOr(0)
    ensures SChannelState(Generic(kind, sessionId, sChannelState, capabilities)) == sChannelState.GetOr(0)
    ensures CapabilitiesFlags(Generic(kind, sessionId, sChannelState, capabilities)) == capabilities.GetOr(0)
    ensures AllWritable(Generic(kind, sessionId, sChannelState, capabilities).headers)
  {
    CommonLookups(sessionId, sChannelState, capabilities);
    CommonWritable(sessionId, sChannelState, capabilities);
  }

  /** `SLPNullBody()`. */
  function Null(): (b: Body)
    ensures b.kind == NULL
  {
    Generic(NULL, None, Some(0), Some(1))
  }

  // ---------------------------------------------------------------------------
  // Session request

  /** `SLPSessionRequestBody`: the invitation's EUF-GUID, application id and base64 context. */
  function SessionRequest(eufGuid: Option<string>, appId: Option<int>, context: Option<seq<byte>>,
                          sessionId: Option<int>, sChannelState: Option<int>, capabilities: Option<int>): (b: Body)
    ensures b.kind == SESSION_REQUEST && b.text == "" && UniqueNames(b.headers)
  {
    Body(SESSION_REQUEST, RequestHeaders(Common(sessionId, sChannelState, capabilities), eufGuid, appId, context), "")
  }

  function EufGuid(b: Body): string { TextHeader(b, "EUF-GUID") }
  function ApplicationId(b: Body): int { IntHeader(b, "AppID") }

  /** The headers a session request adds on top of the common ones. */
  function RequestHeaders(hs: seq<Header>, eufGuid: Option<string>, appId: Option<int>, context: Option<seq<byte>>): seq<Header> {
    Put(Put(Put(hs, "EUF-GUID", eufGuid), "AppID", IntText(appId)), "Context", EncodeContext(context))
  }

  lemma RequestHeadersEuf(hs: seq<Header>, eufGuid: Option<string>, appId: Option<int>, context: Option<seq<byte>>)
    ensures Lookup(RequestHeaders(hs, eufGuid, appId, context), "EUF-GUID") == if eufGuid.Some? then eufGuid else Lookup(hs, "EUF-GUID")
  {
    var hs1 := Put(hs, "EUF-GUID", eufGuid);
    var hs2 := Put(hs1, "AppID", IntText(appId));
    PutOther(hs1, "AppID", IntText(appId), "EUF-GUID");
    PutOther(hs2, "Context", EncodeContext(context), "EUF-GUID");
  }

  lemma RequestHeadersAppId(hs: seq<Header>, eufGuid: Option<string>, appId: Option<int>, context: Option<seq<byte>>)
    ensures Lookup(RequestHeaders(hs, eufGuid, appId, context), "AppID") == if appId.Some? then IntText(appId) else Lookup(hs, "AppID")
  {
    var hs1 := Put(hs, "EUF-GUID", eufGuid);
    var hs2 := Put(hs1, "AppID", IntText(appId));
    PutOther(hs, "EUF-GUID", eufGuid, "AppID");
    PutOther(hs2, "Context", EncodeContext(context), "AppID");
  }

  lemma RequestHeadersContext(hs: seq<Header>, eufGuid: Option<string>, appId: Option<int>, context: Option<seq<byte>>)
    ensures Lookup(RequestHeaders(hs, eufGuid, appId, context), "Context") == if context.Some? then EncodeContext(context) else Lookup(hs, "Context")
  {
    var hs1 := Put(hs, "EUF-GUID", eufGuid);
    PutOther(hs, "EUF-GUID", eufGuid, "Context");
    PutOther(hs1, "AppID", IntText(appId), "Context");
  }

  lemma RequestHeadersOther(hs: seq<Header>, eufGuid: Option<string>, appId: Option<int>, context: Option<seq<byte>>, n: string)
    requires n != "EUF-GUID" && n != "AppID" && n != "Context"
    ensures Lookup(RequestHeaders(hs, eufGuid, appId, context), n) == Lookup(hs, n)
  {
    var hs1 := Put(hs, "EUF-GUID", eufGuid);
    var hs2 := Put(hs1, "AppID", IntText(appId));
    PutOther(hs, "EUF-GUID", eufGuid, n);
    PutOther(hs1, "AppID", IntText(appId), n);
    PutOther(hs2, "Context", EncodeContext(context), n);
  }

  /** The session-request headers hold the constructor's values, and nothing where an
      argument was left out. */
  lemma SessionRequestLookups(eufGuid: Option<string>, appId: Option<int>, context: Option<seq<byte>>,
                              sessionId: Option<int>, sChannelState: Option<int>, capabilities: Option<int>)
    ensures var hs := SessionRequest(eufGuid, appId, context, sessionId, sChannelState, capabilities).headers;
      Lookup(hs, "EUF-GUID") == eufGuid && Lookup(hs, "AppID") == IntText(appId)
      && Lookup(hs, "Context") == EncodeContext(context) && Lookup(hs, "SessionID") == IntText(sessionId)
  {
    RequestLookupsFirst(eufGuid, appId, context, sessionId, sChannelState, capabilities);
    RequestLookupsLast(eufGuid, appId, context, sessionId, sChannelState, capabilities);
  }

  lemma RequestLookupsFirst(eufGuid: Option<string>, appId: Option<int>, context: Option<seq<byte>>,
                            sessionId: Option<int>, sChannelState: Option<int>, capabilities: Option<int>)
    ensures var hs := SessionRequest(eufGuid, appId, context, sessionId, sChannelState, capabilities).headers;
      Lookup(hs, "EUF-GUID") == eufGuid && Lookup(hs, "AppID") == IntText(appId)
  {
    var hs := Common(sessionId, sChannelState, capabilities);
    CommonOther(sessionId, sChannelState, capabilities, "EUF-GUID");
    CommonOther(sessionId, sChannelState, capabilities, "AppID");
    RequestHeadersEuf(hs, eufGuid, appId, context);
    RequestHeadersAppId(hs, eufGuid, appId, context);
  }

  lemma RequestLookupsLast(eufGuid: Option<string>, appId: Option<int>, context: Option<seq<byte>>,
                           sessionId: Option<int>, sChannelState: Option<int>, capabilities: Option<int>)
    ensures var hs := SessionRequest(eufGuid, appId, context, sessionId, sChannelState, capabilities).headers;
      Lookup(hs, "Context") == EncodeContext(context) && Lookup(hs, "SessionID") == IntText(sessionId)
  {
    var hs := Common(sessionId, sChannelState, capabilities);
    CommonLookups(sessionId, sChannelState, capabilities);
    CommonOther(sessionId, sChannelState, capabilities, "Context");
    RequestHeadersContext(hs, eufGuid, appId, context);
    RequestHeadersOther(hs, eufGuid, appId, context, "SessionID");
  }

  /** Each session-request accessor returns what the constructor was given, or its default
      when the argument was left out; the context survives its base64 encoding. */
  lemma SessionRequestAccessors(eufGuid: Option<string>, appId: Option<int>, context: Option<seq<byte>>,
                                sessionId: Option<int>, sChannelState: Option<int>, capabilities: Option<int>)
    ensures EufGuid(SessionRequest(eufGuid, appId, context, sessionId, sChannelState, capabilities)) == eufGuid.GetOr("")
    ensures ApplicationId(SessionRequest(eufGuid, appId, context, sessionId, sChannelState, capabilities)) == appId.GetOr(0)
    ensures Context(SessionRequest(eufGuid, appId, context, sessionId, sChannelState, capabilities)) == context
    ensures SessionId(SessionRequest(eufGuid, appId, context, sessionId, sChannelState, capabilities)) == sessionId.GetOr(0)
  {
    SessionRequestLookups(eufGuid, appId, context, sessionId, sChannelState, capabilities);
  }

  /** A session request with a clean EUF-GUID serialises to header lines that parse back. */
  lemma SessionRequestWritable(eufGuid: Option<string>, appId: Option<int>, context: Option<seq<byte>>,
                               sessionId: Option<int>, sChannelState: Option<int>, capabilities: Option<int>)
    requires eufGuid.Some? ==> Clean(eufGuid.value)
    ensures AllWritable(SessionRequest(eufGuid, appId, context, sessionId, sChannelState, capabilities).headers)
  {
    var hs := Common(sessionId, sChannelState, capabilities);
    var hs1 := Put(hs, "EUF-GUID", eufGuid);
    var hs2 := Put(hs1, "AppID", IntText(appId));
    CommonWritable(sessionId, sChannelState, capabilities);
    BodyNames();
    TokenWritable("EUF-GUID", eufGuid);
    TokenWritable("AppID", IntText(appId));
    TokenWritable("Context", EncodeContext(context));
    PutWritable(hs, "EUF-GUID", eufGuid);
    PutWritable(hs1, "AppID", IntText(appId));
    PutWritable(hs2, "Context", EncodeContext(context));
  }

  // ---------------------------------------------------------------------------
  // Session close and failure

  /** The endpoint named in `AcceptedBy` / `DeclinedBy`: braced and upper-cased. */
  function Verdict(reason: Option<(int, string)>): Option<string> {
    if reason.Some? then Some("{" + Upper(reason.value.1) + "}") else None
  }

  /** `AcceptedBy` when the reason's status is 200, `DeclinedBy` when it is 603. */
  function WithVerdict(hs: seq<Header>, reason: Option<(int, string)>): (r: seq<Header>)
    ensures UniqueNames(hs) ==> UniqueNames(r)
  {
    if reason.Some? && reason.value.0 == ACCEPTED then Put(hs, "AcceptedBy", Verdict(reason))
    else if reason.Some? && reason.value.0 == DECLINED then Put(hs, "DeclinedBy", Verdict(reason))
    else hs
  }

  /** `SLPSessionCloseBody`: an optional context, and `AcceptedBy` or `DeclinedBy` naming the
      endpoint when the reason's status is 200 or 603. */
  function SessionClose(context: Option<seq<byte>>, sessionId: Option<int>, reason: Option<(int, string)>,
                        sChannelState: Option<int>, capabilities: Option<int>): (b: Body)
    ensures b.kind == SESSION_CLOSE && b.text == "" && UniqueNames(b.headers)
  {
    Body(SESSION_CLOSE, WithVerdict(Put(Common(sessionId, sChannelState, capabilities), "Context", EncodeContext(context)), reason), "")
  }

  /** On headers without a verdict, `AcceptedBy` appears exactly for status 200, `DeclinedBy`
      exactly for status 603, and the context is left alone. */
  lemma WithVerdictLookups(hs: seq<Header>, reason: Option<(int, string)>)
    requires Lookup(hs, "AcceptedBy").None? && Lookup(hs, "DeclinedBy").None?
    ensures Lookup(WithVerdict(hs, reason), "AcceptedBy").Some? <==> reason.Some? && reason.value.0 == ACCEPTED
    ensures Lookup(WithVerdict(hs, reason), "DeclinedBy").Some? <==> reason.Some? && reason.value.0 == DECLINED
    ensures Lookup(WithVerdict(hs, reason), "Context") == Lookup(hs, "Context")
  {
    if reason.Some? && reason.value.0 == ACCEPTED {
      PutOther(hs, "AcceptedBy", Verdict(reason), "Context");
      PutOther(hs, "AcceptedBy", Verdict(reason), "DeclinedBy");
    } else if reason.Some? && reason.value.0 == DECLINED {
      PutOther(hs, "DeclinedBy", Verdict(reason), "Context");
      PutOther(hs, "DeclinedBy", Verdict(reason), "AcceptedBy");
    }
  }

  /** The close body reads back its context, and carries `AcceptedBy` exactly for status 200
      and `DeclinedBy` exactly for status 603. */
  lemma SessionCloseAccessors(context: Option<seq<byte>>, sessionId: Option<int>, reason: Option<(int, string)>,
                              sChannelState: Option<int>, capabilities: Option<int>)
    ensures Context(SessionClose(context, sessionId, reason, sChannelState, capabilities)) == context
    ensures Lookup(SessionClose(context, sessionId, reason, sChannelState, capabilities).headers, "AcceptedBy").Some?
            <==> reason.Some? && reason.value.0 == ACCEPTED
    ensures Lookup(SessionClose(context, sessionId, reason, sChannelState, capabilities).headers, "DeclinedBy").Some?
            <==> reason.Some? && reason.value.0 == DECLINED
  {
    var hs0 := Common(sessionId, sChannelState, capabilities);
    var hs := Put(hs0, "Context", EncodeContext(context));
    CommonOther(sessionId, sChannelState, capabilities, "AcceptedBy");
    CommonOther(sessionId, sChannelState, capabilities, "Context");
    CommonOther(sessionId, sChannelState, capabilities, "DeclinedBy");
    PutOther(hs0, "Context", EncodeContext(context), "AcceptedBy");
    PutOther(hs0, "Context", EncodeContext(context), "DeclinedBy");
    WithVerdictLookups(hs, reason);
  }

  /** `SLPSessionFailureResponseBody`. */
  function SessionFailure(sessionId: Option<int>, sChannelState: Option<int>, capabilities: Option<int>): (b: Body)
    ensures b.kind == SESSION_FAILURE
  {
    Generic(SESSION_FAILURE, sessionId, sChannelState, capabilities)
  }

  // ---------------------------------------------------------------------------
  // Transport request

  /** The braced upper-case text of a nonce. */
  function NonceText(nonce: Uuids.Uuid): string {
    "{" + Upper(Uuids.Format(nonce)) + "}"
  }

  /** The nonce accessor: `uuid.UUID(header[1:-1])`, `None` where the source returns "". */
  function NonceOf(b: Body): Option<Uuids.Uuid> {
    match Lookup(b.headers, "Nonce")
    case None => None
    case Some(v) => Uuids.Parse(Unbrace(v))
  }

  lemma NonceTextParses(nonce: Uuids.Uuid)
    ensures Uuids.Parse(Unbrace(NonceText(nonce))) == Some(nonce)
  {
    var t := NonceText(nonce);
    assert Unbrace(t) == Upper(Uuids.Format(nonce));
    Uuids.ParseFormat(nonce);
  }

  /** `SLPTransportRequestBody`: the offered bridges, the connection type and a fresh nonce
      (the random draw is the `nonce` argument). */
  function TransportRequest(sessionId: Option<int>, sChannelState: Option<int>, capabilities: Option<int>,
                            bridges: seq<string>, connType: string, upnp: bool, firewall: bool,
                            nonce: Uuids.Uuid): (b: Body)
    ensures b.kind == TRANSPORT_REQUEST && b.text == "" && UniqueNames(b.headers)
  {
    var hs := Put(Put(Common(sessionId, sChannelState, capabilities), "NetID", Some(IntToString(NET_ID))),
                  "Bridges", Some(Join(bridges, " ")));
    Body(TRANSPORT_REQUEST, RequestTail(hs, connType, upnp, firewall, nonce), "")
  }

  /** The headers a transport request writes after its bridges. */
  function RequestTail(hs: seq<Header>, connType: string, upnp: bool, firewall: bool, nonce: Uuids.Uuid): (r: seq<Header>)
    ensures UniqueNames(hs) ==> UniqueNames(r)
  {
    var hs1 := Put(Put(hs, "Conn-Type", Some(connType)), "TCP-Conn-Type", Some(connType));
    var hs2 := Put(Put(hs1, "UPnPNat", Some(if upnp then "true" else "false")), "ICF", Some(if firewall then "true" else "false"));
    Put(Put(hs2, "Nonce", Some(NonceText(nonce))), "Nat-Trav-Msg-Type", Some(NAT_TRAV_MSG_TYPE))
  }

  lemma RequestTailNonce(hs: seq<Header>, connType: string, upnp: bool, firewall: bool, nonce: Uuids.Uuid)
    ensures Lookup(RequestTail(hs, connType, upnp, firewall, nonce), "Nonce") == Some(NonceText(nonce))
  {
    var hs1 := Put(Put(hs, "Conn-Type", Some(connType)), "TCP-Conn-Type", Some(connType));
    var hs2 := Put(Put(hs1, "UPnPNat", Some(if upnp then "true" else "false")), "ICF", Some(if firewall then "true" else "false"));
    PutOther(Put(hs2, "Nonce", Some(NonceText(nonce))), "Nat-Trav-Msg-Type", Some(NAT_TRAV_MSG_TYPE), "Nonce");
  }

  lemma RequestTailBridges(hs: seq<Header>, connType: string, upnp: bool, firewall: bool, nonce: Uuids.Uuid)
    ensures Lookup(RequestTail(hs, connType, upnp, firewall, nonce), "Bridges") == Lookup(hs, "Bridges")
  {
    var hsB := Put(hs, "Conn-Type", Some(connType));
    var hs1 := Put(hsB, "TCP-Conn-Type", Some(connType));
    var hsC := Put(hs1, "UPnPNat", Some(if upnp then "true" else "false"));
    var hs2 := Put(hsC, "ICF", Some(if firewall then "true" else "false"));
    var hsD := Put(hs2, "Nonce", Some(NonceText(nonce)));
    PutOther(hs, "Conn-Type", Some(connType), "Bridges");
    PutOther(hsB, "TCP-Conn-Type", Some(connType), "Bridges");
    PutOther(hs1, "UPnPNat", Some(if upnp then "true" else "false"), "Bridges");
    PutOther(hsC, "ICF", Some(if firewall then "true" else "false"), "Bridges");
    PutOther(hs2, "Nonce", Some(NonceText(nonce)), "Bridges");
    PutOther(hsD, "Nat-Trav-Msg-Type", Some(NAT_TRAV_MSG_TYPE), "Bridges");
  }

  /** `bridges`: the space-separated names, or none when the header is missing. */
  function Bridges(b: Body): seq<string> {
    match Lookup(b.headers, "Bridges")
    case None => []
    case Some(v) => Split(v, " ")
  }

  /** The transport request reads back its nonce, and its bridges as given, except that an
      empty list reads back as one empty name, since `"".split(" ")` is `[""]`. */
  lemma TransportRequestAccessors(sessionId: Option<int>, sChannelState: Option<int>, capabilities: Option<int>,
                                  bridges: seq<string>, connType: string, upnp: bool, firewall: bool,
                                  nonce: Uuids.Uuid)
    requires forall i :: 0 <= i < |bridges| ==> Lacks(bridges[i], ' ')
    ensures NonceOf(TransportRequest(sessionId, sChannelState, capabilities, bridges, connType, upnp, firewall, nonce)) == Some(nonce)
    ensures Bridges(TransportRequest(sessionId, sChannelState, capabilities, bridges, connType, upnp, firewall, nonce))
            == if bridges == [] then [""] else bridges
  {
    TransportRequestNonce(sessionId, sChannelState, capabilities, bridges, connType, upnp, firewall, nonce);
    TransportRequestBridges(sessionId, sChannelState, capabilities, bridges, connType, upnp, firewall, nonce);
  }

  lemma TransportRequestNonce(sessionId: Option<int>, sChannelState: Option<int>, capabilities: Option<int>,
                              bridges: seq<string>, connType: string, upnp: bool, firewall: bool,
                              nonce: Uuids.Uuid)
    ensures NonceOf(TransportRequest(sessionId, sChannelState, capabilities, bridges, connType, upnp, firewall, nonce)) == Some(nonce)
  {
    var hs := Put(Put(Common(sessionId, sChannelState, capabilities), "NetID", Some(IntToString(NET_ID))),
                  "Bridges", Some(Join(bridges, " ")));
    RequestTailNonce(hs, connType, upnp, firewall, nonce);
    NonceTextParses(nonce);
  }

  lemma TransportRequestBridges(sessionId: Option<int>, sChannelState: Option<int>, capabilities: Option<int>,
                                bridges: seq<string>, connType: string, upnp: bool, firewall: bool,
                                nonce: Uuids.Uuid)
    requires forall i :: 0 <= i < |bridges| ==> Lacks(bridges[i], ' ')
    ensures Bridges(TransportRequest(sessionId, sChannelState, capabilities, bridges, connType, upnp, firewall, nonce))
            == if bridges == [] then [""] else bridges
  {
    var hs := Put(Put(Common(sessionId, sChannelState, capabilities), "NetID", Some(IntToString(NET_ID))),
                  "Bridges", Some(Join(bridges, " ")));
    RequestTailBridges(hs, connType, upnp, firewall, nonce);
    if bridges == [] {
      SplitWhole("", " ");
    } else {
      SplitJoin(bridges, " ");
    }
  }

  // ---------------------------------------------------------------------------
  // Transport response, with the version-2 reversed address headers

  /** `_add_header`: from version 2 on, name and value are written back to front. */
  function VPut(hs: seq<Header>, name: string, v: Option<string>, version: int): (r: seq<Header>)
    ensures UniqueNames(hs) ==> UniqueNames(r)
  {
    if version >= 2 then Put(hs, Reverse(name), if v.Some? then Some(Reverse(v.value)) else None)
    else Put(hs, name, v)
  }

  /** `_get_header`, the matching reader (`None` where the source raises `KeyError`). */
  function VLookup(hs: seq<Header>, name: string, version: int): Option<string> {
    if version >= 2 then
      match Lookup(hs, Reverse(name))
      case None => None
      case Some(v) => Some(Reverse(v))
    else Lookup(hs, name)
  }

  /** What `_add_header` wrote, `_get_header` reads, in either version. */
  lemma VLookupVPut(hs: seq<Header>, name: string, v: Option<string>, version: int)
    ensures VLookup(VPut(hs, name, v, version), name, version) == if v.Some? then v else VLookup(hs, name, version)
  {
    if v.Some? { ReverseReverse(v.value); }
  }

  /** `_add_header` of one name leaves `_get_header` of another unchanged. */
  lemma VLookupVPutOther(hs: seq<Header>, name: string, v: Option<string>, n: string, version: int)
    requires n != name
    ensures VLookup(VPut(hs, name, v, version), n, version) == VLookup(hs, n, version)
  {
    if version >= 2 {
      if Reverse(n) == Reverse(name) {
        ReverseReverse(n);
        ReverseReverse(name);
      }
      PutOther(hs, Reverse(name), if v.Some? then Some(Reverse(v.value)) else None, Reverse(n));
    } else {
      PutOther(hs, name, v, n);
    }
  }

  /** A plain `add_header` of a name that is neither `n` nor `n` reversed leaves
      `_get_header` of `n` unchanged. */
  lemma VLookupPut(hs: seq<Header>, name: string, v: Option<string>, n: string, version: int)
    requires name != n && name != Reverse(n)
    ensures VLookup(Put(hs, name, v), n, version) == VLookup(hs, n, version)
  {
    PutOther(hs, name, v, n);
    PutOther(hs, name, v, Reverse(n));
  }

  const INTERNAL_ADDRS: string := "IPv4Internal-Addrs"
  const INTERNAL_PORT: string := "IPv4Internal-Port"
  const EXTERNAL_ADDRS: string := "IPv4External-Addrs"
  const EXTERNAL_PORT: string := "IPv4External-Port"

  /** Space-joined addresses of an optional list. */
  function IpsText(ips: Option<seq<string>>): Option<string> {
    if ips.Some? then Some(Join(ips.value, " ")) else None
  }

  /** The four address headers, written in order through `_add_header`. */
  function AddressHeaders(hs: seq<Header>, internalIps: Option<seq<string>>, internalPort: Option<int>,
                          externalIps: Option<seq<string>>, externalPort: Option<int>, version: int): (r: seq<Header>)
    ensures UniqueNames(hs) ==> UniqueNames(r)
  {
    VPut(VPut(VPut(VPut(hs, INTERNAL_ADDRS, IpsText(internalIps), version), INTERNAL_PORT, IntText(internalPort), version),
              EXTERNAL_ADDRS, IpsText(externalIps), version), EXTERNAL_PORT, IntText(externalPort), version)
  }

  /** The `_get_header` readers see the address headers as written. */
  lemma AddressHeadersRead(hs: seq<Header>, internalIps: Option<seq<string>>, internalPort: Option<int>,
                           externalIps: Option<seq<string>>, externalPort: Option<int>, version: int)
    ensures VLookup(AddressHeaders(hs, internalIps, internalPort, externalIps, externalPort, version), INTERNAL_ADDRS, version)
            == if internalIps.Some? then IpsText(internalIps) else VLookup(hs, INTERNAL_ADDRS, version)
    ensures VLookup(AddressHeaders(hs, internalIps, internalPort, externalIps, externalPort, version), INTERNAL_PORT, version)
            == if internalPort.Some? then IntText(internalPort) else VLookup(hs, INTERNAL_PORT, version)
    ensures VLookup(AddressHeaders(hs, internalIps, internalPort, externalIps, externalPort, version), EXTERNAL_ADDRS, version)
            == if externalIps.Some? then IpsText(externalIps) else VLookup(hs, EXTERNAL_ADDRS, version)
    ensures VLookup(AddressHeaders(hs, internalIps, internalPort, externalIps, externalPort, version), EXTERNAL_PORT, version)
            == if externalPort.Some? then IntText(externalPort) else VLookup(hs, EXTERNAL_PORT, version)
  {
    var hs1 := VPut(hs, INTERNAL_ADDRS, IpsText(internalIps), version);
    var hs2 := VPut(hs1, INTERNAL_PORT, IntText(internalPort), version);
    var hs3 := VPut(hs2, EXTERNAL_ADDRS, IpsText(externalIps), version);
    VLookupVPut(hs, INTERNAL_ADDRS, IpsText(internalIps), version);
    VLookupVPutOther(hs1, INTERNAL_PORT, IntText(internalPort), INTERNAL_ADDRS, version);
    VLookupVPutOther(hs2, EXTERNAL_ADDRS, IpsText(externalIps), INTERNAL_ADDRS, version);
    VLookupVPutOther(hs3, EXTERNAL_PORT, IntText(externalPort), INTERNAL_ADDRS, version);
    VLookupVPutOther(hs, INTERNAL_ADDRS, IpsText(internalIps), INTERNAL_PORT, version);
    VLookupVPut(hs1, INTERNAL_PORT, IntText(internalPort), version);
    VLookupVPutOther(hs2, EXTERNAL_ADDRS, IpsText(externalIps), INTERNAL_PORT, version);
    VLookupVPutOther(hs3, EXTERNAL_PORT, IntText(externalPort), INTERNAL_PORT, version);
    VLookupVPutOther(hs, INTERNAL_ADDRS, IpsText(internalIps), EXTERNAL_ADDRS, version);
    VLookupVPutOther(hs1, INTERNAL_PORT, IntText(internalPort), EXTERNAL_ADDRS, version);
    VLookupVPut(hs2, EXTERNAL_ADDRS, IpsText(externalIps), version);
    VLookupVPutOther(hs3, EXTERNAL_PORT, IntText(externalPort), EXTERNAL_ADDRS, version);
    VLookupVPutOther(hs, INTERNAL_ADDRS, IpsText(internalIps), EXTERNAL_PORT, version);
    VLookupVPutOther(hs1, INTERNAL_PORT, IntText(internalPort), EXTERNAL_PORT, version);
    VLookupVPutOther(hs2, EXTERNAL_ADDRS, IpsText(externalIps), EXTERNAL_PORT, version);
    VLookupVPut(hs3, EXTERNAL_PORT, IntText(externalPort), version);
  }

  /** The headers written before the address headers. */
  function ResponseHead(bridge: Option<string>, listening: Option<bool>, nonce: Option<Uuids.Uuid>,
                        sessionId: Option<int>, sChannelState: Option<int>, capabilities: Option<int>): (hs: seq<Header>)
    ensures UniqueNames(hs)
  {
    Put(Put(Put(Common(sessionId, sChannelState, capabilities), "Bridge", bridge), "Listening", ListeningText(listening)),
        "Nonce", NonceOption(nonce))
  }

  function ListeningText(listening: Option<bool>): Option<string> {
    if listening.Some? then Some(if listening.value then "true" else "false") else None
  }

  function NonceOption(nonce: Option<Uuids.Uuid>): Option<string> {
    if nonce.Some? then Some(NonceText(nonce.value)) else None
  }

  /** The headers written after the address headers. */
  function ResponseTail(hs: seq<Header>, connType: string): (r: seq<Header>)
    ensures UniqueNames(hs) ==> UniqueNames(r)
  {
    Put(Put(Put(Put(hs, "Nat-Trav-Msg-Type", Some(NAT_TRAV_MSG_TYPE)), "Conn-Type", Some(connType)),
            "TCP-Conn-Type", Some(connType)), "IPv6-global", Some(""))
  }

  /** `SLPTransportResponseBody`. */
  function TransportResponse(bridge: Option<string>, listening: Option<bool>, nonce: Option<Uuids.Uuid>,
                             internalIps: Option<seq<string>>, internalPort: Option<int>,
                             externalIps: Option<seq<string>>, externalPort: Option<int>,
                             sessionId: Option<int>, sChannelState: Option<int>, capabilities: Option<int>,
                             connType: string, version: int): (b: Body)
    ensures b.kind == TRANSPORT_RESPONSE && b.text == "" && UniqueNames(b.headers)
  {
    var head := ResponseHead(bridge, listening, nonce, sessionId, sChannelState, capabilities);
    Body(TRANSPORT_RESPONSE, ResponseTail(AddressHeaders(head, internalIps, internalPort, externalIps, externalPort, version), connType), "")
  }

  /** No name written by the tail is an address header name, forwards or reversed. */
  lemma TailSkipsAddresses(hs: seq<Header>, connType: string, n: string, version: int)
    requires AddressName(n)
    ensures VLookup(ResponseTail(hs, connType), n, version) == VLookup(hs, n, version)
  {
    var hs1 := Put(hs, "Nat-Trav-Msg-Type", Some(NAT_TRAV_MSG_TYPE));
    var hs2 := Put(hs1, "Conn-Type", Some(connType));
    var hs3 := Put(hs2, "TCP-Conn-Type", Some(connType));
    AddressNameShape(n);
    VLookupPut(hs, "Nat-Trav-Msg-Type", Some(NAT_TRAV_MSG_TYPE), n, version);
    VLookupPut(hs1, "Conn-Type", Some(connType), n, version);
    VLookupPut(hs2, "TCP-Conn-Type", Some(connType), n, version);
    VLookupPut(hs3, "IPv6-global", Some(""), n, version);
  }

  predicate AddressName(n: string) {
    n == INTERNAL_ADDRS || n == INTERNAL_PORT || n == EXTERNAL_ADDRS || n == EXTERNAL_PORT
  }

  /** Address header names start with `I` and end with `s` or `t`, which tells them, and their
      reversals, apart from every other body header name. */
  lemma AddressNameShape(n: string)
    requires AddressName(n)
    ensures |n| > 0 && n[0] == 'I' && (Reverse(n)[0] == 's' || Reverse(n)[0] == 't')
  {
    assert Reverse(n)[0] == n[|n| - 1];
  }

  /** The names the head writes are not address header names, forwards or reversed. */
  lemma HeadNamesDiffer(n: string)
    requires AddressName(n)
    ensures n != "SessionID" && n != "SChannelState" && n != "Capabilities-Flags"
    ensures Reverse(n) != "SessionID" && Reverse(n) != "SChannelState" && Reverse(n) != "Capabilities-Flags"
    ensures "Bridge" != n && "Bridge" != Reverse(n) && "Listening" != n && "Listening" != Reverse(n)
    ensures "Nonce" != n && "Nonce" != Reverse(n)
  {
    AddressNameShape(n);
  }

  /** No name written by the head is an address header name, forwards or reversed. */
  lemma HeadLacksAddresses(bridge: Option<string>, listening: Option<bool>, nonce: Option<Uuids.Uuid>,
                           sessionId: Option<int>, sChannelState: Option<int>, capabilities: Option<int>,
                           n: string, version: int)
    requires AddressName(n)
    ensures VLookup(ResponseHead(bridge, listening, nonce, sessionId, sChannelState, capabilities), n, version).None?
  {
    var hs := Common(sessionId, sChannelState, capabilities);
    var hs1 := Put(hs, "Bridge", bridge);
    var hs2 := Put(hs1, "Listening", ListeningText(listening));
    HeadNamesDiffer(n);
    CommonOther(sessionId, sChannelState, capabilities, n);
    CommonOther(sessionId, sChannelState, capabilities, Reverse(n));
    VLookupPut(hs, "Bridge", bridge, n, version);
    VLookupPut(hs1, "Listening", ListeningText(listening), n, version);
    VLookupPut(hs2, "Nonce", NonceOption(nonce), n, version);
  }

  function Bridge(b: Body): string { TextHeader(b, "Bridge") }

  /** `listening`: the header, lower-cased, is "true". */
  function Listening(b: Body): bool {
    match Lookup(b.headers, "Listening")
    case None => false
    case Some(v) => Lower(v) == "true"
  }

  function IpsOf(v: Option<string>): seq<string> {
    match v
    case None => []
    case Some(t) => Words(t)
  }

  function PortOf(v: Option<string>): int {
    match v
    case None => 0
    case Some(t) => ParseInt(t).GetOr(0)
  }

  function InternalIps(b: Body, version: int): seq<string> { IpsOf(VLookup(b.headers, INTERNAL_ADDRS, version)) }
  function InternalPort(b: Body, version: int): int { PortOf(VLookup(b.headers, INTERNAL_PORT, version)) }
  function ExternalIps(b: Body, version: int): seq<string> { IpsOf(VLookup(b.headers, EXTERNAL_ADDRS, version)) }
  function ExternalPort(b: Body, version: int): int { PortOf(VLookup(b.headers, EXTERNAL_PORT, version)) }

  /** Addresses that `split()` gives back after `" ".join`: non-empty, without whitespace. */
  predicate Addresses(ips: Option<seq<string>>) {
    ips.Some? ==> forall i :: 0 <= i < |ips.value| ==> |ips.value[i]| > 0 && NoSpace(ips.value[i])
  }

  lemma IpsRoundTrip(ips: Option<seq<string>>)
    requires Addresses(ips)
    ensures IpsOf(IpsText(ips)) == ips.GetOr([])
  {
    if ips.Some? { WordsOfJoin(ips.value); }
  }

  /** Read with the version the body was built with, the address getters return exactly the
      constructor's addresses and ports (no addresses, or port 0, when left out): in version 2
      the stored name and value are both reversed and the getters reverse them back. */
  lemma TransportResponseAddresses(bridge: Option<string>, listening: Option<bool>, nonce: Option<Uuids.Uuid>,
                                   internalIps: Option<seq<string>>, internalPort: Option<int>,
                                   externalIps: Option<seq<string>>, externalPort: Option<int>,
                                   sessionId: Option<int>, sChannelState: Option<int>, capabilities: Option<int>,
                                   connType: string, version: int)
    requires Addresses(internalIps) && Addresses(externalIps)
    ensures var b := TransportResponse(bridge, listening, nonce, internalIps, internalPort, externalIps, externalPort,
                                       sessionId, sChannelState, capabilities, connType, version);
      InternalIps(b, version) == internalIps.GetOr([]) && ExternalIps(b, version) == externalIps.GetOr([])
      && InternalPort(b, version) == internalPort.GetOr(0) && ExternalPort(b, version) == externalPort.GetOr(0)
  {
    ResponseInternal(bridge, listening, nonce, internalIps, internalPort, externalIps, externalPort,
                    sessionId, sChannelState, capabilities, connType, version);
    ResponseExternal(bridge, listening, nonce, internalIps, internalPort, externalIps, externalPort,
                    sessionId, sChannelState, capabilities, connType, version);
  }

  lemma ResponseInternal(bridge: Option<string>, listening: Option<bool>, nonce: Option<Uuids.Uuid>,
                         internalIps: Option<seq<string>>, internalPort: Option<int>,
                         externalIps: Option<seq<string>>, externalPort: Option<int>,
                         sessionId: Option<int>, sChannelState: Option<int>, capabilities: Option<int>,
                         connType: string, version: int)
    requires Addresses(internalIps)
    ensures var b := TransportResponse(bridge, listening, nonce, internalIps, internalPort, externalIps, externalPort,
                                       sessionId, sChannelState, capabilities, connType, version);
      InternalIps(b, version) == internalIps.GetOr([]) && InternalPort(b, version) == internalPort.GetOr(0)
  {
    var head := ResponseHead(bridge, listening, nonce, sessionId, sChannelState, capabilities);
    AddressHeadersRead(head, internalIps, internalPort, externalIps, externalPort, version);
    ResponseAddress(bridge, listening, nonce, internalIps, internalPort, externalIps, externalPort,
                    sessionId, sChannelState, capabilities, connType, version, INTERNAL_ADDRS);
    ResponseAddress(bridge, listening, nonce, internalIps, internalPort, externalIps, externalPort,
                    sessionId, sChannelState, capabilities, connType, version, INTERNAL_PORT);
    IpsRoundTrip(internalIps);
  }

  lemma ResponseExternal(bridge: Option<string>, listening: Option<bool>, nonce: Option<Uuids.Uuid>,
                         internalIps: Option<seq<string>>, internalPort: Option<int>,
                         externalIps: Option<seq<string>>, externalPort: Option<int>,
                         sessionId: Option<int>, sChannelState: Option<int>, capabilities: Option<int>,
                         connType: string, version: int)
    requires Addresses(externalIps)
    ensures var b := TransportResponse(bridge, listening, nonce, internalIps, internalPort, externalIps, externalPort,
                                       sessionId, sChannelState, capabilities, connType, version);
      ExternalIps(b, version) == externalIps.GetOr([]) && ExternalPort(b, version) == externalPort.GetOr(0)
  {
    var head := ResponseHead(bridge, listening, nonce, sessionId, sChannelState, capabilities);
    AddressHeadersRead(head, internalIps, internalPort, externalIps, externalPort, version);
    ResponseAddress(bridge, listening, nonce, internalIps, internalPort, externalIps, externalPort,
                    sessionId, sChannelState, capabilities, connType, version, EXTERNAL_ADDRS);
    ResponseAddress(bridge, listening, nonce, internalIps, internalPort, externalIps, externalPort,
                    sessionId, sChannelState, capabilities, connType, version, EXTERNAL_PORT);
    IpsRoundTrip(externalIps);
  }


  /** An address header of the response reads as the address headers wrote it, and the head
      wrote none of them. */
  lemma ResponseAddress(bridge: Option<string>, listening: Option<bool>, nonce: Option<Uuids.Uuid>,
                        internalIps: Option<seq<string>>, internalPort: Option<int>,
                        externalIps: Option<seq<string>>, externalPort: Option<int>,
                        sessionId: Option<int>, sChannelState: Option<int>, capabilities: Option<int>,
                        connType: string, version: int, n: string)
    requires AddressName(n)
    ensures var head := ResponseHead(bridge, listening, nonce, sessionId, sChannelState, capabilities);
      && VLookup(head, n, version).None?
      && VLookup(TransportResponse(bridge, listening, nonce, internalIps, internalPort, externalIps, externalPort,
                                   sessionId, sChannelState, capabilities, connType, version).headers, n, version)
         == VLookup(AddressHeaders(head, internalIps, internalPort, externalIps, externalPort, version), n, version)
  {
    var head := ResponseHead(bridge, listening, nonce, sessionId, sChannelState, capabilities);
    var mid := AddressHeaders(head, internalIps, internalPort, externalIps, externalPort, version);
    HeadLacksAddresses(bridge, listening, nonce, sessionId, sChannelState, capabilities, n, version);
    TailSkipsAddresses(mid, connType, n, version);
  }

  /** In version 2 the internal port is stored under the reversed name, as reversed text. */
  lemma TransportResponseReversed(bridge: Option<string>, listening: Option<bool>, nonce: Option<Uuids.Uuid>,
                                  internalIps: Option<seq<string>>, port: int,
                                  externalIps: Option<seq<string>>, externalPort: Option<int>,
                                  sessionId: Option<int>, sChannelState: Option<int>, capabilities: Option<int>,
                                  connType: string, version: int)
    requires version >= 2
    ensures Lookup(TransportResponse(bridge, listening, nonce, internalIps, Some(port), externalIps, externalPort,
                                     sessionId, sChannelState, capabilities, connType, version).headers,
                   Reverse(INTERNAL_PORT)) == Some(Reverse(IntToString(port)))
  {
    var head := ResponseHead(bridge, listening, nonce, sessionId, sChannelState, capabilities);
    AddressHeadersRead(head, internalIps, Some(port), externalIps, externalPort, version);
    ResponseAddress(bridge, listening, nonce, internalIps, Some(port), externalIps, externalPort,
                    sessionId, sChannelState, capabilities, connType, version, INTERNAL_PORT);
    var hs := TransportResponse(bridge, listening, nonce, internalIps, Some(port), externalIps, externalPort,
                                sessionId, sChannelState, capabilities, connType, version).headers;
    assert VLookup(hs, INTERNAL_PORT, version) == Some(IntToString(port));
    var v := Lookup(hs, Reverse(INTERNAL_PORT)).value;
    assert Reverse(v) == IntToString(port);
    ReverseReverse(v);
  }
}

=== FILE: switchboard_manager.dfy ===
/** Switchboard handlers and the switchboard manager (`papyon/switchboard_manager.py`).

    A handler (a conversation) queues invitations and messages until it has an open
    switchboard, then invites the contacts not yet present and, once no invitation is
    outstanding, sends the queued messages. The manager matches handlers with switchboards:
    open ones, orphaned ones (nobody uses them), pending ones (requested, not yet open) and
    requests in flight, keyed by the participant string.

    Switchboards and handlers are identified by `int`; contacts by account. What the manager
    reads from a switchboard (its state and participants) is a `View` function, and the
    iteration order of each dictionary is given as a sequence. */
module SwitchboardManager {
  import opened Results
  import SwitchboardProtocol

  type State = SwitchboardProtocol.State

  datatype View = View(state: State, participants: set<string>)

  // ---------------------------------------------------------------------------
  // Handlers

  /** Message acknowledgement modes (`msnp.MessageAcknowledgement`; the defining file is not
      part of this model). */
  datatype Ack = NoAck | Half | Full | Msnc

  /** A queued message: its text, acknowledgement mode and the caller's callback and errback
      (opaque ids). */
  datatype Pending = Pending(message: string, ack: Ack, callback: Option<int>, errback: Option<int>)

  /** The delivery callbacks kept per transaction id. */
  datatype Callbacks = Callbacks(callback: Option<int>, errback: Option<int>)

  datatype Handler = Handler(
    own: string,
    participants: set<string>,
    pendingInvites: set<string>,
    pendingMessages: seq<Pending>,
    switchboardOpen: bool,
    requested: bool,
    delivery: map<int, Callbacks>)

  /** A message handed to the switchboard, with the callback passed along with it. */
  datatype Sent = Sent(message: string, ack: Ack, callback: Option<int>)

  /** `total_participants`: those present and those still to invite. */
  function TotalParticipants(h: Handler): (r: set<string>)
    ensures forall c :: c in r <==> c in h.participants || c in h.pendingInvites
  {
    h.participants + h.pendingInvites
  }

  /** `__add_pending`: duplicates and our own profile are ignored. */
  function AddPending(h: Handler, contact: string): (r: Handler)
    ensures contact == h.own ==> r == h
    ensures contact != h.own ==> r == h.(pendingInvites := h.pendingInvites + {contact})
    ensures h.own !in h.pendingInvites ==> h.own !in r.pendingInvites
  {
    if contact in h.pendingInvites || contact == h.own then h
    else h.(pendingInvites := h.pendingInvites + {contact})
  }

  function AddAllPending(h: Handler, contacts: set<string>): (r: Handler)
    ensures r.pendingInvites == h.pendingInvites + (contacts - {h.own})
    ensures r == h.(pendingInvites := r.pendingInvites)
    decreases contacts
  {
    if contacts == {} then h
    else
      var c :| c in contacts;
      var r := AddAllPending(AddPending(h, c), contacts - {c});
      assert r.pendingInvites == h.pendingInvites + (contacts - {h.own});
      r
  }

  /** The outcome of the handler's `_request_switchboard`. */
  datatype RequestStep =
    | HasSwitchboard                     // an open switchboard is attached: go on
    | Waiting                            // a request is already outstanding
    | Asked                              // the manager was asked; nothing attached yet
    | AttachedNow(participants: set<string>)  // the manager attached a switchboard at once

  /** `_request_switchboard`: with an open switchboard, go on; with a request outstanding,
      wait; otherwise move the participants into the pending invitations and ask the manager,
      which may attach a switchboard at once (`attach`, its participants). */
  function RequestSwitchboard(h: Handler, attach: Option<set<string>>): (r: (Handler, RequestStep))
    ensures h.switchboardOpen ==> r == (h, HasSwitchboard)
    ensures !h.switchboardOpen && h.requested ==> r == (h, Waiting)
    ensures !h.switchboardOpen && !h.requested ==> r.0.pendingInvites == h.pendingInvites + (h.participants - {h.own})
    ensures !h.switchboardOpen && !h.requested && attach.None? ==> r.1 == Asked && r.0.requested && r.0.participants == {}
    ensures !h.switchboardOpen && !h.requested && attach.Some? ==> r.1 == AttachedNow(attach.value) && !r.0.requested && r.0.switchboardOpen
  {
    if h.switchboardOpen then (h, HasSwitchboard)
    else if h.requested then (h, Waiting)
    else
      var h1 := AddAllPending(h.(requested := true), h.participants).(participants := {});
      match attach
      case None => (h1, Asked)
      case Some(ps) => (h1.(requested := false, switchboardOpen := true, participants := ps), AttachedNow(ps))
  }

  /** The callbacks kept for a sent message until its delivery report. */
  function Kept(m: Pending): Callbacks {
    if m.ack in {Full, Msnc} then Callbacks(m.callback, m.errback) else Callbacks(None, m.errback)
  }

  /** The queued messages as sent: FULL and MSNC acknowledgement keep the callback until
      delivery; any other mode hands the callback to the switchboard and keeps only the
      errback. `trids` are the transaction ids the sends get; an id given twice keeps the
      entry of its last send. */
  function SendAll(msgs: seq<Pending>, trids: seq<int>, delivery: map<int, Callbacks>): (r: (seq<Sent>, map<int, Callbacks>))
    requires |trids| == |msgs|
    ensures |r.0| == |msgs|
    ensures forall i :: 0 <= i < |msgs| ==> r.0[i].message == msgs[i].message && r.0[i].ack == msgs[i].ack
    ensures forall i :: 0 <= i < |msgs| ==> r.0[i].callback == (if msgs[i].ack in {Full, Msnc} then None else msgs[i].callback)
    ensures forall t :: t in r.1 <==> t in delivery || t in trids
    ensures forall i :: 0 <= i < |msgs| && trids[i] !in trids[i + 1..] ==>
      trids[i] in r.1 && r.1[trids[i]] == Callbacks(if msgs[i].ack in {Full, Msnc} then msgs[i].callback else None, msgs[i].errback)
    ensures forall t :: t in delivery && t !in trids ==> r.1[t] == delivery[t]
  {
    if msgs == [] then ([], delivery)
    else
      var m := msgs[0];
      var passed := if m.ack in {Full, Msnc} then None else m.callback;
      var rest := SendAll(msgs[1..], trids[1..], delivery[trids[0] := Kept(m)]);
      assert forall t :: t in trids <==> t == trids[0] || t in trids[1..];
      ([Sent(m.message, m.ack, passed)] + rest.0, rest.1)
  }

  /** What `_process_pending_queues` did. */
  datatype Flush = Flush(invited: set<string>, sent: seq<Sent>)

  /** `_process_pending_queues`: nothing with both queues empty; nothing more while a
      switchboard still has to come. Otherwise every pending contact not already present is
      invited and the pending set emptied; unless the switchboard is (then) inviting, every
      queued message is sent, in order, and the queue emptied. */
  function ProcessPendingQueues(h: Handler, attach: Option<set<string>>, inviting: bool, trids: seq<int>): (r: (Handler, Flush))
    requires |trids| == |h.pendingMessages|
    ensures h.pendingInvites == {} && h.pendingMessages == [] ==> r == (h, Flush({}, []))
    ensures !h.switchboardOpen && (h.requested || attach.None?) && (h.pendingInvites != {} || h.pendingMessages != []) ==> r.1 == Flush({}, [])
    ensures r.1.invited != {} || r.1.sent != [] ==> r.0.switchboardOpen
    ensures r.0.switchboardOpen && (h.pendingInvites != {} || h.pendingMessages != []) ==>
      r.0.pendingInvites == {} && r.1.invited !! r.0.participants
    ensures r.1.sent != [] ==> !inviting && r.0.pendingMessages == [] && |r.1.sent| == |h.pendingMessages|
    ensures r.0.switchboardOpen && inviting ==> r.0.pendingMessages == h.pendingMessages && r.1.sent == []
  {
    if h.pendingInvites == {} && h.pendingMessages == [] then (h, Flush({}, []))
    else
      var (h1, step) := RequestSwitchboard(h, attach);
      if step.Waiting? || step.Asked? then (h1, Flush({}, []))
      else
        var invited := h1.pendingInvites - h1.participants;
        var h2 := h1.(pendingInvites := {});
        if inviting then (h2, Flush(invited, []))
        else
          var (sent, delivery) := SendAll(h2.pendingMessages, trids, h2.delivery);
          (h2.(pendingMessages := [], delivery := delivery), Flush(invited, sent))
  }

  /** A contact joined: it is a participant and no longer pending. */
  function OnUserJoined(h: Handler, contact: string): (r: Handler)
    ensures contact in r.participants && contact !in r.pendingInvites
    ensures TotalParticipants(r) == TotalParticipants(h) + {contact}
  {
    h.(participants := h.participants + {contact}, pendingInvites := h.pendingInvites - {contact})
  }

  datatype HandlerError = NotParticipant   // `set.remove` of an absent contact

  /** A contact left: it is no longer a participant, and the last one to leave is queued for
      invitation again. */
  function OnUserLeft(h: Handler, contact: string): (r: Result<Handler, HandlerError>)
    ensures r.Failure? <==> contact !in h.participants
    ensures r.Success? ==> r.value.participants == h.participants - {contact}
    ensures r.Success? && contact != h.own ==> (contact in r.value.pendingInvites <==> contact in h.pendingInvites || r.value.participants == {})
  {
    if contact !in h.participants then Failure(NotParticipant)
    else
      var h1 := h.(participants := h.participants - {contact});
      Success(if h1.participants == {} then AddPending(h1, contact) else h1)
  }

  /** Delivery (or its failure) for a transaction id runs the stored callback (or errback) once:
      the entry is removed. */
  function OnDelivery(h: Handler, trid: int, delivered: bool): (r: (Handler, Option<int>))
    ensures trid !in r.0.delivery && r.0.delivery == h.delivery - {trid}
    ensures trid !in h.delivery ==> r.1.None?
    ensures trid in h.delivery ==> r.1 == (if delivered then h.delivery[trid].callback else h.delivery[trid].errback)
  {
    var cbs := if trid in h.delivery then h.delivery[trid] else Callbacks(None, None);
    (h.(delivery := h.delivery - {trid}), if delivered then cbs.callback else cbs.errback)
  }

  /** A queued message's delivery report, once the queue is sent, runs what was kept for it: a
      delivered FULL or MSNC message runs the caller's callback, any other delivered message
      nothing (its callback went with the message); an undelivered one runs the errback; and a
      second report for the same transaction id runs nothing. */
  lemma DeliveryAfterSend(h: Handler, msgs: seq<Pending>, trids: seq<int>, i: nat, delivered: bool)
    requires |trids| == |msgs| && i < |msgs| && trids[i] !in trids[i + 1..]
    ensures var h1 := h.(delivery := SendAll(msgs, trids, h.delivery).1);
      var (h2, run) := OnDelivery(h1, trids[i], delivered);
      && run == (if !delivered then msgs[i].errback else if msgs[i].ack in {Full, Msnc} then msgs[i].callback else None)
      && OnDelivery(h2, trids[i], delivered).1.None?
  {
  }

  // ---------------------------------------------------------------------------
  // Manager

  datatype Manager = Manager(
    switchboards: map<int, set<int>>,     // open (or opening) switchboard -> its handlers
    orphans: set<int>,                    // switchboards nobody uses
    requested: map<string, set<int>>,     // participant string -> handlers waiting for it
    pending: map<int, set<int>>,          // switchboard not yet open -> its handlers
    orphanHandlers: set<int>)             // handlers without a switchboard

  function Usable(v: View, total: set<string>): bool {
    v.participants == total && (v.state == SwitchboardProtocol.Open || v.state == SwitchboardProtocol.Opening)
  }

  /** The first id in `order` satisfying `p`. */
  function First(order: seq<int>, p: int -> bool): (r: Option<int>)
    ensures r.Some? ==> r.value in order && p(r.value)
    ensures r.None? ==> forall x :: x in order ==> !p(x)
    ensures r.Some? ==> exists i :: 0 <= i < |order| && order[i] == r.value && forall j :: 0 <= j < i ==> !p(order[j])
  {
    if order == [] then None
    else if p(order[0]) then Some(order[0])
    else
      var r := First(order[1..], p);
      if r.Some? then
        var i :| 0 <= i < |order[1..]| && order[1..][i] == r.value && forall j :: 0 <= j < i ==> !p(order[1..][j]);
        assert order[i + 1] == r.value && forall j :: 0 <= j < i + 1 ==> !p(order[j]) by {
          forall j | 0 <= j < i + 1 ensures !p(order[j]) {
            if j > 0 { assert order[j] == order[1..][j - 1]; }
          }
        }
        r
      else r
  }

  datatype Choice =
    | UseOpen(sb: int)      // attached to an open switchboard with the same participants
    | UseOrphan(sb: int)    // an orphan with the same participants is adopted
    | UsePending(sb: int)   // joins a switchboard requested for the same participants
    | JoinRequest           // joins an in-flight request for the same participant string
    | NewRequest            // asks the server for a new switchboard

  /** `request_switchboard`. The handler stops being an orphan; then the first of these that
      applies is taken: an open or opening switchboard with the handler's participants; an
      orphan with them (which stops being an orphan); a pending switchboard whose handler wants
      the same participants (`pendingTotal`); an in-flight request for the same participant
      string `key`. Only when none applies is the server asked. */
  function Request(m: Manager, h: int, total: set<string>, key: string,
                   openOrder: seq<int>, orphanOrder: seq<int>, pendingOrder: seq<int>,
                   view: int -> View, pendingTotal: int -> set<string>): (r: (Manager, Choice))
    requires forall sb :: sb in openOrder ==> sb in m.switchboards
    requires forall sb :: sb in orphanOrder ==> sb in m.orphans
    requires forall sb :: sb in pendingOrder ==> sb in m.pending
    ensures h !in r.0.orphanHandlers
    ensures r.1.UseOpen? ==>
      r.1.sb in openOrder && Usable(view(r.1.sb), total) && r.1.sb in r.0.switchboards && h in r.0.switchboards[r.1.sb]
    ensures r.1.UseOrphan? ==>
      && (forall sb :: sb in openOrder ==> !Usable(view(sb), total))
      && r.1.sb in orphanOrder && Usable(view(r.1.sb), total)
      && r.1.sb in r.0.switchboards && r.0.switchboards[r.1.sb] == {h} && r.1.sb !in r.0.orphans
    ensures r.1.UsePending? ==>
      && (forall sb :: sb in openOrder + orphanOrder ==> !Usable(view(sb), total))
      && pendingTotal(r.1.sb) == total && r.1.sb in r.0.pending && h in r.0.pending[r.1.sb]
    ensures r.1.JoinRequest? || r.1.NewRequest? ==>
      && (forall sb :: sb in openOrder + orphanOrder ==> !Usable(view(sb), total))
      && (forall sb :: sb in pendingOrder ==> pendingTotal(sb) != total)
      && key in r.0.requested
    ensures r.1.JoinRequest? <==> (r.1.JoinRequest? || r.1.NewRequest?) && key in m.requested
    ensures r.1.JoinRequest? ==> key in m.requested && key in r.0.requested && r.0.requested[key] == m.requested[key] + {h}
    ensures r.1.NewRequest? ==> key in r.0.requested && r.0.requested[key] == {h}
  {
    var m1 := m.(orphanHandlers := m.orphanHandlers - {h});
    match First(openOrder, sb => Usable(view(sb), total))
    case Some(sb) => (m1.(switchboards := m1.switchboards[sb := m1.switchboards[sb] + {h}]), UseOpen(sb))
    case None =>
      match First(orphanOrder, sb => Usable(view(sb), total))
      case Some(sb) => (m1.(switchboards := m1.switchboards[sb := {h}], orphans := m1.orphans - {sb}), UseOrphan(sb))
      case None =>
        match First(pendingOrder, sb => pendingTotal(sb) == total)
        case Some(sb) => (m1.(pending := m1.pending[sb := m1.pending[sb] + {h}]), UsePending(sb))
        case None =>
          if key in m1.requested then (m1.(requested := m1.requested[key := m1.requested[key] + {h}]), JoinRequest)
          else (m1.(requested := m1.requested[key := {h}]), NewRequest)
  }

  /** `close_handler`: the handler leaves every switchboard; an open switchboard left without
      handlers is left (returned) and orphaned, and a pending one left without handlers is
      orphaned too. */
  function CloseHandler(m: Manager, h: int): (r: (Manager, set<int>))
    ensures h !in r.0.orphanHandlers
    ensures forall sb :: sb in r.0.switchboards ==> h !in r.0.switchboards[sb] && r.0.switchboards[sb] != {}
    ensures forall sb :: sb in r.0.pending ==> h !in r.0.pending[sb] && r.0.pending[sb] != {}
    ensures forall sb :: sb in r.1 <==> sb in m.switchboards && m.switchboards[sb] - {h} == {}
    ensures forall sb :: sb in r.0.orphans <==> sb in m.orphans || sb in r.1 || (sb in m.pending && m.pending[sb] - {h} == {})
    ensures forall sb :: sb in m.switchboards && m.switchboards[sb] - {h} != {} ==> sb in r.0.switchboards && r.0.switchboards[sb] == m.switchboards[sb] - {h}
  {
    var left := set sb | sb in m.switchboards && m.switchboards[sb] - {h} == {};
    var abandoned := set sb | sb in m.pending && m.pending[sb] - {h} == {};
    (Manager(
      map sb | sb in m.switchboards && m.switchboards[sb] - {h} != {} :: m.switchboards[sb] - {h},
      m.orphans + left + abandoned,
      m.requested,
      map sb | sb in m.pending && m.pending[sb] - {h} != {} :: m.pending[sb] - {h},
      m.orphanHandlers - {h}),
     left)
  }

  /** A switchboard reached OPEN: its pending handlers and every orphan handler wanting exactly
      its participants (`totalOf`) attach; when nobody attaches it becomes an orphan. */
  function OnOpen(m: Manager, sb: int, participants: set<string>, totalOf: int -> set<string>): (r: Manager)
    ensures var attached := (if sb in m.pending then m.pending[sb] else {}) + (set h | h in m.orphanHandlers && totalOf(h) == participants);
      && (attached == {} ==> sb !in r.switchboards && sb in r.orphans)
      && (attached != {} ==> sb in r.switchboards && r.switchboards[sb] == attached)
    ensures sb !in r.pending
    ensures forall h :: h in r.orphanHandlers <==> h in m.orphanHandlers && totalOf(h) != participants
  {
    var fromPending := if sb in m.pending then m.pending[sb] else {};
    var fromOrphans := set h | h in m.orphanHandlers && totalOf(h) == participants;
    var attached := fromPending + fromOrphans;
    var m1 := m.(pending := m.pending - {sb}, orphanHandlers := m.orphanHandlers - fromOrphans,
                 orphans := if fromOrphans != {} then m.orphans - {sb} else m.orphans);
    if attached == {} then m1.(switchboards := m1.switchboards - {sb}, orphans := m1.orphans + {sb})
    else m1.(switchboards := m1.switchboards[sb := attached])
  }

  /** A switchboard CLOSED: its handlers become orphans and it is forgotten. */
  function OnClosed(m: Manager, sb: int): (r: Manager)
    ensures sb !in r.switchboards && sb !in r.orphans
    ensures sb in m.switchboards ==> r.orphanHandlers == m.orphanHandlers + m.switchboards[sb]
    ensures sb !in m.switchboards ==> r.orphanHandlers == m.orphanHandlers
    ensures r.pending == m.pending && r.requested == m.requested
  {
    if sb in m.switchboards then
      m.(switchboards := m.switchboards - {sb}, orphanHandlers := m.orphanHandlers + m.switchboards[sb], orphans := m.orphans - {sb})
    else m.(orphans := m.orphans - {sb})
  }

  // ---------------------------------------------------------------------------
  // Properties

  /** A handler whose request is answered by a new switchboard is attached when it opens: the
      request becomes pending and opening attaches its handlers. */
  lemma RequestedHandlerAttachedOnOpen(m: Manager, h: int, key: string, sb: int, participants: set<string>, totalOf: int -> set<string>)
    requires key !in m.requested && sb !in m.pending
    ensures var m1 := m.(requested := m.requested[key := {h}]);
      var m2 := m1.(requested := m1.requested - {key}, pending := m1.pending[sb := m1.requested[key]]);
      var m3 := OnOpen(m2, sb, participants, totalOf);
      sb in m3.switchboards && h in m3.switchboards[sb] && sb !in m3.pending
  {
    var m1 := m.(requested := m.requested[key := {h}]);
    var m2 := m1.(requested := m1.requested - {key}, pending := m1.pending[sb := m1.requested[key]]);
    assert m2.pending[sb] == {h};
  }

  /** An open or opening switchboard with the handler's participants is always reused: the
      handler never waits for a pending switchboard or a new one while such a switchboard exists. */
  lemma OpenMatchReused(m: Manager, h: int, total: set<string>, key: string,
                          openOrder: seq<int>, orphanOrder: seq<int>, pendingOrder: seq<int>,
                          view: int -> View, pendingTotal: int -> set<string>)
    requires forall sb :: sb in openOrder ==> sb in m.switchboards
    requires forall sb :: sb in orphanOrder ==> sb in m.orphans
    requires forall sb :: sb in pendingOrder ==> sb in m.pending
    requires exists sb :: sb in openOrder && Usable(view(sb), total)
    ensures Request(m, h, total, key, openOrder, orphanOrder, pendingOrder, view, pendingTotal).1.UseOpen?
  {
  }

  /** Messages held back while the switchboard is inviting are all sent, in order and with
      their acknowledgement modes, by the next flush once it no longer is. */
  lemma HeldMessagesSentLater(h: Handler, trids: seq<int>)
    requires h.switchboardOpen && |trids| == |h.pendingMessages| && h.pendingMessages != []
    ensures var r1 := ProcessPendingQueues(h, None, true, trids);
      var r2 := ProcessPendingQueues(r1.0, None, false, trids);
      && r1.1.sent == [] && r2.0.pendingMessages == [] && |r2.1.sent| == |h.pendingMessages|
      && forall i :: 0 <= i < |h.pendingMessages| ==>
           r2.1.sent[i].message == h.pendingMessages[i].message && r2.1.sent[i].ack == h.pendingMessages[i].ack
  {
  }
}

=== FILE: switchboard_protocol.dfy ===
/** The switchboard protocol's bookkeeping (`papyon/msnp/switchboard.py`): the connection state,
    the participants and their endpoints, the pending invitations by transaction id, the
    `inviting` flag, and the rules for leaving.

    Accounts arrive already split from their endpoint guid (the splitting helper is not part of
    this model) and already lower-cased, as the server sends them. A contact is identified by
    its account. Timers are flags; the commands and signals the protocol would send or emit are
    returned as a list of events. */
module SwitchboardProtocol {
  import opened Results
  import opened Text

  datatype State = Closed | Opening | Authenticating | Authenticated | Synchronizing | Synchronized | Open | Closing

  datatype Switchboard = Switchboard(
    state: State,
    own: string,                          // our own account, lower-cased
    participants: set<string>,
    endPoints: map<string, seq<string>>,  // account -> endpoint guids
    invitations: map<int, string>,        // transaction id -> invited account
    inviting: bool,
    inactivityTimer: bool,
    keepaliveTimer: bool)

  datatype Event =
    | SendCal(account: string)
    | SendOut
    | UserJoined(account: string)
    | UserLeft(account: string)
    | InvitationFailed(account: string)
    | InvitingChanged
    | InactivityArmed
    | InactivityCancelled
    | KeepaliveCancelled

  datatype ProtocolError =
    | NotOpen            // `invite_user` asserts the OPEN state
    | UnknownEndPoint    // `list.remove` of an endpoint never joined
    | UnknownParticipant // `dict.pop` of an account never joined

  /** The bookkeeping invariant: we never list ourselves as a participant, and an account is
      invited at most once. */
  predicate Valid(sb: Switchboard) {
    && sb.own !in sb.participants
    && forall t1, t2 :: t1 in sb.invitations && t2 in sb.invitations && t1 != t2 ==> sb.invitations[t1] != sb.invitations[t2]
  }

  function New(own: string, keepalive: bool): (r: Switchboard)
    ensures Valid(r) && r.state == Closed && r.participants == {} && r.invitations == map[] && !r.inviting
  {
    Switchboard(Closed, own, {}, map[], map[], false, false, keepalive)
  }

  function EndPointsOf(sb: Switchboard, account: string): seq<string> {
    if account in sb.endPoints then sb.endPoints[account] else []
  }

  /** The `inviting` property notifies only on an actual change. */
  function SetInviting(sb: Switchboard, v: bool): (r: (Switchboard, seq<Event>))
    ensures r.0 == sb.(inviting := v)
    ensures r.1 == [InvitingChanged] <==> sb.inviting != v
    ensures r.1 == [] <==> sb.inviting == v
  {
    if sb.inviting != v then (sb.(inviting := v), [InvitingChanged]) else (sb, [])
  }

  /** `invite_user`: only in the OPEN state; a contact already being invited is skipped;
      otherwise the invitation is recorded under the current transaction id, inviting is set
      and CAL is sent. */
  function InviteUser(sb: Switchboard, account: string, trid: int): (r: Result<(Switchboard, seq<Event>), ProtocolError>)
    ensures r.Failure? <==> sb.state != Open
    ensures r.Success? && account in sb.invitations.Values ==> r.value == (sb, [])
    ensures r.Success? && account !in sb.invitations.Values ==>
      && r.value.0 == sb.(invitations := sb.invitations[trid := account], inviting := true)
      && |r.value.1| >= 1 && r.value.1[|r.value.1| - 1] == SendCal(account)
      && (InvitingChanged in r.value.1 <==> !sb.inviting)
    ensures r.Success? && Valid(sb) && trid !in sb.invitations ==> Valid(r.value.0)
  {
    if sb.state != Open then Failure(NotOpen)
    else if account in sb.invitations.Values then Success((sb, []))
    else
      var (s1, ev) := SetInviting(sb.(invitations := sb.invitations[trid := account]), true);
      Success((s1, ev + [SendCal(account)]))
  }

  /** `leave`: only in the OPEN state; cancels the running timers, sends OUT and moves to
      CLOSING. */
  function Leave(sb: Switchboard): (r: (Switchboard, seq<Event>))
    ensures sb.state != Open ==> r == (sb, [])
    ensures sb.state == Open ==> r.0.state == Closing && !r.0.inactivityTimer && !r.0.keepaliveTimer
    ensures sb.state == Open ==> |r.1| >= 1 && r.1[|r.1| - 1] == SendOut
    ensures sb.state == Open ==> (InactivityCancelled in r.1 <==> sb.inactivityTimer) && (KeepaliveCancelled in r.1 <==> sb.keepaliveTimer)
    ensures r.0.participants == sb.participants && r.0.invitations == sb.invitations
  {
    if sb.state != Open then (sb, [])
    else
      (sb.(state := Closing, inactivityTimer := false, keepaliveTimer := false),
       (if sb.inactivityTimer then [InactivityCancelled] else [])
       + (if sb.keepaliveTimer then [KeepaliveCancelled] else [])
       + [SendOut])
  }

  /** A participant (or one of its endpoints) joins. With a guid only the endpoint is recorded;
      without one, ourselves and known participants are ignored and anyone else is added and
      announced. */
  function ParticipantJoin(sb: Switchboard, account: string, guid: Option<string>): (r: (Switchboard, seq<Event>))
    ensures guid.Some? ==> r.0 == sb.(endPoints := sb.endPoints[account := EndPointsOf(sb, account) + [guid.value]]) && r.1 == []
    ensures guid.None? && (account == sb.own || account in sb.participants) ==> r == (sb, [])
    ensures guid.None? && account != sb.own && account !in sb.participants ==>
      r.0 == sb.(participants := sb.participants + {account}) && r.1 == [UserJoined(account)]
    ensures Valid(sb) ==> Valid(r.0)
  {
    if guid.Some? then (sb.(endPoints := sb.endPoints[account := EndPointsOf(sb, account) + [guid.value]]), [])
    else if account == sb.own || account in sb.participants then (sb, [])
    else (sb.(participants := sb.participants + {account}), [UserJoined(account)])
  }

  /** `list.remove`: the first occurrence goes; an absent value is an error. */
  function RemoveFirst(xs: seq<string>, x: string): (r: Option<seq<string>>)
    ensures r.Some? <==> x in xs
    ensures r.Some? ==> |r.value| == |xs| - 1 && multiset(r.value) == multiset(xs) - multiset{x}
  {
    if xs == [] then None
    else if xs[0] == x then
      assert xs == [x] + xs[1..];
      Some(xs[1..])
    else match RemoveFirst(xs[1..], x)
      case None => None
      case Some(rest) =>
        assert xs == [xs[0]] + xs[1..];
        Some([xs[0]] + rest)
  }

  /** A participant (or one of its endpoints) leaves. With a guid the endpoint is removed (an
      unknown one raises); without one, ourselves are ignored, and anyone else is removed and
      announced (an unknown account raises). */
  function ParticipantLeft(sb: Switchboard, account: string, guid: Option<string>): (r: Result<(Switchboard, seq<Event>), ProtocolError>)
    ensures guid.Some? ==> (r.Failure? <==> guid.value !in EndPointsOf(sb, account))
    ensures guid.None? ==> (r.Failure? <==> account != sb.own && account !in sb.participants)
    ensures r.Success? && guid.None? && account != sb.own ==>
      r.value.0 == sb.(participants := sb.participants - {account}) && r.value.1 == [UserLeft(account)]
    ensures r.Success? && guid.None? && account == sb.own ==> r.value == (sb, [])
    ensures r.Success? && Valid(sb) ==> Valid(r.value.0)
  {
    if guid.Some? then
      match RemoveFirst(EndPointsOf(sb, account), guid.value)
      case None => Failure(UnknownEndPoint)
      case Some(rest) => Success((sb.(endPoints := sb.endPoints[account := rest]), []))
    else if account == sb.own then Success((sb, []))
    else if account !in sb.participants then Failure(UnknownParticipant)
    else Success((sb.(participants := sb.participants - {account}), [UserLeft(account)]))
  }

  /** `__discard_invitation`: the invitations other than those of `account`.  The source deletes
      the first match in dictionary order and returns, while this drops every match.  The two
      agree because at most one invitation matches: `InviteUser` never records an account twice,
      and accounts arrive lower-cased.  Two invited accounts differing only in letter case would
      both be dropped here and only one in the source. */
  function Discard(invitations: map<int, string>, account: string): (r: map<int, string>)
    ensures forall t :: t in r <==> t in invitations && Lower(invitations[t]) != account
    ensures forall t :: t in r ==> r[t] == invitations[t]
  {
    map t | t in invitations && Lower(invitations[t]) != account :: invitations[t]
  }

  /** JOI: the participant joins; a join without a guid also discards that account's invitation
      and clears `inviting` once no invitation remains. */
  function OnJoi(sb: Switchboard, account: string, guid: Option<string>): (r: (Switchboard, seq<Event>))
    ensures guid.Some? ==> r == ParticipantJoin(sb, account, guid)
    ensures guid.None? ==> r.0.invitations == Discard(sb.invitations, account)
    ensures guid.None? && r.0.invitations == map[] ==> !r.0.inviting
    ensures guid.None? && r.0.invitations != map[] ==> r.0.inviting == sb.inviting
    ensures Valid(sb) ==> Valid(r.0)
  {
    var (s1, ev) := ParticipantJoin(sb, account, guid);
    if guid.Some? then (s1, ev)
    else
      var s2 := s1.(invitations := Discard(s1.invitations, account));
      if s2.invitations == map[] then
        var (s3, ev2) := SetInviting(s2, false);
        (s3, ev + ev2)
      else (s2, ev)
  }

  /** BYE: the participant leaves, and once no participant and none of our own endpoints
      remain, we leave too. */
  function OnBye(sb: Switchboard, account: string, guid: Option<string>): (r: Result<(Switchboard, seq<Event>), ProtocolError>)
    ensures r.Failure? <==> ParticipantLeft(sb, account, guid).Failure?
    ensures r.Success? ==> r.value.0.participants == ParticipantLeft(sb, account, guid).value.0.participants
    ensures r.Success? ==>
      var left := ParticipantLeft(sb, account, guid).value.0;
      (r.value.0.state == Closing && sb.state == Open <==> sb.state == Open && left.participants == {} && EndPointsOf(left, sb.own) == [])
  {
    var (s1, ev) :- ParticipantLeft(sb, account, guid);
    if s1.participants == {} && EndPointsOf(s1, s1.own) == [] then
      var (s2, ev2) := Leave(s1);
      Success((s2, ev + ev2))
    else Success((s1, ev))
  }

  /** The error codes that report a failed invitation (CAL refused). */
  const INVITATION_ERRORS: set<string> := {"208", "215", "216", "217", "713"}

  /** An error reply: an invitation error on a pending invitation's transaction id reports the
      failure, drops the invitation and clears `inviting` once none remain; anything else
      changes nothing. */
  function OnError(sb: Switchboard, code: string, trid: int): (r: (Switchboard, seq<Event>))
    ensures code !in INVITATION_ERRORS || trid !in sb.invitations ==> r == (sb, [])
    ensures code in INVITATION_ERRORS && trid in sb.invitations ==>
      && r.0.invitations == sb.invitations - {trid}
      && |r.1| >= 1 && r.1[0] == InvitationFailed(sb.invitations[trid])
      && r.0.inviting == (sb.inviting && r.0.invitations != map[])
    ensures r.0.participants == sb.participants && r.0.state == sb.state
  {
    if code !in INVITATION_ERRORS || trid !in sb.invitations then (sb, [])
    else
      var s1 := sb.(invitations := sb.invitations - {trid});
      var ev := [InvitationFailed(sb.invitations[trid])];
      if s1.invitations == map[] then
        var (s2, ev2) := SetInviting(s1, false);
        (s2, ev + ev2)
      else (s1, ev)
  }

  /** `_update_switchboard_timeout`: the inactivity timer is re-armed only with exactly one
      participant and no keepalive timer. */
  function UpdateTimeout(sb: Switchboard): (r: (Switchboard, seq<Event>))
    ensures r.0.inactivityTimer <==> |sb.participants| == 1 && !sb.keepaliveTimer
    ensures r.0 == sb.(inactivityTimer := r.0.inactivityTimer)
    ensures (InactivityCancelled in r.1 <==> sb.inactivityTimer) && (InactivityArmed in r.1 <==> r.0.inactivityTimer)
  {
    var cancel := if sb.inactivityTimer then [InactivityCancelled] else [];
    if |sb.participants| == 1 && !sb.keepaliveTimer then (sb.(inactivityTimer := true), cancel + [InactivityArmed])
    else (sb.(inactivityTimer := false), cancel)
  }

  /** USR (or a successful ANS) opens the switchboard; from protocol version 16 on, USR then
      invites our own account so our other endpoints join. */
  function OnUsr(sb: Switchboard, protocolVersion: int, trid: int): (r: (Switchboard, seq<Event>))
    ensures r.0.state == Open
    ensures protocolVersion < 16 ==> r == (sb.(state := Open), [])
    ensures protocolVersion >= 16 && sb.own !in sb.invitations.Values ==> r.0.invitations == sb.invitations[trid := sb.own] && SendCal(sb.own) in r.1
  {
    var s1 := sb.(state := Open);
    if protocolVersion >= 16 then InviteUser(s1, s1.own, trid).value else (s1, [])
  }

  /** ANS: "OK" opens the switchboard, anything else leaves it synchronizing. */
  function OnAns(sb: Switchboard, ok: bool): (r: Switchboard)
    ensures r.state == (if ok then Open else Synchronizing)
    ensures r == sb.(state := r.state)
  {
    sb.(state := if ok then Open else Synchronizing)
  }

  // ---------------------------------------------------------------------------
  // Properties

  /** A contact that joins and then leaves leaves the participants as they were; when it was
      the only one and we have no other endpoint, we leave the switchboard. */
  lemma JoinThenBye(sb: Switchboard, account: string)
    requires Valid(sb) && account != sb.own && account !in sb.participants
    ensures var j := OnJoi(sb, account, None);
      var b := OnBye(j.0, account, None);
      && b.Success? && b.value.0.participants == sb.participants
      && (sb.participants == {} && EndPointsOf(sb, sb.own) == [] && sb.state == Open ==> b.value.0.state == Closing)
  {
  }

  /** An endpoint that joins and leaves again restores that account's endpoint list. */
  lemma EndPointJoinThenLeave(sb: Switchboard, account: string, guid: string)
    ensures var j := ParticipantJoin(sb, account, Some(guid)).0;
      var l := ParticipantLeft(j, account, Some(guid));
      l.Success? && multiset(EndPointsOf(l.value.0, account)) == multiset(EndPointsOf(sb, account))
  {
    var xs := EndPointsOf(sb, account);
    assert multiset(xs + [guid]) - multiset{guid} == multiset(xs);
  }

  /** Inviting a contact and seeing it join clears the invitation; when it was the only one,
      `inviting` is clear again. */
  lemma InviteThenJoin(sb: Switchboard, account: string, trid: int)
    requires sb.state == Open && sb.invitations == map[] && Lower(account) == account
    ensures var i := InviteUser(sb, account, trid);
      i.Success? && OnJoi(i.value.0, account, None).0.invitations == map[] && !OnJoi(i.value.0, account, None).0.inviting
  {
    var i := InviteUser(sb, account, trid);
    assert i.value.0.invitations == map[trid := account];
    var d := Discard(i.value.0.invitations, account);
    assert d.Keys == {} by {
      forall t | t in d ensures false {
      }
    }
  }

  /** Inviting a contact the server refuses reports the failure and forgets the invitation. */
  lemma InviteThenRefused(sb: Switchboard, account: string, trid: int, code: string)
    requires sb.state == Open && account !in sb.invitations.Values && trid !in sb.invitations && code in INVITATION_ERRORS
    ensures var i := InviteUser(sb, account, trid).value.0;
      var e := OnError(i, code, trid);
      e.0.invitations == sb.invitations && InvitationFailed(account) in e.1
  {
    var i := InviteUser(sb, account, trid).value.0;
    assert i.invitations - {trid} == sb.invitations;
  }

  /** Leaving twice sends OUT once. */
  lemma LeaveOnce(sb: Switchboard)
    ensures Leave(Leave(sb).0) == (Leave(sb).0, [])
  {
  }
}

=== FILE: text.dfy ===
/** The Python string operations the protocol code relies on, stated over `seq<char>`:
    splitting on a separator (all occurrences, at most once, or on whitespace runs), joining,
    stripping, ASCII case mapping, `zfill`, and decimal integers as `int()` and `str()` treat
    them.  Each is paired with the law the protocol code depends on (split/join round trips,
    integer round trips). */
module Text {
  import opened Results

  /** Python's `str.isspace()` characters for byte strings. */
  predicate IsSpace(c: char) {
    c == ' ' || c == '\t' || c == '\n' || c == '\r' || c == 11 as char || c == 12 as char
  }

  predicate NoSpace(s: string) {
    forall i :: 0 <= i < |s| ==> !IsSpace(s[i])
  }

  /** `c` does not occur in `s`. */
  predicate Lacks(s: string, c: char) {
    forall i :: 0 <= i < |s| ==> s[i] != c
  }

  /** Three texts joined by single spaces lack a character that none of them holds. */
  lemma SpacedLacks(a: string, b: string, c: string, ch: char)
    requires Lacks(a, ch) && Lacks(b, ch) && Lacks(c, ch) && ch != ' '
    ensures Lacks(a + " " + b + " " + c, ch)
  {
    assert Lacks(" ", ch);
    LacksAppend(a, " ", ch);
    LacksAppend(a + " ", b, ch);
    LacksAppend(a + " " + b, " ", ch);
    LacksAppend(a + " " + b + " ", c, ch);
  }

  lemma AppendAssoc<T>(x: seq<T>, y: seq<T>, z: seq<T>)
    ensures x + (y + z) == (x + y) + z
  {
  }

  lemma LacksAppend(a: string, b: string, c: char)
    requires Lacks(a, c) && Lacks(b, c)
    ensures Lacks(a + b, c)
  {
    forall i | 0 <= i < |a + b| ensures (a + b)[i] != c {
      if i >= |a| { assert (a + b)[i] == b[i - |a|]; }
    }
  }

  // ---------------------------------------------------------------------------
  // Searching

  /** `sep` occurs in `s` starting at index `k`. */
  predicate OccursAt(s: string, sep: string, k: nat) {
    k + |sep| <= |s| && s[k..k + |sep|] == sep
  }

  /** Index of the leftmost occurrence of `sep` in `s` (Python's `str.find`, with `None` for -1). */
  function Find(s: string, sep: string): (r: Option<nat>)
    requires |sep| > 0
    ensures r.Some? ==> OccursAt(s, sep, r.value)
    ensures r.Some? ==> forall k :: 0 <= k < r.value ==> !OccursAt(s, sep, k)
    ensures r.None? ==> forall k :: 0 <= k <= |s| ==> !OccursAt(s, sep, k)
    decreases |s|
  {
    if |s| < |sep| then None
    else if s[..|sep|] == sep then Some(0)
    else
      match Find(s[1..], sep)
      case None =>
        assert forall k :: 1 <= k <= |s| ==> (OccursAt(s, sep, k) <==> OccursAt(s[1..], sep, k - 1));
        None
      case Some(j) =>
        assert forall k :: 1 <= k <= |s| ==> (OccursAt(s, sep, k) <==> OccursAt(s[1..], sep, k - 1));
        Some(j + 1)
  }

  /** `sub` is a substring of `s` (Python's `sub in s`). */
  predicate Contains(s: string, sub: string) {
    exists k :: 0 <= k <= |s| && OccursAt(s, sub, k)
  }

  /** A string without the first character of `sep` cannot hold `sep`. */
  lemma NoOccurrenceWithoutHead(s: string, sep: string)
    requires |sep| > 0 && Lacks(s, sep[0])
    ensures Find(s, sep).None?
  {
    forall k | 0 <= k <= |s|
      ensures !OccursAt(s, sep, k)
    {
      if k + |sep| <= |s| {
        assert s[k..k + |sep|][0] == s[k];
      }
    }
  }

  /** In `a + sep + b` the leftmost `sep` is the one placed after `a`, when `a` lacks `sep[0]`. */
  lemma FindAfterPrefix(a: string, sep: string, b: string)
    requires |sep| > 0 && Lacks(a, sep[0])
    ensures Find(a + sep + b, sep) == Some(|a|)
  {
    var s := a + sep + b;
    assert s[|a|..|a| + |sep|] == sep;
    assert OccursAt(s, sep, |a|);
    forall k | 0 <= k < |a|
      ensures !OccursAt(s, sep, k)
    {
      if k + |sep| <= |s| {
        assert s[k..k + |sep|][0] == s[k] == a[k];
      }
    }
  }

  // ---------------------------------------------------------------------------
  // Splitting and joining

  /** Python's `s.split(sep)`: every piece between leftmost non-overlapping occurrences. */
  function Split(s: string, sep: string): (r: seq<string>)
    requires |sep| > 0
    ensures |r| >= 1
    decreases |s|
  {
    match Find(s, sep)
    case None => [s]
    case Some(i) => [s[..i]] + Split(s[i + |sep|..], sep)
  }

  /** Python's `sep.join(parts)`. */
  function Join(parts: seq<string>, sep: string): string
    decreases |parts|
  {
    if |parts| == 0 then ""
    else if |parts| == 1 then parts[0]
    else parts[0] + sep + Join(parts[1..], sep)
  }

  /** Python's `s.split(sep, 1)`: `None` when the result would have one element. */
  function SplitOnce(s: string, sep: string): (r: Option<(string, string)>)
    requires |sep| > 0
    ensures r.Some? <==> Contains(s, sep)
    ensures r.Some? ==> s == r.value.0 + sep + r.value.1 && !Contains(r.value.0, sep)
  {
    match Find(s, sep)
    case None => None
    case Some(i) =>
      var head := s[..i];
      assert s == head + sep + s[i + |sep|..] by {
        Around(s, i, i + |sep|);
      }
      assert !Contains(head, sep) by {
        forall k | 0 <= k <= |head| && OccursAt(head, sep, k)
          ensures false
        {
          assert head[k..k + |sep|] == s[k..k + |sep|];
          assert OccursAt(s, sep, k);
        }
      }
      Some((head, s[i + |sep|..]))
  }

  /** `split(sep, 1)` of `a + sep + b` separates exactly `a` when `a` lacks the separator's
      first character. */
  lemma SplitOnceAfterPrefix(a: string, sep: string, b: string)
    requires |sep| > 0 && Lacks(a, sep[0])
    ensures SplitOnce(a + sep + b, sep) == Some((a, b))
  {
    FindAfterPrefix(a, sep, b);
    var s := a + sep + b;
    assert s[..|a|] == a;
    assert s[|a| + |sep|..] == b;
  }

  /** Joining what `Split` produced gives back the original text. */
  lemma {:induction false} JoinSplit(s: string, sep: string)
    requires |sep| > 0
    ensures Join(Split(s, sep), sep) == s
    decreases |s|
  {
    match Find(s, sep)
    case None =>
    case Some(i) =>
      var rest := s[i + |sep|..];
      JoinSplit(rest, sep);
      JoinCons(s[..i], Split(rest, sep), sep);
      Around(s, i, i + |sep|);
  }

  /** A text is its prefix, a middle slice and its suffix. */
  lemma Around(s: string, i: nat, j: nat)
    requires i <= j <= |s|
    ensures s == s[..i] + s[i..j] + s[j..]
  {
  }

  /** Joining a piece in front of at least one more puts the separator between them. */
  lemma JoinCons(p: string, ps: seq<string>, sep: string)
    requires |ps| >= 1
    ensures Join([p] + ps, sep) == p + sep + Join(ps, sep)
  {
    assert ([p] + ps)[1..] == ps;
  }

  /** Splitting `a + sep + b` peels off `a` when `a` lacks the separator's first character. */
  lemma SplitAfterPrefix(a: string, sep: string, b: string)
    requires |sep| > 0 && Lacks(a, sep[0])
    ensures Split(a + sep + b, sep) == [a] + Split(b, sep)
  {
    FindAfterPrefix(a, sep, b);
    var s := a + sep + b;
    assert s[..|a|] == a;
    assert s[|a| + |sep|..] == b;
  }

  /** Splitting the join of separator-free lines followed by a tail text gives the lines back,
      followed by the pieces of the tail. */
  lemma {:induction false} SplitJoinLines(lines: seq<string>, tail: string, sep: string)
    requires |sep| > 0
    requires forall i :: 0 <= i < |lines| ==> Lacks(lines[i], sep[0])
    ensures Split(Join(lines + [tail], sep), sep) == lines + Split(tail, sep)
    decreases |lines|
  {
    if |lines| == 0 {
      assert lines + [tail] == [tail];
    } else {
      var rest := lines[1..];
      var joinedRest := Join(rest + [tail], sep);
      calc {
        Split(Join(lines + [tail], sep), sep);
        == { assert (lines + [tail])[1..] == rest + [tail]; }
        Split(lines[0] + sep + joinedRest, sep);
        == { SplitAfterPrefix(lines[0], sep, joinedRest); }
        [lines[0]] + Split(joinedRest, sep);
        == { SplitJoinLines(rest, tail, sep); }
        [lines[0]] + (rest + Split(tail, sep));
        == { assert lines == [lines[0]] + rest; }
        lines + Split(tail, sep);
      }
    }
  }

  /** A text lacking the separator's first character splits into itself. */
  lemma SplitWhole(s: string, sep: string)
    requires |sep| > 0 && Lacks(s, sep[0])
    ensures Split(s, sep) == [s]
  {
    NoOccurrenceWithoutHead(s, sep);
  }

  /** Splitting the join of pieces free of the separator's first character gives the pieces
      back. */
  lemma SplitJoin(ps: seq<string>, sep: string)
    requires |sep| > 0 && |ps| > 0
    requires forall i :: 0 <= i < |ps| ==> Lacks(ps[i], sep[0])
    ensures Split(Join(ps, sep), sep) == ps
  {
    var n := |ps| - 1;
    assert ps == ps[..n] + [ps[n]];
    SplitJoinLines(ps[..n], ps[n], sep);
    SplitWhole(ps[n], sep);
  }

  /** `Join(a + [x], sep)` appends `sep + x` to the join of a non-empty `a`. */
  lemma {:induction false} JoinSnoc(a: seq<string>, x: string, sep: string)
    requires |a| > 0
    ensures Join(a + [x], sep) == Join(a, sep) + sep + x
    decreases |a|
  {
    if |a| == 1 {
      assert a + [x] == [a[0], x];
    } else {
      assert (a + [x])[1..] == a[1..] + [x];
      JoinSnoc(a[1..], x, sep);
    }
  }

  /** The split pieces of a single-character separator never contain that character. */
  lemma {:induction false} SplitPiecesLack(s: string, c: char)
    ensures forall i :: 0 <= i < |Split(s, [c])| ==> Lacks(Split(s, [c])[i], c)
    decreases |s|
  {
    match Find(s, [c])
    case None =>
      forall k | 0 <= k < |s| ensures s[k] != c {
        assert !OccursAt(s, [c], k);
        assert s[k..k + 1] == [s[k]];
      }
    case Some(i) =>
      forall k | 0 <= k < i ensures s[k] != c {
        assert !OccursAt(s, [c], k);
        assert s[k..k + 1] == [s[k]];
      }
      SplitPiecesLack(s[i + 1..], c);
  }

  // ---------------------------------------------------------------------------
  // Whitespace-separated words (Python's `s.split()` with no argument)

  /** The longest prefix of `s` without whitespace. */
  function Word(s: string): (w: string)
    ensures |w| <= |s| && w == s[..|w|] && NoSpace(w)
    ensures |w| < |s| ==> IsSpace(s[|w|])
    decreases |s|
  {
    if |s| == 0 || IsSpace(s[0]) then "" else [s[0]] + Word(s[1..])
  }

  /** Python's `s.split()`: the maximal runs of non-whitespace characters, in order. */
  function Words(s: string): (r: seq<string>)
    ensures forall i :: 0 <= i < |r| ==> |r[i]| > 0 && NoSpace(r[i])
    decreases |s|
  {
    if |s| == 0 then []
    else if IsSpace(s[0]) then Words(s[1..])
    else
      var w := Word(s);
      [w] + Words(s[|w|..])
  }

  lemma {:induction false} WordOfWord(w: string, rest: string)
    requires NoSpace(w)
    requires |rest| == 0 || IsSpace(rest[0])
    ensures Word(w + rest) == w
    decreases |w|
  {
    var s := w + rest;
    if |w| > 0 {
      assert s[0] == w[0] && !IsSpace(s[0]);
      assert s[1..] == w[1..] + rest;
      WordOfWord(w[1..], rest);
      assert Word(s) == [w[0]] + w[1..];
      assert [w[0]] + w[1..] == w;
    } else {
      assert s == rest;
    }
  }

  /** Space-joined non-empty words split back into the same words. */
  lemma {:induction false} WordsOfJoin(ws: seq<string>)
    requires forall i :: 0 <= i < |ws| ==> |ws[i]| > 0 && NoSpace(ws[i])
    ensures Words(Join(ws, " ")) == ws
    decreases |ws|
  {
    if |ws| == 0 {
    } else if |ws| == 1 {
      WordOfWord(ws[0], "");
      assert ws[0] + "" == ws[0];
      assert Join(ws, " ")[|ws[0]|..] == "";
    } else {
      var tail := Join(ws[1..], " ");
      var s := ws[0] + " " + tail;
      WordOfWord(ws[0], " " + tail);
      assert ws[0] + (" " + tail) == s;
      assert s[|ws[0]|..] == " " + tail;
      assert (" " + tail)[1..] == tail;
      WordsOfJoin(ws[1..]);
      assert ws == [ws[0]] + ws[1..];
    }
  }

  // ---------------------------------------------------------------------------
  // Stripping

  /** Python's `s.lstrip(chars)`. */
  function LStripSet(s: string, chars: set<char>): (r: string)
    ensures |r| <= |s|
    ensures |r| > 0 ==> r[0] !in chars
    decreases |s|
  {
    if |s| > 0 && s[0] in chars then LStripSet(s[1..], chars) else s
  }

  /** Python's `s.rstrip(chars)`. */
  function RStripSet(s: string, chars: set<char>): (r: string)
    ensures |r| <= |s|
    ensures |r| > 0 ==> r[|r| - 1] !in chars
    decreases |s|
  {
    if |s| > 0 && s[|s| - 1] in chars then RStripSet(s[..|s| - 1], chars) else s
  }

  /** Python's `s.strip(chars)`. */
  function StripSet(s: string, chars: set<char>): string {
    RStripSet(LStripSet(s, chars), chars)
  }

  /** Python's whitespace set for byte strings. */
  const Whitespace: set<char> := {' ', '\t', '\n', '\r', 11 as char, 12 as char}

  lemma WhitespaceIsSpace(c: char)
    ensures c in Whitespace <==> IsSpace(c)
  {
  }

  function LStrip(s: string): string { LStripSet(s, Whitespace) }
  function RStrip(s: string): string { RStripSet(s, Whitespace) }
  function Strip(s: string): string { StripSet(s, Whitespace) }

  /** Stripping leaves a text whose ends are outside the stripped set unchanged. */
  lemma StripSetUnchanged(s: string, chars: set<char>)
    requires |s| == 0 || (s[0] !in chars && s[|s| - 1] !in chars)
    ensures StripSet(s, chars) == s
  {
  }

  /** Stripping never removes a character outside the stripped set. */
  lemma {:induction false} LStripKeeps(s: string, chars: set<char>, c: char)
    requires c !in chars && c in s
    ensures c in LStripSet(s, chars)
    decreases |s|
  {
    if s[0] in chars {
      assert c in s[1..] by {
        var i :| 0 <= i < |s| && s[i] == c;
        assert i > 0 && s[1..][i - 1] == c;
      }
      LStripKeeps(s[1..], chars, c);
    }
  }

  lemma {:induction false} RStripKeeps(s: string, chars: set<char>, c: char)
    requires c !in chars && c in s
    ensures c in RStripSet(s, chars)
    decreases |s|
  {
    if s[|s| - 1] in chars {
      assert c in s[..|s| - 1] by {
        var i :| 0 <= i < |s| && s[i] == c;
        assert i < |s| - 1 && s[..|s| - 1][i] == c;
      }
      RStripKeeps(s[..|s| - 1], chars, c);
    }
  }

  /** A text holding a non-blank character is not blank once stripped. */
  lemma StripKeeps(s: string, c: char)
    requires !IsSpace(c) && c in s
    ensures c in Strip(s) && Strip(s) != ""
  {
    WhitespaceIsSpace(c);
    LStripKeeps(s, Whitespace, c);
    RStripKeeps(LStripSet(s, Whitespace), Whitespace, c);
  }

  /** A text with no whitespace at all is left unchanged by `strip()`. */
  lemma StripNoSpace(s: string)
    requires NoSpace(s)
    ensures Strip(s) == s
  {
    if |s| > 0 {
      WhitespaceIsSpace(s[0]);
      WhitespaceIsSpace(s[|s| - 1]);
    }
    StripSetUnchanged(s, Whitespace);
  }

  /** `rstrip` removes nothing when the last character is outside the set. */
  lemma RStripUnchanged(s: string, chars: set<char>)
    requires |s| == 0 || s[|s| - 1] !in chars
    ensures RStripSet(s, chars) == s
  {
  }

  /** `lstrip` removes nothing when the first character is outside the set. */
  lemma LStripUnchanged(s: string, chars: set<char>)
    requires |s| == 0 || s[0] !in chars
    ensures LStripSet(s, chars) == s
  {
  }

  /** `rstrip` of a text followed by characters from the set removes exactly those, when
      the text itself does not end in the set. */
  lemma {:induction false} RStripSuffix(s: string, pad: string, chars: set<char>)
    requires |s| == 0 || s[|s| - 1] !in chars
    requires forall i :: 0 <= i < |pad| ==> pad[i] in chars
    ensures RStripSet(s + pad, chars) == s
    decreases |pad|
  {
    if |pad| == 0 {
      assert s + pad == s;
    } else {
      assert (s + pad)[..|s + pad| - 1] == s + pad[..|pad| - 1];
      RStripSuffix(s, pad[..|pad| - 1], chars);
    }
  }

  // ---------------------------------------------------------------------------
  // ASCII case mapping (Python 2 `str.upper()` / `str.lower()` in the C locale)

  function UpperChar(c: char): char {
    if 'a' <= c <= 'z' then (c as int - 32) as char else c
  }

  function LowerChar(c: char): char {
    if 'A' <= c <= 'Z' then (c as int + 32) as char else c
  }

  function Upper(s: string): (r: string)
    ensures |r| == |s| && forall i :: 0 <= i < |s| ==> r[i] == UpperChar(s[i])
  {
    seq(|s|, i requires 0 <= i < |s| => UpperChar(s[i]))
  }

  function Lower(s: string): (r: string)
    ensures |r| == |s| && forall i :: 0 <= i < |s| ==> r[i] == LowerChar(s[i])
  {
    seq(|s|, i requires 0 <= i < |s| => LowerChar(s[i]))
  }

  /** Upper-casing is idempotent. */
  lemma UpperIdempotent(s: string)
    ensures Upper(Upper(s)) == Upper(s)
  {
  }

  // ---------------------------------------------------------------------------
  // Decimal integers

  predicate IsDigit(c: char) { '0' <= c <= '9' }

  predicate AllDigits(s: string) {
    forall i :: 0 <= i < |s| ==> IsDigit(s[i])
  }

  function DigitChar(d: nat): char
    requires d < 10
  {
    ('0' as int + d) as char
  }

  function DigitsValue(s: string): nat
    requires AllDigits(s)
    decreases |s|
  {
    if |s| == 0 then 0
    else DigitsValue(s[..|s| - 1]) * 10 + (s[|s| - 1] as int - '0' as int)
  }

  /** Python's `str(n)` for a non-negative integer. */
  function NatToString(n: nat): (r: string)
    ensures |r| > 0 && AllDigits(r) && DigitsValue(r) == n
    decreases n
  {
    if n < 10 then [DigitChar(n)]
    else
      var r := NatToString(n / 10) + [DigitChar(n % 10)];
      assert r[..|r| - 1] == NatToString(n / 10);
      r
  }

  /** Python's `str(n)` for any integer. */
  function IntToString(n: int): (r: string)
    ensures |r| > 0 && NoSpace(r)
  {
    if n < 0 then "-" + NatToString(-n) else NatToString(n)
  }

  /** At least one decimal digit and nothing else. */
  function ParseDigits(t: string): (r: Option<nat>)
    ensures r.Some? <==> |t| > 0 && AllDigits(t)
  {
    if |t| > 0 && AllDigits(t) then Some(DigitsValue(t)) else None
  }

  /** Python's `int(s)` on a byte string: surrounding whitespace is ignored, an optional sign
      may precede at least one decimal digit; anything else is a `ValueError` (here `None`). */
  function ParseInt(s: string): Option<int> {
    var t := Strip(s);
    if |t| == 0 then None
    else if t[0] == '-' then
      match ParseDigits(t[1..])
      case Some(d) => Some(-(d as int))
      case None => None
    else if t[0] == '+' then
      match ParseDigits(t[1..])
      case Some(d) => Some(d as int)
      case None => None
    else
      match ParseDigits(t)
      case Some(d) => Some(d as int)
      case None => None
  }

  /** `int(str(n)) == n`. */
  lemma ParseIntToString(n: int)
    ensures ParseInt(IntToString(n)) == Some(n)
  {
    var s := IntToString(n);
    assert Strip(s) == s by { StripNoSpace(s); }
    if n < 0 {
      var d := NatToString(-n);
      assert s[1..] == d;
    } else {
      assert IsDigit(s[0]);
    }
  }

  /** Python's `s[1:-1]`: drops the first and last character (the braces around a GUID). */
  function Unbrace(s: string): (r: string)
    ensures |s| >= 2 ==> r == s[1..|s| - 1]
    ensures |s| < 2 ==> r == ""
  {
    if |s| >= 2 then s[1..|s| - 1] else ""
  }

  /** Python's `s.zfill(width)`: left-pad with zeros up to `width`, after a leading sign. */
  function ZFill(s: string, width: nat): (r: string)
    ensures |r| == if |s| >= width then |s| else width
    ensures |s| >= width ==> r == s
  {
    if |s| >= width then s
    else
      var pad := seq(width - |s|, _ => '0');
      if |s| > 0 && (s[0] == '-' || s[0] == '+') then [s[0]] + pad + s[1..]
      else pad + s
  }

  /** Character-order reversal (Python's `s[::-1]`). */
  function Reverse(s: string): (r: string)
    ensures |r| == |s| && forall i :: 0 <= i < |s| ==> r[i] == s[|s| - 1 - i]
  {
    seq(|s|, i requires 0 <= i < |s| => s[|s| - 1 - i])
  }

  /** Reversal is an involution. */
  lemma ReverseReverse(s: string)
    ensures Reverse(Reverse(s)) == s
  {
  }
}

=== FILE: text_format.dfy ===
/** The `X-MMS-IM-Format` header codec (`TextFormat` in `papyon/conversation.py`): font, effects,
    colour, charset, family and pitch, and right alignment, written as
    `FN=..; EF=..; CO=..; CS=..; PF=..` with an optional `; RL=1`.

    Reading the header assigns `RL=1` to a misspelt attribute, so the alignment read back is
    always false: `ParseAsWritten` is that behaviour, `Parse` the intended one. The URL quoting
    of the font name is not modelled (the font is written and read as it is). */
module TextFormat {
  import opened Results
  import opened Text

  datatype Format = Format(font: string, style: nat, color: string, charset: string, family: int, pitch: int, rightAlignment: bool)

  const BOLD: nat := 1
  const ITALIC: nat := 2
  const UNDERLINE: nat := 4
  const STRIKETHROUGH: nat := 8

  /** The defaults: font SANS, no effect, colour "0", charset "1", family and pitch 0. */
  const Default: Format := Format("SANS", 0, "0", "1", 0, 0, false)

  datatype FormatError = MissingValue | BadNumber

  /** The characters stripped around keys and values. */
  const Pad: set<char> := {' ', '\t', '|'}

  /** A key or value as the parser sees it: stripped of `Pad`, then upper-cased. */
  function Clean(s: string): string {
    Upper(StripSet(s, Pad))
  }

  /** `style & bit == bit`. */
  predicate Has(style: nat, bit: nat)
    requires bit in {BOLD, ITALIC, UNDERLINE, STRIKETHROUGH}
  {
    (style / bit) % 2 == 1
  }

  /** `style |= bit`. */
  function Or(style: nat, bit: nat): (r: nat)
    requires bit in {BOLD, ITALIC, UNDERLINE, STRIKETHROUGH}
    ensures Has(r, bit)
  {
    if Has(style, bit) then style else AddBit(style, bit); style + bit
  }

  /** Adding an effect's value to a style without it sets that effect. */
  lemma AddBit(style: nat, bit: nat)
    requires bit in {BOLD, ITALIC, UNDERLINE, STRIKETHROUGH}
    ensures (style + bit) / bit == style / bit + 1
  {
    if bit == BOLD {
    } else if bit == ITALIC {
    } else if bit == UNDERLINE {
    } else {
    }
  }

  /** The EF value read: each of the letters B, I, U, S present sets its effect. */
  function Effects(style: nat, value: string): nat {
    Mark(Mark(Mark(Mark(style, value, 'B', BOLD), value, 'I', ITALIC), value, 'U', UNDERLINE), value, 'S', STRIKETHROUGH)
  }

  /** One effect letter read: present, it sets its bit. */
  function Mark(style: nat, value: string, letter: char, bit: nat): nat
    requires bit in {BOLD, ITALIC, UNDERLINE, STRIKETHROUGH}
  {
    if letter in value then Or(style, bit) else style
  }

  function Flag(on: bool, c: char): string {
    if on then [c] else []
  }

  /** The EF value written: the letters of the effects set, in the order B, I, U, S. */
  function Letters(style: nat): (r: string)
    ensures ('B' in r <==> Has(style, BOLD)) && ('I' in r <==> Has(style, ITALIC))
    ensures ('U' in r <==> Has(style, UNDERLINE)) && ('S' in r <==> Has(style, STRIKETHROUGH))
  {
    Flag(Has(style, BOLD), 'B') + Flag(Has(style, ITALIC), 'I')
    + Flag(Has(style, UNDERLINE), 'U') + Flag(Has(style, STRIKETHROUGH), 'S')
  }

  /** Python's `s[i:j]` for `0 <= i <= j`: clipped to the text. */
  function Slice(s: string, i: nat, j: nat): (r: string)
    requires i <= j
    ensures |s| >= j ==> r == s[i..j]
  {
    var a := if i < |s| then i else |s|;
    var b := if j < |s| then j else |s|;
    s[a..b]
  }

  /** The colour's byte pairs in reverse order (RRGGBB <-> BBGGRR), both when reading and when
      writing. */
  function Swap(c: string): (r: string)
    ensures |c| == 6 ==> |r| == 6 && r == c[4..6] + c[2..4] + c[0..2]
  {
    Slice(c, 4, 6) + Slice(c, 2, 4) + Slice(c, 0, 2)
  }

  function DigitValue(c: char): nat
    requires IsDigit(c)
  {
    c as int - '0' as int
  }

  /** One known key applied to the format read so far; unknown keys are ignored. `honourRL`
      selects between the code as written (false: RL has no effect) and the intended reading. */
  function Assign(f: Format, key: string, value: string, honourRL: bool): (r: Result<Format, FormatError>)
    ensures r.Failure? ==> key == "PF" && r.error == BadNumber
    ensures key !in {"FN", "EF", "CO", "CS", "PF", "RL"} ==> r == Success(f)
    ensures !honourRL && r.Success? ==> r.value.rightAlignment == f.rightAlignment
  {
    if key == "FN" then Success(f.(font := value))
    else if key == "EF" then Success(f.(style := Effects(f.style, value)))
    else if key == "CO" then Success(f.(color := Swap(ZFill(value, 6))))
    else if key == "CS" then Success(f.(charset := value))
    else if key == "PF" then
      var z := ZFill(value, 2);
      if IsDigit(z[0]) && IsDigit(z[1]) then Success(f.(family := DigitValue(z[0]), pitch := DigitValue(z[1])))
      else Failure(BadNumber)
    else if key == "RL" then Success(if honourRL && value == "1" then f.(rightAlignment := true) else f)
    else Success(f)
  }

  /** One `;`-separated segment applied to the format read so far: empty segments are skipped,
      a segment without `=` is an error, and otherwise the key and value around the first `=`
      are cleaned and assigned. */
  function Apply(f: Format, seg: string, honourRL: bool): (r: Result<Format, FormatError>)
    ensures seg == "" ==> r == Success(f)
    ensures !honourRL && r.Success? ==> r.value.rightAlignment == f.rightAlignment
  {
    if seg == "" then Success(f)
    else match SplitOnce(seg, "=")
      case None => Failure(MissingValue)
      case Some((k, v)) => Assign(f, Clean(k), Clean(v), honourRL)
  }

  /** A non-empty segment without `=` is an error, and it is the only segment that can fail
      other than a `PF` value that is not two digits. */
  lemma ApplyFails(f: Format, seg: string, h: bool)
    ensures seg != "" && !Contains(seg, "=") ==> Apply(f, seg, h) == Failure(MissingValue)
    ensures Apply(f, seg, h).Failure? ==> seg != "" && (Apply(f, seg, h).error == MissingValue <==> !Contains(seg, "="))
  {
  }

  function Fold(f: Format, segs: seq<string>, honourRL: bool): (r: Result<Format, FormatError>)
    ensures segs == [] ==> r == Success(f)
    ensures !honourRL && r.Success? ==> r.value.rightAlignment == f.rightAlignment
    decreases |segs|
  {
    if segs == [] then Success(f)
    else
      var f1 :- Apply(f, segs[0], honourRL);
      Fold(f1, segs[1..], honourRL)
  }

  /** `TextFormat.parse` as written: `RL=1` is lost, so the alignment read is always false. */
  function ParseAsWritten(format: string): (r: Result<Format, FormatError>)
    ensures r.Success? ==> !r.value.rightAlignment
  {
    Fold(Default, Split(format, ";"), false)
  }

  /** `TextFormat.parse` as intended: `RL=1` sets right alignment. */
  function Parse(format: string): (r: Result<Format, FormatError>)
    ensures format == "" ==> r == Success(Default)
  {
    Fold(Default, Split(format, ";"), true)
  }

  /** The segments `__str__` writes. */
  function Fields(f: Format): seq<string> {
    ["FN=" + f.font, " EF=" + Letters(f.style), " CO=" + Swap(f.color), " CS=" + f.charset,
     " PF=" + IntToString(f.family) + IntToString(f.pitch)]
    + (if f.rightAlignment then [" RL=1"] else [])
  }

  /** `TextFormat.__str__`. */
  function Serialize(f: Format): (r: string)
    ensures |r| >= 3 && r[..3] == "FN="
  {
    var fs := Fields(f);
    JoinCons(fs[0], fs[1..], ";");
    assert fs == [fs[0]] + fs[1..];
    Join(Fields(f), ";")
  }

  // ---------------------------------------------------------------------------
  // Round trip

  /** A value the parser reads back unchanged: no `;`, nothing to strip at its ends, nothing to
      upper-case. */
  predicate Stable(v: string) {
    && Lacks(v, ';')
    && (|v| == 0 || (v[0] !in Pad && v[|v| - 1] !in Pad))
    && forall i :: 0 <= i < |v| ==> UpperChar(v[i]) == v[i]
  }

  predicate HexDigit(c: char) {
    '0' <= c <= '9' || 'A' <= c <= 'F'
  }

  /** Six upper-case hexadecimal digits. */
  predicate HexColor(c: string) {
    |c| == 6 && forall i :: 0 <= i < |c| ==> HexDigit(c[i])
  }

  /** The formats `__str__` writes and `parse` reads back exactly. */
  predicate Writable(f: Format) {
    && Stable(f.font) && Stable(f.charset) && HexColor(f.color)
    && f.style < 16 && 0 <= f.family < 10 && 0 <= f.pitch < 10
  }

  lemma CleanStable(v: string)
    requires Stable(v)
    ensures Clean(v) == v
  {
    StripSetUnchanged(v, Pad);
  }

  lemma CleanKey(k: string)
    requires |k| > 0 && Stable(k)
    ensures Clean(" " + k) == k
  {
    assert (" " + k)[1..] == k;
    LStripUnchanged(k, Pad);
    RStripUnchanged(k, Pad);
  }

  /** A segment `k=v` whose key has no `=` assigns the cleaned key and value. */
  lemma ApplyPair(f: Format, k: string, v: string, h: bool, key: string, value: string)
    requires Lacks(k, '=') && Clean(k) == key && Clean(v) == value
    ensures Apply(f, k + "=" + v, h) == Assign(f, key, value, h)
  {
    SplitOnceAfterPrefix(k, "=", v);
  }

  lemma StableAppend(a: string, b: string)
    requires Stable(a) && Stable(b)
    ensures Stable(a + b)
  {
    LacksAppend(a, b, ';');
    forall i | 0 <= i < |a + b| ensures UpperChar((a + b)[i]) == (a + b)[i] {
      if i >= |a| { assert (a + b)[i] == b[i - |a|]; }
    }
  }

  lemma LettersStable(style: nat)
    ensures Stable(Letters(style))
  {
    var b := Flag(Has(style, BOLD), 'B');
    var i := Flag(Has(style, ITALIC), 'I');
    var u := Flag(Has(style, UNDERLINE), 'U');
    var s := Flag(Has(style, STRIKETHROUGH), 'S');
    StableAppend(b, i);
    StableAppend(b + i, u);
    StableAppend(b + i + u, s);
  }

  lemma HexStable(c: string)
    requires HexColor(c)
    ensures Stable(c)
  {
    assert c[0] !in Pad && c[5] !in Pad;
  }

  lemma MarkFresh(style: nat, value: string, letter: char, bit: nat)
    requires bit in {BOLD, ITALIC, UNDERLINE, STRIKETHROUGH} && style < bit
    ensures Mark(style, value, letter, bit) == if letter in value then style + bit else style
  {
    assert style / bit == 0;
  }

  /** The four effect bits of a style below 16. */
  lemma Bits(style: nat)
    requires style < 16
    ensures var b, i, u, s := (if Has(style, BOLD) then 1 else 0), (if Has(style, ITALIC) then 2 else 0),
                             (if Has(style, UNDERLINE) then 4 else 0), (if Has(style, STRIKETHROUGH) then 8 else 0);
      style == b + i + u + s
  {
  }

  /** Reading the letters written for an effect set (from no effect) gives the set back. */
  lemma LettersEffects(style: nat)
    requires style < 16
    ensures Effects(0, Letters(style)) == style
  {
    var v := Letters(style);
    Bits(style);
    var s1 := Mark(0, v, 'B', BOLD);
    MarkFresh(0, v, 'B', BOLD);
    var s2 := Mark(s1, v, 'I', ITALIC);
    MarkFresh(s1, v, 'I', ITALIC);
    var s3 := Mark(s2, v, 'U', UNDERLINE);
    MarkFresh(s2, v, 'U', UNDERLINE);
    MarkFresh(s3, v, 'S', STRIKETHROUGH);
  }

  lemma SwapSwap(c: string)
    requires |c| == 6
    ensures Swap(Swap(c)) == c
  {
    var r := Swap(c);
    assert r[4..6] == c[0..2] && r[2..4] == c[2..4] && r[0..2] == c[4..6];
  }

  // Each key's assignment, stated once so that the segment lemmas need not unfold `Assign`.

  lemma AssignFont(f: Format, v: string, h: bool)
    ensures Assign(f, "FN", v, h) == Success(f.(font := v))
  {
  }

  lemma AssignEffects(f: Format, v: string, h: bool)
    ensures Assign(f, "EF", v, h) == Success(f.(style := Effects(f.style, v)))
  {
  }

  lemma AssignColor(f: Format, v: string, h: bool)
    ensures Assign(f, "CO", v, h) == Success(f.(color := Swap(ZFill(v, 6))))
  {
  }

  lemma AssignCharset(f: Format, v: string, h: bool)
    ensures Assign(f, "CS", v, h) == Success(f.(charset := v))
  {
  }

  lemma AssignPitch(f: Format, family: int, pitch: int, h: bool)
    requires 0 <= family < 10 && 0 <= pitch < 10
    ensures Assign(f, "PF", [DigitChar(family), DigitChar(pitch)], h) == Success(f.(family := family, pitch := pitch))
  {
  }

  lemma AssignAlignment(f: Format, h: bool)
    ensures Assign(f, "RL", "1", h) == Success(if h then f.(rightAlignment := true) else f)
  {
  }

  /** `ApplyPair` for a segment whose key part is given as one literal `seg`. */
  lemma ApplyKeyed(f: Format, seg: string, k: string, v: string, h: bool, key: string, value: string)
    requires seg == k + "=" && Lacks(k, '=') && Clean(k) == key && Clean(v) == value
    ensures Apply(f, seg + v, h) == Assign(f, key, value, h)
  {
    assert seg + v == k + "=" + v;
    ApplyPair(f, k, v, h, key, value);
  }

  // The keys `__str__` writes, each split and cleaned as the parser sees it.

  lemma FontKey()
    ensures "FN=" == "FN" + "=" && Lacks("FN", '=') && Clean("FN") == "FN"
  {
    CleanStable("FN");
  }

  lemma EffectsKey()
    ensures " EF=" == " EF" + "=" && Lacks(" EF", '=') && Clean(" EF") == "EF"
  {
    CleanKey("EF");
    assert " EF" == " " + "EF";
  }

  lemma ColorKey()
    ensures " CO=" == " CO" + "=" && Lacks(" CO", '=') && Clean(" CO") == "CO"
  {
    CleanKey("CO");
    assert " CO" == " " + "CO";
  }

  lemma CharsetKey()
    ensures " CS=" == " CS" + "=" && Lacks(" CS", '=') && Clean(" CS") == "CS"
  {
    CleanKey("CS");
    assert " CS" == " " + "CS";
  }

  lemma PitchKey()
    ensures " PF=" == " PF" + "=" && Lacks(" PF", '=') && Clean(" PF") == "PF"
  {
    CleanKey("PF");
    assert " PF" == " " + "PF";
  }

  lemma AlignmentKey()
    ensures " RL=1" == " RL=" + "1" && " RL=" == " RL" + "=" && Lacks(" RL", '=') && Clean(" RL") == "RL"
    ensures Clean("1") == "1"
  {
    CleanKey("RL");
    CleanStable("1");
    assert " RL" == " " + "RL";
  }

  lemma ApplyFont(f: Format, font: string, h: bool)
    requires Stable(font)
    ensures Apply(f, "FN=" + font, h) == Success(f.(font := font))
  {
    FontKey();
    CleanStable(font);
    ApplyKeyed(f, "FN=", "FN", font, h, "FN", font);
    AssignFont(f, font, h);
  }

  lemma ApplyEffects(f: Format, style: nat, h: bool)
    requires f.style == 0 && style < 16
    ensures Apply(f, " EF=" + Letters(style), h) == Success(f.(style := style))
  {
    var v := Letters(style);
    LettersStable(style);
    EffectsKey();
    CleanStable(v);
    ApplyKeyed(f, " EF=", " EF", v, h, "EF", v);
    LettersEffects(style);
    AssignEffects(f, v, h);
  }

  lemma ApplyColor(f: Format, color: string, h: bool)
    requires HexColor(color)
    ensures Apply(f, " CO=" + Swap(color), h) == Success(f.(color := color))
  {
    var v := Swap(color);
    assert HexColor(v);
    HexStable(v);
    ColorKey();
    CleanStable(v);
    ApplyKeyed(f, " CO=", " CO", v, h, "CO", v);
    SwapSwap(color);
    AssignColor(f, v, h);
  }

  lemma ApplyCharset(f: Format, charset: string, h: bool)
    requires Stable(charset)
    ensures Apply(f, " CS=" + charset, h) == Success(f.(charset := charset))
  {
    CharsetKey();
    CleanStable(charset);
    ApplyKeyed(f, " CS=", " CS", charset, h, "CS", charset);
    AssignCharset(f, charset, h);
  }

  lemma ApplyPitch(f: Format, family: int, pitch: int, h: bool)
    requires 0 <= family < 10 && 0 <= pitch < 10
    ensures Apply(f, " PF=" + IntToString(family) + IntToString(pitch), h) == Success(f.(family := family, pitch := pitch))
  {
    var v := IntToString(family) + IntToString(pitch);
    assert v == [DigitChar(family), DigitChar(pitch)];
    PitchKey();
    CleanStable(v);
    assert " PF=" + IntToString(family) + IntToString(pitch) == " PF=" + v;
    ApplyKeyed(f, " PF=", " PF", v, h, "PF", v);
    AssignPitch(f, family, pitch, h);
  }

  lemma ApplyAlignment(f: Format, h: bool)
    ensures Apply(f, " RL=1", h) == Success(if h then f.(rightAlignment := true) else f)
  {
    AlignmentKey();
    ApplyKeyed(f, " RL=", " RL", "1", h, "RL", "1");
    AssignAlignment(f, h);
  }

  lemma FieldsLackSeparator(f: Format)
    requires Writable(f)
    ensures forall i :: 0 <= i < |Fields(f)| ==> Lacks(Fields(f)[i], ';')
  {
    LiteralsLackSeparator();
    ValuesLackSeparator(f);
    var c := Swap(f.color);
    var pf := IntToString(f.family) + IntToString(f.pitch);
    LacksAppend("FN=", f.font, ';');
    LacksAppend(" EF=", Letters(f.style), ';');
    LacksAppend(" CO=", c, ';');
    LacksAppend(" CS=", f.charset, ';');
    LacksAppend(" PF=", pf, ';');
    var tail := if f.rightAlignment then [" RL=1"] else [];
    assert " PF=" + IntToString(f.family) + IntToString(f.pitch) == " PF=" + pf;
    assert Fields(f) == ["FN=" + f.font, " EF=" + Letters(f.style), " CO=" + c, " CS=" + f.charset, " PF=" + pf] + tail;
    FiveLack("FN=" + f.font, " EF=" + Letters(f.style), " CO=" + c, " CS=" + f.charset, " PF=" + pf, tail, ';');
  }

  /** The values written carry no `;`. */
  lemma ValuesLackSeparator(f: Format)
    requires Writable(f)
    ensures Lacks(f.font, ';') && Lacks(Letters(f.style), ';') && Lacks(Swap(f.color), ';') && Lacks(f.charset, ';')
    ensures Lacks(IntToString(f.family) + IntToString(f.pitch), ';')
  {
    LettersStable(f.style);
    var c := Swap(f.color);
    assert HexColor(c);
    HexStable(c);
    assert IntToString(f.family) + IntToString(f.pitch) == [DigitChar(f.family), DigitChar(f.pitch)];
  }

  lemma FiveLack(a0: string, a1: string, a2: string, a3: string, a4: string, tail: seq<string>, c: char)
    requires Lacks(a0, c) && Lacks(a1, c) && Lacks(a2, c) && Lacks(a3, c) && Lacks(a4, c)
    requires forall i :: 0 <= i < |tail| ==> Lacks(tail[i], c)
    ensures forall i :: 0 <= i < 5 + |tail| ==> Lacks(([a0, a1, a2, a3, a4] + tail)[i], c)
  {
    var fs := [a0, a1, a2, a3, a4] + tail;
    forall i | 0 <= i < |fs| ensures Lacks(fs[i], c) {
      if i >= 5 {
        assert fs[i] == tail[i - 5];
      }
    }
  }

  /** The keys written carry no `;`. */
  lemma LiteralsLackSeparator()
    ensures Lacks("FN=", ';') && Lacks(" EF=", ';') && Lacks(" CO=", ';') && Lacks(" CS=", ';')
    ensures Lacks(" PF=", ';') && Lacks(" RL=1", ';')
  {
  }

  /** Reading what `__str__` wrote, as intended, gives the format back. */
  lemma {:induction false} RoundTrip(f: Format)
    requires Writable(f)
    ensures Parse(Serialize(f)) == Success(f)
  {
    RoundTripWith(f, true);
  }

  /** Folding over a segment that applies cleanly continues from its result. */
  lemma FoldCons(f: Format, seg: string, rest: seq<string>, h: bool, g: Format)
    requires Apply(f, seg, h) == Success(g)
    ensures Fold(f, [seg] + rest, h) == Fold(g, rest, h)
  {
    assert ([seg] + rest)[1..] == rest;
  }

  lemma FoldFive(d0: Format, a: string, b: string, c: string, d: string, e: string, tail: seq<string>, h: bool,
                 d1: Format, d2: Format, d3: Format, d4: Format, d5: Format)
    requires Apply(d0, a, h) == Success(d1) && Apply(d1, b, h) == Success(d2) && Apply(d2, c, h) == Success(d3)
    requires Apply(d3, d, h) == Success(d4) && Apply(d4, e, h) == Success(d5)
    ensures Fold(d0, [a] + ([b] + ([c] + ([d] + ([e] + tail)))), h) == Fold(d5, tail, h)
  {
    FoldCons(d4, e, tail, h, d5);
    FoldCons(d3, d, [e] + tail, h, d4);
    FoldCons(d2, c, [d] + ([e] + tail), h, d3);
    FoldCons(d1, b, [c] + ([d] + ([e] + tail)), h, d2);
    FoldCons(d0, a, [b] + ([c] + ([d] + ([e] + tail))), h, d1);
  }

  lemma FieldsShape(f: Format)
    ensures Fields(f) == ["FN=" + f.font] + ([" EF=" + Letters(f.style)] + ([" CO=" + Swap(f.color)] + ([" CS=" + f.charset]
      + ([" PF=" + IntToString(f.family) + IntToString(f.pitch)] + (if f.rightAlignment then [" RL=1"] + [] else [])))))
  {
  }

  lemma {:induction false} RoundTripFields(f: Format, h: bool)
    requires Writable(f)
    ensures Fold(Default, Fields(f), h) == Success(if h then f else f.(rightAlignment := false))
  {
    var d1 := Default.(font := f.font);
    var d2 := d1.(style := f.style);
    var d3 := d2.(color := f.color);
    var d4 := d3.(charset := f.charset);
    var d5 := d4.(family := f.family, pitch := f.pitch);
    ApplyFont(Default, f.font, h);
    ApplyEffects(d1, f.style, h);
    ApplyColor(d2, f.color, h);
    ApplyCharset(d3, f.charset, h);
    ApplyPitch(d4, f.family, f.pitch, h);
    var tail: seq<string> := if f.rightAlignment then [" RL=1"] + [] else [];
    FieldsShape(f);
    FoldFive(Default, "FN=" + f.font, " EF=" + Letters(f.style), " CO=" + Swap(f.color), " CS=" + f.charset,
             " PF=" + IntToString(f.family) + IntToString(f.pitch), tail, h, d1, d2, d3, d4, d5);
    if f.rightAlignment {
      ApplyAlignment(d5, h);
      FoldCons(d5, " RL=1", [], h, if h then f else d5);
    }
  }

  lemma {:induction false} RoundTripWith(f: Format, h: bool)
    requires Writable(f)
    ensures Fold(Default, Split(Serialize(f), ";"), h) == Success(if h then f else f.(rightAlignment := false))
  {
    FieldsLackSeparator(f);
    SplitJoin(Fields(f), ";");
    RoundTripFields(f, h);
  }

  /** The code as written loses right alignment on every round trip. */
  lemma {:induction false} AlignmentLostAsWritten(f: Format)
    requires Writable(f) && f.rightAlignment
    ensures ParseAsWritten(Serialize(f)) == Success(f.(rightAlignment := false))
    ensures Parse(Serialize(f)) == Success(f)
  {
    RoundTripWith(f, false);
    RoundTripWith(f, true);
  }

  lemma ApplyAnyColor(f: Format, v: string, h: bool)
    ensures Apply(f, "CO=" + v, h) == Success(f.(color := Swap(ZFill(Clean(v), 6))))
  {
    CleanStable("CO");
    assert "CO=" + v == "CO" + "=" + v;
    ApplyPair(f, "CO", v, h, "CO", Clean(v));
    AssignColor(f, Clean(v), h);
  }

  /** A colour of up to six characters is read zero-filled (after stripping and upper-casing)
      and written back in that form. */
  lemma ColorZeroFilled(v: string, h: bool)
    requires Lacks(v, ';') && |Clean(v)| <= 6
    ensures var r := Fold(Default, Split("CO=" + v, ";"), h);
      r.Success? && Swap(r.value.color) == ZFill(Clean(v), 6)
  {
    var s := "CO=" + v;
    LacksAppend("CO=", v, ';');
    SplitWhole(s, ";");
    ApplyAnyColor(Default, v, h);
    FoldCons(Default, s, [], h, Default.(color := Swap(ZFill(Clean(v), 6))));
    assert [s] == [s] + [];
    SwapSwap(ZFill(Clean(v), 6));
  }
}

=== FILE: timer.dfy ===
/** The named-timeout table every session and switchboard inherits (`papyon/util/timer.py`).
    The event loop's sources are reduced to the set of names holding one; when a timeout fires
    the table hands back the handler call it makes, as an output. */
module Timer {
  import opened Results

  /** The table: the names with a live source, and the callback arguments stored per name. */
  datatype Timer<A> = Timer(sources: set<string>, args: map<string, seq<A>>)

  /** Both tables always cover the same names. */
  predicate Valid<A>(t: Timer<A>) {
    t.sources == t.args.Keys
  }

  function New<A>(): (t: Timer<A>)
    ensures Valid(t) && Timeouts(t) == {}
  {
    Timer({}, map[])
  }

  /** `timeouts`: the active names. */
  function Timeouts<A>(t: Timer<A>): set<string> {
    t.sources
  }

  /** `stop_timeout`: the name is gone from both tables, and its stored arguments are
      returned, `[]` for an unknown name. */
  function Stop<A>(t: Timer<A>, name: string): (r: (Timer<A>, seq<A>))
    ensures Valid(t) ==> Valid(r.0)
    ensures Timeouts(r.0) == Timeouts(t) - {name}
    ensures r.0.args == t.args - {name}
    ensures r.1 == (if name in t.args then t.args[name] else [])
  {
    (Timer(t.sources - {name}, t.args - {name}), if name in t.args then t.args[name] else [])
  }

  /** `start_timeout`: any timeout of the same name is replaced. */
  function Start<A>(t: Timer<A>, name: string, cbArgs: seq<A>): (r: Timer<A>)
    ensures Valid(t) ==> Valid(r)
    ensures Timeouts(r) == Timeouts(t) + {name}
    ensures name in r.args && r.args[name] == cbArgs
    ensures forall n :: n != name ==> (n in r.args <==> n in t.args) && (n in t.args ==> r.args[n] == t.args[n])
  {
    var s := Stop(t, name).0;
    Timer(s.sources + {name}, s.args[name := cbArgs])
  }

  /** `stop_all_timeout`. */
  function StopAll<A>(t: Timer<A>): (r: Timer<A>)
    ensures Valid(r) && Timeouts(r) == {}
  {
    New()
  }

  /** The call `on_timeout` makes: `on_<name>_timeout(*args)`. */
  datatype Call<A> = Call(handler: string, args: seq<A>)

  function HandlerName(name: string): string {
    "on_" + name + "_timeout"
  }

  /** `on_timeout`: the entry is removed first, then the handler — when the owner defines one,
      per `handlers` — is called with the stored arguments. */
  function OnTimeout<A>(t: Timer<A>, name: string, handlers: set<string>): (r: (Timer<A>, Option<Call<A>>))
    ensures Valid(t) ==> Valid(r.0)
    ensures name !in Timeouts(r.0) && Timeouts(r.0) == Timeouts(t) - {name}
    ensures r.1.Some? <==> HandlerName(name) in handlers
    ensures r.1.Some? ==> r.1.value.args == (if name in t.args then t.args[name] else [])
  {
    var (t', cbArgs) := Stop(t, name);
    (t', if HandlerName(name) in handlers then Some(Call(HandlerName(name), cbArgs)) else None)
  }

  /** Stopping a just-started timeout returns its arguments and leaves the table as stopping
      it would have from the start. */
  lemma StopAfterStart<A>(t: Timer<A>, name: string, cbArgs: seq<A>)
    ensures Stop(Start(t, name, cbArgs), name) == (Stop(t, name).0, cbArgs)
  {
    var s := Stop(t, name).0;
    assert s.args[name := cbArgs] - {name} == s.args;
    assert s.sources + {name} - {name} == s.sources;
  }

  /** Restarting a timeout keeps only the latest arguments. */
  lemma StartTwice<A>(t: Timer<A>, name: string, a: seq<A>, b: seq<A>)
    ensures Start(Start(t, name, a), name, b) == Start(t, name, b)
  {
  }

  /** A fired timeout hands its handler the arguments it was started with, and is no longer
      active. */
  lemma FireAfterStart<A>(t: Timer<A>, name: string, cbArgs: seq<A>, handlers: set<string>)
    requires HandlerName(name) in handlers
    ensures OnTimeout(Start(t, name, cbArgs), name, handlers).1 == Some(Call(HandlerName(name), cbArgs))
    ensures OnTimeout(Start(t, name, cbArgs), name, handlers).0 == Stop(t, name).0
  {
  }
}

=== FILE: tlp.dfy ===
/** Version-1 transport-layer packets of the MSN peer-to-peer protocol: the 48-byte chunk header,
    chunk parsing and serialisation, chunk creation for a blob, acknowledgement synthesis, the
    nonce carried in the acknowledgement fields, and the flag predicates that classify a chunk
    (`papyon/msnp2p/transport/TLPv1.py`). */
module TLPv1 {
  import opened Results
  import opened Bytes

  /** Largest positive 32-bit signed value; chunk identifiers wrap below it. */
  const MAX_INT32: nat := 2147483647

  /** Header flag bits. */
  const NAK: nat := 0x1
  const ACK: nat := 0x2
  const RAK: nat := 0x4
  const RST: nat := 0x8
  const FILE: nat := 0x10
  const EACH: nat := 0x20
  const CAN: nat := 0x40
  const ERR: nat := 0x80
  const KEY: nat := 0x100
  const CRYPT: nat := 0x200
  const UNKNOWN: nat := 0x1000000

  /** The header length in bytes. */
  const HEADER_SIZE: nat := 48

  /** Application identifier of file transfers, which marks data chunks with FILE. */
  const FILE_TRANSFER_APP: nat := 2

  /** The nine header fields, in wire order.  Fields hold Python integers: a parsed header fits
      its wire widths, except that a chunk size taken from the body length may not; flags and
      identifiers set by the code are checked only when the header is packed. */
  datatype Header = Header(
    sessionId: u32, blobId: u32, offset: u64, blobSize: u64, chunkSize: nat,
    flags: nat, dw1: nat, dw2: u32, qw1: u64)

  /** A chunk: header, payload and the application identifier of the blob it belongs to. */
  datatype Chunk = Chunk(header: Header, body: seq<byte>, appId: nat)

  datatype ParseError = TooShort

  /** Every field fits the width `struct.pack("<LLQQLLLLQ")` gives it. */
  predicate Fits(h: Header) {
    h.chunkSize < U32_LIMIT && h.flags < U32_LIMIT && h.dw1 < U32_LIMIT
  }

  function EmptyHeader(): Header {
    Header(0, 0, 0, 0, 0, 0, 0, 0, 0)
  }

  // ---------------------------------------------------------------------------
  // Flags

  /** Bit `bit` (a power of two) is set in `flags`. */
  predicate HasFlag(flags: nat, bit: nat)
    requires bit > 0
  {
    (flags / bit) % 2 == 1
  }

  /** `flags | KEY`. */
  function WithKey(flags: nat): (r: nat)
    ensures HasFlag(r, KEY)
    ensures HasFlag(flags, KEY) ==> r == flags
  {
    if HasFlag(flags, KEY) then flags else flags + KEY
  }

  /** `flags & 0xCF`: any of NAK, ACK, RAK, RST, CAN or ERR makes a chunk a control chunk. */
  predicate IsControlFlags(flags: nat) {
    HasFlag(flags, NAK) || HasFlag(flags, ACK) || HasFlag(flags, RAK) || HasFlag(flags, RST)
    || HasFlag(flags, CAN) || HasFlag(flags, ERR)
  }

  predicate IsControl(c: Chunk) { IsControlFlags(c.header.flags) }
  predicate IsAck(c: Chunk) { HasFlag(c.header.flags, ACK) }
  predicate IsNak(c: Chunk) { HasFlag(c.header.flags, NAK) }
  predicate IsNonce(c: Chunk) { HasFlag(c.header.flags, KEY) }
  predicate HasProgressed(c: Chunk) { HasFlag(c.header.flags, EACH) }

  /** A chunk on session 0 carries signalling (SLP) traffic. */
  predicate IsSignaling(c: Chunk) { c.header.sessionId == 0 }

  /** The four-zero-byte chunk announcing a data transfer. */
  predicate IsDataPreparation(c: Chunk) {
    c.header.chunkSize == 4 && c.header.blobSize == 4 && c.body == Zeros(4)
    && !HasFlag(c.header.flags, FILE)
  }

  // ---------------------------------------------------------------------------
  // Identifiers

  /** The chunk identifier lives in `dw1`. */
  function Id(c: Chunk): nat { c.header.dw1 }

  function WithId(c: Chunk, id: nat): (r: Chunk)
    ensures Id(r) == id
    ensures r.header == c.header.(dw1 := id) && r.body == c.body && r.appId == c.appId
  {
    c.(header := c.header.(dw1 := id))
  }

  /** The identifier following this chunk's: one more, wrapping to 1 where it would reach
      `MAX_INT32`. */
  function NextId(c: Chunk): (r: nat)
    ensures 1 <= Id(c) < MAX_INT32 ==> 1 <= r < MAX_INT32
    ensures Id(c) + 1 != MAX_INT32 ==> r == Id(c) + 1
    ensures r == 1 || r == Id(c) + 1
  {
    if Id(c) + 1 == MAX_INT32 then 1 else Id(c) + 1
  }

  /** The pair an acknowledgement of this chunk must quote. */
  function AckId(c: Chunk): (nat, nat) { (c.header.blobId, c.header.dw1) }

  /** The pair an acknowledgement chunk quotes. */
  function AckedId(c: Chunk): (nat, nat) { (c.header.dw1, c.header.dw2) }

  // ---------------------------------------------------------------------------
  // Wire format

  function SerializeHeader(h: Header): (r: seq<byte>)
    requires Fits(h)
    ensures |r| == HEADER_SIZE
  {
    LE32(h.sessionId) + LE32(h.blobId) + LE64(h.offset) + LE64(h.blobSize) + LE32(h.chunkSize)
    + LE32(h.flags) + LE32(h.dw1) + LE32(h.dw2) + LE64(h.qw1)
  }

  /** The fields exactly as the 48 bytes hold them, before any fix-up. */
  function DecodeFields(bs: seq<byte>): (h: Header)
    requires |bs| == HEADER_SIZE
    ensures Fits(h) && SerializeHeader(h) == bs
  {
    var h := Header(ReadLE32(bs[0..4]), ReadLE32(bs[4..8]), ReadLE64(bs[8..16]),
                    ReadLE64(bs[16..24]), ReadLE32(bs[24..28]), ReadLE32(bs[28..32]),
                    ReadLE32(bs[32..36]), ReadLE32(bs[36..40]), ReadLE64(bs[40..48]));
    HeaderSlices(bs);
    h
  }

  /** 48 bytes are the concatenation of their nine field slices. */
  lemma HeaderSlices(bs: seq<byte>)
    requires |bs| == HEADER_SIZE
    ensures bs == bs[0..4] + bs[4..8] + bs[8..16] + bs[16..24] + bs[24..28] + bs[28..32]
                  + bs[32..36] + bs[36..40] + bs[40..48]
  {
  }

  /** The nine field slices of a header image are the encoded fields. */
  lemma ImageSlices(h: Header)
    requires Fits(h)
    ensures var s := SerializeHeader(h);
      && s[0..4] == LE32(h.sessionId) && s[4..8] == LE32(h.blobId) && s[8..16] == LE64(h.offset)
      && s[16..24] == LE64(h.blobSize) && s[24..28] == LE32(h.chunkSize) && s[28..32] == LE32(h.flags)
      && s[32..36] == LE32(h.dw1) && s[36..40] == LE32(h.dw2) && s[40..48] == LE64(h.qw1)
  {
  }

  /** A header whose chunk size agrees with its body, ends inside its blob, and is empty only
      for an empty blob.  Such a header survives the parse-time fix-ups unchanged. */
  predicate Consistent(h: Header, bodyLen: nat) {
    h.chunkSize == bodyLen && h.offset + h.chunkSize <= h.blobSize
    && (h.chunkSize == 0 ==> h.blobSize == 0)
  }

  /** The header as parsed when the body that follows it is `bodyLen` bytes long, with the three
      fix-ups applied in order: a zero chunk size on a chunk carrying the whole blob becomes the
      body length; a chunk size running past the blob end becomes the body length; a zero chunk
      size empties the blob. */
  function ParseHeader(bs: seq<byte>, bodyLen: nat): (h: Header)
    requires |bs| == HEADER_SIZE
    ensures var raw := DecodeFields(bs);
      && h.sessionId == raw.sessionId && h.blobId == raw.blobId && h.offset == raw.offset
      && h.flags == raw.flags && h.dw1 == raw.dw1 && h.dw2 == raw.dw2 && h.qw1 == raw.qw1
      && (h.chunkSize == raw.chunkSize || h.chunkSize == bodyLen)
      && (h.blobSize == raw.blobSize || h.blobSize == 0)
    ensures h.chunkSize == 0 ==> h.blobSize == 0
    ensures h.offset + h.chunkSize <= h.blobSize || h.chunkSize == bodyLen || h.chunkSize == 0
    ensures Consistent(DecodeFields(bs), bodyLen) ==> h == DecodeFields(bs)
  {
    var raw := DecodeFields(bs);
    var size1 := if raw.blobSize == bodyLen && raw.chunkSize == 0 then bodyLen else raw.chunkSize;
    var size2 := if raw.offset + size1 > raw.blobSize then bodyLen else size1;
    var blob3 := if size2 == 0 then 0 else raw.blobSize;
    raw.(chunkSize := size2, blobSize := blob3)
  }

  /** `str(chunk)`: the header followed by the payload. */
  function Serialize(c: Chunk): (r: seq<byte>)
    requires Fits(c.header)
    ensures |r| == HEADER_SIZE + |c.body| && r[HEADER_SIZE..] == c.body
  {
    SerializeHeader(c.header) + c.body
  }

  /** Parses a chunk: at least 48 bytes, the rest being the payload; the application id is not on
      the wire and reads as 0. */
  function Parse(data: seq<byte>): (r: Result<Chunk, ParseError>)
    ensures r.Failure? <==> |data| < HEADER_SIZE
    ensures r.Success? ==> r.value.body == data[HEADER_SIZE..] && r.value.appId == 0
  {
    if |data| < HEADER_SIZE then Failure(TooShort)
    else Success(Chunk(ParseHeader(data[..HEADER_SIZE], |data| - HEADER_SIZE), data[HEADER_SIZE..], 0))
  }

  /** Serialising a consistent chunk and parsing the bytes gives the chunk back. */
  lemma ParseSerialize(c: Chunk)
    requires Fits(c.header) && Consistent(c.header, |c.body|)
    ensures Parse(Serialize(c)) == Success(c.(appId := 0))
  {
    var bs := Serialize(c);
    assert bs[..HEADER_SIZE] == SerializeHeader(c.header);
    var raw := DecodeFields(bs[..HEADER_SIZE]);
    HeaderFieldsUnique(raw, c.header);
  }

  /** Bytes whose header fields are already consistent parse into a chunk that serialises back to
      the same bytes. */
  lemma SerializeParse(data: seq<byte>)
    requires |data| >= HEADER_SIZE
    requires Consistent(DecodeFields(data[..HEADER_SIZE]), |data| - HEADER_SIZE)
    ensures Parse(data).Success? && Fits(Parse(data).value.header)
    ensures Serialize(Parse(data).value) == data
  {
    assert data == data[..HEADER_SIZE] + data[HEADER_SIZE..];
  }

  /** Two fitting headers with the same 48-byte image are equal. */
  lemma HeaderFieldsUnique(a: Header, b: Header)
    requires Fits(a) && Fits(b) && SerializeHeader(a) == SerializeHeader(b)
    ensures a == b
  {
    ImageSlices(a);
    ImageSlices(b);
    ReadLE32Inverse(a.sessionId); ReadLE32Inverse(b.sessionId);
    ReadLE32Inverse(a.blobId); ReadLE32Inverse(b.blobId);
    ReadLE64Inverse(a.offset); ReadLE64Inverse(b.offset);
    ReadLE64Inverse(a.blobSize); ReadLE64Inverse(b.blobSize);
    ReadLE32Inverse(a.chunkSize); ReadLE32Inverse(b.chunkSize);
    ReadLE32Inverse(a.flags); ReadLE32Inverse(b.flags);
    ReadLE32Inverse(a.dw1); ReadLE32Inverse(b.dw1);
    ReadLE32Inverse(a.dw2); ReadLE32Inverse(b.dw2);
    ReadLE64Inverse(a.qw1); ReadLE64Inverse(b.qw1);
  }

  // ---------------------------------------------------------------------------
  // Chunk construction

  /** The empty chunk a blob cuts at `offset`: as much of the rest of the blob as fits in
      `maxSize` bytes once the header is counted. */
  function Create(appId: nat, sessionId: u32, blobId: u32, offset: u64, blobSize: u64, maxSize: nat): (c: Chunk)
    requires offset <= blobSize && maxSize >= HEADER_SIZE
    ensures HEADER_SIZE + c.header.chunkSize <= maxSize
    ensures offset + c.header.chunkSize <= blobSize
    ensures c.header.chunkSize == blobSize - offset || HEADER_SIZE + c.header.chunkSize == maxSize
    ensures c.header.sessionId == sessionId && c.header.blobId == blobId && c.header.offset == offset
    ensures c.header.blobSize == blobSize && c.body == [] && c.appId == appId && c.header.flags == 0
    ensures RequireAck(c) <==> blobSize - offset <= maxSize - HEADER_SIZE
  {
    var room := maxSize - HEADER_SIZE;
    var size := if blobSize - offset < room then blobSize - offset else room;
    Chunk(EmptyHeader().(sessionId := sessionId, blobId := blobId, offset := offset,
                         blobSize := blobSize, chunkSize := size), [], appId)
  }

  /** The flags of a session data chunk: UNKNOWN|EACH, plus FILE for file transfers. */
  function DataFlags(appId: nat): (f: u32)
    ensures HasFlag(f, UNKNOWN) && HasFlag(f, EACH) && !IsControlFlags(f)
    ensures HasFlag(f, FILE) <==> appId == FILE_TRANSFER_APP
  {
    if appId == FILE_TRANSFER_APP then 0x1000030 else 0x1000020
  }

  /** Whether `SetData` marks the chunk as a session data chunk. */
  predicate IsSessionData(c: Chunk, data: seq<byte>) {
    c.header.sessionId != 0 && c.header.blobSize != 4 && data != Zeros(4)
  }

  /** Puts the payload in a chunk.  A session data chunk (not on session 0, not the 4-byte data
      preparation) is flagged UNKNOWN|EACH, plus FILE for file transfers. */
  function SetData(c: Chunk, data: seq<byte>): (r: Chunk)
    ensures r.body == data && r.header.chunkSize == |data| && r.appId == c.appId
    ensures r.header == c.header.(chunkSize := |data|, flags := r.header.flags)
    ensures IsSessionData(c, data) ==> r.header.flags == DataFlags(c.appId) && !IsControl(r)
    ensures !IsSessionData(c, data) ==> r.header.flags == c.header.flags
  {
    var h := c.header.(chunkSize := |data|);
    if IsSessionData(c, data) then Chunk(h.(flags := DataFlags(c.appId)), data, c.appId)
    else Chunk(h, data, c.appId)
  }

  /** A chunk asks for an acknowledgement when it is not itself one and ends its blob. */
  predicate RequireAck(c: Chunk) {
    !IsAck(c) && c.header.chunkSize + c.header.offset == c.header.blobSize
  }

  /** The acknowledgement of `c`, under the fresh blob identifier `blobId`. */
  function CreateAck(c: Chunk, blobId: u32): (a: Chunk)
    requires 1000 <= blobId <= MAX_INT32
    requires c.header.dw1 < U32_LIMIT
    ensures AckedId(a) == AckId(c)
    ensures IsAck(a) && IsControl(a) && !RequireAck(a)
    ensures HasFlag(a.header.flags, RAK) <==> HasFlag(c.header.flags, RAK)
    ensures !HasFlag(a.header.flags, KEY) && !HasFlag(a.header.flags, NAK)
    ensures a.header.sessionId == c.header.sessionId && a.header.blobId == blobId
    ensures a.header.qw1 == c.header.blobSize && a.body == [] && Fits(a.header)
  {
    var flags := if HasFlag(c.header.flags, RAK) then ACK + RAK else ACK;
    Chunk(Header(c.header.sessionId, blobId, 0, 0, 0, flags,
                 c.header.blobId, c.header.dw1, c.header.blobSize), [], 0)
  }

  // ---------------------------------------------------------------------------
  // Nonce

  /** The 16 bytes of a UUID (Python's `uuid.UUID.bytes`). */
  type Uuid = s: seq<byte> | |s| == 16 witness Zeros(16)

  /** The UUID a nonce chunk carries: `dw1` big-endian, then each half of `dw2` big-endian (low
      half first), then `qw1` little-endian; the nil UUID when the chunk is not a nonce chunk. */
  function GetNonce(c: Chunk): (u: Uuid)
    requires c.header.dw1 < U32_LIMIT
    ensures !IsNonce(c) ==> u == Zeros(16)
  {
    if !IsNonce(c) then Zeros(16)
    else BE32(c.header.dw1) + BE16(c.header.dw2 % U16_LIMIT) + BE16(c.header.dw2 / U16_LIMIT)
         + LE64(c.header.qw1)
  }

  /** Stores a UUID in the acknowledgement fields and marks the chunk as a nonce chunk. */
  function SetNonce(c: Chunk, u: Uuid): (r: Chunk)
    ensures IsNonce(r)
    ensures r.header == c.header.(dw1 := r.header.dw1, dw2 := r.header.dw2, qw1 := r.header.qw1,
                                  flags := r.header.flags)
    ensures r.header.flags == WithKey(c.header.flags) && r.body == c.body
  {
    var dw2 := ReadBE16(u[4..6]) + ReadBE16(u[6..8]) * U16_LIMIT;
    c.(header := c.header.(dw1 := ReadBE32(u[0..4]), dw2 := dw2, qw1 := ReadLE64(u[8..16]),
                           flags := WithKey(c.header.flags)))
  }

  /** A stored nonce reads back unchanged. */
  lemma GetSetNonce(c: Chunk, u: Uuid)
    ensures SetNonce(c, u).header.dw1 < U32_LIMIT
    ensures GetNonce(SetNonce(c, u)) == u
  {
    var r := SetNonce(c, u);
    var lo := ReadBE16(u[4..6]);
    var hi := ReadBE16(u[6..8]);
    assert r.header.dw2 % U16_LIMIT == lo && r.header.dw2 / U16_LIMIT == hi;
    assert u == u[0..4] + u[4..6] + u[6..8] + u[8..16];
  }

  /** Storing the nonce a nonce chunk carries leaves the chunk as it was. */
  lemma SetGetNonce(c: Chunk)
    requires IsNonce(c) && c.header.dw1 < U32_LIMIT
    ensures SetNonce(c, GetNonce(c)) == c
  {
    var u := GetNonce(c);
    var lo: u16 := c.header.dw2 % U16_LIMIT;
    var hi: u16 := c.header.dw2 / U16_LIMIT;
    assert ReadBE32(u[0..4]) == c.header.dw1 by {
      assert u[0..4] == BE32(c.header.dw1);
      ReadBE32Inverse(c.header.dw1);
    }
    assert ReadBE16(u[4..6]) == lo by {
      assert u[4..6] == BE16(lo);
      ReadBE16Inverse(lo);
    }
    assert ReadBE16(u[6..8]) == hi by {
      assert u[6..8] == BE16(hi);
      ReadBE16Inverse(hi);
    }
    assert ReadLE64(u[8..16]) == c.header.qw1 by {
      assert u[8..16] == LE64(c.header.qw1);
      ReadLE64Inverse(c.header.qw1);
    }
    assert lo + hi * U16_LIMIT == c.header.dw2;
  }
}

=== FILE: transport.dfy ===
/** The transport base class of the MSN peer-to-peer stack
    (`papyon/msnp2p/transport/base.py`): two FIFO send queues (control before data), the
    transport-local chunk-id counter, the set of acknowledgement ids still expected, and the table
    of fully-sent data blobs waiting for their acknowledgement.  Each operation is a pure
    transition returning the new state, the events it caused (chunks handed to the wire, callbacks
    fired, chunks passed up) and, for a drain, whether the periodic drain timer keeps running.

    The queue lock is a flag: a drain that finds it held does nothing and asks to be called again;
    `send` and `cleanup` wait for it, so they are modelled as proceeding. */
module TransportBase {
  import opened Results
  import opened Bytes
  import TLPv1
  import Blob

  /** Opaque token for a completion or error callback. */
  type Callback = nat

  /** An acknowledgement identifier: the (blob id, chunk id) pair of a chunk. */
  type AckKey = (nat, nat)

  datatype Entry = Entry(blob: Blob.Blob, callback: Option<Callback>, errback: Option<Callback>)

  datatype State = State(
    control: seq<Entry>,
    data: seq<Entry>,
    localChunkId: nat,
    pendingAck: set<AckKey>,
    pendingBlob: map<AckKey, Entry>,
    timerActive: bool,
    locked: bool)

  datatype Event =
    | ChunkOut(chunk: TLPv1.Chunk)       // handed to `_send_chunk`
    | Fired(callback: Callback)           // a completion callback called
    | ChunkUp(chunk: TLPv1.Chunk)        // "chunk-received" emitted
    | ChunkSentUp(chunk: TLPv1.Chunk)    // "chunk-sent" emitted

  /** The outcome of one transition. */
  datatype Step = Step(state: State, events: seq<Event>, keepTimer: bool)

  /** Every queued blob can be cut, and each queue holds its own kind of blob. */
  predicate Valid(st: State) {
    && (forall i :: 0 <= i < |st.control| ==> st.control[i].blob.Control?)
    && (forall i :: 0 <= i < |st.data| ==> st.data[i].blob.Data? && Blob.Sendable(st.data[i].blob))
  }

  /** The chunk-id counter stays in the 31-bit range the wrap-around is meant to keep it in. */
  predicate IdInRange(st: State) {
    1 <= st.localChunkId < TLPv1.MAX_INT32
  }

  /** A new transport as the constructor builds it, the counter seeded with `seed`, a draw from
      `random.randint(1000, MAX_INT32)` (both ends included). */
  function Init(seed: nat): (st: State)
    requires 1000 <= seed <= TLPv1.MAX_INT32
    ensures Valid(st) && st.localChunkId == seed
    ensures st.control == [] && st.data == [] && st.pendingAck == {} && st.pendingBlob == map[]
    ensures !st.timerActive && !st.locked
  {
    State([], [], seed, {}, map[], false, false)
  }

  /** A new transport whose counter is seeded below `MAX_INT32`, so that it never leaves the
      31-bit range. */
  function InitInRange(seed: nat): (st: State)
    requires 1000 <= seed < TLPv1.MAX_INT32
    ensures Valid(st) && IdInRange(st) && st == Init(seed)
  {
    State([], [], seed, {}, map[], false, false)
  }

  /** `_reset`: empties both queues and both pending tables. */
  function Reset(st: State): (r: State)
    ensures r.control == [] && r.data == [] && r.pendingAck == {} && r.pendingBlob == map[]
    ensures r.localChunkId == st.localChunkId && r.timerActive == st.timerActive
    ensures Valid(r)
  {
    st.(control := [], data := [], pendingAck := {}, pendingBlob := map[])
  }

  // ---------------------------------------------------------------------------
  // Pending tables

  /** `_add_pending_blob`: a data blob waits for its acknowledgement; for any other blob the
      completion callback fires at once. */
  function AddPendingBlob(st: State, key: AckKey, e: Entry): (r: (State, seq<Event>))
    ensures e.blob.Data? ==> r.0 == st.(pendingBlob := st.pendingBlob[key := e]) && r.1 == []
    ensures !e.blob.Data? ==> r.0 == st
    ensures !e.blob.Data? && e.callback.Some? ==> r.1 == [Fired(e.callback.value)]
    ensures e.callback.None? ==> r.1 == []
  {
    if e.blob.Data? then (st.(pendingBlob := st.pendingBlob[key := e]), [])
    else if e.callback.Some? then (st, [Fired(e.callback.value)])
    else (st, [])
  }

  /** `_del_pending_blob`: releases the blob waiting under `key`, firing its callback. */
  function DelPendingBlob(st: State, key: AckKey): (r: (State, seq<Event>))
    ensures r.0 == st.(pendingBlob := st.pendingBlob - {key})
    ensures key !in st.pendingBlob ==> r.1 == []
    ensures key in st.pendingBlob && st.pendingBlob[key].callback.Some? ==>
      r.1 == [Fired(st.pendingBlob[key].callback.value)]
    ensures key in st.pendingBlob && st.pendingBlob[key].callback.None? ==> r.1 == []
  {
    if key !in st.pendingBlob then (st.(pendingBlob := st.pendingBlob - {key}), [])
    else
      var e := st.pendingBlob[key];
      (st.(pendingBlob := st.pendingBlob - {key}), if e.callback.Some? then [Fired(e.callback.value)] else [])
  }

  // ---------------------------------------------------------------------------
  // Draining

  /** Serves the head entry of `queue`: cuts one chunk from its blob and stamps it with the local
      chunk id.  Returns the stamped chunk, the queue after the step (head dropped once its blob is
      complete) and the entry to retire, if any. */
  function ServeHead(queue: seq<Entry>, maxChunk: nat, id: nat): (r: (TLPv1.Chunk, seq<Entry>, Option<Entry>))
    requires |queue| > 0 && Blob.Sendable(queue[0].blob) && maxChunk > TLPv1.HEADER_SIZE
    ensures var (c, q, done) := r;
      var next := Blob.GetChunk(queue[0].blob, maxChunk);
      && c == TLPv1.WithId(next.0, id)
      && (done.Some? ==> done.value == queue[0].(blob := next.1))
      && (done.None? ==> q == [queue[0].(blob := next.1)] + queue[1..])
      && TLPv1.Id(c) == id
      && (done.Some? <==> Blob.IsComplete(Blob.GetChunk(queue[0].blob, maxChunk).1))
      && (done.Some? ==> q == queue[1..] && done.value.callback == queue[0].callback
                          && done.value.blob.Data? == queue[0].blob.Data?)
      && (done.None? ==> |q| == |queue| && q[1..] == queue[1..] && q[0].callback == queue[0].callback
                          && Blob.Sendable(q[0].blob) && q[0].blob.Data? == queue[0].blob.Data?)
  {
    var e := queue[0];
    var (c0, b') := Blob.GetChunk(e.blob, maxChunk);
    var c := TLPv1.WithId(c0, id);
    if Blob.IsComplete(b') then (c, queue[1..], Some(e.(blob := b')))
    else (c, [e.(blob := b')] + queue[1..], None)
  }

  /** `_process_send_queues`: one tick of the drain timer.  With the lock held it does nothing
      and keeps the timer; with both queues empty it stops the timer; otherwise it sends one chunk
      from the head of the control queue, or of the data queue when there is no control entry. */
  function Drain(st: State, maxChunk: nat): (r: Step)
    requires Valid(st) && maxChunk > TLPv1.HEADER_SIZE
    ensures Valid(r.state)
    ensures st.pendingBlob.Keys <= r.state.pendingBlob.Keys
    ensures st.locked ==> r == Step(st, [], true)
    ensures !st.locked && st.control == [] && st.data == [] ==>
      r == Step(st.(timerActive := false), [], false)
    ensures !st.locked && (st.control != [] || st.data != []) ==> OneSent(st, maxChunk, r)
    ensures NoneUp(r.events)
    ensures IdInRange(st) ==> IdInRange(r.state)
  {
    if st.locked then Step(st, [], true)
    else if st.control == [] && st.data == [] then Step(st.(timerActive := false), [], false)
    else SendOne(st, maxChunk)
  }

  /** The drain tick that has something to send: one chunk from the head of the control queue,
      or of the data queue when the control queue is empty. */
  function SendOne(st: State, maxChunk: nat): (r: Step)
    requires Valid(st) && maxChunk > TLPv1.HEADER_SIZE && !st.locked && (st.control != [] || st.data != [])
    ensures Valid(r.state)
    ensures st.pendingBlob.Keys <= r.state.pendingBlob.Keys
    ensures OneSent(st, maxChunk, r)
    ensures NoneUp(r.events)
    ensures IdInRange(st) ==> IdInRange(r.state)
  {
    var fromControl := st.control != [];
    var queue := if fromControl then st.control else st.data;
    var (c, q, done) := ServeHead(queue, maxChunk, st.localChunkId);
    var st1 := if fromControl then st.(control := q) else st.(data := q);
    var st2 := st1.(localChunkId := TLPv1.NextId(c));
    var (st3, fired) := if done.Some? then AddPendingBlob(st2, TLPv1.AckId(c), done.value) else (st2, []);
    var st4 := if TLPv1.RequireAck(c) then st3.(pendingAck := st3.pendingAck + {TLPv1.AckId(c)}) else st3;
    Step(st4, fired + [ChunkOut(c)], true)
  }

  /** One chunk sent by a drain step: the timer keeps running; the last event hands to the wire
      a chunk stamped with the local chunk id, and the counter moves past it; the served queue's
      head is dealt with as `HeadOutcome` says and the other queue is untouched; the chunk's ack
      id is expected back exactly when the chunk asks for an acknowledgement. */
  predicate OneSent(st: State, maxChunk: nat, r: Step)
    requires Valid(st) && maxChunk > TLPv1.HEADER_SIZE && (st.control != [] || st.data != [])
  {
      && r.keepTimer && r.state.timerActive == st.timerActive && !r.state.locked
      && |r.events| > 0 && r.events[|r.events| - 1].ChunkOut?
      && TLPv1.Id(r.events[|r.events| - 1].chunk) == st.localChunkId
      && r.state.localChunkId == TLPv1.NextId(r.events[|r.events| - 1].chunk)
      && (st.control != [] ==> r.state.data == st.data)
      && (st.control == [] ==> r.state.control == [])
      && (var c := r.events[|r.events| - 1].chunk;
           r.state.pendingAck == if TLPv1.RequireAck(c) then st.pendingAck + {TLPv1.AckId(c)} else st.pendingAck)
      && HeadOutcome(st, maxChunk, r)
  }

  /** The queue a drain step serves: the control queue while it holds anything, else the data
      queue. */
  function ServedQueue(st: State): seq<Entry> {
    if st.control != [] then st.control else st.data
  }

  /** What a drain step that has something to send does with the head entry `e` of the queue it
      serves: the chunk handed to the wire is the next chunk of `e`'s blob stamped with the local
      chunk id; `e` leaves its queue exactly when that chunk completes its blob, and then a data
      blob waits in the pending table under the chunk's ack id while a control blob fires its
      callback at once; an incomplete blob stays at the head, advanced by the chunk. */
  predicate HeadOutcome(st: State, maxChunk: nat, r: Step)
    requires Valid(st) && maxChunk > TLPv1.HEADER_SIZE && (st.control != [] || st.data != [])
  {
    var q := ServedQueue(st);
    var e := q[0];
    var next := Blob.GetChunk(e.blob, maxChunk);
    var c := TLPv1.WithId(next.0, st.localChunkId);
    var after := if st.control != [] then r.state.control else r.state.data;
    if Blob.IsComplete(next.1) then
      && after == q[1..]
      && (e.blob.Data? ==>
            r.state.pendingBlob == st.pendingBlob[TLPv1.AckId(c) := e.(blob := next.1)]
            && r.events == [ChunkOut(c)])
      && (e.blob.Control? ==>
            r.state.pendingBlob == st.pendingBlob
            && r.events == (if e.callback.Some? then [Fired(e.callback.value)] else []) + [ChunkOut(c)])
    else
      after == [e.(blob := next.1)] + q[1..] && r.state.pendingBlob == st.pendingBlob
      && r.events == [ChunkOut(c)]
  }

  /** No event of `evs` passes a chunk up. */
  predicate NoneUp(evs: seq<Event>) {
    forall i :: 0 <= i < |evs| ==> !evs[i].ChunkUp?
  }

  /** `send`: queues a blob (control blobs ahead of data) and, when no drain timer runs, starts it
      and drains once at once. */
  function Send(st: State, e: Entry, maxChunk: nat): (r: Step)
    requires Valid(st) && Blob.Sendable(e.blob) && maxChunk > TLPv1.HEADER_SIZE
    ensures Valid(r.state)
    ensures st.timerActive ==> r.events == [] && r.state == Enqueue(st, e)
    ensures !st.timerActive ==> r == Drain(Enqueue(st, e).(timerActive := true), maxChunk)
    ensures NoneUp(r.events)
    ensures IdInRange(st) ==> IdInRange(r.state)
  {
    var st1 := Enqueue(st, e);
    if st.timerActive then Step(st1, [], true)
    else Drain(st1.(timerActive := true), maxChunk)
  }

  /** Appends an entry to the queue its blob kind selects. */
  function Enqueue(st: State, e: Entry): (r: State)
    requires Valid(st) && Blob.Sendable(e.blob)
    ensures Valid(r)
    ensures e.blob.Control? ==> r == st.(control := st.control + [e])
    ensures e.blob.Data? ==> r == st.(data := st.data + [e])
  {
    if e.blob.Control? then st.(control := st.control + [e]) else st.(data := st.data + [e])
  }

  // ---------------------------------------------------------------------------
  // Receiving

  /** The acknowledgement `_on_chunk_received` sends for `c`: a control blob holding the ack
      chunk under the fresh blob id `ackBlobId`, with no callbacks. */
  function AckEntry(c: TLPv1.Chunk, ackBlobId: u32): Entry
    requires 1000 <= ackBlobId <= TLPv1.MAX_INT32 && c.header.dw1 < U32_LIMIT
  {
    Entry(Blob.Control(TLPv1.CreateAck(c, ackBlobId), false), None, None)
  }

  /** The first part of `_on_chunk_received`: a chunk that asks for an acknowledgement has it
      sent, which queues it (or, when `send` starts the drain timer and nothing else is on the
      control queue, hands it to the wire at once); any other chunk changes nothing. */
  function Acknowledge(st: State, c: TLPv1.Chunk, maxChunk: nat, ackBlobId: u32): (r: Step)
    requires Valid(st) && maxChunk > TLPv1.HEADER_SIZE
    requires 1000 <= ackBlobId <= TLPv1.MAX_INT32 && c.header.dw1 < U32_LIMIT
    ensures Valid(r.state) && NoneUp(r.events)
    ensures IdInRange(st) ==> IdInRange(r.state)
    ensures TLPv1.RequireAck(c) ==>
      AckEntry(c, ackBlobId) in r.state.control
      || ChunkOut(TLPv1.WithId(TLPv1.CreateAck(c, ackBlobId), st.localChunkId)) in r.events
    ensures !TLPv1.RequireAck(c) ==> r == Step(st, [], true)
  {
    AckQueuedOrSent(st, c, maxChunk, ackBlobId);
    if TLPv1.RequireAck(c) then Send(st, AckEntry(c, ackBlobId), maxChunk) else Step(st, [], true)
  }

  /** The second part of `_on_chunk_received`: an acknowledgement or negative acknowledgement
      takes the id it names out of both pending tables and fires the callback stored for it; an
      unknown id leaves both tables as they were, and any other chunk changes nothing. */
  function Release(st: State, c: TLPv1.Chunk): (r: (State, seq<Event>))
    requires Valid(st)
    ensures Valid(r.0) && NoneUp(r.1)
    ensures IdInRange(st) ==> IdInRange(r.0)
    ensures !(TLPv1.IsAck(c) || TLPv1.IsNak(c)) ==> r == (st, [])
    ensures TLPv1.IsAck(c) || TLPv1.IsNak(c) ==>
      var k := TLPv1.AckedId(c);
      && r.0 == st.(pendingAck := st.pendingAck - {k}, pendingBlob := st.pendingBlob - {k})
      && k !in r.0.pendingAck && k !in r.0.pendingBlob
      && (k in st.pendingBlob && st.pendingBlob[k].callback.Some? ==> r.1 == [Fired(st.pendingBlob[k].callback.value)])
      && (k !in st.pendingBlob || st.pendingBlob[k].callback.None? ==> r.1 == [])
      && (k !in st.pendingAck && k !in st.pendingBlob ==> r.0 == st)
  {
    if TLPv1.IsAck(c) || TLPv1.IsNak(c) then
      var k := TLPv1.AckedId(c);
      assert k !in st.pendingAck && k !in st.pendingBlob ==>
        st.pendingAck - {k} == st.pendingAck && st.pendingBlob - {k} == st.pendingBlob;
      DelPendingBlob(st.(pendingAck := st.pendingAck - {k}), k)
    else (st, [])
  }

  /** `_on_chunk_received` up to its closing drain: the acknowledgement, the release, and then
      exactly the non-control chunks are passed up. */
  function Received(st: State, c: TLPv1.Chunk, maxChunk: nat, ackBlobId: u32): (r: Step)
    requires Valid(st) && maxChunk > TLPv1.HEADER_SIZE
    requires 1000 <= ackBlobId <= TLPv1.MAX_INT32 && c.header.dw1 < U32_LIMIT
    ensures Valid(r.state)
    ensures IdInRange(st) ==> IdInRange(r.state)
    ensures ChunkUp(c) in r.events <==> !TLPv1.IsControl(c)
    ensures TLPv1.RequireAck(c) ==>
      AckEntry(c, ackBlobId) in r.state.control
      || ChunkOut(TLPv1.WithId(TLPv1.CreateAck(c, ackBlobId), st.localChunkId)) in r.events
    ensures TLPv1.IsAck(c) || TLPv1.IsNak(c) ==>
      TLPv1.AckedId(c) !in r.state.pendingAck && TLPv1.AckedId(c) !in r.state.pendingBlob
    ensures !TLPv1.RequireAck(c) ==>
      r.state == Release(st, c).0 && r.events == Release(st, c).1 + (if TLPv1.IsControl(c) then [] else [ChunkUp(c)])
  {
    var a := Acknowledge(st, c, maxChunk, ackBlobId);
    var (st2, released) := Release(a.state, c);
    var up := if !TLPv1.IsControl(c) then [ChunkUp(c)] else [];
    assert AckEntry(c, ackBlobId) in a.state.control ==> AckEntry(c, ackBlobId) in st2.control;
    Step(st2, a.events + released + up, a.keepTimer)
  }

  /** `send` of the acknowledgement leaves it on the control queue, or hands it to the wire when
      it is the head the first drain serves. */
  lemma AckQueuedOrSent(st: State, c: TLPv1.Chunk, maxChunk: nat, ackBlobId: u32)
    requires Valid(st) && maxChunk > TLPv1.HEADER_SIZE
    requires 1000 <= ackBlobId <= TLPv1.MAX_INT32 && c.header.dw1 < U32_LIMIT
    ensures var s1 := Send(st, AckEntry(c, ackBlobId), maxChunk);
      AckEntry(c, ackBlobId) in s1.state.control
      || ChunkOut(TLPv1.WithId(TLPv1.CreateAck(c, ackBlobId), st.localChunkId)) in s1.events
  {
    var e := AckEntry(c, ackBlobId);
    var st1 := Enqueue(st, e);
    assert st1.control == st.control + [e];
    if !st.timerActive && !st.locked && st.control != [] {
      var q := st1.control;
      assert q[|q| - 1] == e;
      assert e in q[1..];
    }
  }

  /** `_on_chunk_received`: the receive step above followed by one drain of the send queues. */
  function OnChunkReceived(st: State, c: TLPv1.Chunk, maxChunk: nat, ackBlobId: u32): (r: Step)
    requires Valid(st) && maxChunk > TLPv1.HEADER_SIZE
    requires 1000 <= ackBlobId <= TLPv1.MAX_INT32 && c.header.dw1 < U32_LIMIT
    ensures Valid(r.state)
    ensures IdInRange(st) ==> IdInRange(r.state)
    ensures Received(st, c, maxChunk, ackBlobId).events <= r.events
    ensures ChunkUp(c) in r.events <==> !TLPv1.IsControl(c)
    ensures var pre := Received(st, c, maxChunk, ackBlobId); var d := Drain(pre.state, maxChunk);
      r.state == d.state && r.events == pre.events + d.events && r.keepTimer == d.keepTimer
  {
    var pre := Received(st, c, maxChunk, ackBlobId);
    var s := Drain(pre.state, maxChunk);
    Step(s.state, pre.events + s.events, s.keepTimer)
  }

  /** `_on_chunk_sent`: reports the chunk and drains once.  The pending-blob lookup it performs
      compares the chunk object with (blob id, chunk id) keys and never matches, so no pending
      blob is released here. */
  function OnChunkSent(st: State, c: TLPv1.Chunk, maxChunk: nat): (r: Step)
    requires Valid(st) && maxChunk > TLPv1.HEADER_SIZE
    ensures Valid(r.state) && st.pendingBlob.Keys <= r.state.pendingBlob.Keys
    ensures |r.events| > 0 && r.events[0] == ChunkSentUp(c)
    ensures var d := Drain(st, maxChunk);
      r.state == d.state && r.events == [ChunkSentUp(c)] + d.events && r.keepTimer == d.keepTimer
  {
    var s := Drain(st, maxChunk);
    Step(s.state, [ChunkSentUp(c)] + s.events, s.keepTimer)
  }

  // ---------------------------------------------------------------------------
  // Cleanup

  /** The entries of `q` whose blob belongs to another session, in their original order. */
  function DropSession(q: seq<Entry>, sessionId: nat): (r: seq<Entry>)
    ensures |r| <= |q|
    ensures forall e :: e in r <==> e in q && Blob.SessionId(e.blob) != sessionId
  {
    if |q| == 0 then []
    else
      var rest := DropSession(q[1..], sessionId);
      assert forall e :: e in q <==> e == q[0] || e in q[1..];
      if Blob.SessionId(q[0].blob) == sessionId then rest else [q[0]] + rest
  }

  /** Dropping distributes over concatenation, so the kept entries keep their relative order. */
  lemma {:induction false} DropSessionAppend(a: seq<Entry>, b: seq<Entry>, sessionId: nat)
    ensures DropSession(a + b, sessionId) == DropSession(a, sessionId) + DropSession(b, sessionId)
    decreases |a|
  {
    if |a| == 0 {
      assert a + b == b;
    } else {
      assert (a + b)[1..] == a[1..] + b;
      DropSessionAppend(a[1..], b, sessionId);
    }
  }

  /** `cleanup`: removes the session's blobs from the data queue only, so a queued goodbye on
      the control queue is still sent. */
  function Cleanup(st: State, sessionId: nat): (r: State)
    requires Valid(st)
    ensures Valid(r)
    ensures r == st.(data := DropSession(st.data, sessionId))
    ensures forall e :: e in r.data ==> Blob.SessionId(e.blob) != sessionId
  {
    var r := st.(data := DropSession(st.data, sessionId));
    assert forall i :: 0 <= i < |r.data| ==> r.data[i] in st.data;
    r
  }

  // ---------------------------------------------------------------------------
  // Acknowledgement discipline

  /** An acknowledgement naming a blob that waits in the pending table fires that blob's
      callback and takes the blob out of the table before anything else is sent. */
  lemma AckReleasesPendingBlob(st: State, a: TLPv1.Chunk, maxChunk: nat, ackBlobId: u32)
    requires Valid(st) && maxChunk > TLPv1.HEADER_SIZE
    requires 1000 <= ackBlobId <= TLPv1.MAX_INT32 && a.header.dw1 < U32_LIMIT
    requires TLPv1.IsAck(a) && TLPv1.AckedId(a) in st.pendingBlob
    requires st.pendingBlob[TLPv1.AckedId(a)].callback.Some?
    ensures OnChunkReceived(st, a, maxChunk, ackBlobId).events[0] == Fired(st.pendingBlob[TLPv1.AckedId(a)].callback.value)
  {
    var k := TLPv1.AckedId(a);
    var cb := st.pendingBlob[k].callback.value;
    var st2 := st.(pendingAck := st.pendingAck - {k});
    var (st3, released) := DelPendingBlob(st2, k);
    assert released == [Fired(cb)];
    assert !TLPv1.RequireAck(a);
    var r := OnChunkReceived(st, a, maxChunk, ackBlobId);
    var up := if !TLPv1.IsControl(a) then [ChunkUp(a)] else [];
    var s3 := Drain(st3, maxChunk);
    assert r.events == [] + released + up + s3.events;
    assert r.events[0] == Fired(cb);
  }

  /** An acknowledgement releases at most once: received a second time it finds nothing
      pending under its id, so the receive step changes nothing and fires no callback. */
  lemma ReleaseAtMostOnce(st: State, a: TLPv1.Chunk, maxChunk: nat, ackBlobId: u32)
    requires Valid(st) && maxChunk > TLPv1.HEADER_SIZE
    requires 1000 <= ackBlobId <= TLPv1.MAX_INT32 && a.header.dw1 < U32_LIMIT
    requires TLPv1.IsAck(a)
    ensures var r1 := Received(st, a, maxChunk, ackBlobId);
      var r2 := Received(r1.state, a, maxChunk, ackBlobId);
      r2.state == r1.state && r2.events == (if TLPv1.IsControl(a) then [] else [ChunkUp(a)])
  {
    var r1 := Received(st, a, maxChunk, ackBlobId);
    assert !TLPv1.RequireAck(a);
    var k := TLPv1.AckedId(a);
    assert k !in r1.state.pendingAck && k !in r1.state.pendingBlob;
    assert Release(r1.state, a) == (r1.state, []);
  }

  /** The full acknowledgement cycle of a data blob whose next chunk is its last: draining the
      data queue sends that chunk and parks the blob under the chunk's ack id; when the peer's
      acknowledgement of the chunk comes back, the blob's callback fires. */
  lemma SentBlobReleasedByAck(st: State, maxChunk: nat, ackBlobId: u32, peerAckBlobId: u32)
    requires Valid(st) && !st.locked && st.control == [] && |st.data| > 0
    requires maxChunk > TLPv1.HEADER_SIZE && st.localChunkId < U32_LIMIT
    requires 1000 <= ackBlobId <= TLPv1.MAX_INT32 && 1000 <= peerAckBlobId <= TLPv1.MAX_INT32
    requires st.data[0].callback.Some?
    requires Blob.IsComplete(Blob.GetChunk(st.data[0].blob, maxChunk).1)
    ensures var s1 := Drain(st, maxChunk);
      var c := s1.events[|s1.events| - 1].chunk;
      var ack := TLPv1.CreateAck(c, peerAckBlobId);
      && TLPv1.AckId(c) in s1.state.pendingBlob
      && Fired(st.data[0].callback.value) in OnChunkReceived(s1.state, ack, maxChunk, ackBlobId).events
  {
    var s1 := Drain(st, maxChunk);
    var (c, q, done) := ServeHead(st.data, maxChunk, st.localChunkId);
    assert done.Some? && done.value.blob.Data?;
    assert s1.events == [ChunkOut(c)];
    assert TLPv1.AckId(c) in s1.state.pendingBlob;
    assert s1.state.pendingBlob[TLPv1.AckId(c)] == done.value;
    var ack := TLPv1.CreateAck(c, peerAckBlobId);
    AckReleasesPendingBlob(s1.state, ack, maxChunk, ackBlobId);
  }

  /** Draining a queued acknowledgement stamps it with the local chunk id like any other chunk,
      and the chunk id of a version-1 chunk is its `dw1` field, where the acknowledgement carries
      the blob id it acknowledges: the acknowledgement that leaves quotes the local chunk id in
      place of that blob id. */
  lemma DrainRestampsAck(st: State, acked: TLPv1.Chunk, blobId: u32, maxChunk: nat)
    requires Valid(st) && !st.locked && maxChunk > TLPv1.HEADER_SIZE
    requires 1000 <= blobId <= TLPv1.MAX_INT32 && acked.header.dw1 < U32_LIMIT
    requires |st.control| > 0 && st.control[0].blob == Blob.Control(TLPv1.CreateAck(acked, blobId), false)
    ensures var r := Drain(st, maxChunk);
      var sent := r.events[|r.events| - 1].chunk;
      TLPv1.AckedId(sent) == (st.localChunkId, acked.header.dw1)
  {
  }

  /** A counter seeded at `MAX_INT32` itself, which the constructor's draw allows, skips the
      wrap-around: after the first chunk it stands at 2^31, outside the 31-bit range. */
  lemma SeedAtMaxLeavesRange(e: Entry, maxChunk: nat)
    requires Blob.Sendable(e.blob) && maxChunk > TLPv1.HEADER_SIZE
    ensures var r := Send(Init(TLPv1.MAX_INT32), e, maxChunk);
      r.state.localChunkId == TLPv1.MAX_INT32 + 1 && !IdInRange(r.state)
  {
  }
}

=== FILE: transport_manager.dfy ===
/** The process-wide transport manager of the peer-to-peer stack
    (`papyon/msnp2p/transport/transport_manager.py`): the registry of live transports, the choice
    of a transport for a (peer, endpoint) pair, reassembly of inbound chunks into one blob per
    session id, the session blacklist, and session cleanup across all transports.

    The registry is a set in the source; here it is a sequence in registration order, which is the
    iteration order the first-match search uses.  Each registered transport carries the
    (peer, endpoint) pair it is bound to, the chunk size of its kind and its queue state. */
module TransportManager {
  import opened Results
  import opened Bytes
  import TLPv1
  import Blob
  import TransportBase

  /** The relay (switchboard) transport, which the manager creates on demand, and the direct
      TCP transport. */
  datatype Kind = Relay | Direct

  /** Largest chunk, header included, each kind of transport sends. */
  function MaxChunkSize(k: Kind): (n: nat)
    ensures n > TLPv1.HEADER_SIZE
  {
    match k
    case Relay => 1250
    case Direct => 1350
  }

  datatype Transport = Transport(
    id: nat, kind: Kind, peer: string, peerGuid: Option<string>, queues: TransportBase.State)

  datatype Manager = Manager(
    transports: seq<Transport>,
    dataBlobs: map<nat, Blob.Blob>,
    blacklist: set<nat>)

  datatype Event =
    | ChunkTransferred(chunk: TLPv1.Chunk)
    | BlobReceived(blob: Blob.Blob)
    | FromTransport(transportId: nat, event: TransportBase.Event)

  datatype RegistryError = AlreadyRegistered

  /** Registered transports have distinct ids and valid queues; in-progress blobs are data blobs
      filed under their own session id. */
  predicate Valid(m: Manager) {
    && (forall i, j :: 0 <= i < j < |m.transports| ==> m.transports[i].id != m.transports[j].id)
    && (forall i :: 0 <= i < |m.transports| ==> TransportBase.Valid(m.transports[i].queues))
    && (forall s :: s in m.dataBlobs ==> m.dataBlobs[s].Data? && m.dataBlobs[s].sessionId == s)
  }

  function Ids(ts: seq<Transport>): (r: set<nat>)
    ensures forall i :: 0 <= i < |ts| ==> ts[i].id in r
  {
    set t | t in ts :: t.id
  }

  function Empty(): (m: Manager)
    ensures Valid(m) && m.transports == [] && m.dataBlobs == map[] && m.blacklist == {}
  {
    Manager([], map[], {})
  }

  // ---------------------------------------------------------------------------
  // Registry

  /** `_register_transport`: adds a transport; registering one already present fails (the
      source's assertion). */
  function Register(m: Manager, t: Transport): (r: Result<Manager, RegistryError>)
    requires Valid(m) && TransportBase.Valid(t.queues)
    ensures r.Failure? <==> t.id in Ids(m.transports)
    ensures r.Success? ==> Valid(r.value) && r.value == m.(transports := m.transports + [t])
  {
    if t.id in Ids(m.transports) then Failure(AlreadyRegistered)
    else Success(m.(transports := m.transports + [t]))
  }

  /** The transports other than the one with id `id`, in order. */
  function Without(ts: seq<Transport>, id: nat): (r: seq<Transport>)
    ensures forall t :: t in r <==> t in ts && t.id != id
    ensures Ids(r) == Ids(ts) - {id}
    ensures |r| <= |ts|
  {
    if |ts| == 0 then []
    else
      var rest := Without(ts[1..], id);
      assert forall t :: t in ts <==> t == ts[0] || t in ts[1..];
      if ts[0].id == id then rest else [ts[0]] + rest
  }

  /** `_unregister_transport`: removes the transport if registered, otherwise does nothing. */
  function Unregister(m: Manager, id: nat): (r: Manager)
    requires Valid(m)
    ensures Ids(r.transports) == Ids(m.transports) - {id}
    ensures id !in Ids(m.transports) ==> r.transports == m.transports
    ensures r.dataBlobs == m.dataBlobs && r.blacklist == m.blacklist
  {
    if id !in Ids(m.transports) then m
    else m.(transports := Without(m.transports, id))
  }

  lemma WithoutAbsent(ts: seq<Transport>, id: nat)
    requires id !in Ids(ts)
    ensures Without(ts, id) == ts
  {
    if |ts| > 0 {
      WithoutAbsent(ts[1..], id);
    }
  }

  /** A transport accepts a send to the (peer, endpoint) pair it is bound to. */
  predicate CanSend(t: Transport, peer: string, peerGuid: Option<string>) {
    t.peer == peer && t.peerGuid == peerGuid
  }

  /** `_get_transport`: the position of the first registered transport that accepts the pair, or
      `None` when a new relay transport has to be built for it. */
  function FindTransport(ts: seq<Transport>, peer: string, peerGuid: Option<string>): (r: Option<nat>)
    ensures r.Some? ==> r.value < |ts| && CanSend(ts[r.value], peer, peerGuid)
    ensures r.Some? ==> forall i :: 0 <= i < r.value ==> !CanSend(ts[i], peer, peerGuid)
    ensures r.None? ==> forall i :: 0 <= i < |ts| ==> !CanSend(ts[i], peer, peerGuid)
  {
    if |ts| == 0 then None
    else if CanSend(ts[0], peer, peerGuid) then Some(0)
    else
      match FindTransport(ts[1..], peer, peerGuid)
      case None => None
      case Some(i) => Some(i + 1)
  }

  // ---------------------------------------------------------------------------
  // Sending

  /** `send_data`: wraps `data` in a new blob (blob id `blobId`) and queues it on the first
      transport bound to the pair; when there is none, a relay transport with id `newId` and chunk
      counter seed `seed` is created for the pair, registered, and used. */
  function SendData(m: Manager, peer: string, peerGuid: Option<string>, appId: nat, sessionId: u32,
                    data: seq<byte>, blobId: u32, newId: nat, seed: nat): (r: (Manager, seq<Event>))
    requires Valid(m) && |data| < U64_LIMIT
    requires newId !in Ids(m.transports) && 1000 <= seed < TLPv1.MAX_INT32
    ensures Valid(r.0)
    ensures r.0.dataBlobs == m.dataBlobs && r.0.blacklist == m.blacklist
    ensures FindTransport(m.transports, peer, peerGuid).Some? ==> |r.0.transports| == |m.transports|
    ensures FindTransport(m.transports, peer, peerGuid).None? ==>
      |r.0.transports| == |m.transports| + 1
      && r.0.transports[..|m.transports|] == m.transports
      && var t := r.0.transports[|m.transports|];
         t.id == newId && t.kind == Relay && CanSend(t, peer, peerGuid)
  {
    var blob := Blob.Outbound(appId, sessionId, blobId, data);
    var entry := TransportBase.Entry(blob, None, None);
    match FindTransport(m.transports, peer, peerGuid)
    case Some(i) =>
      var t := m.transports[i];
      var step := TransportBase.Send(t.queues, entry, MaxChunkSize(t.kind));
      (WithQueues(m, i, step.state), Tag(t.id, step.events))
    case None =>
      var t := Transport(newId, Relay, peer, peerGuid, TransportBase.InitInRange(seed));
      var step := TransportBase.Send(t.queues, entry, MaxChunkSize(Relay));
      (Added(m, t.(queues := step.state)), Tag(newId, step.events))
  }

  /** The manager with one more transport, registered last. */
  function Added(m: Manager, t: Transport): (r: Manager)
    requires Valid(m) && t.id !in Ids(m.transports) && TransportBase.Valid(t.queues)
    ensures Valid(r) && r.dataBlobs == m.dataBlobs && r.blacklist == m.blacklist
    ensures |r.transports| == |m.transports| + 1 && r.transports[..|m.transports|] == m.transports
    ensures r.transports[|m.transports|] == t
  {
    m.(transports := m.transports + [t])
  }

  /** The manager with the queues of its `i`-th transport replaced. */
  function WithQueues(m: Manager, i: nat, q: TransportBase.State): (r: Manager)
    requires Valid(m) && i < |m.transports| && TransportBase.Valid(q)
    ensures Valid(r) && r.dataBlobs == m.dataBlobs && r.blacklist == m.blacklist
    ensures |r.transports| == |m.transports|
    ensures r.transports[i] == m.transports[i].(queues := q)
    ensures forall j :: 0 <= j < |m.transports| && j != i ==> r.transports[j] == m.transports[j]
  {
    var r := m.(transports := m.transports[i := m.transports[i].(queues := q)]);
    assert forall j :: 0 <= j < |r.transports| ==> r.transports[j].id == m.transports[j].id;
    r
  }

  /** `send_slp_message`: a signalling message travels as data on session 0. */
  function SendSlpMessage(m: Manager, peer: string, peerGuid: Option<string>, appId: nat,
                          message: seq<byte>, blobId: u32, newId: nat, seed: nat): (r: (Manager, seq<Event>))
    requires Valid(m) && |message| < U64_LIMIT
    requires newId !in Ids(m.transports) && 1000 <= seed < TLPv1.MAX_INT32
    ensures Valid(r.0) && r.0.dataBlobs == m.dataBlobs
    ensures r == SendData(m, peer, peerGuid, appId, 0, message, blobId, newId, seed)
  {
    SendData(m, peer, peerGuid, appId, 0, message, blobId, newId, seed)
  }

  function Tag(id: nat, es: seq<TransportBase.Event>): (r: seq<Event>)
    ensures |r| == |es| && forall i :: 0 <= i < |es| ==> r[i] == FromTransport(id, es[i])
  {
    seq(|es|, i requires 0 <= i < |es| => FromTransport(id, es[i]))
  }

  // ---------------------------------------------------------------------------
  // Receiving

  /** `_on_chunk_received`: reports every chunk; for a session not blacklisted, appends it to
      that session's in-progress blob (created from the chunk when there is none; a blob that has
      received nothing yet adopts the chunk's blob id) and hands the blob up once complete. */
  function OnChunkReceived(m: Manager, c: TLPv1.Chunk): (r: (Manager, seq<Event>))
    requires Valid(m)
    ensures Valid(r.0) && r.0.transports == m.transports && r.0.blacklist == m.blacklist
    ensures |r.1| >= 1 && r.1[0] == ChunkTransferred(c)
    ensures c.header.sessionId in m.blacklist ==> r == (m, [ChunkTransferred(c)])
    ensures forall s :: s != c.header.sessionId ==>
      (s in r.0.dataBlobs <==> s in m.dataBlobs) && (s in m.dataBlobs ==> r.0.dataBlobs[s] == m.dataBlobs[s])
    ensures c.header.sessionId !in m.blacklist ==>
      var b := InProgress(m, c);
      var b' := Blob.AppendChunk(b, c);
      if Blob.IsComplete(b') then
        c.header.sessionId !in r.0.dataBlobs && r.1 == [ChunkTransferred(c), BlobReceived(b')]
      else
        c.header.sessionId in r.0.dataBlobs && r.0.dataBlobs[c.header.sessionId] == b'
        && r.1 == [ChunkTransferred(c)]
  {
    var sid := c.header.sessionId;
    if sid in m.blacklist then (m, [ChunkTransferred(c)])
    else
      var b' := Blob.AppendChunk(InProgress(m, c), c);
      if Blob.IsComplete(b') then
        (m.(dataBlobs := m.dataBlobs - {sid}), [ChunkTransferred(c), BlobReceived(b')])
      else
        (m.(dataBlobs := m.dataBlobs[sid := b']), [ChunkTransferred(c)])
  }

  /** The blob a chunk is appended to: the session's in-progress blob, adopting the chunk's blob id
      while it has received nothing, or a new empty blob shaped by the chunk. */
  function InProgress(m: Manager, c: TLPv1.Chunk): (b: Blob.Blob)
    requires Valid(m)
    ensures b.Data? && b.sessionId == c.header.sessionId
    ensures c.header.sessionId !in m.dataBlobs ==>
      b == Blob.Inbound(c.appId, c.header.sessionId, c.header.blobId, [], c.header.blobSize)
    ensures c.header.sessionId in m.dataBlobs ==>
      var old_ := m.dataBlobs[c.header.sessionId];
      b == if old_.transferred == 0 then old_.(blobId := c.header.blobId) else old_
  {
    var sid := c.header.sessionId;
    if sid in m.dataBlobs then
      var b := m.dataBlobs[sid];
      if b.transferred == 0 then b.(blobId := c.header.blobId) else b
    else Blob.Inbound(c.appId, sid, c.header.blobId, [], c.header.blobSize)
  }

  /** Delivers chunks in order. */
  function ReceiveAll(m: Manager, cs: seq<TLPv1.Chunk>): (r: (Manager, seq<Event>))
    requires Valid(m)
    ensures Valid(r.0) && r.0.transports == m.transports && r.0.blacklist == m.blacklist
    decreases |cs|
  {
    if |cs| == 0 then (m, [])
    else
      var (m1, e1) := OnChunkReceived(m, cs[0]);
      var (m2, e2) := ReceiveAll(m1, cs[1..]);
      (m2, e1 + e2)
  }

  /** `register_data_buffer`: pre-declares the inbound blob of a session (application id 0, the
      given buffer and expected size); a session that already has one keeps it. */
  function RegisterDataBuffer(m: Manager, sessionId: u32, buffer: seq<byte>, size: u64, blobId: u32): (r: Manager)
    requires Valid(m)
    ensures Valid(r) && r.transports == m.transports && r.blacklist == m.blacklist
    ensures sessionId in m.dataBlobs ==> r == m
    ensures sessionId !in m.dataBlobs ==>
      r.dataBlobs == m.dataBlobs[sessionId := Blob.Inbound(0, sessionId, blobId, buffer, size)]
  {
    if sessionId in m.dataBlobs then m
    else m.(dataBlobs := m.dataBlobs[sessionId := Blob.Inbound(0, sessionId, blobId, buffer, size)])
  }

  // ---------------------------------------------------------------------------
  // Cleanup and blacklist

  /** `cleanup`: forgets the session's in-progress blob and purges its queued data blobs from
      every transport. */
  function Cleanup(m: Manager, sessionId: nat): (r: Manager)
    requires Valid(m)
    ensures Valid(r) && r.blacklist == m.blacklist
    ensures r.dataBlobs == m.dataBlobs - {sessionId}
    ensures |r.transports| == |m.transports|
    ensures forall i :: 0 <= i < |r.transports| ==>
      r.transports[i] == m.transports[i].(queues := TransportBase.Cleanup(m.transports[i].queues, sessionId))
  {
    var ts := seq(|m.transports|, i requires 0 <= i < |m.transports| =>
      m.transports[i].(queues := TransportBase.Cleanup(m.transports[i].queues, sessionId)));
    m.(transports := ts, dataBlobs := m.dataBlobs - {sessionId})
  }

  function AddToBlacklist(m: Manager, sessionId: nat): (r: Manager)
    ensures r == m.(blacklist := m.blacklist + {sessionId})
  {
    m.(blacklist := m.blacklist + {sessionId})
  }

  function RemoveFromBlacklist(m: Manager, sessionId: nat): (r: Manager)
    ensures r == m.(blacklist := m.blacklist - {sessionId})
  {
    m.(blacklist := m.blacklist - {sessionId})
  }

  // ---------------------------------------------------------------------------
  // Properties

  /** A chunk of a blacklisted session changes nothing: no in-progress blob is created or
      advanced, and the only event is the chunk-transferred report every chunk gets. */
  lemma BlacklistedChunkIgnored(m: Manager, c: TLPv1.Chunk)
    requires Valid(m)
    ensures var m1 := AddToBlacklist(m, c.header.sessionId);
      OnChunkReceived(m1, c) == (m1, [ChunkTransferred(c)])
  {
  }

  /** Cleanup leaves the control queue of every transport untouched. */
  lemma CleanupKeepsControl(m: Manager, sessionId: nat, i: nat)
    requires Valid(m) && i < |m.transports|
    ensures Cleanup(m, sessionId).transports[i].queues.control == m.transports[i].queues.control
  {
  }

  /** The outcome of receiving a whole blob: the last event hands `data` up as a received blob,
      and the session has no in-progress blob left. */
  ghost predicate Reassembled(r: (Manager, seq<Event>), sessionId: nat, data: seq<byte>) {
    && |r.1| >= 1 && r.1[|r.1| - 1].BlobReceived? && r.1[|r.1| - 1].blob.Data?
    && r.1[|r.1| - 1].blob.data == data
    && sessionId !in r.0.dataBlobs
  }

  /** The chunks of a blob whose session has an in-progress blob holding exactly the bytes sent so
      far assemble into the whole payload: one blob-received event, carrying the payload, ends
      the sequence and the session has no in-progress blob left. */
  lemma {:induction false} ReassembleRest(m: Manager, out: Blob.Blob, maxSize: nat)
    requires Valid(m) && maxSize > TLPv1.HEADER_SIZE
    requires out.Data? && Blob.Sendable(out) && out.totalSize == |out.data|
    requires 0 < out.transferred < out.totalSize
    requires out.sessionId !in m.blacklist && out.sessionId in m.dataBlobs
    requires var inb := m.dataBlobs[out.sessionId];
      inb.transferred == out.transferred && inb.data == out.data[..out.transferred]
      && inb.totalSize == out.totalSize
    ensures Reassembled(ReceiveAll(m, Blob.Slice(out, maxSize)), out.sessionId, out.data)
    decreases out.totalSize - out.transferred
  {
    var (c, out') := Blob.GetChunk(out, maxSize);
    var t := out.transferred;
    var t' := t + |c.body|;
    assert InProgress(m, c) == m.dataBlobs[out.sessionId];
    PrefixGrows(out.data, t, t');
    FirstChunk(m, out, maxSize);
  }

  /** After the first chunk of `out` is received into `m`: either the blob is complete and the
      whole payload has been handed up, or the session's in-progress blob holds exactly the
      bytes sent so far, and the rest of the chunks are still to come. */
  lemma {:induction false} FirstChunk(m: Manager, out: Blob.Blob, maxSize: nat)
    requires Valid(m) && maxSize > TLPv1.HEADER_SIZE
    requires out.Data? && Blob.Sendable(out) && out.totalSize == |out.data|
    requires out.transferred < out.totalSize && out.sessionId !in m.blacklist
    requires Blob.AppendChunk(InProgress(m, Blob.GetChunk(out, maxSize).0), Blob.GetChunk(out, maxSize).0).data
             == out.data[..out.transferred + |Blob.GetChunk(out, maxSize).0.body|]
    requires InProgress(m, Blob.GetChunk(out, maxSize).0).transferred == out.transferred
    requires InProgress(m, Blob.GetChunk(out, maxSize).0).totalSize == out.totalSize
    ensures Reassembled(ReceiveAll(m, Blob.Slice(out, maxSize)), out.sessionId, out.data)
    decreases out.totalSize - out.transferred, 0
  {
    var c := Blob.GetChunk(out, maxSize).0;
    var out' := Blob.GetChunk(out, maxSize).1;
    var cs := Blob.Slice(out, maxSize);
    SliceCons(out, maxSize);
    ReceiveAllCons(m, cs);
    var r1 := OnChunkReceived(m, c);
    if out'.transferred == out.totalSize {
      LastChunk(m, out, maxSize);
      ThenMore(r1.1, ReceiveAll(r1.0, []), out.sessionId, out.data);
    } else {
      NotLastChunk(m, out, maxSize);
      ReassembleRest(r1.0, out', maxSize);
      ThenMore(r1.1, ReceiveAll(r1.0, Blob.Slice(out', maxSize)), out.sessionId, out.data);
    }
  }

  /** A chunk that leaves the blob incomplete stores it, with exactly the bytes sent so far, as
      the session's in-progress blob. */
  lemma NotLastChunk(m: Manager, out: Blob.Blob, maxSize: nat)
    requires Valid(m) && maxSize > TLPv1.HEADER_SIZE
    requires out.Data? && Blob.Sendable(out) && out.totalSize == |out.data|
    requires out.transferred < out.totalSize && out.sessionId !in m.blacklist
    requires Blob.GetChunk(out, maxSize).1.transferred < out.totalSize
    requires InProgress(m, Blob.GetChunk(out, maxSize).0).transferred == out.transferred
    requires InProgress(m, Blob.GetChunk(out, maxSize).0).totalSize == out.totalSize
    requires Blob.AppendChunk(InProgress(m, Blob.GetChunk(out, maxSize).0), Blob.GetChunk(out, maxSize).0).data
             == out.data[..out.transferred + |Blob.GetChunk(out, maxSize).0.body|]
    ensures var m1 := OnChunkReceived(m, Blob.GetChunk(out, maxSize).0).0;
      var out' := Blob.GetChunk(out, maxSize).1;
      && Valid(m1) && out.sessionId !in m1.blacklist && out.sessionId in m1.dataBlobs
      && m1.dataBlobs[out.sessionId].transferred == out'.transferred
      && m1.dataBlobs[out.sessionId].data == out.data[..out'.transferred]
      && m1.dataBlobs[out.sessionId].totalSize == out.totalSize
  {
  }

  /** Events before a reassembled outcome leave it reassembled. */
  lemma ThenMore(e1: seq<Event>, r2: (Manager, seq<Event>), sessionId: nat, data: seq<byte>)
    requires Reassembled(r2, sessionId, data) || (r2.1 == [] && Reassembled((r2.0, e1), sessionId, data))
    ensures Reassembled((r2.0, e1 + r2.1), sessionId, data)
  {
    if r2.1 == [] {
      assert e1 + r2.1 == e1;
    } else {
      LastEvent(e1, r2.1);
    }
  }

  /** A chunk that completes the blob hands the whole payload up, and nothing follows it. */
  lemma LastChunk(m: Manager, out: Blob.Blob, maxSize: nat)
    requires Valid(m) && maxSize > TLPv1.HEADER_SIZE
    requires out.Data? && Blob.Sendable(out) && out.totalSize == |out.data|
    requires out.transferred < out.totalSize && out.sessionId !in m.blacklist
    requires Blob.GetChunk(out, maxSize).1.transferred == out.totalSize
    requires InProgress(m, Blob.GetChunk(out, maxSize).0).transferred == out.transferred
    requires InProgress(m, Blob.GetChunk(out, maxSize).0).totalSize == out.totalSize
    requires Blob.AppendChunk(InProgress(m, Blob.GetChunk(out, maxSize).0), Blob.GetChunk(out, maxSize).0).data
             == out.data[..out.transferred + |Blob.GetChunk(out, maxSize).0.body|]
    ensures Blob.Slice(Blob.GetChunk(out, maxSize).1, maxSize) == []
    ensures Reassembled(OnChunkReceived(m, Blob.GetChunk(out, maxSize).0), out.sessionId, out.data)
    ensures var m1 := OnChunkReceived(m, Blob.GetChunk(out, maxSize).0).0;
      ReceiveAll(m1, []) == (m1, [])
  {
    var (c, out') := Blob.GetChunk(out, maxSize);
    var b' := Blob.AppendChunk(InProgress(m, c), c);
    assert Blob.IsComplete(b');
    assert out.data[..out.totalSize] == out.data;
  }

  /** The first chunk of a blob not yet complete heads its slices. */
  lemma SliceCons(out: Blob.Blob, maxSize: nat)
    requires out.Data? && Blob.Sendable(out) && maxSize > TLPv1.HEADER_SIZE && !Blob.IsComplete(out)
    ensures |Blob.Slice(out, maxSize)| > 0
    ensures Blob.Slice(out, maxSize)[0] == Blob.GetChunk(out, maxSize).0
    ensures Blob.Slice(out, maxSize)[1..] == Blob.Slice(Blob.GetChunk(out, maxSize).1, maxSize)
  {
  }

  /** Receiving a non-empty sequence of chunks: the first, then the rest. */
  lemma ReceiveAllCons(m: Manager, cs: seq<TLPv1.Chunk>)
    requires Valid(m) && |cs| > 0
    ensures var r1 := OnChunkReceived(m, cs[0]);
      var r2 := ReceiveAll(r1.0, cs[1..]);
      ReceiveAll(m, cs) == (r2.0, r1.1 + r2.1)
  {
  }

  lemma LastEvent(e1: seq<Event>, e2: seq<Event>)
    requires |e2| >= 1
    ensures |e1 + e2| >= 1 && (e1 + e2)[|e1 + e2| - 1] == e2[|e2| - 1]
  {
  }

  /** Writing the next bytes at the end of a received prefix extends the prefix. */
  lemma PrefixGrows(data: seq<byte>, t: nat, t': nat)
    requires t <= t' <= |data|
    ensures Blob.Overwrite(data[..t], t, data[t..t']) == data[..t']
  {
    assert Blob.Overwrite(data[..t], t, data[t..t']) == data[..t] + data[t..t'];
    assert data[..t] + data[t..t'] == data[..t'];
  }

  /** A blob sent on a session with no in-progress blob and not blacklisted is received, chunk by
      chunk, into exactly one blob-received event carrying the whole payload. */
  lemma ReassembleBlob(m: Manager, out: Blob.Blob, maxSize: nat)
    requires Valid(m) && maxSize > TLPv1.HEADER_SIZE
    requires out.Data? && Blob.Sendable(out) && out.totalSize == |out.data| && out.transferred == 0
    requires |out.data| > 0
    requires out.sessionId !in m.blacklist && out.sessionId !in m.dataBlobs
    ensures Reassembled(ReceiveAll(m, Blob.Slice(out, maxSize)), out.sessionId, out.data)
  {
    var (c, out') := Blob.GetChunk(out, maxSize);
    assert InProgress(m, c).data == [];
    PrefixGrows(out.data, 0, |c.body|);
    assert out.data[..0] == [];
    FirstChunk(m, out, maxSize);
  }
}

=== FILE: uuid.dfy ===
/** The textual form of a UUID, as Python's `uuid` module prints and reads it: 32 hexadecimal
    digits in groups of 8-4-4-4-12 separated by `-`.  Direct connections compare nonces in this
    form, case-insensitively (`papyon/msnp2p/transport/direct.py`). */
module Uuids {
  import opened Results
  import opened Bytes
  import opened Text

  type Uuid = s: seq<byte> | |s| == 16 witness Zeros(16)

  function HexDigit(n: nat): (c: char)
    requires n < 16
  {
    if n < 10 then ('0' as int + n) as char else ('a' as int + n - 10) as char
  }

  predicate IsHex(c: char) {
    '0' <= c <= '9' || 'a' <= c <= 'f' || 'A' <= c <= 'F'
  }

  function HexValue(c: char): (n: nat)
    requires IsHex(c)
    ensures n < 16
  {
    if '0' <= c <= '9' then c as int - '0' as int
    else if 'a' <= c <= 'f' then c as int - 'a' as int + 10
    else c as int - 'A' as int + 10
  }

  /** Reading a digit back gives its value, in either case. */
  lemma HexDigitValue(n: nat)
    requires n < 16
    ensures IsHex(HexDigit(n)) && HexValue(HexDigit(n)) == n
    ensures IsHex(UpperChar(HexDigit(n))) && HexValue(UpperChar(HexDigit(n))) == n
  {
  }

  /** A lower-case hexadecimal digit. */
  predicate IsLowerHex(c: char) {
    '0' <= c <= '9' || 'a' <= c <= 'f'
  }

  predicate HexText(s: string) {
    forall i :: 0 <= i < |s| ==> IsLowerHex(s[i])
  }

  /** Lower-case hexadecimal, two digits per byte, high nibble first. */
  function Hex(bs: seq<byte>): (r: string)
    ensures |r| == 2 * |bs| && HexText(r)
  {
    if bs == [] then [] else [HexDigit(bs[0] / 16), HexDigit(bs[0] % 16)] + Hex(bs[1..])
  }

  lemma {:induction false} HexAppend(a: seq<byte>, b: seq<byte>)
    ensures Hex(a + b) == Hex(a) + Hex(b)
    decreases |a|
  {
    if a != [] {
      assert (a + b)[1..] == a[1..] + b;
      HexAppend(a[1..], b);
    } else {
      assert a + b == b;
    }
  }

  /** Python's `int(h, 16)` on an even-length digit string, as bytes: `None` when some character
      is not a hexadecimal digit. */
  function UnHex(s: string): (r: Option<seq<byte>>)
    requires |s| % 2 == 0
    ensures r.Some? <==> forall i :: 0 <= i < |s| ==> IsHex(s[i])
    ensures r.Some? ==> |r.value| == |s| / 2
    decreases |s|
  {
    if s == [] then Some([])
    else if !IsHex(s[0]) || !IsHex(s[1]) then None
    else match UnHex(s[2..])
      case None => None
      case Some(rest) => Some([HexValue(s[0]) * 16 + HexValue(s[1])] + rest)
  }

  /** Hexadecimal text reads back as the bytes it was made from, whatever its letter case. */
  lemma {:induction false} UnHexHex(bs: seq<byte>)
    ensures UnHex(Hex(bs)) == Some(bs)
    ensures UnHex(Upper(Hex(bs))) == Some(bs)
    decreases |bs|
  {
    if bs != [] {
      var h := Hex(bs);
      var hi, lo := bs[0] / 16, bs[0] % 16;
      HexDigitValue(hi);
      HexDigitValue(lo);
      assert h[2..] == Hex(bs[1..]);
      assert Upper(h)[2..] == Upper(Hex(bs[1..]));
      UnHexHex(bs[1..]);
      assert bs == [hi * 16 + lo] + bs[1..];
    }
  }

  /** The canonical text of a UUID, as `str(uuid.UUID(...))` prints it. */
  function Format(u: Uuid): (r: string)
    ensures |r| == 36
  {
    Hex(u[0..4]) + ("-" + (Hex(u[4..6]) + ("-" + (Hex(u[6..8]) + ("-" + (Hex(u[8..10]) + ("-" + Hex(u[10..16]))))))))
  }

  /** `s` with every `-` removed. */
  function RemoveDashes(s: string): (r: string)
    ensures |r| <= |s| && Lacks(r, '-')
  {
    if s == [] then [] else (if s[0] == '-' then [] else [s[0]]) + RemoveDashes(s[1..])
  }

  /** Removing the dashes from `a-b`, where `a` has none, keeps `a` whole. */
  lemma {:induction false} RemoveDashesAfter(a: string, b: string)
    requires Lacks(a, '-')
    ensures RemoveDashes(a + ("-" + b)) == a + RemoveDashes(b)
    decreases |a|
  {
    if a == [] {
      assert a + ("-" + b) == ['-'] + b;
      assert (['-'] + b)[1..] == b;
    } else {
      assert (a + ("-" + b))[1..] == a[1..] + ("-" + b);
      RemoveDashesAfter(a[1..], b);
      assert a == [a[0]] + a[1..];
    }
  }

  lemma {:induction false} RemoveDashesLacking(s: string)
    requires Lacks(s, '-')
    ensures RemoveDashes(s) == s
    decreases |s|
  {
    if s != [] {
      RemoveDashesLacking(s[1..]);
      assert s == [s[0]] + s[1..];
    }
  }

  const Braces: set<char> := {'{', '}'}

  /** `uuid.UUID(s)` on the forms the transport reads: braces stripped from both ends,
      dashes dropped, then exactly 32 hexadecimal digits in either case. */
  function Parse(s: string): (r: Option<Uuid>)
    ensures r.Some? ==> |RemoveDashes(StripSet(s, Braces))| == 32
    ensures r.Some? ==> UnHex(RemoveDashes(StripSet(s, Braces))) == Some(r.value)
    ensures r.None? ==> |RemoveDashes(StripSet(s, Braces))| != 32 || UnHex(RemoveDashes(StripSet(s, Braces))).None?
  {
    var h := RemoveDashes(StripSet(s, Braces));
    if |h| != 32 then None
    else match UnHex(h)
      case None => None
      case Some(bs) => Some(bs)
  }

  /** The same bytes split at `j`. */
  lemma HexSplit(u: seq<byte>, i: nat, j: nat, k: nat)
    requires i <= j <= k <= |u|
    ensures Hex(u[i..k]) == Hex(u[i..j]) + Hex(u[j..k])
  {
    assert u[i..k] == u[i..j] + u[j..k];
    HexAppend(u[i..j], u[j..k]);
  }

  /** A formatted UUID without its dashes is the hexadecimal text of its bytes. */
  lemma FormatDigits(u: Uuid)
    ensures RemoveDashes(Format(u)) == Hex(u)
  {
    FormatGroups(u);
    HexSplit(u, 8, 10, 16);
    HexSplit(u, 6, 8, 16);
    HexSplit(u, 4, 6, 16);
    HexSplit(u, 0, 4, 16);
    assert u[0..16] == u;
  }

  /** Dropping the dashes of the canonical text leaves its five groups side by side. */
  lemma FormatGroups(u: Uuid)
    ensures RemoveDashes(Format(u))
      == Hex(u[0..4]) + (Hex(u[4..6]) + (Hex(u[6..8]) + (Hex(u[8..10]) + Hex(u[10..16]))))
  {
    var g4 := Hex(u[10..16]);
    var t3 := Hex(u[8..10]) + ("-" + g4);
    var t2 := Hex(u[6..8]) + ("-" + t3);
    var t1 := Hex(u[4..6]) + ("-" + t2);
    RemoveDashesLacking(g4);
    RemoveDashesAfter(Hex(u[8..10]), g4);
    RemoveDashesAfter(Hex(u[6..8]), t3);
    RemoveDashesAfter(Hex(u[4..6]), t2);
    RemoveDashesAfter(Hex(u[0..4]), t1);
  }

  /** Upper-casing commutes with dash removal. */
  lemma {:induction false} RemoveDashesUpper(s: string)
    ensures RemoveDashes(Upper(s)) == Upper(RemoveDashes(s))
    decreases |s|
  {
    if s != [] {
      assert Upper(s)[1..] == Upper(s[1..]);
      RemoveDashesUpper(s[1..]);
      var head: string := if s[0] == '-' then [] else [s[0]];
      assert Upper(head + RemoveDashes(s[1..])) == Upper(head) + Upper(RemoveDashes(s[1..]));
    }
  }

  /** The canonical text reads back as the same UUID, also when upper-cased. */
  lemma ParseFormat(u: Uuid)
    ensures Parse(Format(u)) == Some(u)
    ensures Parse(Upper(Format(u))) == Some(u)
  {
    var f := Format(u);
    assert IsLowerHex(f[0]) && IsLowerHex(f[35]) by {
      assert f[0] == Hex(u[0..4])[0];
      assert f[35] == Hex(u[10..16])[11];
    }
    StripSetUnchanged(f, Braces);
    StripSetUnchanged(Upper(f), Braces);
    FormatDigits(u);
    RemoveDashesUpper(f);
    UnHexHex(u);
  }

  /** Two UUIDs whose texts agree up to letter case are the same UUID: comparing upper-cased
      texts is comparing the UUIDs. */
  lemma FormatUpperInjective(u: Uuid, v: Uuid)
    ensures Upper(Format(u)) == Upper(Format(v)) <==> u == v
  {
    if Upper(Format(u)) == Upper(Format(v)) {
      ParseFormat(u);
      ParseFormat(v);
    }
  }
}
